=== FILE: README.md ===
# No Man's Sky Base Builder — a Dafny model of its core

The No Man's Sky Base Builder is a Blender add-on for laying out player bases
for the game No Man's Sky and saving them as the game's JSON base data. The
repository holds three generations of the add-on: the current add-on, the
older add-on (same package layout, no asset browser) and the original
script. It also holds Maya scripts that generate the snapping table the
add-ons read.

This project models the logic the three generations share. Blender, Maya,
floating point and file I/O are left out.

- **Snap engine.** Parts snap onto each other through two static tables.
  The first maps groups to their part ids and named snap points. The second
  maps a (target group, source group) pair to its comma-separated option
  lists. `SnapTables` models the lookups. `SnapEngine` models `Part.snap_to`:
  the key resolution, the per-object memory with next/prev cycling, the
  same-type "opposite" rule and the memory write-back. `LegacySnap` models the
  original script's `snap_objects`. `Proximity` models the closest-pair search
  and the connected-parts query. `Transforms` treats matrices as an abstract
  group and proves the closed form of the oriented placement.
- **Wires.** `Wiring` models lines and their start/end control points as a
  graph of names with back-links (`build_rig`, `divide`, `split`,
  `generate_control_points`). A new control is a copy of the power
  control the part cache still finds in the scene, passed in as a template,
  or a freshly loaded one. `ControlMerge` models the merge of controls
  that share a location.
- **Catalogue, presets and materials.** `Catalogue` covers part classes,
  pack and category listings, nice names, the part caches, build order and
  part records. `Presets` covers preset ids, file names, deserialisation and
  preset controls. `Materials` covers the colour-index encoding and material
  naming of both material modules. `ByteBeat` covers the message part.
- **Entry-point logic.**
  - `UiLists`: the list rows of the side panel.
  - `RoomVisibility`: the room-visibility toggle.
  - `Operators`: the line switch, the floating-control selection and the snap
    operands.
  - `Export`: the original script's export filters and header.
- **Snapping table generation.** `SnapLayout` models the Maya generators.
  A Maya matrix is flattened column by column and the generators store it as
  rows. The regenerator flattens the rows again and creates missing nodes.
  The module proves that a locator survives generation followed by
  regeneration.
- **Supporting modules.** `Options`, `Text`, `Sorting`, `Assoc` and `PyUtils`
  give the Python built-ins the code relies on a precise meaning, restricted
  to ASCII text (see "Left out"):
  - `str.split`, `strip`, `title` and `int()`;
  - stable `sorted`;
  - insertion-ordered `dict`;
  - the adjacent-key helper and `prefer_int`.

Python exceptions that the code lets happen to its caller are preconditions
where the code's own callers rule them out. They are `Option` results where
the failure depends on data (an unknown material key, an unreadable group, a
lookup inside the control merge). Where the generations differ, each keeps its
own definition. For instance, the blue component of the preset material's colour
is 0.178301 in the add-on and 0.0178301 in the original script.

## Model

| member | source | states |
|---|---|---|
| PyUtils.AdjacentKey | src/no_mans_sky_base_builder/utils/python.py:20-48 | on a non-empty list the key one step away is always a list member, found by wrapping past either end |
| PyUtils.AdjacentKeyWraps | src/no_mans_sky_base_builder/utils/python.py:37-46 | "next" from the last key gives the first, "prev" from the first gives the last, otherwise the neighbour |
| PyUtils.NextThenPrev | src/no_mans_sky_base_builder/utils/python.py:33-48 | on a duplicate-free list, stepping forward then back (or back then forward) returns the key started from |
| PyUtils.RepeatNextFullCircle | src/no_mans_sky_base_builder/utils/python.py:33-48 | as many "next" steps as there are keys bring a key back to itself |
| PyUtils.AdjacentKeyUnknown | src/no_mans_sky_base_builder/utils/python.py:33-36 | a current value that is not a key counts as the first key |
| PyUtils.PreferInt | src/no_mans_sky_base_builder/utils/python.py:51-60 | a value that reads as an integer becomes that integer, anything else is returned unchanged |
| PyUtils.PreferIntOfDecimal | src/no_mans_sky_base_builder/utils/python.py:51-60 | the decimal text of any integer is read back as that integer |
| PyUtils.PreferIntIdempotent | src/no_mans_sky_base_builder/utils/python.py:51-60 | applying the conversion twice is the same as applying it once |
| SnapTables.GroupOf | src/addons/no_mans_sky_base_builder/part.py:424-433 | the group of a part is the first group, in table order, whose parts list names it, and none when no group does |
| SnapTables.PointsOfPart | src/addons/no_mans_sky_base_builder/part.py:409-422 | a part has snap points only when it has a group and that group carries snap points |
| SnapTables.PointsOfGroup | src/no-mans-sky-base-builder/snap.py:35-53 | the original script's lookup by group name yields the group's snap points exactly when the group exists and carries them |
| SnapTables.PointsLookupsAgree | src/no-mans-sky-base-builder/snap.py:35-53 | for a part whose group name is non-empty, the two lookups give the same snap points |
| SnapTables.PairOptions | src/addons/no_mans_sky_base_builder/part.py:435-453 | the pairing is the table entry at target group then source group, none when either level is missing or neither part has a group |
| SnapTables.ParseOptionsOfEmpty | src/addons/no_mans_sky_base_builder/part.py:498-503 | an empty option list reads as the single empty name |
| SnapTables.ParseOptionsOfJoin | src/addons/no_mans_sky_base_builder/part.py:498-503 | option names free of commas and surrounding spaces, written as a comma-separated list, are read back unchanged |
| SnapEngine.Cycle | src/addons/no_mans_sky_base_builder/part.py:522-534 | cycling keeps a key among the options, and no cycling keeps the starting key |
| SnapEngine.CycleOneStep | src/addons/no_mans_sky_base_builder/part.py:522-534 | "next" alone moves to the following option and "prev" alone to the preceding one, wrapping past the last and the first |
| SnapEngine.CycleFrom | src/addons/no_mans_sky_base_builder/part.py:522-534 | one step of cycling from a key that is not an option behaves as a step from the first option |
| SnapEngine.CycleBothWays | src/addons/no_mans_sky_base_builder/part.py:522-534 | asking for next and prev together returns the starting key on a duplicate-free option list |
| SnapEngine.TargetKey | src/addons/no_mans_sky_base_builder/part.py:505-534 | the target point is always one of the target options; what it is without cycling and after one step is stated by the two lemmas below |
| SnapEngine.TargetKeyWithoutCycling | src/addons/no_mans_sky_base_builder/part.py:505-521 | without cycling, the remembered target point is used when it is still an option and the first option otherwise |
| SnapEngine.TargetKeyCyclingCancels | src/addons/no_mans_sky_base_builder/part.py:522-534 | next and prev requested together cancel out |
| SnapEngine.TargetKeyOneStep | src/addons/no_mans_sky_base_builder/part.py:505-534 | cycling the target one way moves exactly one option from the point chosen without cycling, with wrap-around at both ends |
| SnapEngine.SourceKey | src/addons/no_mans_sky_base_builder/part.py:536-579 | the source point is an option or the same-type default, and it is always an option once the source is cycled |
| SnapEngine.SourceKeyForcedByTargetCycling | src/addons/no_mans_sky_base_builder/part.py:546-565 | between parts of the same type, cycling only the target forces the source point to the target point's opposite, even when that opposite is not a source option |
| SnapEngine.SourceKeyWithoutCycling | src/addons/no_mans_sky_base_builder/part.py:536-579 | without cycling, a remembered source point is kept while it is an option and replaced by the default otherwise |
| SnapEngine.SourceKeyOneStep | src/addons/no_mans_sky_base_builder/part.py:536-579 | cycling the source one way moves exactly one option from the point chosen without source cycling; a start outside the options counts as the first option |
| SnapEngine.CacheAfterSnap | src/addons/no_mans_sky_base_builder/part.py:634-654 | the source remembers its point and that point's opposite, the target remembers its point, and no other entry or field changes |
| SnapEngine.SnapTo | src/addons/no_mans_sky_base_builder/part.py:455-654 | on any tables, a snap without SnapIDs changes nothing and reports False; otherwise the source is first put on the target and remembers it, and every ending short of True, a raised missing-key error included, leaves it there with the memory unchanged; only a paired snap raises or reports True |
| SnapEngine.SnapToUnpaired | src/addons/no_mans_sky_base_builder/part.py:485-495 | with no pairing the source ends exactly on the target, remembers it and the snap reports False |
| SnapEngine.SnapToPaired | src/addons/no_mans_sky_base_builder/part.py:485-603 | a paired snap raises exactly when a lookup it makes fails: a part without snap points, the same-type read of the target point's opposite, or, unless both names are empty, a chosen point that is missing; otherwise it reports True exactly when one of the chosen names is non-empty, and False when both are empty; short of True the source is on the target, remembers it, and the memory is unchanged |
| SnapEngine.SnapToEmptyOptions | src/addons/no_mans_sky_base_builder/part.py:498-583 | with both option lists empty, parts of different types are paired on two empty names, which are never looked up: the snap reports False with the source on the target and the memory unchanged; parts of the same type raise when "" names no target point |
| SnapEngine.SnapKeysResolve | src/addons/no_mans_sky_base_builder/part.py:505-579 | on consistent tables (every non-empty option names a point, same-type opposites name source points) each chosen point is an empty name or a point of its part |
| SnapEngine.ConsistentSnapRaisesOnlyOnEmptyName | src/addons/no_mans_sky_base_builder/part.py:505-603 | on consistent tables a snap whose two chosen names are non-empty never raises |
| SnapEngine.SnapToPlacement | src/addons/no_mans_sky_base_builder/part.py:592-654 | a successful snap places the source at target world times target point times the inverse flip times the inverse source point, and stores the chosen points |
| SnapEngine.SnapToRepeatable | src/addons/no_mans_sky_base_builder/part.py:592-654 | repeating a snap without cycling gives the same placement and memory, wherever the source was moved in between |
| SnapEngine.SnapToChainsOpposite | src/addons/no_mans_sky_base_builder/part.py:634-654 | after a snap, a later snap onto the old source starts from the opposite of the source point used when that opposite is a target option |
| SnapEngine.CacheAfterSnapAgain | src/addons/no_mans_sky_base_builder/part.py:634-654 | writing the same points into the memory again changes nothing |
| SnapEngine.SnapKeysAgain | src/addons/no_mans_sky_base_builder/part.py:505-579 | without cycling, the memory left by a snap makes the key choice pick the same pair of points again |
| Transforms.InverseOfProduct | src/addons/no_mans_sky_base_builder/part.py:592-631 | the inverse of a product is the product of the inverses, reversed, under the group laws the matrices obey |
| Transforms.LeftInverseUnique | src/addons/no_mans_sky_base_builder/part.py:592-631 | anything that cancels a matrix on the left is its inverse |
| Transforms.OrientedPlacementClosedForm | src/addons/no_mans_sky_base_builder/part.py:592-631 | the sequence of matrix assignments places the source at target world times target point times the inverse flip times the inverse source point |
| Transforms.OrientedPlacementMeetsTarget | src/addons/no_mans_sky_base_builder/part.py:592-631 | the placed source composed with its snap point is the target's snap point turned by the inverse flip |
| Transforms.OrientedPlacementIgnoresStart | src/addons/no_mans_sky_base_builder/part.py:592-631 | the placement does not depend on where the source started |
| LegacySnap.CycleKeys | src/no-mans-sky-base-builder/snap.py:72-89 | the original script's cycling agrees with the adjacent-key helper and returns a member of the list |
| LegacySnap.LegacyKeys | src/no-mans-sky-base-builder/snap.py:130-186 | on any tables, each key is none exactly when its object's group has no snap points and is otherwise chosen by the same rules as the add-on, the target key among the target options |
| LegacySnap.LegacyKeysResolve | src/no-mans-sky-base-builder/snap.py:130-186 | when the pairing's options resolve, a chosen key that is not empty names a point of its object's group |
| LegacySnap.LegacySnapObjects | src/no-mans-sky-base-builder/snap.py:92-247 | on any tables, without objectIDs nothing moves and the result is False; the source is placed on the target before the pairing lookup; every ending short of True, a raised missing-key error included, leaves it there with the memory unchanged |
| LegacySnap.LegacySnapPaired | src/no-mans-sky-base-builder/snap.py:130-247 | a paired call raises exactly when a lookup it makes fails (the same-id read of the target point's opposite, or a point read when both keys are non-empty); otherwise it returns True exactly when both keys are non-empty names and None when a key is missing or empty, with the source on the target and the memory unchanged |
| LegacySnap.LegacySnapEmptyOptions | src/no-mans-sky-base-builder/snap.py:122-188 | with both option lists empty, objects of different ids are paired on two empty keys, which are skipped without a lookup: None, the source on the target, the memory unchanged; objects of the same id raise when "" names no point |
| LegacySnap.LegacySnapWithoutTargetPoints | src/no-mans-sky-base-builder/snap.py:152-247 | when the target group has no snap points the source stays on the target and the result is None |
| LegacySnap.LegacyKeysAgree | src/no-mans-sky-base-builder/snap.py:152-186 | for parts whose SnapID is their ObjectID, the original script chooses the same pair of points as the add-on |
| LegacySnap.LegacyAgreesWithAddOn | src/no-mans-sky-base-builder/snap.py:188-247 | when both chosen names are non-empty, both versions place the source at the same matrix, leave the same memory and return True |
| Proximity.FilterTestsAgree | src/addons/no_mans_sky_base_builder/part.py:674-682 | testing a key against a missing filter and against the empty filter accept the same keys |
| Proximity.ClosestSnapPoints | src/addons/no_mans_sky_base_builder/part.py:656-700 | the result is the first visited pair of strictly smallest distance below the starting bound among filter-matching keys, or (None, None) when no pair comes that close |
| Proximity.Lowest | src/addons/no_mans_sky_base_builder/part.py:684-700 | the running-minimum scan returns the first candidate of strictly least distance below the bound |
| Proximity.MatrixFromKey | src/addons/no_mans_sky_base_builder/part.py:702-710 | the matrix of the point named by the key, none when no point has that name |
| Proximity.AnyPasses | src/addons/no_mans_sky_base_builder/part.py:717-720 | the scan finds a key exactly when some key passes the filter |
| Proximity.HasSnapPoint | src/addons/no_mans_sky_base_builder/part.py:712-720 | true exactly when some snap point of the part passes the filter |
| Proximity.ConnectedSnappedObjects | src/addons/no_mans_sky_base_builder/part.py:722-766 | the search returns exactly the reference list of parts, other than the part itself, with a matching point within touching distance of one of its points |
| Proximity.SourcePointsEmpty | src/addons/no_mans_sky_base_builder/part.py:729-737 | there are no source matrices, and the search stops, exactly when no point of the part passes the filter |
| Proximity.SourcePointsCover | src/addons/no_mans_sky_base_builder/part.py:729-733 | the world matrix of every passing point is measured from |
| Proximity.SourcePointsOnly | src/addons/no_mans_sky_base_builder/part.py:729-733 | only world matrices of passing points are measured from |
| Proximity.ConnectedAmongMembers | src/addons/no_mans_sky_base_builder/part.py:722-766 | a part is connected if and only if it is not the part itself and some matching point of it touches a matching point of the part |
| Proximity.ConnectedAmongDistinct | src/addons/no_mans_sky_base_builder/part.py:722-766 | a part listed once in the scene is reported at most once |
| Proximity.NothingConnectedWithoutMatchingPoints | src/addons/no_mans_sky_base_builder/part.py:722-766 | when none of the part's points passes the filter, nothing is connected |
| Proximity.NothingConnectedWithoutSources | src/addons/no_mans_sky_base_builder/part.py:722-766 | with no source matrices to measure from, no part is reported |
| Wiring.PointName | src/no_mans_sky_base_builder/part_overrides/line.py:198-236 | a missing or default name becomes the default name followed by the suffix Blender gave the object; any other name is kept |
| Wiring.PointNameKeepsSuffix | src/no_mans_sky_base_builder/part_overrides/line.py:228-236 | a default-named point keeps the numeric suffix Blender gave it |
| Wiring.CreatePoint | src/no_mans_sky_base_builder/part_overrides/line.py:198-238 | a new control is added under its name and nothing else changes; it is a copy of the control the part cache still finds in the scene, links included, or a freshly loaded control linked to nothing when there is none |
| Wiring.BuildRig | src/no_mans_sky_base_builder/part_overrides/line.py:50-92 | supplied controls are reused, missing ones are created as "<line>_START" and "<line>_END" from the cached control, and the line and its two controls link to each other; a created control keeps everything it copied except its `power_line`, and existing controls change only in `power_line` |
| Wiring.BuildRigWellFormed | src/no-mans-sky-base-builder/power.py:45-77 | rigging a line keeps every line's controls present and linked back to it |
| Wiring.BuildRigRigged | src/no_mans_sky_base_builder/part_overrides/line.py:50-92 | re-rigging a rigged line with its own controls changes nothing |
| Wiring.Divide | src/no_mans_sky_base_builder/part_overrides/line.py:138-169 | the line runs from its old start to MID and a new line of the same id from MID to the old end; MID is the cached control's copy linked to the new line, the old end now drives the new line and the old start the original line, and no other control changes |
| Wiring.LegacyDivideAgrees | src/no-mans-sky-base-builder/power.py:129-171 | dividing a duplicate with a freshly loaded MID, as the original script does, leaves the add-on's rig with MID's copied `snapped_to` and visibility reset, and exactly the add-on's rig when no control is cached |
| Wiring.DuplicateOverwritten | src/no-mans-sky-base-builder/power.py:129-171 | re-rigging the original line and then its copy leaves the same rig whether the copy started as a duplicate or as a blank wire of the same id |
| Wiring.DivideResetsToLoaded | src/no_mans_sky_base_builder/part_overrides/line.py:138-169 | whichever control is cached, dividing differs from dividing with a freshly loaded MID only in what MID copied besides its `power_line` |
| Wiring.DivideWellFormed | src/no_mans_sky_base_builder/part_overrides/line.py:138-169 | dividing keeps the rig well formed |
| Wiring.Split | src/no_mans_sky_base_builder/part_overrides/line.py:94-136 | the line runs from its old start to MID_A and the new line from MID_B to the old end, with two distinct middle controls that are copies of the cached control linked to the original and the new line; the old ends are relinked as in `divide` and no other control changes |
| Wiring.LegacySplitAgrees | src/no-mans-sky-base-builder/power.py:173-232 | splitting a duplicate with freshly loaded middle controls, as the original script does, leaves the add-on's rig with both middles' copied `snapped_to` and visibility reset, and exactly the add-on's rig when no control is cached |
| Wiring.SplitResetsToLoaded | src/no_mans_sky_base_builder/part_overrides/line.py:94-136 | whichever control is cached, splitting differs from splitting with freshly loaded middle controls only in what those copied besides their `power_line` |
| Wiring.SplitWellFormed | src/no_mans_sky_base_builder/part_overrides/line.py:94-136 | splitting keeps the rig well formed |
| Wiring.ToGameOfToBlender | src/no_mans_sky_base_builder/part_overrides/line.py:251-266 | converting a game vector to Blender's frame and back gives the vector |
| Wiring.PositionControls | src/no_mans_sky_base_builder/part_overrides/line.py:251-266 | the start control goes to the converted position and the end control to it plus the converted aim vector |
| Wiring.EndpointControl | src/no_mans_sky_base_builder/part_overrides/line.py:305-347 | a power-control endpoint is reused as it is, another part gets a new control copied from the cached one (and, in the add-on, `snapped_to` the part) only when its POWER point was found, otherwise there is none |
| Wiring.GenerateControlPoints | src/no_mans_sky_base_builder/part_overrides/line.py:305-347 | each end is reused when it is a power control, and otherwise a control is created exactly when the closest POWER pair is found; a created control is the cached control's copy `snapped_to` its part |
| Wiring.EndpointControls | src/no_mans_sky_base_builder/part_overrides/line.py:305-347 | the source end is settled, then the target end; each is its own part when that is a power control, otherwise "<part>_START" / "<part>_END" when its snap point was found, otherwise none; new controls are template copies and nothing already there changes |
| Wiring.LegacyGenerateControlPoints | src/no-mans-sky-base-builder/power.py:272-312 | the original script raises (missing "SnapID") exactly when either part lacks that property: before anything is created when the source lacks it, after the source's control is made when only the target does; otherwise each end is chosen as in the add-on and new controls are plain, untagged loads |
| Wiring.LegacyGenerateAgrees | src/no-mans-sky-base-builder/power.py:272-312 | on parts that carry a SnapID the original script finishes and gives the add-on's result with no cached control, the same controls and lines except that its new controls are not `snapped_to` their parts |
| ControlMerge.GroupBy | src/no_mans_sky_base_builder/builder.py:386-394 | grouping by location key gives each key at most one group |
| ControlMerge.WithKeyMembers | src/no_mans_sky_base_builder/builder.py:386-394 | the controls collected under a key are exactly those with that key, and none are collected exactly when no control has it |
| ControlMerge.GroupByCovers | src/no_mans_sky_base_builder/builder.py:386-394 | every control's key has a group |
| ControlMerge.GroupByGroups | src/no_mans_sky_base_builder/builder.py:386-394 | each group holds, in order, exactly the controls with its key and is not empty |
| ControlMerge.WithKeyStartsWithFirst | src/no_mans_sky_base_builder/builder.py:396-399 | the kept control of a group is the first control having that key |
| ControlMerge.DuplicatesAreLaterNames | src/no_mans_sky_base_builder/builder.py:396-404 | the controls swapped out are exactly those an earlier control shares a key with |
| ControlMerge.ReplaceDuplicate | src/no_mans_sky_base_builder/builder.py:404-423 | a swap succeeds exactly when every lookup it makes succeeds; it keeps the set of lines, removes or hides only the duplicate, and leaves every other control's visibility alone |
| ControlMerge.ReplaceDuplicateRewires | src/no_mans_sky_base_builder/builder.py:404-423 | the line a duplicate drives is re-rigged with the kept control at the start when the duplicate was its start, and at the end otherwise; the kept control links back to the line and controls off that line are untouched |
| ControlMerge.OptimiseControlPoints | src/no_mans_sky_base_builder/builder.py:381-423 | the add-on's merge removes the swapped-out controls and no others, and keeps every line |
| ControlMerge.OptimiseRemovesLaterControls | src/no_mans_sky_base_builder/builder.py:381-423 | the controls the merge removes are exactly those that share a location key with an earlier control |
| ControlMerge.LegacyOptimiseControlPoints | src/no-mans-sky-base-builder/power.py:235-270 | the original script hides the swapped-out controls instead of deleting them, so no control disappears |
| ControlMerge.HidingKeepsWellFormed | src/no-mans-sky-base-builder/power.py:235-270 | hiding instead of removing keeps every line's controls in the rig |
| Catalogue.PartClassOf | src/no_mans_sky_base_builder/builder.py:43-56 | exactly the twelve registered ids map to their override class, and every other id to the plain part class |
| Catalogue.PartClassOfRegisteredId | src/no_mans_sky_base_builder/builder.py:125-127 | every override class is found from the id it is registered under |
| Catalogue.ModelPathFromPack | src/no_mans_sky_base_builder/builder.py:321-332 | the path of the first pack with the requested name, or None when no pack has it |
| Catalogue.PartsFromCategory | src/no_mans_sky_base_builder/builder.py:334-354 | exactly the ids whose pack (default "Parts") and category match, sorted |
| Catalogue.PartsFromCategoryOrderFree | src/no-mans-sky-base-builder/parts.py:86-106 | the listing does not depend on the order in which the part reference was filled |
| Catalogue.NiceName | src/no_mans_sky_base_builder/builder.py:356-360 | the dictionary entry for the basename when there is one, else the title label of the basename: each letter upper-cased when it does not follow a letter and lower-cased when it does, every underscore shown as a space |
| Text.TitleLabelOfTwoWords | src/no_mans_sky_base_builder/builder.py:359 | two words of letters joined by an underscore are labelled as the two words capitalised and joined by a space |
| Catalogue.NiceNameOfTwoWords | src/no_mans_sky_base_builder/builder.py:356-360 | without a dictionary entry, an id of two words of letters joined by an underscore gets the two words capitalised and joined by a space as its nice name |
| Catalogue.NiceNameOfPath | src/no-mans-sky-base-builder/parts.py:200 | a part named by its path gets the same nice name as its bare id |
| Catalogue.AddToPartCache | src/no_mans_sky_base_builder/builder.py:104-106 | the entry for the id is overwritten and no other entry changes (the older script caches a new preset control under the preset name the same way) |
| Catalogue.AddToPresetCache | src/no_mans_sky_base_builder/builder.py:108-110 | presets are written into the same part cache, overwriting |
| Catalogue.FindObjectById | src/no_mans_sky_base_builder/builder.py:112-123 | the cached name, None on a miss, an empty name, or a name no longer in the scene |
| Catalogue.FindAfterAdd | src/no_mans_sky_base_builder/builder.py:104-123 | what was cached last under an id is found while it is in the scene, and a preset cached under a part's id replaces the part |
| Catalogue.AllParts | src/no_mans_sky_base_builder/builder.py:164-182 | the ObjectID objects not of a skipped type, outside presets when they are excluded, sorted by order with 0 for none |
| Catalogue.AllPartsStable | src/no_mans_sky_base_builder/builder.py:180-182 | parts with the same build order stay in scene order |
| Catalogue.LegacyAllObjects | src/no-mans-sky-base-builder/parts.py:126-155 | with preset capture, the preset objects come first, followed by exactly the top-level parts not of a skipped type (each as often as in the scene) sorted by build order; without capture, exactly the parts not of a skipped type, sorted by build order |
| Catalogue.LegacyAllObjectsCaptured | src/no-mans-sky-base-builder/parts.py:141-149 | with capture, what follows the preset objects is the add-on's listing with preset members left out |
| Catalogue.LegacyAllObjectsAgrees | src/no-mans-sky-base-builder/parts.py:126-155 | without capture, the original listing is the add-on's listing with presets kept |
| Catalogue.BuildItems | src/no-mans-sky-base-builder/parts.py:336-338 | each built item is stamped with the counter, which goes up by exactly one per item |
| Catalogue.BuiltInOrder | src/no-mans-sky-base-builder/parts.py:295-347 | listing freshly built parts by build order gives them back in the order they were built |
| Catalogue.RetrievePart | src/no-mans-sky-base-builder/parts.py:206-241 | the cached object is duplicated while it is still in the scene, otherwise a new one is imported and its name cached |
| Catalogue.RetrieveAgain | src/no-mans-sky-base-builder/parts.py:215-241 | after an import, retrieving the part again duplicates the new object while it stays in the scene |
| Catalogue.PartDataOf | src/no-mans-sky-base-builder/parts.py:246-278 | the ObjectID with a caret in front, and timestamp and colour only for parts outside presets |
| Catalogue.PartDataIdRoundTrip | src/no-mans-sky-base-builder/__init__.py:442-485 | stripping carets on load recovers the caret-free ObjectID written on save |
| Sorting.SortByStable | src/no_mans_sky_base_builder/builder.py:269-278 | sorting by build order keeps objects with equal order in their original order |
| Sorting.SortBySorted | src/no_mans_sky_base_builder/builder.py:269-278 | objects already in strictly increasing build order come back from the sort unchanged |
| Sorting.SortStringsOrderFree | src/no_mans_sky_base_builder/builder.py:354 | sorting a list of ids gives a result that depends only on which ids occur |
| Presets.WithJsonSuffix | src/no_mans_sky_base_builder/__init__.py:412-413 | ".json" is appended exactly when the path does not already end with it |
| Presets.WithJsonSuffixIdempotent | src/no_mans_sky_base_builder/builder.py:362-367 | adding the suffix twice is the same as adding it once |
| Presets.FullPath | src/no-mans-sky-base-builder/presets.py:38-42 | the preset file under the preset folder, ending in ".json" |
| Presets.FullPathIdempotent | src/no-mans-sky-base-builder/presets.py:38-42 | with an absolute preset folder, resolving a resolved path changes nothing |
| Presets.DataPath | src/no_mans_sky_base_builder/preset.py:70-73 | the preset folder joined with the id plus ".json" |
| Presets.PresetNames | src/no_mans_sky_base_builder/preset.py:76-79 | every name comes from a ".json" entry of the listing, without the extension, and every ".json" entry gives its name |
| Presets.PresetNamesInOrder | src/no_mans_sky_base_builder/preset.py:76-79 | the names of a concatenated listing are the names of its first part followed by those of the second, so they come in listing order |
| Presets.PresetNamesOfOne | src/no_mans_sky_base_builder/preset.py:76-79 | one entry gives exactly its stem when it ends in ".json" and nothing otherwise, so together with the concatenation rule each ".json" entry gives its name once |
| Presets.SavedPresetIsListed | src/no-mans-sky-base-builder/presets.py:31-33 | a preset saved under any name is listed under that name less a ".json" the user typed, unless what remains is only dots, which `splitext` leaves with its ".json" |
| Presets.NormalisePresetId | src/no_mans_sky_base_builder/preset.py:99-104 | the stored id is the value with every caret removed and otherwise unchanged |
| Presets.PresetIdFormat | src/no_mans_sky_base_builder/preset.py:106-108 | the id written to a file is the id with one caret in front |
| Presets.PresetIdRoundTrip | src/no_mans_sky_base_builder/preset.py:94-108 | writing a normalised id and reading it back gives the same id |
| Presets.SetThenGetPresetId | src/no_mans_sky_base_builder/preset.py:94-104 | the getter returns what the setter stored, without carets, and the control's property is never touched |
| Presets.DeserialisePreset | src/no_mans_sky_base_builder/preset.py:359-373 | PresetID wins over ObjectID, carets are removed, a missing vector is zero, and None when both ids are missing |
| Presets.LegacyPresetPlacements | src/no-mans-sky-base-builder/presets.py:90-106 | ObjectID wins over PresetID, and a record with neither id reuses the previous record's id |
| Presets.PresetIdPrecedence | src/no-mans-sky-base-builder/presets.py:92-100 | with both ids the two versions place different presets; with one id they agree |
| Presets.CreateShape | src/no_mans_sky_base_builder/preset.py:249-273 | eleven points at height 0 around the extent grown by the buffer, the last three repeating the first three |
| Presets.MarkMembers | src/no-mans-sky-base-builder/presets.py:127-168 | every member is parented to the control, made unselectable, flagged as in a preset and given the preset material |
| Presets.MarkedMembersExcluded | src/no_mans_sky_base_builder/preset.py:214 | marked members drop out of the listing that excludes preset members, and only there |
| Presets.NewPreset | src/no_mans_sky_base_builder/preset.py:46-59 | the cached control is duplicated while it is in the scene, otherwise the preset is generated; the new control is cached exactly when a control is asked for, and otherwise the cache is unchanged |
| Presets.LegacyRetrievePreset | src/no-mans-sky-base-builder/presets.py:56-77 | the cached control is duplicated while it is in the scene and the cache is left alone; otherwise the preset is generated and its control is cached under the preset name (the write at line 168 of `create_control`) |
| Presets.PresetCachingDiffers | src/no_mans_sky_base_builder/preset.py:46-59 | both versions duplicate or generate alike, but the earlier script changes the cache exactly when it generates and the add-on exactly when a control is asked for |
| Presets.NewPresetAgain | src/no_mans_sky_base_builder/preset.py:170-186 | a second preset of the same id duplicates the control the first one made while it stays in the scene |
| Presets.PresetContents | src/no-mans-sky-base-builder/presets.py:209-212 | no base flag is listed, every other ObjectID in the scene is, and the i-th id is the ObjectID of the i-th object of the build-ordered listing without capture |
| Presets.PresetContentsCounts | src/no-mans-sky-base-builder/parts.py:282-293 | each ObjectID other than the base flag appears in a preset file as often as parts with it occur in the scene |
| Presets.ObjectIdsPermutation | src/no-mans-sky-base-builder/parts.py:282-293 | reordering the objects only reorders the ObjectIDs collected from them |
| Materials.ColourIndex | src/no_mans_sky_base_builder/utils/material.py:119-130 | the colour index shifted by the offset of the first listed material, unchanged without one, None for an unknown material |
| Materials.DecodeColourIndex | src/no_mans_sky_base_builder/utils/material.py:119-130 | within one layer the stored index determines both the material and the colour |
| Materials.LegacyColourIndexAgrees | src/no-mans-sky-base-builder/material.py:25-33 | on a single known material both versions compute the same index |
| Materials.UnknownMaterialDiverges | src/no-mans-sky-base-builder/material.py:25-33 | an unknown material fails in the add-on and falls back to the concrete layer in the original script |
| Materials.MaterialName | src/no_mans_sky_base_builder/utils/material.py:136-140 | "{index}_material", tagged "_transparent" exactly for ghosted parts |
| Materials.MaterialNameInjective | src/no_mans_sky_base_builder/utils/material.py:136-140 | different indices, or a ghosted and a solid part, never share a material |
| Materials.PresetMaterialName | src/no_mans_sky_base_builder/utils/material.py:85-102 | "preset_material", tagged "_transparent" exactly for ghosted parts |
| Materials.PresetNameNotIndexed | src/no_mans_sky_base_builder/utils/material.py:85-102 | the preset material is never one of the indexed colour materials |
| Materials.LineMaterialsDistinct | src/no_mans_sky_base_builder/utils/material.py:58-83 | the line materials differ from each other, from the preset material and from every indexed material |
| Materials.LookupColour | src/no_mans_sky_base_builder/utils/material.py:143-146 | the colour of the index, default grey, padded with alpha 1.0 in place when it has fewer than four components |
| Materials.LookupSettles | src/no_mans_sky_base_builder/utils/material.py:143-146 | an entry of at least three components settles after one lookup |
| Materials.LookupDrifts | src/no_mans_sky_base_builder/utils/material.py:143-146 | a shorter entry grows on every lookup |
| Materials.ValidateMaterial | src/no_mans_sky_base_builder/utils/material.py:16-32 | an existing material is kept as it is and a missing one is created in the given colour |
| Materials.ValidateMaterialIdempotent | src/no_mans_sky_base_builder/utils/material.py:16-32 | validating again, in any colour, changes nothing |
| Materials.SetMaterial | src/no_mans_sky_base_builder/utils/material.py:35-55 | nothing without a slot list, appended to an empty one, otherwise only the first slot replaced |
| Materials.SetMaterialIdempotent | src/no_mans_sky_base_builder/utils/material.py:35-55 | setting the same material twice changes nothing the second time |
| Materials.AssignMaterial | src/no_mans_sky_base_builder/utils/material.py:105-152 | the UserData, material name, colour and slot written for an index, None for an unknown material |
| Materials.AssignedUserDataReadsBack | src/no_mans_sky_base_builder/utils/material.py:133-140 | for any known material key the assignment succeeds, the UserData it writes parses back to the shifted colour index, and the material is named after that index |
| Materials.AssignMaterialAt | src/no_mans_sky_base_builder/utils/material.py:133-140 | whenever the material list yields an index, the assignment writes exactly that index as UserData and names the material after it |
| Materials.AssignMaterialTwice | src/no_mans_sky_base_builder/utils/material.py:105-152 | assigning the same colour twice changes nothing the second time |
| Materials.AssignPresetMaterial | src/no_mans_sky_base_builder/utils/material.py:85-102 | the preset material is assigned and the UserData left alone |
| Materials.LegacyAssignMaterial | src/no-mans-sky-base-builder/material.py:13-83 | an integer UserData, the indexed or preset name, an existing material reused, and nothing assigned without a slot list |
| Materials.LegacyAssignAgrees | src/no-mans-sky-base-builder/material.py:13-83 | both versions write the same index, choose the same material and slot, and leave the same material store for a table colour of three or four components |
| ByteBeat.Message | src/addons/no_mans_sky_base_builder/part_overrides/bytebeat.py:7-9 | the stored message, or "" when there is none |
| ByteBeat.SetThenGetMessage | src/addons/no_mans_sky_base_builder/part_overrides/bytebeat.py:11-13 | the getter returns the text of the value the setter was given |
| ByteBeat.Serialise | src/addons/no_mans_sky_base_builder/part_overrides/bytebeat.py:15-18 | the base record with "Message" added and no other field changed |
| ByteBeat.Deserialise | src/addons/no_mans_sky_base_builder/part_overrides/bytebeat.py:20-23 | the built part with its message set from the record, "" when absent |
| ByteBeat.MessageRoundTrip | src/addons/no_mans_sky_base_builder/part_overrides/bytebeat.py:11-23 | a message set through the setter survives saving and loading |
| ByteBeat.LoadThenSave | src/addons/no_mans_sky_base_builder/part_overrides/bytebeat.py:15-23 | loading a record and saving again gives back its message as text |
| UiLists.CreateSublists | src/addons/no_mans_sky_base_builder/__init__.py:1077-1086 | rows of exactly n, none exactly when the list is empty |
| UiLists.CreateSublistsFlatten | src/addons/no_mans_sky_base_builder/__init__.py:1077-1086 | read row after row, the rows are the input followed by fewer than n empty strings |
| UiLists.DisplayedRows | src/addons/no_mans_sky_base_builder/__init__.py:1077-1086 | reading the rows back with the padding dropped gives the input ids, once each, in order |
| UiLists.OneRow | src/addons/no_mans_sky_base_builder/__init__.py:1043 | joining a row of comma-free ids with commas and splitting it with empty pieces dropped returns the ids |
| UiLists.LegacyCreateSublists | src/no_mans_sky_base_builder/__init__.py:1007-1014 | the older rows are the add-on's rows, and an empty list fails |
| UiLists.LegacyCreateSublistsEmpty | src/no_mans_sky_base_builder/__init__.py:1007-1014 | the older version fails exactly on the empty list |
| UiLists.CategoryEntriesShowParts | src/addons/no_mans_sky_base_builder/__init__.py:1088-1132 | under each header the list shows exactly the category's parts, in nice-name order |
| UiLists.PartEntries | src/addons/no_mans_sky_base_builder/__init__.py:1088-1132 | every category's header followed by its parts in comma-joined rows of three |
| UiLists.LegacyPartEntriesFails | src/no_mans_sky_base_builder/__init__.py:1016-1050 | the older list fails exactly when some listed category has no parts in the pack |
| UiLists.LegacyPartEntriesAgree | src/no_mans_sky_base_builder/__init__.py:1016-1050 | where the older list does not fail it equals the add-on's list |
| UiLists.EmptyCategoryBreaksLegacyList | src/no_mans_sky_base_builder/__init__.py:1039-1049 | a category with no parts in the pack breaks the older list while the add-on lists its header alone |
| UiLists.LegacyPresetEntries | src/no_mans_sky_base_builder/__init__.py:1033-1036 | one "Presets" header, then a row per preset in listing order |
| UiLists.PresetEntriesListAll | src/addons/no_mans_sky_base_builder/__init__.py:1088-1132 | each preset is listed exactly as often as it occurs, and no header is mistaken for a preset |
| UiLists.LegacyPartDataList | src/no-mans-sky-base-builder/__init__.py:896-909 | read without headers, the original script's list is the presets followed by every category's parts in order |
| UiLists.Refresh | src/no_mans_sky_base_builder/__init__.py:1053-1074 | one item per entry, titled with the heading title-cased and underscores shown as spaces |
| UiLists.ItemNameReadsBack | src/addons/no_mans_sky_base_builder/__init__.py:1135-1157 | the number in front of an item's name reads back as its position |
| UiLists.RefreshNamesDistinct | src/no-mans-sky-base-builder/__init__.py:912-922 | items are named apart, whatever their headings and descriptions |
| RoomVisibility.NextState | src/addons/no_mans_sky_base_builder/__init__.py:530-533 | the switch steps 0 to 1 to 2 to 0 and stays within 0..2 |
| RoomVisibility.ThreePressesCycle | src/no_mans_sky_base_builder/__init__.py:493-545 | three presses bring the switch back, and each press changes it |
| RoomVisibility.OutOfRangeRecovers | src/addons/no_mans_sky_base_builder/__init__.py:530-533 | a switch above 2 is back at 0 after one press; a negative switch stays negative until it has been pressed as many times as it is below 0, and is then at 0 |
| RoomVisibility.Toggle | src/addons/no_mans_sky_base_builder/__init__.py:520-572 | the new state, every "transparent" material's alpha set for it, and every object restyled for it |
| RoomVisibility.ToggleFlags | src/addons/no_mans_sky_base_builder/__init__.py:541-572 | a ghosted part is hidden exactly in state 2 and unselectable exactly in state 1, preset members keep their selectability, and other objects do not change |
| RoomVisibility.PressPeriodic | src/addons/no_mans_sky_base_builder/__init__.py:520-572 | after one press, three more give back exactly the same scene |
| RoomVisibility.LegacyToggle | src/no-mans-sky-base-builder/__init__.py:698-790 | the original script's new state, with every object restyled for it |
| RoomVisibility.LegacyToggleStates | src/no-mans-sky-base-builder/__init__.py:698-790 | shown and opaque in state 0, shown and see-through in state 1, hidden in state 2, preset members keeping their selectability |
| RoomVisibility.RestylesAgree | src/no-mans-sky-base-builder/__init__.py:698-790 | both implementations agree on visibility always and on selectability in states 0 and 1 |
| Operators.LineTypeFromEnum | src/addons/no_mans_sky_base_builder/__init__.py:63-74 | TELEPORT, PIPE and BYTEBEAT map to their line classes and anything else to the power line |
| Operators.LineTypeInjective | src/addons/no_mans_sky_base_builder/__init__.py:63-74 | the three named switch values give three different line classes |
| Operators.IsFloating | src/addons/no_mans_sky_base_builder/__init__.py:1692-1701 | a control is floating exactly when every connection is a line and there are fewer than two |
| Operators.SelectFloating | src/addons/no_mans_sky_base_builder/__init__.py:1680-1704 | exactly the power controls that are floating are selected, in scene order, each once per occurrence |
| Operators.SnapOperands | src/addons/no_mans_sky_base_builder/__init__.py:715-760 | one selected object snaps to what it was last snapped to, two snap the other onto the active one, any other count does nothing |
| Operators.SnapOperandsPair | src/addons/no_mans_sky_base_builder/__init__.py:715-760 | with two objects selected, the snap acts on exactly that pair |
| Export.DirectionVector | src/no-mans-sky-base-builder/__init__.py:34-40 | "up" reads column 1 of the first three rows, "at" column 2, anything else zeros |
| Export.DirectionOfColumns | src/no-mans-sky-base-builder/__init__.py:34-40 | reading a matrix's directions gives back the columns it was built from |
| Export.FilterCounts | src/no-mans-sky-base-builder/__init__.py:600-622 | filtering keeps each element exactly as often as it occurs when it passes the test, and drops it otherwise |
| Export.FilterSorted | src/no-mans-sky-base-builder/__init__.py:545-548 | filtering objects sorted by order keeps them sorted |
| Export.GenerateData | src/no-mans-sky-base-builder/__init__.py:572-622 | without capture every objectID object except preset controls; with capture, preset controls to the preset list and objects outside presets to the object list; both sorted by order |
| Export.GeneratePresetData | src/no-mans-sky-base-builder/__init__.py:550-559 | every object with an objectID, preset controls included, sorted by order |
| Export.PresetDataCoversExport | src/no-mans-sky-base-builder/__init__.py:550-622 | a saved preset holds everything the base export holds without capture |
| Export.GenerateDataModesAgree | src/no-mans-sky-base-builder/__init__.py:600-622 | an ordinary object outside presets is exported in both modes |
| Export.GenerateDataPresetControls | src/no-mans-sky-base-builder/__init__.py:600-622 | preset controls never reach the object list and, with capture, always reach the preset list |
| Export.UserDetails | src/no-mans-sky-base-builder/__init__.py:641-652 | the owner fields as given, with the timestamp an integer when it reads as one |
| Export.GalacticAddress | src/no-mans-sky-base-builder/__init__.py:579-582 | the address as an integer when it reads as one, else as text |
| Export.HeaderNumbersReadBack | src/no-mans-sky-base-builder/__init__.py:579-652 | numbers written out as text come back as the same numbers |
| SnapLayout.ToRows | automation_tools/snapping_generator/snapping_generator.py:53-58 | row i, column j of the stored matrix is entry 4*j+i of Maya's flat list |
| SnapLayout.FromRows | automation_tools/snapping_generator/regenerate_snapping_maya.py:24-29 | entry 4*j+i of the flat list is row i, column j |
| SnapLayout.LayoutRoundTrip | generator_tools/snapping_generator.py:30-35 | the two layouts are inverse to each other |
| SnapLayout.WithShape | automation_tools/snapping_generator/snapping_generator.py:35-44 | a transform is collected once for every shape of the kind, in child order |
| SnapLayout.TwoMeshesListedTwice | automation_tools/snapping_generator/snapping_generator.py:38-47 | a transform with two mesh shapes is listed twice among the parts |
| SnapLayout.Entry | automation_tools/snapping_generator/snapping_generator.py:52-62 | a snap point stores the locator's matrix as rows and its "opposite" exactly when it has one |
| SnapLayout.AddSnapPoints | automation_tools/snapping_generator/snapping_generator.py:51-63 | the snap points are keyed by short name without duplicates, each locator's short name present |
| SnapLayout.AddSnapPointsLastWins | generator_tools/snapping_generator.py:28-40 | a short name ends up holding the entry of the last locator with that name |
| SnapLayout.BuildGroup | automation_tools/snapping_generator/snapping_generator.py:31-63 | the group's snap points are keyed by its locators' short names and its parts are its mesh children's short names; None when the group cannot be read |
| SnapLayout.Generate | automation_tools/snapping_generator/snapping_generator.py:28-65 | a table exactly when every group other than the cameras can be read |
| SnapLayout.GenerateKeySet | generator_tools/snapping_generator.py:2-43 | the table has an entry under the name of each group other than the cameras, and no other entry |
| SnapLayout.GenerateKeys | generator_tools/snapping_generator.py:2-43 | the table holds each name once |
| SnapLayout.GenerateGet | automation_tools/snapping_generator/snapping_generator.py:28-65 | each such group is stored as it reads |
| SnapLayout.PathInjective | automation_tools/snapping_generator/regenerate_snapping_maya.py:21 | paths of separator-free names determine the group and the name |
| SnapLayout.CreateGroup | automation_tools/snapping_generator/regenerate_snapping_maya.py:8-9 | the group node is created only when missing |
| SnapLayout.CreateParts | automation_tools/snapping_generator/regenerate_snapping_maya.py:12-17 | part nodes are created only for names no node has |
| SnapLayout.CreateLocators | automation_tools/snapping_generator/regenerate_snapping_maya.py:20-38 | a locator is created only when its path is free, "opposite" added exactly when the entry has one |
| SnapLayout.CreateLocatorsRebuilds | automation_tools/snapping_generator/regenerate_snapping_maya.py:20-38 | a snap point with a free path becomes a locator holding its matrix in Maya's layout and its "opposite" |
| SnapLayout.RegenerateGroupRebuilds | automation_tools/snapping_generator/regenerate_snapping_maya.py:7-38 | a free snap point is rebuilt with its group unless a part of the group has the same name |
| SnapLayout.RegenerateIdempotent | automation_tools/snapping_generator/regenerate_snapping_maya.py:6-38 | running the regenerator on its own result changes nothing |
| SnapLayout.RoundTripThroughMaya | automation_tools/snapping_generator/regenerate_snapping_maya.py:20-38 | a locator read into the table and regenerated in a scene lacking its path comes back with the same matrix and "opposite" |

## Left out

- Floating point: matrices are an abstract group, with no normalisation, Euler angles or decomposition; distances and the location-rounding key are parameters; the split fractions and curve offsets are not modelled.
- Blender and Maya plumbing: object creation, duplication, linking, constraints, drivers, selection, panels and message boxes. A new object's name is a parameter of the operation that creates it.
- Blender's renaming of a new object whose name is taken (".001") and Maya's renaming on a name clash are not modelled. The Maya scene is a set of node names and a map of locators.
- JSON and file I/O, the clipboard, the base-header field copying on load and save, and `load_dictionary`.
- The Qt asset browser and the content-pipeline tooling that reads game data.
- The missing-part import at the top of automation_tools/snapping_generator/snapping_generator.py:8-22: it imports model files from disk.
- Python exceptions other than those listed above. In `SnapEngine.SnapTo` and `LegacySnap.LegacySnapObjects` a missing snap point and an unbound key are the `Raised` outcome, with the scene state the call leaves behind; elsewhere, unbound locals and lookups on missing snap points are preconditions.
- Trivial part subclasses (bridge connector, pipe, portal and bytebeat lines, power control) only pick a part id and add no logic.
- Materials.LookupColour: the add-on pads the colour list of the shared table in place. The model returns the padded table, so the drift across lookups is stated (`Materials.LookupDrifts`) but object identity is not.
- Catalogue.FindObjectById: the scene is a set of names, so "the object still exists" is name membership; the builder object built from it is not modelled.
- Presets.CreateShape: the points are reals; the bounding-box computation over the members' floating-point locations is left out and the extent is a parameter.
- Wiring.CreatePoint: which control the add-on's part cache still finds in the scene is a parameter (`template`), because the cache and the scene are not modelled here. Only the copied links and visibility are modelled; the copy's location and the rotation reset are not.
- Wiring.LegacyGenerateControlPoints: the original script's closest-pair search and matrix lookup belong to its snapper, which is not part of this model; what the lookup returned for each side is a parameter.
- Wiring.LegacyGenerateControlPoints: the original script sets "SnapID" only on the controls it creates (power.py:34), so for its own parts the read at power.py:288 raises and the creation branch is reached only by parts that got a SnapID some other way; the model keeps that branch, as `LegacyGenerateAgrees` relates it to the add-on, and returns the raise as `MissingSnapId` with the scene as it stood.
- SnapLayout.Generate: top-level group names are assumed distinct, as Maya guarantees; the model does not re-check it.
- Text: the string built-ins are modelled for ASCII only. `strip` and `split()` treat the ASCII whitespace (space, tab, newline, vertical tab, form feed, carriage return and U+001C to U+001F) as whitespace, and not the other Unicode whitespace Python also strips (U+0085, U+00A0, U+2000 to U+200A and the rest). `title` changes the case of A to Z and a to z only and treats every other character as uncased. `int()` accepts only the digits 0 to 9. On text outside ASCII the model can differ from Python.

## Findings

| source | as written | input that shows it | evidently intended | confidence | as-written member | corrected member |
|---|---|---|---|---|---|---|
| src/no_mans_sky_base_builder/__init__.py:1007-1014 | `create_sublists` reads the last row of its result without checking that there is one, so an empty list raises | a category directory with no registered part in the current pack, which `generate_ui_list_data` (src/no_mans_sky_base_builder/__init__.py:1039-1049) passes as an empty list | an empty list gives no rows and the category is listed with its header alone, as the current add-on does (src/addons/no_mans_sky_base_builder/__init__.py:1079-1080) | high, not executed | UiLists.LegacyCreateSublists | UiLists.CreateSublists |

=== FILE: assoc.dfy ===
/** Python dictionaries whose iteration order matters, as association lists:
    a sequence of (key, value) pairs in insertion order. Lookups find the first
    pair with the key; JSON objects and dictionaries built by the program have
    distinct keys, which `UniqueKeys` states. */
module Assoc {
  import opened Options

  type Assoc<K, V> = seq<(K, V)>

  function Keys<K, V>(a: Assoc<K, V>): (ks: seq<K>)
    ensures |ks| == |a|
    ensures forall i :: 0 <= i < |a| ==> ks[i] == a[i].0
  {
    if |a| == 0 then [] else [a[0].0] + Keys(a[1..])
  }

  predicate UniqueKeys<K(==), V>(a: Assoc<K, V>) {
    forall i, j :: 0 <= i < j < |a| ==> a[i].0 != a[j].0
  }

  /** The position of the first pair with key `k`. */
  function KeyIndex<K(==), V>(a: Assoc<K, V>, k: K): (i: nat)
    requires k in Keys(a)
    ensures i < |a| && a[i].0 == k
    ensures forall j :: 0 <= j < i ==> a[j].0 != k
  {
    if a[0].0 == k then 0 else 1 + KeyIndex(a[1..], k)
  }

  /** `d.get(k)`: the value of the first pair with key `k`. */
  function Get<K(==), V>(a: Assoc<K, V>, k: K): (r: Option<V>)
    ensures r.None? <==> k !in Keys(a)
    ensures r.Some? ==> r.value == a[KeyIndex(a, k)].1
  {
    if |a| == 0 then None
    else if a[0].0 == k then Some(a[0].1)
    else Get(a[1..], k)
  }

  /** With distinct keys, the pair at any position is what a lookup of its key
      finds. */
  lemma GetAt<K, V>(a: Assoc<K, V>, i: nat)
    requires UniqueKeys(a) && i < |a|
    ensures Get(a, a[i].0) == Some(a[i].1)
  {
    assert Keys(a)[i] == a[i].0;
  }

  /** `d[k] = v`: replaces the value in place when the key is present and
      appends a new pair otherwise. */
  function Put<K(==), V>(a: Assoc<K, V>, k: K, v: V): (r: Assoc<K, V>)
    ensures |r| == if k in Keys(a) then |a| else |a| + 1
    ensures forall i :: 0 <= i < |a| ==> r[i].0 == a[i].0
    ensures k !in Keys(a) ==> r[|a|].0 == k
  {
    if |a| == 0 then [(k, v)]
    else if a[0].0 == k then [(k, v)] + a[1..]
    else
      assert k in Keys(a) <==> k in Keys(a[1..]) by {
        assert Keys(a) == [a[0].0] + Keys(a[1..]);
      }
      [a[0]] + Put(a[1..], k, v)
  }

  /** A lookup of the written key finds the written value. */
  lemma {:induction false} PutGet<K, V>(a: Assoc<K, V>, k: K, v: V)
    ensures Get(Put(a, k, v), k) == Some(v)
  {
    if |a| > 0 && a[0].0 != k {
      PutGet(a[1..], k, v);
      assert Put(a, k, v)[1..] == Put(a[1..], k, v);
    }
  }

  /** Every pair after a write is the written one or the pair that was at
      its position. */
  lemma {:induction false} PutValues<K, V>(a: Assoc<K, V>, k: K, v: V)
    ensures forall i :: 0 <= i < |Put(a, k, v)| ==> Put(a, k, v)[i] == (k, v) || (i < |a| && Put(a, k, v)[i] == a[i])
  {
    if |a| > 0 && a[0].0 != k {
      PutValues(a[1..], k, v);
      var rest := Put(a[1..], k, v);
      var r := [a[0]] + rest;
      assert Put(a, k, v) == r;
      forall i | 0 <= i < |r| ensures r[i] == (k, v) || (i < |a| && r[i] == a[i]) {
        if i > 0 {
          assert r[i] == rest[i - 1];
          assert i - 1 < |a[1..]| ==> a[1..][i - 1] == a[i];
        }
      }
    } else if |a| > 0 {
      var r := [(k, v)] + a[1..];
      assert Put(a, k, v) == r;
      forall i | 0 <= i < |r| ensures r[i] == (k, v) || (i < |a| && r[i] == a[i]) {
        if i > 0 {
          assert r[i] == a[i];
        }
      }
    }
  }

  /** Writing one key leaves every other key's value as it was. */
  lemma {:induction false} PutOther<K, V>(a: Assoc<K, V>, k: K, v: V, other: K)
    requires other != k
    ensures Get(Put(a, k, v), other) == Get(a, other)
  {
    if |a| > 0 && a[0].0 != k {
      PutOther(a[1..], k, v, other);
    }
  }

  lemma PutKeepsUnique<K, V>(a: Assoc<K, V>, k: K, v: V)
    requires UniqueKeys(a)
    ensures UniqueKeys(Put(a, k, v))
  {
    var r := Put(a, k, v);
    if k !in Keys(a) {
      assert forall i :: 0 <= i < |a| ==> a[i].0 == Keys(a)[i];
    }
  }
}

=== FILE: bytebeat.dfy ===
/** The ByteBeat part: an ordinary part that also carries a "Message" custom
    property, written into its saved record and read back from it. The base
    part's own record fields and properties come from outside this module and
    are passed in unchanged. */
module ByteBeat {
  import opened Options
  import opened Text
  import opened PyUtils

  /** A Blender object's custom properties, or a saved part record. */
  type Props = map<string, PyValue>

  const MessageKey: string := "Message"

  /** Python's `str()` on the values a property can hold. */
  function Str(v: PyValue): (r: string)
    ensures v.PyStr? ==> r == v.s
    ensures v.PyInt? ==> ParseInt(r) == Some(v.i)
  {
    match v
    case PyStr(s) => s
    case PyInt(i) =>
      ParseIntOfIntToString(i);
      IntToString(i)
  }

  /** The `message` getter: the stored value, or "" when there is none. */
  function Message(props: Props): (r: PyValue)
    ensures MessageKey !in props ==> r == PyStr("")
    ensures MessageKey in props ==> r == props[MessageKey]
  {
    if MessageKey in props then props[MessageKey] else PyStr("")
  }

  /** The `message` setter: stores the value's text. */
  function SetMessage(props: Props, value: PyValue): (r: Props)
    ensures r.Keys == props.Keys + {MessageKey}
    ensures forall k :: k in props && k != MessageKey ==> r[k] == props[k]
    ensures r[MessageKey].PyStr?
  {
    props[MessageKey := PyStr(Str(value))]
  }

  /** What the getter returns after the setter is the setter's argument as
      text. */
  lemma SetThenGetMessage(props: Props, value: PyValue)
    ensures Message(SetMessage(props, value)) == PyStr(Str(value))
  {
  }

  /** `serialise`: the base part's record with "Message" added. */
  function Serialise(base: Props, props: Props): (r: Props)
    ensures r.Keys == base.Keys + {MessageKey}
    ensures forall k :: k in base && k != MessageKey ==> r[k] == base[k]
    ensures r[MessageKey] == Message(props)
  {
    base[MessageKey := Message(props)]
  }

  /** `deserialise_from_data`: the part the base class builds from the record
      (`built`), with its message set from the record's "Message", or "". */
  function Deserialise(data: Props, built: Props): (r: Props)
    ensures Message(r).PyStr?
    ensures forall k :: k in built && k != MessageKey ==> k in r && r[k] == built[k]
  {
    SetMessage(built, Message(data))
  }

  /** A message survives saving and loading, whatever the base record holds
      and whatever the base class builds: any message set through the setter
      is text, and text is read back as itself. */
  lemma MessageRoundTrip(base: Props, props: Props, built: Props, value: PyValue)
    ensures Message(Deserialise(Serialise(base, SetMessage(props, value)), built))
      == Message(SetMessage(props, value))
  {
  }

  /** Loading a record and saving the part again gives back the record's
      message, as text. */
  lemma LoadThenSave(data: Props, built: Props, base: Props)
    ensures Serialise(base, Deserialise(data, built))[MessageKey] == PyStr(Str(Message(data)))
  {
  }
}

=== FILE: catalogue.dfy ===
/** The catalogue of parts (`Builder` in the add-on package and the earlier
    `PartBuilder`): which class handles an ObjectID, the parts of a category
    in a model pack, display names, the caches from ObjectID to scene object
    name, the scene's parts in build order, and the exported data of a part.
    The scene is a sequence of items carrying the custom properties the code
    reads; file-system listings and the nice-name JSON are inputs. */
module Catalogue {
  import opened Options
  import opened Text
  import opened Assoc
  import opened PyUtils
  import opened Sorting

  // ------------------------------------------------------ override classes

  /** The classes `get_part_class` can return. */
  datatype PartClass =
    | BaseFlag | MessageModule | UPowerLine | UPipeline | UPortalLine | PowerControl
    | FreighterCore | BridgeConnector | AirLockConnector | ByteBeat | ByteBeatSwitch
    | UByteBeatLine | PlainPart

  /** The ObjectIDs that have an override class. */
  const OverrideIds: seq<string> := [
    "BASE_FLAG", "MESSAGEMODULE", "U_POWERLINE", "U_PIPELINE", "U_PORTALLINE", "POWER_CONTROL",
    "FREIGHTER_CORE", "BRIDGECONNECTOR", "AIRLCKCONNECTOR", "BYTEBEAT", "BYTEBEATSWITCH", "U_BYTEBEATLINE"
  ]

  /** The key each override class is registered under. */
  function RegisteredId(c: PartClass): Option<string> {
    match c
    case BaseFlag => Some("BASE_FLAG")
    case MessageModule => Some("MESSAGEMODULE")
    case UPowerLine => Some("U_POWERLINE")
    case UPipeline => Some("U_PIPELINE")
    case UPortalLine => Some("U_PORTALLINE")
    case PowerControl => Some("POWER_CONTROL")
    case FreighterCore => Some("FREIGHTER_CORE")
    case BridgeConnector => Some("BRIDGECONNECTOR")
    case AirLockConnector => Some("AIRLCKCONNECTOR")
    case ByteBeat => Some("BYTEBEAT")
    case ByteBeatSwitch => Some("BYTEBEATSWITCH")
    case UByteBeatLine => Some("U_BYTEBEATLINE")
    case PlainPart => None
  }

  /** `get_part_class`: `override_classes.get(object_id, Part)`. */
  function PartClassOf(id: string): (c: PartClass)
    ensures c == PlainPart <==> id !in OverrideIds
    ensures c != PlainPart ==> RegisteredId(c) == Some(id)
  {
    if id == "BASE_FLAG" then BaseFlag
    else if id == "MESSAGEMODULE" then MessageModule
    else if id == "U_POWERLINE" then UPowerLine
    else if id == "U_PIPELINE" then UPipeline
    else if id == "U_PORTALLINE" then UPortalLine
    else if id == "POWER_CONTROL" then PowerControl
    else if id == "FREIGHTER_CORE" then FreighterCore
    else if id == "BRIDGECONNECTOR" then BridgeConnector
    else if id == "AIRLCKCONNECTOR" then AirLockConnector
    else if id == "BYTEBEAT" then ByteBeat
    else if id == "BYTEBEATSWITCH" then ByteBeatSwitch
    else if id == "U_BYTEBEATLINE" then UByteBeatLine
    else PlainPart
  }

  /** Every override class is found again from the key it is registered
      under, and the plain part class is registered under none. */
  lemma PartClassOfRegisteredId(c: PartClass)
    ensures c == PlainPart <==> RegisteredId(c).None?
    ensures c != PlainPart ==> PartClassOf(RegisteredId(c).value) == c
  {
  }

  // ---------------------------------------------------------------- packs

  /** `pack or "Parts"`. */
  function PackOrDefault(pack: Option<string>): string {
    if pack.Some? && pack.value != "" then pack.value else "Parts"
  }

  /** `get_model_path_from_pack` over `available_packs`, a list of
      (pack name, model path) pairs: the path of the first pack of that name,
      or None. */
  method ModelPathFromPack(packs: Assoc<string, string>, request: string) returns (path: Option<string>)
    ensures path == Get(packs, request)
    ensures path.None? <==> forall i :: 0 <= i < |packs| ==> packs[i].0 != request
    ensures path.Some? ==>
      exists i :: 0 <= i < |packs| && packs[i] == (request, path.value) && (forall j :: 0 <= j < i ==> packs[j].0 != request)
  {
    var i := 0;
    while i < |packs|
      invariant 0 <= i <= |packs|
      invariant forall j :: 0 <= j < i ==> packs[j].0 != request
      invariant Get(packs, request) == Get(packs[i..], request)
    {
      if packs[i].0 == request {
        assert Keys(packs)[i] == packs[i].0;
        return Some(packs[i].1);
      }
      assert packs[i..][1..] == packs[i + 1..];
      i := i + 1;
    }
    assert Keys(packs[i..]) == [];
    return None;
  }

  // ------------------------------------------------------- part reference

  /** One entry of `part_reference`. */
  datatype PartInfo = PartInfo(category: string, fullPath: string, pack: string)

  /** `part_reference`: ObjectID to its entry, in insertion order. */
  type PartReference = Assoc<string, PartInfo>

  predicate InCategory(info: PartInfo, category: string, pack: string) {
    info.pack == pack && info.category == category
  }

  /** The ids whose entry matches, in reference order. */
  function Matching(reference: PartReference, category: string, pack: string): (ids: seq<string>)
    ensures forall id :: id in ids <==>
      exists i :: 0 <= i < |reference| && reference[i].0 == id && InCategory(reference[i].1, category, pack)
    ensures UniqueKeys(reference) ==> Distinct(ids)
  {
    if |reference| == 0 then []
    else
      var rest := Matching(reference[1..], category, pack);
      assert forall i :: 1 <= i < |reference| ==> reference[i] == reference[1..][i - 1];
      assert UniqueKeys(reference) ==> UniqueKeys(reference[1..]);
      var head := if InCategory(reference[0].1, category, pack) then [reference[0].0] else [];
      assert UniqueKeys(reference) ==> Distinct(head + rest) by {
        if UniqueKeys(reference) {
          assert reference[0].0 !in rest;
          forall i, j | 0 <= i < j < |head + rest| ensures (head + rest)[i] != (head + rest)[j] {
            if i >= |head| {
              assert (head + rest)[i] == rest[i - |head|] && (head + rest)[j] == rest[j - |head|];
            } else {
              assert (head + rest)[j] == rest[j - 1] && rest[j - 1] in rest;
            }
          }
        }
      }
      head + rest
  }

  /** `get_parts_from_category`: the ids of the category in the pack (default
      "Parts"), sorted. */
  function PartsFromCategory(reference: PartReference, category: string, pack: Option<string>): (r: seq<string>)
    ensures forall id :: id in r <==>
      exists i :: 0 <= i < |reference| && reference[i].0 == id && InCategory(reference[i].1, category, PackOrDefault(pack))
    ensures forall i, j :: 0 <= i < j < |r| ==> StrLe(r[i], r[j])
    ensures UniqueKeys(reference) ==> multiset(r) == multiset(Matching(reference, category, PackOrDefault(pack)))
  {
    var ids := Matching(reference, category, PackOrDefault(pack));
    var r := SortStrings(ids);
    assert forall id :: id in r <==> id in multiset(r);
    assert forall id :: id in ids <==> id in multiset(ids);
    r
  }

  /** The listing does not depend on the order the reference was filled in:
      two references with the same entries give the same parts. */
  lemma PartsFromCategoryOrderFree(a: PartReference, b: PartReference, category: string, pack: Option<string>)
    requires UniqueKeys(a) && UniqueKeys(b)
    requires forall e :: e in a <==> e in b
    ensures PartsFromCategory(a, category, pack) == PartsFromCategory(b, category, pack)
  {
    var p := PackOrDefault(pack);
    var ma := Matching(a, category, p);
    var mb := Matching(b, category, p);
    forall id ensures id in ma <==> id in mb {
      if id in ma {
        var i :| 0 <= i < |a| && a[i].0 == id && InCategory(a[i].1, category, p);
        assert a[i] in b;
      }
      if id in mb {
        var i :| 0 <= i < |b| && b[i].0 == id && InCategory(b[i].1, category, p);
        assert b[i] in a;
      }
    }
    DistinctSameElements(ma, mb);
    SortStringsOrderFree(ma, mb);
  }

  // ------------------------------------------------------------ nice names

  /** `get_nice_name`: the dictionary entry for the basename, else the
      basename title-cased with underscores as spaces. */
  function NiceName(names: map<string, string>, part: string): (r: string)
    ensures Basename(part) in names ==> r == names[Basename(part)]
    ensures Basename(part) !in names ==> r == TitleLabel(Basename(part)) && '_' !in r
  {
    var base := Basename(part);
    if base in names then names[base] else TitleLabel(base)
  }

  /** Without a dictionary entry, an id made of two words of letters joined
      by an underscore reads as the two words capitalised, with a space. */
  lemma NiceNameOfTwoWords(names: map<string, string>, a: string, b: string)
    requires IsWord(a) && IsWord(b)
    requires a + "_" + b !in names
    ensures NiceName(names, a + "_" + b) == Capitalised(a) + " " + Capitalised(b)
  {
    var id := a + "_" + b;
    assert '/' !in id by {
      forall i | 0 <= i < |id| ensures id[i] != '/' {
        if i < |a| { assert id[i] == a[i]; } else if i > |a| { assert id[i] == b[i - |a| - 1]; }
      }
    }
    TitleLabelOfTwoWords(a, b);
  }

  /** The last piece of `pre + id` is `id` when `id` has no separator and
      `pre` is empty or ends with one. */
  lemma LastPieceAfterSeparator(pre: string, id: string)
    requires |id| > 0 && '/' !in id
    requires |pre| == 0 || pre[|pre| - 1] == '/'
    ensures LastPiece(pre + id, '/') == id
  {
    var s := pre + id;
    var r := LastPiece(s, '/');
    assert s[|pre|..] == id;
  }

  lemma BasenameOfJoin(dir: string, id: string)
    requires |id| > 0 && '/' !in id
    ensures Basename(PathJoin(dir, id)) == id
  {
    if |dir| == 0 || dir[|dir| - 1] == '/' {
      LastPieceAfterSeparator(dir, id);
    } else {
      assert dir + "/" + id == (dir + "/") + id;
      LastPieceAfterSeparator(dir + "/", id);
    }
  }

  /** A part named by its path gets the same nice name as its bare id. */
  lemma NiceNameOfPath(names: map<string, string>, dir: string, id: string)
    requires |id| > 0 && '/' !in id
    ensures NiceName(names, PathJoin(dir, id)) == NiceName(names, id)
  {
    BasenameOfJoin(dir, id);
    assert Basename(id) == id;
  }

  // ---------------------------------------------------------------- caches

  /** The part cache: ObjectID (or preset id) to scene object name. */
  type PartCache = map<string, string>

  /** `add_to_part_cache` overwrites the entry. */
  function AddToPartCache(cache: PartCache, id: string, name: string): (r: PartCache)
    ensures r.Keys == cache.Keys + {id} && r[id] == name
    ensures forall k :: k in cache && k != id ==> r[k] == cache[k]
  {
    cache[id := name]
  }

  /** `add_to_preset_cache` writes into the same part cache. */
  function AddToPresetCache(cache: PartCache, id: string, name: string): (r: PartCache)
    ensures r == AddToPartCache(cache, id, name)
  {
    cache[id := name]
  }

  /** `find_object_by_id` (and `find_preset_by_id`): the cached name, unless
      there is none, it is empty, or no scene object has it any more. */
  function FindObjectById(cache: PartCache, scene: set<string>, id: string): (r: Option<string>)
    ensures r.Some? <==> id in cache && cache[id] != "" && cache[id] in scene
    ensures r.Some? ==> r.value == cache[id]
  {
    if id !in cache || cache[id] == "" then None
    else if cache[id] in scene then Some(cache[id])
    else None
  }

  /** What was last cached under an id is found while it is in the scene; a
      preset cached under a part's id replaces the part. */
  lemma FindAfterAdd(cache: PartCache, scene: set<string>, id: string, other: string, name: string)
    requires name != "" && name in scene
    requires other != id
    ensures FindObjectById(AddToPartCache(cache, id, name), scene, id) == Some(name)
    ensures FindObjectById(AddToPresetCache(cache, id, name), scene, id) == Some(name)
    ensures FindObjectById(AddToPartCache(cache, id, name), scene, other) == FindObjectById(cache, scene, other)
    ensures FindObjectById(AddToPartCache(cache, id, name), scene - {name}, id) == None
  {
  }

  // ------------------------------------------------------------ scene parts

  /** A scene object with the custom properties the catalogue reads. */
  datatype SceneItem = SceneItem(
    name: string,
    objectId: Option<string>,
    presetId: Option<string>,
    belongsToPreset: bool,
    order: Option<int>)

  /** `by_order`: the recorded build order, 0 when absent. */
  function ByOrder(item: SceneItem): int {
    item.order.GetOr(0)
  }

  predicate IsPart(item: SceneItem, excludePresets: bool, skip: seq<string>) {
    && item.objectId.Some?
    && item.objectId.value !in skip
    && (excludePresets ==> !item.belongsToPreset)
  }

  /** The objects kept by the filters, in scene order. */
  function KeptParts(objects: seq<SceneItem>, excludePresets: bool, skip: seq<string>): (r: seq<SceneItem>)
    ensures forall x :: x in r <==> x in objects && IsPart(x, excludePresets, skip)
    ensures |r| == 0 <==> forall x :: x in objects ==> !IsPart(x, excludePresets, skip)
    ensures |r| <= |objects|
  {
    if |objects| == 0 then []
    else
      assert forall x :: x in objects <==> x == objects[0] || x in objects[1..];
      (if IsPart(objects[0], excludePresets, skip) then [objects[0]] else [])
        + KeptParts(objects[1..], excludePresets, skip)
  }

  /** `get_all_parts`: the ObjectID objects not of a skipped type (and, when
      presets are excluded, not built by a preset), in build order. */
  function AllParts(objects: seq<SceneItem>, excludePresets: bool, skip: seq<string>): (r: seq<SceneItem>)
    ensures multiset(r) == multiset(KeptParts(objects, excludePresets, skip))
    ensures forall x :: x in r <==> x in objects && IsPart(x, excludePresets, skip)
    ensures forall i, j :: 0 <= i < j < |r| ==> ByOrder(r[i]) <= ByOrder(r[j])
  {
    var kept := KeptParts(objects, excludePresets, skip);
    var r := SortBy(kept, ByOrder);
    assert forall x :: x in r <==> x in multiset(r);
    assert forall x :: x in kept <==> x in multiset(kept);
    r
  }

  /** Parts with the same build order stay in scene order. */
  lemma AllPartsStable(objects: seq<SceneItem>, excludePresets: bool, skip: seq<string>, k: int)
    ensures WithOrder(AllParts(objects, excludePresets, skip), ByOrder, k) ==
      WithOrder(KeptParts(objects, excludePresets, skip), ByOrder, k)
  {
    SortByStable(KeptParts(objects, excludePresets, skip), ByOrder, k);
  }

  /** The objects carrying a PresetID, in scene order. */
  function Presets(objects: seq<SceneItem>): (r: seq<SceneItem>)
    ensures forall x :: x in r <==> x in objects && x.presetId.Some?
  {
    if |objects| == 0 then []
    else
      assert forall x :: x in objects <==> x == objects[0] || x in objects[1..];
      (if objects[0].presetId.Some? then [objects[0]] else []) + Presets(objects[1..])
  }

  /** The earlier `get_all_nms_objects`: when presets are captured, every
      preset object followed by the top-level parts in build order;
      otherwise every part in build order. */
  function LegacyAllObjects(objects: seq<SceneItem>, capturePresets: bool, skip: seq<string>): (r: seq<SceneItem>)
    ensures capturePresets ==>
      && |r| >= |Presets(objects)| && r[..|Presets(objects)|] == Presets(objects)
      && multiset(r[|Presets(objects)|..]) == multiset(KeptParts(objects, true, skip))
      && (forall i, j :: |Presets(objects)| <= i < j < |r| ==> ByOrder(r[i]) <= ByOrder(r[j]))
      && forall x :: x in r[|Presets(objects)|..] <==> x in objects && IsPart(x, true, skip)
    ensures !capturePresets ==>
      && multiset(r) == multiset(KeptParts(objects, false, skip))
      && forall i, j :: 0 <= i < j < |r| ==> ByOrder(r[i]) <= ByOrder(r[j])
    ensures !capturePresets ==> forall x :: x in r <==> x in objects && IsPart(x, false, skip)
  {
    if capturePresets then
      var presets := Presets(objects);
      var parts := AllParts(objects, true, skip);
      assert (presets + parts)[|presets|..] == parts;
      presets + parts
    else AllParts(objects, false, skip)
  }

  /** Without preset capture the earlier listing is the add-on's listing
      with presets kept. */
  lemma LegacyAllObjectsAgrees(objects: seq<SceneItem>, skip: seq<string>)
    ensures LegacyAllObjects(objects, false, skip) == AllParts(objects, false, skip)
  {
  }

  /** With capture, what follows the preset objects is the add-on's listing
      with preset members left out: the top-level parts, stably in build
      order. */
  lemma LegacyAllObjectsCaptured(objects: seq<SceneItem>, skip: seq<string>)
    ensures LegacyAllObjects(objects, true, skip)[|Presets(objects)|..] == AllParts(objects, true, skip)
  {
  }

  // --------------------------------------------------------- build order

  /** `build_item` for each id in turn: the item is stamped with the counter,
      which then goes up by one. The names are the ones the scene gave the
      new objects. */
  function BuildItems(counter: int, ids: seq<string>, names: seq<string>): (r: (seq<SceneItem>, int))
    requires |names| == |ids|
    ensures r.1 == counter + |ids|
    ensures |r.0| == |ids|
    ensures forall i :: 0 <= i < |ids| ==>
      r.0[i] == SceneItem(names[i], Some(ids[i]), None, false, Some(counter + i))
    decreases |ids|
  {
    if |ids| == 0 then ([], counter)
    else
      var rest := BuildItems(counter + 1, ids[1..], names[1..]);
      ([SceneItem(names[0], Some(ids[0]), None, false, Some(counter))] + rest.0, rest.1)
  }

  /** Listing freshly built parts in build order gives them back in the order
      they were built. */
  lemma BuiltInOrder(counter: int, ids: seq<string>, names: seq<string>)
    requires |names| == |ids|
    ensures SortBy(BuildItems(counter, ids, names).0, ByOrder) == BuildItems(counter, ids, names).0
  {
    var items := BuildItems(counter, ids, names).0;
    SortBySorted(items, ByOrder);
  }

  // ------------------------------------------------------------ retrieval

  datatype Retrieval = Duplicated(original: string) | Imported(name: string)

  /** `retrieve_part`: duplicate the cached object while it is still in the
      scene; otherwise import (or create) a new object, which the scene names
      `imported`, and cache that name. */
  function RetrievePart(cache: PartCache, scene: set<string>, part: string, imported: string): (r: (Retrieval, PartCache))
    ensures r.0.Duplicated? <==> part in cache && cache[part] in scene
    ensures r.0.Duplicated? ==> r.0.original == cache[part] && r.1 == cache
    ensures r.0.Imported? ==> r.0.name == imported && r.1 == AddToPartCache(cache, part, imported)
  {
    if part in cache && cache[part] in scene then (Duplicated(cache[part]), cache)
    else (Imported(imported), cache[part := imported])
  }

  /** Once a part has been imported, retrieving it again duplicates the new
      object for as long as it stays in the scene. */
  lemma RetrieveAgain(cache: PartCache, scene: set<string>, part: string, imported: string, next: string)
    ensures var first := RetrievePart(cache, scene, part, imported);
      var later := RetrievePart(first.1, scene + {imported}, part, next);
      first.0.Imported? ==> later == (Duplicated(imported), first.1)
  {
  }

  // ------------------------------------------------------------ part data

  /** The exported record of a part. Position and orientation vectors come
      from the object's world matrix; they are parameters here. */
  datatype PartData<V> = PartData(
    objectId: string,
    position: V,
    up: V,
    at: V,
    timestamp: Option<int>,
    userData: Option<int>)

  /** `get_part_data`: the ObjectID with a caret in front, and timestamp and
      colour data only for parts that are not inside a preset. */
  function PartDataOf<V>(id: string, position: V, up: V, at: V, timestamp: int, userData: int, isPreset: bool): (d: PartData<V>)
    ensures StartsWith(d.objectId, "^") && d.objectId[1..] == id
    ensures d.timestamp.Some? <==> !isPreset
    ensures d.userData.Some? <==> !isPreset
    ensures !isPreset ==> d.timestamp == Some(timestamp) && d.userData == Some(userData)
  {
    PartData("^" + id, position, up, at,
      if isPreset then None else Some(timestamp),
      if isPreset then None else Some(userData))
  }

  /** Loading strips every caret, which recovers a caret-free ObjectID. */
  lemma PartDataIdRoundTrip<V>(id: string, position: V, up: V, at: V, timestamp: int, userData: int, isPreset: bool)
    requires '^' !in id
    ensures RemoveAll(PartDataOf(id, position, up, at, timestamp, userData, isPreset).objectId, '^') == id
  {
    RemoveAllAppend("^", id, '^');
  }
}

=== FILE: control_merge.dfy ===
/** Merging end-point controls that sit at the same place
    (`optimise_control_points`). Controls are grouped by a key computed from
    their location (the add-on rounds each coordinate to three decimals and
    joins them with commas; here the key is a parameter). The first control
    of each group is kept; every other one is swapped out of the line it
    drives for the kept one and then disposed of: removed by the add-on,
    hidden by the earlier script. */
module ControlMerge {
  import opened Options
  import opened Assoc
  import opened PyUtils
  import opened Wiring

  // ------------------------------------------------------------ grouping

  /** The names of `names` whose key is `k`, in order. */
  function WithKey<K(==)>(names: seq<string>, key: string -> K, k: K): (r: seq<string>)
    ensures |r| <= |names|
  {
    if |names| == 0 then [] else (if key(names[0]) == k then [names[0]] else []) + WithKey(names[1..], key, k)
  }

  /** The group of `k` holds exactly the names whose key is `k`, and is empty
      exactly when no name has that key. */
  lemma {:induction false} WithKeyMembers<K>(names: seq<string>, key: string -> K, k: K)
    ensures forall n :: n in WithKey(names, key, k) <==> n in names && key(n) == k
    ensures |WithKey(names, key, k)| == 0 <==> forall n :: n in names ==> key(n) != k
  {
    if |names| > 0 {
      WithKeyMembers(names[1..], key, k);
      assert forall n :: n in names <==> n == names[0] || n in names[1..];
    }
  }

  /** Appending a name extends its key's group and no other. */
  lemma {:induction false} WithKeySnoc<K>(names: seq<string>, last: string, key: string -> K, k: K)
    ensures WithKey(names + [last], key, k) == WithKey(names, key, k) + (if key(last) == k then [last] else [])
  {
    var tail := if key(last) == k then [last] else [];
    if |names| == 0 {
      assert names + [last] == [last];
      WithKeyStep([last], key, k);
      assert WithKey([last][1..], key, k) == [];
    } else {
      var s := names + [last];
      var head := if key(names[0]) == k then [names[0]] else [];
      WithKeyStep(s, key, k);
      WithKeyStep(names, key, k);
      assert s[0] == names[0];
      assert s[1..] == names[1..] + [last];
      WithKeySnoc(names[1..], last, key, k);
      assert head + (WithKey(names[1..], key, k) + tail) == (head + WithKey(names[1..], key, k)) + tail;
    }
  }

  lemma WithKeyStep<K>(names: seq<string>, key: string -> K, k: K)
    requires |names| > 0
    ensures WithKey(names, key, k) == (if key(names[0]) == k then [names[0]] else []) + WithKey(names[1..], key, k)
  {
  }

  lemma {:induction false} WithKeyDistinct<K>(names: seq<string>, key: string -> K, k: K)
    requires Distinct(names)
    ensures Distinct(WithKey(names, key, k))
  {
    if |names| > 0 {
      var rest := names[1..];
      assert Distinct(rest) by {
        forall i, j | 0 <= i < j < |rest| ensures rest[i] != rest[j] {
          assert rest[i] == names[i + 1] && rest[j] == names[j + 1];
        }
      }
      WithKeyDistinct(rest, key, k);
      WithKeyMembers(rest, key, k);
      assert names[0] !in rest by {
        forall i | 0 <= i < |rest| ensures rest[i] != names[0] {
          assert rest[i] == names[i + 1];
        }
      }
    }
  }

  /** The position of the first name whose key is `k`. */
  function FirstWithKey<K(==)>(names: seq<string>, key: string -> K, k: K): (i: nat)
    requires exists j :: 0 <= j < |names| && key(names[j]) == k
    ensures i < |names| && key(names[i]) == k
    ensures forall j :: 0 <= j < i ==> key(names[j]) != k
  {
    if key(names[0]) == k then 0
    else
      assert exists j :: 0 <= j < |names[1..]| && key(names[1..][j]) == k by {
        var j :| 0 <= j < |names| && key(names[j]) == k;
        assert names[1..][j - 1] == names[j];
      }
      1 + FirstWithKey(names[1..], key, k)
  }

  /** The group of a key starts with the first name having that key. */
  lemma {:induction false} WithKeyStartsWithFirst<K>(names: seq<string>, key: string -> K, k: K)
    requires exists j :: 0 <= j < |names| && key(names[j]) == k
    ensures |WithKey(names, key, k)| > 0
    ensures WithKey(names, key, k)[0] == names[FirstWithKey(names, key, k)]
  {
    if key(names[0]) != k {
      var rest := names[1..];
      assert exists j :: 0 <= j < |rest| && key(rest[j]) == k by {
        var j :| 0 <= j < |names| && key(names[j]) == k;
        assert rest[j - 1] == names[j];
      }
      WithKeyStartsWithFirst(rest, key, k);
      assert rest[FirstWithKey(rest, key, k)] == names[FirstWithKey(names, key, k)];
    }
  }

  /** `power_control_reference[key].append(control)` on an ordered map of
      groups with distinct keys: the group is extended, or added at the end
      when the key is new. */
  function AddToGroup<K(==)>(groups: Assoc<K, seq<string>>, k: K, n: string): (r: Assoc<K, seq<string>>)
    requires UniqueKeys(groups)
    ensures UniqueKeys(r)
    ensures |r| == if k in Keys(groups) then |groups| else |groups| + 1
    ensures forall i :: 0 <= i < |groups| ==>
      r[i] == if groups[i].0 == k then (k, groups[i].1 + [n]) else groups[i]
    ensures k !in Keys(groups) ==> r[|groups|] == (k, [n])
  {
    if k in Keys(groups) then
      seq(|groups|, i requires 0 <= i < |groups| => if groups[i].0 == k then (k, groups[i].1 + [n]) else groups[i])
    else
      assert forall i :: 0 <= i < |groups| ==> groups[i].0 == Keys(groups)[i];
      groups + [(k, [n])]
  }

  /** The `defaultdict(list)` of controls by key, in the order keys first
      appear. */
  function GroupBy<K(==)>(names: seq<string>, key: string -> K): (groups: Assoc<K, seq<string>>)
    ensures UniqueKeys(groups)
  {
    if |names| == 0 then []
    else AddToGroup(GroupBy(names[..|names| - 1], key), key(names[|names| - 1]), names[|names| - 1])
  }

  /** Every name's key has a group. */
  lemma {:induction false} GroupByCovers<K>(names: seq<string>, key: string -> K)
    ensures forall n :: n in names ==> key(n) in Keys(GroupBy(names, key))
  {
    if |names| > 0 {
      var init := names[..|names| - 1];
      var last := names[|names| - 1];
      assert names == init + [last];
      GroupByCovers(init, key);
      var before := GroupBy(init, key);
      var r := GroupBy(names, key);
      assert r == AddToGroup(before, key(last), last);
      forall n | n in names
        ensures key(n) in Keys(r)
      {
        if n == last {
          if key(last) in Keys(before) {
            var j := KeyIndex(before, key(last));
            assert Keys(r)[j] == r[j].0 == key(last);
          } else {
            assert Keys(r)[|before|] == r[|before|].0;
          }
        } else {
          assert n in init;
          var j := KeyIndex(before, key(n));
          assert Keys(r)[j] == r[j].0 == key(n);
        }
      }
    }
  }

  /** Each group holds, in order, exactly the names with its key, and is
      not empty. */
  lemma {:induction false} GroupByGroups<K>(names: seq<string>, key: string -> K)
    ensures forall i :: 0 <= i < |GroupBy(names, key)| ==>
      GroupBy(names, key)[i].1 == WithKey(names, key, GroupBy(names, key)[i].0) && |GroupBy(names, key)[i].1| > 0
  {
    if |names| > 0 {
      var init := names[..|names| - 1];
      var last := names[|names| - 1];
      assert names == init + [last];
      GroupByGroups(init, key);
      GroupByCovers(init, key);
      var before := GroupBy(init, key);
      var r := AddToGroup(before, key(last), last);
      assert GroupBy(names, key) == r;
      forall i | 0 <= i < |r|
        ensures r[i].1 == WithKey(init + [last], key, r[i].0) && |r[i].1| > 0
      {
        GroupAfterAppend(before, init, last, key, i);
      }
    }
  }

  /** The controls that are swapped out: all but the first of each group. */
  function Duplicates<K>(groups: Assoc<K, seq<string>>): (d: set<string>)
    ensures forall m :: m in d <==> exists i :: 0 <= i < |groups| && |groups[i].1| > 0 && m in groups[i].1[1..]
  {
    if |groups| == 0 then {}
    else
      var rest := Duplicates(groups[1..]);
      assert forall i :: 1 <= i < |groups| ==> groups[i] == groups[1..][i - 1];
      (if |groups[0].1| > 0 then set m | m in groups[0].1[1..] else {}) + rest
  }

  /** One step of the grouping: after appending `last`, every group still
      holds exactly the names with its key. */
  lemma GroupAfterAppend<K>(before: Assoc<K, seq<string>>, init: seq<string>, last: string, key: string -> K, i: nat)
    requires UniqueKeys(before)
    requires forall j :: 0 <= j < |before| ==> before[j].1 == WithKey(init, key, before[j].0) && |before[j].1| > 0
    requires forall m :: m in init ==> key(m) in Keys(before)
    requires i < |AddToGroup(before, key(last), last)|
    ensures var r := AddToGroup(before, key(last), last);
      r[i].1 == WithKey(init + [last], key, r[i].0) && |r[i].1| > 0
  {
    var r := AddToGroup(before, key(last), last);
    var k := r[i].0;
    WithKeySnoc(init, last, key, k);
    if i < |before| {
      assert before[i].1 == WithKey(init, key, before[i].0);
      if before[i].0 == key(last) {
        assert r[i] == (key(last), before[i].1 + [last]);
      } else {
        assert r[i] == before[i];
        assert WithKey(init, key, k) + [] == WithKey(init, key, k);
      }
    } else {
      assert key(last) !in Keys(before);
      WithKeyMembers(init, key, k);
      assert |WithKey(init, key, k)| == 0;
    }
  }

  /** With distinct names every group is non-empty and duplicate-free. */
  lemma GroupsDistinct<K>(names: seq<string>, key: string -> K)
    requires Distinct(names)
    ensures forall i :: 0 <= i < |GroupBy(names, key)| ==>
      |GroupBy(names, key)[i].1| > 0 && Distinct(GroupBy(names, key)[i].1)
  {
    var groups := GroupBy(names, key);
    GroupByGroups(names, key);
    forall i | 0 <= i < |groups|
      ensures |groups[i].1| > 0 && Distinct(groups[i].1)
    {
      WithKeyDistinct(names, key, groups[i].0);
    }
  }

  /** In a duplicate-free sequence, a member is in the tail exactly when it
      is not the head. */
  lemma InTail(group: seq<string>, n: string)
    requires Distinct(group)
    requires n in group
    ensures n in group[1..] <==> n != group[0]
  {
    if n != group[0] {
      var p :| 0 <= p < |group| && group[p] == n;
      assert group[1..][p - 1] == n;
    } else {
      forall q | 1 <= q < |group| ensures group[q] != group[0] {}
    }
  }

  /** A name appears in the group of its own key only. */
  lemma OnlyOwnGroup<K>(names: seq<string>, key: string -> K, n: string, i: nat)
    requires i < |GroupBy(names, key)|
    requires n in GroupBy(names, key)[i].1
    ensures n in names && GroupBy(names, key)[i].0 == key(n)
    ensures key(n) in Keys(GroupBy(names, key)) && i == KeyIndex(GroupBy(names, key), key(n))
  {
    var groups := GroupBy(names, key);
    GroupByGroups(names, key);
    assert groups[i].1 == WithKey(names, key, groups[i].0);
    assert Keys(groups)[i] == groups[i].0;
    assert UniqueKeys(groups);
  }

  /** With distinct names, the swapped-out controls are exactly the names
      that some earlier name shares a key with. */
  lemma DuplicatesAreLaterNames<K>(names: seq<string>, key: string -> K, n: string)
    requires Distinct(names)
    ensures n in Duplicates(GroupBy(names, key)) <==>
      n in names && n != names[FirstWithKey(names, key, key(n))]
  {
    var groups := GroupBy(names, key);
    if n in Duplicates(groups) {
      var i :| 0 <= i < |groups| && |groups[i].1| > 0 && n in groups[i].1[1..];
      assert n in groups[i].1;
      OnlyOwnGroup(names, key, n, i);
      LaterNameAt(names, key, n, i);
    } else if n in names {
      GroupByCovers(names, key);
      var i := KeyIndex(groups, key(n));
      GroupByGroups(names, key);
      WithKeyMembers(names, key, key(n));
      assert n in groups[i].1;
      LaterNameAt(names, key, n, i);
    }
  }

  /** Within the group of `n`'s key, `n` is past the head exactly when an
      earlier name has its key. */
  lemma LaterNameAt<K>(names: seq<string>, key: string -> K, n: string, i: nat)
    requires Distinct(names)
    requires i < |GroupBy(names, key)| && n in GroupBy(names, key)[i].1
    requires GroupBy(names, key)[i].0 == key(n)
    ensures n in names
    ensures |GroupBy(names, key)[i].1| > 0
    ensures n in GroupBy(names, key)[i].1[1..] <==> n != names[FirstWithKey(names, key, key(n))]
  {
    var group := GroupBy(names, key)[i].1;
    GroupByGroups(names, key);
    GroupsDistinct(names, key);
    assert group == WithKey(names, key, key(n));
    WithKeyMembers(names, key, key(n));
    var j :| 0 <= j < |names| && names[j] == n;
    WithKeyStartsWithFirst(names, key, key(n));
    InTail(group, n);
  }

  // ----------------------------------------------------------- swapping

  datatype Disposal = Remove | Hide

  /** The lookups a swap makes succeed: the control and the kept control
      exist, the control names its line, and the line names two existing
      controls. Where one fails the script raises. */
  predicate Resolves(rig: Rig, control: string, keep: string) {
    && control in rig.controls && keep in rig.controls
    && rig.controls[control].powerLine.Some?
    && var line := rig.controls[control].powerLine.value;
      && line in rig.lines
      && rig.lines[line].start.Some? && rig.lines[line].start.value in rig.controls
      && rig.lines[line].end.Some? && rig.lines[line].end.value in rig.controls
  }

  function Dispose(rig: Rig, control: string, disposal: Disposal): (r: Rig)
    requires control in rig.controls
    ensures r.lines == rig.lines
    ensures disposal.Remove? ==> r.controls == rig.controls - {control}
    ensures disposal.Hide? ==> r.controls == rig.controls[control := rig.controls[control].(hidden := true)]
  {
    match disposal
    case Remove => rig.(controls := rig.controls - {control})
    case Hide => rig.(controls := rig.controls[control := rig.controls[control].(hidden := true)])
  }

  /** One swap: the line `control` drives is re-rigged with `keep` in place
      of its start when `control` is that start, and in place of its end
      otherwise; then `control` is disposed of. None where a lookup fails. */
  function ReplaceDuplicate(rig: Rig, control: string, keep: string, disposal: Disposal): (r: Option<Rig>)
    requires control != keep
    ensures r.Some? <==> Resolves(rig, control, keep)
    ensures r.Some? ==> r.value.lines.Keys == rig.lines.Keys
    ensures r.Some? && disposal.Remove? ==> r.value.controls.Keys == rig.controls.Keys - {control}
    ensures r.Some? && disposal.Hide? ==> r.value.controls.Keys == rig.controls.Keys && r.value.controls[control].hidden
    ensures r.Some? ==> forall c :: c in rig.controls && c != control ==>
      c in r.value.controls && r.value.controls[c].hidden == rig.controls[c].hidden
  {
    if !Resolves(rig, control, keep) then None
    else
      var line := rig.controls[control].powerLine.value;
      var w := rig.lines[line];
      // Both ends are named, so no control is created and no template is needed.
      var rewired :=
        if w.start == Some(control) then BuildRig(rig, line, Some(keep), w.end, None)
        else BuildRig(rig, line, w.start, Some(keep), None);
      Some(Dispose(rewired, control, disposal))
  }

  /** What one swap rewires: the driven line takes `keep` in place of the
      duplicate at whichever end the duplicate held, `keep` links back to the
      line, and controls away from that line are untouched. */
  lemma ReplaceDuplicateRewires(rig: Rig, control: string, keep: string, disposal: Disposal)
    requires control != keep && Resolves(rig, control, keep)
    ensures ReplaceDuplicate(rig, control, keep, disposal).Some?
    ensures var r := ReplaceDuplicate(rig, control, keep, disposal).value;
      var line := rig.controls[control].powerLine.value;
      var w := rig.lines[line];
      && r.lines == rig.lines[line := if w.start == Some(control) then w.(start := Some(keep)) else w.(end := Some(keep))]
      && keep in r.controls && r.controls[keep].powerLine == Some(line)
      && (forall c :: c in rig.controls && c != control && c != keep && Some(c) != w.start && Some(c) != w.end ==>
            r.controls[c] == rig.controls[c])
  {
  }

  /** The swaps of one group, in order: each of `others` for `keep`. */
  function ReplaceAll(rig: Rig, keep: string, others: seq<string>, disposal: Disposal): (r: Option<Rig>)
    requires keep !in others
    ensures r.Some? ==> r.value.lines.Keys == rig.lines.Keys
    ensures r.Some? && disposal.Remove? ==> r.value.controls.Keys == rig.controls.Keys - set m | m in others
    ensures r.Some? && disposal.Hide? ==> r.value.controls.Keys == rig.controls.Keys
    ensures r.Some? ==> forall c :: c in rig.controls && rig.controls[c].hidden && c !in others ==> r.value.controls[c].hidden
    ensures r.Some? && disposal.Hide? ==> forall m :: m in others ==> m in r.value.controls && r.value.controls[m].hidden
    decreases |others|
  {
    if |others| == 0 then Some(rig)
    else
      match ReplaceDuplicate(rig, others[0], keep, disposal)
      case None => None
      case Some(next) =>
        assert forall m :: m in others[1..] ==> m in others;
        ReplaceAll(next, keep, others[1..], disposal)
  }

  /** The loop over the groups, in order; a group of one is left alone. */
  function MergeGroups<K>(rig: Rig, groups: Assoc<K, seq<string>>, disposal: Disposal): (r: Option<Rig>)
    requires forall i :: 0 <= i < |groups| ==> |groups[i].1| > 0 && Distinct(groups[i].1)
    ensures r.Some? ==> r.value.lines.Keys == rig.lines.Keys
    ensures r.Some? && disposal.Remove? ==> r.value.controls.Keys == rig.controls.Keys - Duplicates(groups)
    ensures r.Some? && disposal.Hide? ==> r.value.controls.Keys == rig.controls.Keys
    ensures r.Some? && disposal.Hide? ==> forall m :: m in Duplicates(groups) ==> m in r.value.controls && r.value.controls[m].hidden
    ensures r.Some? && disposal.Hide? ==> forall c :: c in rig.controls && rig.controls[c].hidden ==> r.value.controls[c].hidden
    decreases |groups|
  {
    if |groups| == 0 then Some(rig)
    else
      var group := groups[0].1;
      assert Distinct(group);
      assert group[0] !in group[1..] by {
        forall q | 1 <= q < |group| ensures group[q] != group[0] {}
      }
      assert forall i :: 1 <= i < |groups| ==> groups[i] == groups[1..][i - 1];
      match ReplaceAll(rig, group[0], group[1..], disposal)
      case None => None
      case Some(next) => MergeGroups(next, groups[1..], disposal)
  }

  /** `Builder.optimise_control_points` over the scene's controls `names`:
      the swapped-out controls are removed and nothing else is; the lines
      stay. */
  function OptimiseControlPoints<K(==)>(rig: Rig, names: seq<string>, key: string -> K): (r: Option<Rig>)
    requires Distinct(names)
    ensures r.Some? ==> r.value.lines.Keys == rig.lines.Keys
    ensures r.Some? ==> r.value.controls.Keys == rig.controls.Keys - Duplicates(GroupBy(names, key))
  {
    var groups := GroupBy(names, key);
    assert forall i :: 0 <= i < |groups| ==> |groups[i].1| > 0 && Distinct(groups[i].1) by {
      GroupsDistinct(names, key);
    }
    MergeGroups(rig, groups, Remove)
  }

  /** The earlier `optimise_control_points`: the swapped-out controls are
      hidden, not deleted, so no control disappears. */
  function LegacyOptimiseControlPoints<K(==)>(rig: Rig, names: seq<string>, key: string -> K): (r: Option<Rig>)
    requires Distinct(names)
    ensures r.Some? ==> r.value.lines.Keys == rig.lines.Keys && r.value.controls.Keys == rig.controls.Keys
    ensures r.Some? ==> forall m :: m in Duplicates(GroupBy(names, key)) ==> m in r.value.controls && r.value.controls[m].hidden
  {
    var groups := GroupBy(names, key);
    assert forall i :: 0 <= i < |groups| ==> |groups[i].1| > 0 && Distinct(groups[i].1) by {
      GroupsDistinct(names, key);
    }
    MergeGroups(rig, groups, Hide)
  }

  /** Hiding rather than removing keeps every line's controls in the rig. */
  lemma {:induction false} HidingKeepsWellFormed<K>(rig: Rig, groups: Assoc<K, seq<string>>)
    requires WellFormed(rig)
    requires forall i :: 0 <= i < |groups| ==> |groups[i].1| > 0 && Distinct(groups[i].1)
    ensures MergeGroups(rig, groups, Hide).Some? ==> WellFormed(MergeGroups(rig, groups, Hide).value)
    decreases |groups|
  {
    if |groups| > 0 {
      var group := groups[0].1;
      assert Distinct(group);
      assert group[0] !in group[1..] by {
        forall q | 1 <= q < |group| ensures group[q] != group[0] {}
      }
      assert forall i :: 1 <= i < |groups| ==> groups[i] == groups[1..][i - 1];
      var next := ReplaceAll(rig, group[0], group[1..], Hide);
      if next.Some? {
        ReplaceAllHidingKeepsWellFormed(rig, group[0], group[1..]);
        HidingKeepsWellFormed(next.value, groups[1..]);
      }
    }
  }

  lemma {:induction false} ReplaceAllHidingKeepsWellFormed(rig: Rig, keep: string, others: seq<string>)
    requires WellFormed(rig)
    requires keep !in others
    ensures ReplaceAll(rig, keep, others, Hide).Some? ==> WellFormed(ReplaceAll(rig, keep, others, Hide).value)
    decreases |others|
  {
    if |others| > 0 {
      var step := ReplaceDuplicate(rig, others[0], keep, Hide);
      if step.Some? {
        var line := rig.controls[others[0]].powerLine.value;
        var w := rig.lines[line];
        if w.start == Some(others[0]) {
          BuildRigWellFormed(rig, line, Some(keep), w.end, None);
        } else {
          BuildRigWellFormed(rig, line, w.start, Some(keep), None);
        }
        assert forall m :: m in others[1..] ==> m in others;
        ReplaceAllHidingKeepsWellFormed(step.value, keep, others[1..]);
      }
    }
  }

  /** The swapped-out controls of the add-on's merge are exactly the
      controls that share a location key with an earlier control. */
  lemma OptimiseRemovesLaterControls<K>(rig: Rig, names: seq<string>, key: string -> K, n: string)
    requires Distinct(names)
    requires OptimiseControlPoints(rig, names, key).Some?
    requires n in rig.controls
    ensures n !in OptimiseControlPoints(rig, names, key).value.controls <==>
      n in names && n != names[FirstWithKey(names, key, key(n))]
  {
    DuplicatesAreLaterNames(names, key, n);
  }
}

=== FILE: export.dfy ===
/** Export in the original script: the direction vectors read off a world
    matrix, the objects written to the base data and the owner details. The
    matrix arithmetic itself (the axis compensation and decomposition) is not
    modelled; matrices are rows of an arbitrary element type. */
module Export {
  import opened Options
  import opened Text
  import opened PyUtils
  import opened Sorting

  // ----------------------------------------------------------- directions

  /** `get_direction_vector`: column 1 of the first three rows for "up",
      column 2 for "at", and zeros for anything else. */
  function DirectionVector<R>(m: seq<seq<R>>, direction: string, zero: R): (r: seq<R>)
    requires |m| >= 3 && |m[0]| >= 3 && |m[1]| >= 3 && |m[2]| >= 3
    ensures |r| == 3
  {
    if direction == "up" then [m[0][1], m[1][1], m[2][1]]
    else if direction == "at" then [m[0][2], m[1][2], m[2][2]]
    else [zero, zero, zero]
  }

  /** The 4x4 matrix with the given first three columns (x axis, up, at) over
      the first three rows and `pos` as its translation column. */
  function FromColumns<R>(x: seq<R>, up: seq<R>, at: seq<R>, pos: seq<R>, zero: R, one: R): (m: seq<seq<R>>)
    requires |x| == 3 && |up| == 3 && |at| == 3 && |pos| == 3
    ensures |m| == 4 && forall i :: 0 <= i < 4 ==> |m[i]| == 4
  {
    [[x[0], up[0], at[0], pos[0]],
     [x[1], up[1], at[1], pos[1]],
     [x[2], up[2], at[2], pos[2]],
     [zero, zero, zero, one]]
  }

  /** Reading a matrix's directions gives back the columns it was built
      from; any other direction reads as zeros. */
  lemma DirectionOfColumns<R>(x: seq<R>, up: seq<R>, at: seq<R>, pos: seq<R>, zero: R, one: R, other: string)
    requires |x| == 3 && |up| == 3 && |at| == 3 && |pos| == 3
    requires other != "up" && other != "at"
    ensures DirectionVector(FromColumns(x, up, at, pos, zero, one), "up", zero) == up
    ensures DirectionVector(FromColumns(x, up, at, pos, zero, one), "at", zero) == at
    ensures DirectionVector(FromColumns(x, up, at, pos, zero, one), other, zero) == [zero, zero, zero]
  {
  }

  // ------------------------------------------------------------- objects

  /** A scene object with the custom properties export reads. */
  datatype ExportObject = ExportObject(
    objectId: Option<string>,
    presetObject: bool,
    isPreset: Option<int>,
    order: Option<int>)

  /** `by_order`: the "order" property, 0 when absent. */
  function OrderOf(o: ExportObject): int {
    o.order.GetOr(0)
  }

  /** The elements satisfying `p`, in order, each as often as in `s`. */
  function Filter<T>(s: seq<T>, p: T -> bool): (r: seq<T>)
    ensures |r| <= |s|
  {
    if |s| == 0 then [] else (if p(s[0]) then [s[0]] else []) + Filter(s[1..], p)
  }

  /** Each element is kept as often as it occurs when it satisfies `p`, and
      dropped otherwise. */
  lemma {:induction false} FilterCounts<T>(s: seq<T>, p: T -> bool, x: T)
    ensures multiset(Filter(s, p))[x] == if p(x) then multiset(s)[x] else 0
  {
    if |s| > 0 {
      assert s == [s[0]] + s[1..];
      FilterCounts(s[1..], p, x);
    }
  }

  /** Filtering two arrangements of the same elements keeps the same
      elements. */
  lemma FilterPermutation<T(!new)>(a: seq<T>, b: seq<T>, p: T -> bool)
    requires multiset(a) == multiset(b)
    ensures multiset(Filter(a, p)) == multiset(Filter(b, p))
  {
    forall x ensures multiset(Filter(a, p))[x] == multiset(Filter(b, p))[x] {
      FilterCounts(a, p, x);
      FilterCounts(b, p, x);
    }
  }

  /** Every key in `s` is at least `b`. */
  predicate KeysFrom<T>(s: seq<T>, key: T -> int, b: int) {
    forall i :: 0 <= i < |s| ==> b <= key(s[i])
  }

  /** The keys of `s` never decrease. */
  predicate KeySorted<T>(s: seq<T>, key: T -> int) {
    forall i, j :: 0 <= i < j < |s| ==> key(s[i]) <= key(s[j])
  }

  lemma FilterStep<T>(s: seq<T>, p: T -> bool)
    requires |s| > 0
    ensures Filter(s, p) == (if p(s[0]) then [s[0]] else []) + Filter(s[1..], p)
  {
  }

  lemma {:induction false} FilterKeysFrom<T>(s: seq<T>, p: T -> bool, key: T -> int, b: int)
    requires KeysFrom(s, key, b)
    ensures KeysFrom(Filter(s, p), key, b)
  {
    if |s| > 0 {
      assert KeysFrom(s[1..], key, b) by {
        forall i | 0 <= i < |s[1..]| ensures b <= key(s[1..][i]) {
          assert s[1..][i] == s[i + 1];
        }
      }
      FilterKeysFrom(s[1..], p, key, b);
      FilterStep(s, p);
    }
  }

  /** Filtering a list sorted by key keeps it sorted. */
  lemma {:induction false} FilterSorted<T>(s: seq<T>, p: T -> bool, key: T -> int)
    requires KeySorted(s, key)
    ensures KeySorted(Filter(s, p), key)
  {
    if |s| > 0 {
      var tail := s[1..];
      assert KeySorted(tail, key) by {
        forall i, j | 0 <= i < j < |tail| ensures key(tail[i]) <= key(tail[j]) {
          assert tail[i] == s[i + 1] && tail[j] == s[j + 1];
        }
      }
      assert KeysFrom(tail, key, key(s[0])) by {
        forall i | 0 <= i < |tail| ensures key(s[0]) <= key(tail[i]) {
          assert tail[i] == s[i + 1];
        }
      }
      FilterSorted(tail, p, key);
      FilterKeysFrom(tail, p, key, key(s[0]));
      FilterStep(s, p);
      var rest := Filter(tail, p);
      if p(s[0]) {
        var r := [s[0]] + rest;
        forall i, j | 0 <= i < j < |r| ensures key(r[i]) <= key(r[j]) {
          assert r[j] == rest[j - 1];
          if i > 0 {
            assert r[i] == rest[i - 1];
          }
        }
      } else {
        assert Filter(s, p) == rest;
      }
    }
  }

  predicate Exported(o: ExportObject) {
    o.objectId.Some? && !o.presetObject
  }

  predicate CapturedPreset(o: ExportObject) {
    o.objectId.Some? && o.presetObject
  }

  predicate CapturedObject(o: ExportObject) {
    o.objectId.Some? && o.isPreset == Some(0)
  }

  datatype BaseObjects = BaseObjects(objects: seq<ExportObject>, presets: Option<seq<ExportObject>>)

  /** `generate_data`'s object lists, in build order. Without preset capture
      every object with an objectID goes out except preset controls, and no
      "Presets" list is written; with it, preset controls go to "Presets" and
      only objects outside presets go to "Objects". */
  function GenerateData(scene: seq<ExportObject>, capturePresets: bool): (r: BaseObjects)
    ensures r.presets.Some? <==> capturePresets
    ensures !capturePresets ==> multiset(r.objects) == multiset(Filter(scene, Exported))
    ensures capturePresets ==> multiset(r.objects) == multiset(Filter(scene, CapturedObject))
    ensures capturePresets ==> multiset(r.presets.value) == multiset(Filter(scene, CapturedPreset))
    ensures KeySorted(r.objects, OrderOf)
    ensures r.presets.Some? ==> KeySorted(r.presets.value, OrderOf)
  {
    var sorted := SortBy(scene, OrderOf);
    if !capturePresets then
      FilterSorted(sorted, Exported, OrderOf);
      FilterPermutation(sorted, scene, Exported);
      BaseObjects(Filter(sorted, Exported), None)
    else
      FilterSorted(sorted, CapturedObject, OrderOf);
      FilterSorted(sorted, CapturedPreset, OrderOf);
      FilterPermutation(sorted, scene, CapturedObject);
      FilterPermutation(sorted, scene, CapturedPreset);
      BaseObjects(Filter(sorted, CapturedObject), Some(Filter(sorted, CapturedPreset)))
  }

  predicate HasObjectId(o: ExportObject) {
    o.objectId.Some?
  }

  /** `generate_preset_data`: every object with an objectID, preset controls
      included, in build order. */
  function GeneratePresetData(scene: seq<ExportObject>): (r: seq<ExportObject>)
    ensures multiset(r) == multiset(Filter(scene, HasObjectId))
    ensures KeySorted(r, OrderOf)
  {
    var sorted := SortBy(scene, OrderOf);
    FilterSorted(sorted, HasObjectId, OrderOf);
    FilterPermutation(sorted, scene, HasObjectId);
    Filter(sorted, HasObjectId)
  }

  /** A preset saved from the scene holds everything the base export holds
      without preset capture, and the preset controls besides. */
  lemma PresetDataCoversExport(scene: seq<ExportObject>, o: ExportObject)
    requires o in GenerateData(scene, false).objects
    ensures o in GeneratePresetData(scene)
  {
    assert o in multiset(GenerateData(scene, false).objects);
    FilterCounts(scene, Exported, o);
    FilterCounts(scene, HasObjectId, o);
    assert o in multiset(GeneratePresetData(scene));
  }

  /** An ordinary object outside any preset is exported in both modes. */
  lemma GenerateDataModesAgree(scene: seq<ExportObject>, o: ExportObject)
    requires o in scene && o.objectId.Some? && !o.presetObject && o.isPreset == Some(0)
    ensures o in GenerateData(scene, false).objects
    ensures o in GenerateData(scene, true).objects
  {
    assert o in multiset(scene);
    FilterCounts(scene, Exported, o);
    FilterCounts(scene, CapturedObject, o);
    assert o in multiset(GenerateData(scene, false).objects);
    assert o in multiset(GenerateData(scene, true).objects);
  }

  /** Without capture, preset controls never reach the object list; with
      capture, a preset control lands in the preset list. */
  lemma GenerateDataPresetControls(scene: seq<ExportObject>, o: ExportObject)
    requires o in scene && o.objectId.Some? && o.presetObject
    ensures o !in GenerateData(scene, false).objects
    ensures o in GenerateData(scene, true).presets.value
  {
    assert o in multiset(scene);
    FilterCounts(scene, Exported, o);
    FilterCounts(scene, CapturedPreset, o);
    assert o !in multiset(GenerateData(scene, false).objects);
    assert o in multiset(GenerateData(scene, true).presets.value);
  }

  // ------------------------------------------------------------ header

  /** The owner block of the base data; the timestamp becomes an integer
      when it reads as one. */
  datatype Owner = Owner(uid: string, lid: string, usn: string, ts: PyValue)

  /** `get_user_details`. */
  function UserDetails(uid: string, lid: string, usn: string, ts: string): (o: Owner)
    ensures o.uid == uid && o.lid == lid && o.usn == usn
    ensures ParseInt(ts).Some? ==> o.ts == PyInt(ParseInt(ts).value)
    ensures ParseInt(ts).None? ==> o.ts == PyStr(ts)
  {
    Owner(uid, lid, usn, PreferInt(PyStr(ts)))
  }

  /** The galactic address, an integer when it reads as one. */
  function GalacticAddress(address: string): (v: PyValue)
    ensures ParseInt(address).Some? ==> v == PyInt(ParseInt(address).value)
    ensures ParseInt(address).None? ==> v == PyStr(address)
  {
    PreferInt(PyStr(address))
  }

  /** Numbers written out as text come back as the same numbers. */
  lemma HeaderNumbersReadBack(uid: string, lid: string, usn: string, ts: int, address: int)
    ensures UserDetails(uid, lid, usn, IntToString(ts)).ts == PyInt(ts)
    ensures GalacticAddress(IntToString(address)) == PyInt(address)
  {
    ParseIntOfIntToString(ts);
    ParseIntOfIntToString(address);
  }
}

=== FILE: legacy_snap.dfy ===
/** The standalone predecessor of the snapping code (`snap.py`). It works on
    scene objects with an `objectID` custom property rather than on part
    wrappers, compares objectIDs to decide whether two objects are of the same
    type, starts both keys as None, and only places and remembers when both
    keys are non-empty; otherwise it falls off the end and returns None. A
    missing snap point it does look up raises. */
module LegacySnap {
  import opened Options
  import opened Assoc
  import opened PyUtils
  import opened Transforms
  import opened SnapTables
  import opened SnapEngine

  datatype SceneObject<T> = SceneObject(name: string, objectId: Option<string>, matrix: T)

  datatype LegacyOutcome<T> = LegacyOutcome(source: SceneObject<T>, cache: SnapCache, ret: Ret)

  /** `cycle_keys`: the same stepping as the utility module's adjacent-key
      lookup. */
  function CycleKeys(data: seq<string>, current: string, step: Step): (r: string)
    requires |data| > 0
    ensures r in data
    ensures r == AdjacentKey(data, current, step)
  {
    var i: int := if current in data then IndexOf(data, current) else 0;
    var next := if step.Next? then i + 1 else i - 1;
    var wrappedHigh := if next > |data| - 1 then 0 else next;
    var wrapped := if wrappedHigh < 0 then |data| - 1 else wrappedHigh;
    data[wrapped]
  }

  /** `get_snap_matrices_from_group` applied to `get_snap_group_from_part`. */
  function LegacyPoints<T>(info: SnapInfo<T>, id: string): Option<Points<T>> {
    PointsOfGroup(info, GroupOf(info, id))
  }


  /** Under the pairing `p`, whenever both objects carry snap points, every
      non-empty option names a point and, between objects of the same id,
      every opposite of a target option names a source point. */
  predicate PairingResolves<T>(info: SnapInfo<T>, p: PairEntry, sourceId: string, targetId: string) {
    var targetPoints := LegacyPoints(info, targetId);
    var sourcePoints := LegacyPoints(info, sourceId);
    var targetOptions := ParseOptions(p.targetOptions);
    var sourceOptions := ParseOptions(p.sourceOptions);
    HasPoints(targetPoints) && HasPoints(sourcePoints) ==>
      && OptionsResolve(targetOptions, targetPoints.value)
      && OptionsResolve(sourceOptions, sourcePoints.value)
      && (sourceId == targetId ==> OppositesResolve(targetOptions, targetPoints.value, sourcePoints.value))
  }

  /** The tables are consistent for the two objects: when both carry an
      objectID and are paired, the pairing resolves. */
  predicate LegacyTablesConsistent<T>(info: SnapInfo<T>, pairs: PairTable, source: SceneObject<T>, target: SceneObject<T>) {
    source.objectId.Some? && target.objectId.Some? ==>
      match PairOptions(info, pairs, target.objectId.value, source.objectId.value)
      case None => true
      case Some(p) => PairingResolves(info, p, source.objectId.value, target.objectId.value)
  }

  /** `key` is set and names one of `points`. */
  predicate Names<T>(points: Option<Points<T>>, key: Option<string>) {
    points.Some? && key.Some? && key.value in Keys(points.value)
  }

  /** The (source key, target key) pair, each None when its object's group
      has no snap points. */
  function LegacyKeys<T>(info: SnapInfo<T>, p: PairEntry, cache: SnapCache, source: SceneObject<T>, target: SceneObject<T>, c: Cycling): (keys: (Option<string>, Option<string>))
    requires source.objectId.Some? && target.objectId.Some?
    ensures keys.1.Some? <==> HasPoints(LegacyPoints(info, target.objectId.value))
    ensures keys.0.Some? <==> HasPoints(LegacyPoints(info, source.objectId.value))
    ensures keys.1.Some? ==> keys.1.value in ParseOptions(p.targetOptions)
  {
    var targetOptions := ParseOptions(p.targetOptions);
    var sourceOptions := ParseOptions(p.sourceOptions);
    var targetPoints := LegacyPoints(info, target.objectId.value);
    var sourcePoints := LegacyPoints(info, source.objectId.value);
    var targetKey :=
      if HasPoints(targetPoints) then Some(TargetKey(targetOptions, Entry(cache, target.name).target, c)) else None;
    var sameType := source.objectId == target.objectId;
    var sourceKey :=
      if HasPoints(sourcePoints) then
        // Objects of the same id share a group, so the target's points and
        // key are there whenever the source's are.
        var targetOpposite := if sameType && targetKey.Some? then OppositeOf(targetPoints.value, targetKey.value) else None;
        Some(SourceKey(sourceOptions, sameType, targetOpposite, Entry(cache, source.name).source, c))
      else None;
    (sourceKey, targetKey)
  }

  /** When the pairing resolves, each key chosen is either an empty name or
      a point of its object's group. */
  lemma LegacyKeysResolve<T>(info: SnapInfo<T>, p: PairEntry, cache: SnapCache, source: SceneObject<T>, target: SceneObject<T>, c: Cycling)
    requires source.objectId.Some? && target.objectId.Some?
    requires PairingResolves(info, p, source.objectId.value, target.objectId.value)
    ensures var keys := LegacyKeys(info, p, cache, source, target, c);
      keys.0.Some? && keys.1.Some? ==>
        && (keys.0.value == "" || keys.0.value in Keys(LegacyPoints(info, source.objectId.value).value))
        && (keys.1.value == "" || keys.1.value in Keys(LegacyPoints(info, target.objectId.value).value))
  {
  }

  /** `snap_objects`. */
  function LegacySnapObjects<T>(g: Algebra<T>, info: SnapInfo<T>, pairs: PairTable, cache: SnapCache, source: SceneObject<T>, target: SceneObject<T>, c: Cycling): (out: LegacyOutcome<T>)
    ensures source.objectId.None? || target.objectId.None? ==> out == LegacyOutcome(source, cache, RetFalse)
    ensures source.objectId.Some? && target.objectId.Some? ==> out.source.name == source.name && out.source.objectId == source.objectId
    ensures source.objectId.Some? && target.objectId.Some? && out.ret != RetTrue ==> out.source.matrix == target.matrix
    ensures out.ret != RetTrue ==> out.cache == cache
    ensures out.ret == RetTrue || out.ret == Raised ==>
      source.objectId.Some? && target.objectId.Some? && PairOptions(info, pairs, target.objectId.value, source.objectId.value).Some?
  {
    if target.objectId.None? || source.objectId.None? then LegacyOutcome(source, cache, RetFalse)
    else
      var moved := source.(matrix := target.matrix);
      match PairOptions(info, pairs, target.objectId.value, source.objectId.value)
      case None => LegacyOutcome(moved, cache, RetFalse)
      case Some(p) =>
        var (sourceKey, targetKey) := LegacyKeys(info, p, cache, source, target, c);
        var sourcePoints := LegacyPoints(info, source.objectId.value);
        var targetPoints := LegacyPoints(info, target.objectId.value);
        if source.objectId == target.objectId && HasPoints(sourcePoints) && !Names(targetPoints, targetKey) then
          // The target point is read for its opposite.
          LegacyOutcome(moved, cache, Raised)
        else if Truthy(sourceKey) && Truthy(targetKey) then
          if Names(sourcePoints, sourceKey) && Names(targetPoints, targetKey) then
            LegacyPlace(g, info, cache, moved, target, sourceKey.value, targetKey.value)
          else LegacyOutcome(moved, cache, Raised)
        else LegacyOutcome(moved, cache, RetNone)
  }

  /** The placement once both keys are found: the source, already moved onto
      the target, is oriented by the chosen pair of points and the memory
      records the pair. */
  function LegacyPlace<T>(g: Algebra<T>, info: SnapInfo<T>, cache: SnapCache, moved: SceneObject<T>, target: SceneObject<T>, sourceKey: string, targetKey: string): (out: LegacyOutcome<T>)
    requires moved.objectId.Some? && target.objectId.Some?
    requires HasPoints(LegacyPoints(info, moved.objectId.value)) && HasPoints(LegacyPoints(info, target.objectId.value))
    requires sourceKey in Keys(LegacyPoints(info, moved.objectId.value).value)
    requires targetKey in Keys(LegacyPoints(info, target.objectId.value).value)
    ensures out.ret == RetTrue && out.source.name == moved.name && out.source.objectId == moved.objectId
    ensures out.cache.Keys == cache.Keys + {moved.name, target.name}
  {
    var sourcePoint := Get(LegacyPoints(info, moved.objectId.value).value, sourceKey).value;
    var targetPoint := Get(LegacyPoints(info, target.objectId.value).value, targetKey).value;
    var placed := OrientedPlacement(g, moved.matrix, sourcePoint.matrix, target.matrix, targetPoint.matrix);
    var newCache := CacheAfterSnap(cache, moved.name, target.name, sourceKey, targetKey, sourcePoint.opposite);
    LegacyOutcome(moved.(matrix := placed), newCache, RetTrue)
  }

  /** Where a paired call of the script stops with an error: between objects
      of the same id a target point that is missing when its opposite is
      read, and, when both keys are non-empty, either point missing when its
      matrix is read. */
  predicate LegacyLookupFails<T>(info: SnapInfo<T>, source: SceneObject<T>, target: SceneObject<T>, keys: (Option<string>, Option<string>))
    requires source.objectId.Some? && target.objectId.Some?
  {
    var sourcePoints := LegacyPoints(info, source.objectId.value);
    var targetPoints := LegacyPoints(info, target.objectId.value);
    || (source.objectId == target.objectId && HasPoints(sourcePoints) && !Names(targetPoints, keys.1))
    || (Truthy(keys.0) && Truthy(keys.1) && !(Names(sourcePoints, keys.0) && Names(targetPoints, keys.1)))
  }

  /** A paired call ends in one of three ways. It raises exactly when a
      lookup it makes fails; otherwise it places the source and returns True
      exactly when both keys are non-empty names, and falls off the end,
      returning None, when a key is missing or empty. Unless it returns True
      the source sits on the target and the memory is unchanged. */
  lemma LegacySnapPaired<T>(g: Algebra<T>, info: SnapInfo<T>, pairs: PairTable, cache: SnapCache, source: SceneObject<T>, target: SceneObject<T>, c: Cycling, p: PairEntry)
    requires source.objectId.Some? && target.objectId.Some?
    requires PairOptions(info, pairs, target.objectId.value, source.objectId.value) == Some(p)
    ensures var keys := LegacyKeys(info, p, cache, source, target, c);
            var out := LegacySnapObjects(g, info, pairs, cache, source, target, c);
            out.ret == Raised <==> LegacyLookupFails(info, source, target, keys)
    ensures var keys := LegacyKeys(info, p, cache, source, target, c);
            var out := LegacySnapObjects(g, info, pairs, cache, source, target, c);
            out.ret == RetTrue <==> !LegacyLookupFails(info, source, target, keys) && Truthy(keys.0) && Truthy(keys.1)
    ensures var keys := LegacyKeys(info, p, cache, source, target, c);
            var out := LegacySnapObjects(g, info, pairs, cache, source, target, c);
            out.ret == RetNone <==> !LegacyLookupFails(info, source, target, keys) && !(Truthy(keys.0) && Truthy(keys.1))
    ensures var out := LegacySnapObjects(g, info, pairs, cache, source, target, c);
            out.ret != RetTrue ==> out == LegacyOutcome(source.(matrix := target.matrix), cache, out.ret)
  {
    var keys := LegacyKeys(info, p, cache, source, target, c);
    var sourcePoints := LegacyPoints(info, source.objectId.value);
    var targetPoints := LegacyPoints(info, target.objectId.value);
    var moved := source.(matrix := target.matrix);
    var out := LegacySnapObjects(g, info, pairs, cache, source, target, c);
    if source.objectId == target.objectId && HasPoints(sourcePoints) && !Names(targetPoints, keys.1) {
      assert out == LegacyOutcome(moved, cache, Raised);
    } else if Truthy(keys.0) && Truthy(keys.1) && Names(sourcePoints, keys.0) && Names(targetPoints, keys.1) {
      assert out.ret == RetTrue;
    } else if Truthy(keys.0) && Truthy(keys.1) {
      assert out == LegacyOutcome(moved, cache, Raised);
    } else {
      assert out == LegacyOutcome(moved, cache, RetNone);
    }
  }

  /** With both option lists empty and both groups carrying snap points,
      objects of different ids are paired on two empty keys, which the script
      skips without looking them up: it returns None with the source on the
      target and the memory unchanged. Objects of the same id raise instead
      unless a point is named "". */
  lemma LegacySnapEmptyOptions<T>(g: Algebra<T>, info: SnapInfo<T>, pairs: PairTable, cache: SnapCache, source: SceneObject<T>, target: SceneObject<T>, c: Cycling)
    requires source.objectId.Some? && target.objectId.Some?
    requires PairOptions(info, pairs, target.objectId.value, source.objectId.value) == Some(PairEntry("", ""))
    requires HasPoints(LegacyPoints(info, source.objectId.value)) && HasPoints(LegacyPoints(info, target.objectId.value))
    ensures var out := LegacySnapObjects(g, info, pairs, cache, source, target, c);
            && (source.objectId != target.objectId ==> out == LegacyOutcome(source.(matrix := target.matrix), cache, RetNone))
            && (source.objectId == target.objectId && "" !in Keys(LegacyPoints(info, target.objectId.value).value)
                ==> out == LegacyOutcome(source.(matrix := target.matrix), cache, Raised))
  {
    ParseOptionsOfEmpty();
    var keys := LegacyKeys(info, PairEntry("", ""), cache, source, target, c);
    assert keys.1 == Some("");
    assert source.objectId != target.objectId ==> keys.0 == Some("");
  }

  /** When the target's group has no snap points the objects are paired but
      no key is found: the source sits on the target and the script returns
      None, where the add-on raises. */
  lemma LegacySnapWithoutTargetPoints<T>(g: Algebra<T>, info: SnapInfo<T>, pairs: PairTable, cache: SnapCache, source: SceneObject<T>, target: SceneObject<T>, c: Cycling)
    requires source.objectId.Some? && target.objectId.Some?
    requires PairOptions(info, pairs, target.objectId.value, source.objectId.value).Some?
    requires !HasPoints(LegacyPoints(info, target.objectId.value))
    ensures LegacySnapObjects(g, info, pairs, cache, source, target, c) == LegacyOutcome(source.(matrix := target.matrix), cache, RetNone)
  {
  }

  /** The scene object the earlier script sees for a part whose SnapID is its
      ObjectID. */
  function AsSceneObject<T>(p: Part<T>): SceneObject<T> {
    SceneObject(p.name, Some(p.objectId), p.matrix)
  }

  /** For parts whose SnapID is their ObjectID, tables consistent for the
      add-on are consistent for the earlier script, and both choose the same
      pair of points. */
  lemma LegacyKeysAgree<T>(info: SnapInfo<T>, pairs: PairTable, cache: SnapCache, source: Part<T>, target: Part<T>, c: Cycling)
    requires source.snapId == Some(source.objectId) && target.snapId == Some(target.objectId)
    requires SnapTablesConsistent(info, pairs, source, target)
    requires PairOptions(info, pairs, target.objectId, source.objectId).Some?
    ensures LegacyTablesConsistent(info, pairs, AsSceneObject(source), AsSceneObject(target))
    ensures var keys := ChosenKeys(info, pairs, cache, source, target, c);
            LegacyKeys(info, PairOptions(info, pairs, target.objectId, source.objectId).value, cache, AsSceneObject(source), AsSceneObject(target), c)
              == (Some(keys.0), Some(keys.1))
  {
    PointsLookupsAgree(info, source.objectId);
    PointsLookupsAgree(info, target.objectId);
  }

  /** A paired call whose two keys are non-empty names of points, spelled
      out: the source is placed by the oriented sequence and the memory
      updated. */
  lemma LegacySnapPlaced<T>(g: Algebra<T>, info: SnapInfo<T>, pairs: PairTable, cache: SnapCache, source: SceneObject<T>, target: SceneObject<T>, c: Cycling, p: PairEntry, sk: string, tk: string)
    requires source.objectId.Some? && target.objectId.Some?
    requires PairOptions(info, pairs, target.objectId.value, source.objectId.value) == Some(p)
    requires LegacyKeys(info, p, cache, source, target, c) == (Some(sk), Some(tk))
    requires sk != "" && tk != ""
    requires HasPoints(LegacyPoints(info, source.objectId.value)) && HasPoints(LegacyPoints(info, target.objectId.value))
    requires sk in Keys(LegacyPoints(info, source.objectId.value).value)
    requires tk in Keys(LegacyPoints(info, target.objectId.value).value)
    ensures LegacySnapObjects(g, info, pairs, cache, source, target, c)
              == LegacyPlace(g, info, cache, source.(matrix := target.matrix), target, sk, tk)
  {
    assert Truthy(Some(sk)) && Truthy(Some(tk));
    assert Names(LegacyPoints(info, source.objectId.value), Some(sk));
    assert Names(LegacyPoints(info, target.objectId.value), Some(tk));
  }

  /** For parts whose SnapID is their ObjectID, on consistent tables and when
      both chosen points are non-empty names, the two versions place the
      source at the same matrix and leave the same memory, both returning
      True. (The add-on also places when exactly one name is empty and that
      name is a point; the earlier script then returns None.) */
  lemma LegacyAgreesWithAddOn<T>(g: Algebra<T>, info: SnapInfo<T>, pairs: PairTable, cache: SnapCache, source: Part<T>, target: Part<T>, c: Cycling)
    requires source.snapId == Some(source.objectId) && target.snapId == Some(target.objectId)
    requires SnapTablesConsistent(info, pairs, source, target)
    requires PairOptions(info, pairs, target.objectId, source.objectId).Some?
    requires ChosenKeys(info, pairs, cache, source, target, c).0 != ""
    requires ChosenKeys(info, pairs, cache, source, target, c).1 != ""
    ensures LegacyTablesConsistent(info, pairs, AsSceneObject(source), AsSceneObject(target))
    ensures var addOn := SnapTo(g, info, pairs, cache, source, PartTarget(target), c);
            LegacySnapObjects(g, info, pairs, cache, AsSceneObject(source), AsSceneObject(target), c)
              == LegacyOutcome(AsSceneObject(addOn.source), addOn.cache, RetTrue)
  {
    var p := PairOptions(info, pairs, target.objectId, source.objectId).value;
    var keys := ChosenKeys(info, pairs, cache, source, target, c);
    var l := LookUp(info, pairs, source, target).value;
    LegacyKeysAgree(info, pairs, cache, source, target, c);
    PointsLookupsAgree(info, source.objectId);
    PointsLookupsAgree(info, target.objectId);
    assert LegacyPoints(info, source.objectId) == Some(l.sourcePoints);
    assert LegacyPoints(info, target.objectId) == Some(l.targetPoints);
    SnapKeysResolve(l, cache, source, target, c);
    LegacySnapPlaced(g, info, pairs, cache, AsSceneObject(source), AsSceneObject(target), c, p, keys.0, keys.1);
    PairedSnapUnfolds(g, info, pairs, cache, source, target, c);
    assert keys == SnapKeys(l, cache, source, target, c);
  }
}

=== FILE: materials.dfy ===
/** Material and colour assignment. A part's colour index, shifted by its
    material layer, is stored in the part's UserData. The part gets a material
    named after that index, coloured from the colour table, in its first
    material slot. Both the add-on (`utils/material.py`) and the older script
    (`material.py`) are modelled.

    Blender's material store is a map from material name to diffuse colour
    (Blender keeps material names unique). An object is reduced to its
    ObjectID, its UserData and its material slots; `slots == None` stands for
    object data without a `materials` attribute. */
module Materials {
  import opened Options
  import opened Text
  import opened PyUtils

  type Colour = seq<real>

  /** `bpy.data.materials`, by name. */
  type MaterialStore = map<string, Colour>

  /** The colours table: a colour index, as decimal text, to its "colour"
      list. An index whose entry has no "colour" is simply absent. */
  type ColourTable = map<string, Colour>

  datatype Item = Item(objectId: Option<string>, userData: Option<PyValue>, slots: Option<seq<string>>)

  // ------------------------------------------------------------ colour index

  /** One material layer spans this many colour indices. */
  const LayerSize: int := 0x100_0000

  const MaterialOffsets: map<string, int> :=
    map["CONCRETE" := 0, "RUST" := 0x100_0000, "STONE" := 0x200_0000, "WOOD" := 0x300_0000]

  /** The layers in index order. */
  const Layers: seq<string> := ["CONCRETE", "RUST", "STONE", "WOOD"]

  /** The add-on's index: the colour index shifted by the offset of the first
      listed material, or `None` where the lookup of an unknown material key
      raises. An empty material list leaves the colour index as it is. */
  function ColourIndex(colourIndex: int, material: seq<string>): (r: Option<int>)
    ensures r.None? <==> |material| > 0 && material[0] !in MaterialOffsets
    ensures r.Some? ==> r.value % LayerSize == colourIndex % LayerSize
    ensures |material| == 0 ==> r == Some(colourIndex)
  {
    if |material| == 0 then Some(colourIndex)
    else if material[0] in MaterialOffsets then
      var offset := MaterialOffsets[material[0]];
      assert offset == LayerSize * (offset / LayerSize);
      ShiftKeepsRemainder(colourIndex, offset / LayerSize);
      Some(offset + colourIndex)
    else None
  }

  lemma ShiftKeepsRemainder(c: int, k: int)
    ensures (LayerSize * k + c) % LayerSize == c % LayerSize
  {
  }

  /** Reads an index of the four layers back as its material and colour. */
  function DecodeIndex(index: int): (r: (string, int))
    requires 0 <= index < |Layers| * LayerSize
    ensures r.0 in MaterialOffsets && 0 <= r.1 < LayerSize
    ensures MaterialOffsets[r.0] + r.1 == index
  {
    if index < LayerSize then ("CONCRETE", index)
    else if index < 2 * LayerSize then ("RUST", index - LayerSize)
    else if index < 3 * LayerSize then ("STONE", index - 2 * LayerSize)
    else ("WOOD", index - 3 * LayerSize)
  }

  /** Within one layer the stored index determines both the material and the
      colour it was built from. */
  lemma DecodeColourIndex(colourIndex: int, key: string)
    requires 0 <= colourIndex < LayerSize && key in MaterialOffsets
    ensures ColourIndex(colourIndex, [key]).Some?
    ensures 0 <= ColourIndex(colourIndex, [key]).value < |Layers| * LayerSize
    ensures DecodeIndex(ColourIndex(colourIndex, [key]).value) == (key, colourIndex)
  {
  }

  /** The older script compares the whole material set against the three
      one-element sets; anything else, an unknown name included, counts as
      concrete. */
  function LegacyOffset(material: set<string>): (r: int)
    ensures r % LayerSize == 0 && 0 <= r < |Layers| * LayerSize
    ensures r != 0 ==> exists key :: key in MaterialOffsets && material == {key} && MaterialOffsets[key] == r
  {
    if material == {"RUST"} then
      assert MaterialOffsets["RUST"] == 0x100_0000;
      0x100_0000
    else if material == {"STONE"} then
      assert MaterialOffsets["STONE"] == 0x200_0000;
      0x200_0000
    else if material == {"WOOD"} then
      assert MaterialOffsets["WOOD"] == 0x300_0000;
      0x300_0000
    else 0
  }

  function LegacyColourIndex(colourIndex: int, material: set<string>): (r: int)
    ensures (r - colourIndex) % LayerSize == 0 && 0 <= r - colourIndex < |Layers| * LayerSize
  {
    if |material| == 0 then colourIndex else LegacyOffset(material) + colourIndex
  }

  /** On a single known material both versions compute the same index. */
  lemma LegacyColourIndexAgrees(colourIndex: int, key: string)
    requires key in MaterialOffsets
    ensures ColourIndex(colourIndex, [key]) == Some(LegacyColourIndex(colourIndex, {key}))
  {
    assert |{key}| == 1;
    if key == "CONCRETE" {
      assert {key} != {"RUST"} && {key} != {"STONE"} && {key} != {"WOOD"} by {
        assert "RUST" !in {key} && "STONE" !in {key} && "WOOD" !in {key};
      }
    }
  }

  /** An unknown material makes the add-on raise where the older script falls
      back to the concrete layer. */
  lemma UnknownMaterialDiverges(colourIndex: int, key: string)
    requires key !in MaterialOffsets
    ensures ColourIndex(colourIndex, [key]).None?
    ensures LegacyColourIndex(colourIndex, {key}) == colourIndex
  {
    assert |{key}| == 1;
    assert {key} != {"RUST"} && {key} != {"STONE"} && {key} != {"WOOD"} by {
      assert "RUST" !in {key} && "STONE" !in {key} && "WOOD" !in {key};
    }
  }

  // ------------------------------------------------------------------- names

  const MaterialSuffix: string := "_material"
  const TransparentSuffix: string := "_transparent"
  const PresetMaterial: string := "preset_material"

  /** "{index}_material", tagged "_transparent" for ghosted parts. */
  function MaterialName(index: int, ghosted: bool): (r: string)
    ensures EndsWith(r, if ghosted then TransparentSuffix else MaterialSuffix)
    ensures StartsWith(r, IntToString(index))
  {
    IntToString(index) + MaterialSuffix + (if ghosted then TransparentSuffix else "")
  }

  /** The last character of a material name tells a ghosted part's material
      from a solid part's. */
  lemma MaterialNameLastChar(index: int, ghosted: bool)
    ensures |MaterialName(index, ghosted)| > 0
    ensures MaterialName(index, ghosted)[|MaterialName(index, ghosted)| - 1] == if ghosted then 't' else 'l'
  {
    var a := IntToString(index) + MaterialSuffix;
    if ghosted {
      assert MaterialName(index, ghosted) == a + TransparentSuffix;
    } else {
      assert MaterialName(index, ghosted) == a;
    }
  }

  /** A material name is the index's text followed by a tail fixed by
      whether the part is ghosted. */
  lemma MaterialNameSplit(index: int, ghosted: bool)
    ensures MaterialName(index, ghosted) == IntToString(index) + (MaterialSuffix + (if ghosted then TransparentSuffix else ""))
  {
  }

  lemma IntToStringInjective(i: int, j: int)
    requires IntToString(i) == IntToString(j)
    ensures i == j
  {
    ParseIntOfIntToString(i);
    ParseIntOfIntToString(j);
  }

  /** Distinct indices, or a ghosted and a solid part, never share a
      material. */
  lemma MaterialNameInjective(i: int, g: bool, j: int, h: bool)
    requires MaterialName(i, g) == MaterialName(j, h)
    ensures i == j && g == h
  {
    assert g == h by {
      MaterialNameLastChar(i, g);
      MaterialNameLastChar(j, h);
    }
    MaterialNameSplit(i, g);
    MaterialNameSplit(j, h);
    SamePrefix(IntToString(i), IntToString(j), MaterialSuffix + (if g then TransparentSuffix else ""));
    IntToStringInjective(i, j);
  }

  lemma LastChar(a: string, suffix: string)
    requires EndsWith(a, suffix) && |suffix| > 0
    ensures a[|a| - 1] == suffix[|suffix| - 1]
  {
    assert a[|a| - |suffix|..][|suffix| - 1] == a[|a| - 1];
  }

  lemma SamePrefix(x: string, y: string, tail: string)
    requires x + tail == y + tail
    ensures x == y
  {
    assert |x| == |y|;
    assert x == (x + tail)[..|x|];
    assert y == (y + tail)[..|y|];
  }

  /** "preset_material", tagged "_transparent" for ghosted parts. */
  function PresetMaterialName(ghosted: bool): (r: string)
    ensures StartsWith(r, PresetMaterial)
    ensures ghosted <==> EndsWith(r, TransparentSuffix)
  {
    var r := PresetMaterial + (if ghosted then TransparentSuffix else "");
    assert !ghosted ==> !EndsWith(r, TransparentSuffix) by {
      if !ghosted {
        assert r[|r| - 1] == 'l';
        if EndsWith(r, TransparentSuffix) {
          LastChar(r, TransparentSuffix);
        }
      }
    }
    r
  }

  lemma IntToStringFirst(i: int)
    ensures IntToString(i)[0] == '-' || IsDigit(IntToString(i)[0])
  {
  }

  /** The preset material is never one of the indexed colour materials. */
  lemma PresetNameNotIndexed(i: int, g: bool, h: bool)
    ensures MaterialName(i, g) != PresetMaterialName(h)
  {
    IntToStringFirst(i);
    assert MaterialName(i, g)[0] == IntToString(i)[0];
    assert PresetMaterialName(h)[0] == 'p';
  }

  // ----------------------------------------------------- fixed line materials

  datatype LineKind = PowerLine | PortalLine | ByteBeatLine

  /** The fixed material each kind of line is given. */
  function LineMaterial(kind: LineKind): (r: (string, Colour))
    ensures EndsWith(r.0, MaterialSuffix) && |r.1| == 4
  {
    match kind
    case PowerLine => ("powerline_material", [0.0, 0.5, 1.0, 0.5])
    case PortalLine => ("portalline_material", [0.0, 1.0, 1.0, 0.5])
    case ByteBeatLine => ("bytebeat_material", [0.8, 0.0, 0.8, 0.5])
  }

  /** Different kinds of line get different materials. */
  lemma LineMaterialsApart(kind: LineKind, other: LineKind)
    requires kind != other
    ensures LineMaterial(kind).0 != LineMaterial(other).0
  {
    assert LineMaterial(PowerLine).0[2] == 'w';
    assert LineMaterial(PortalLine).0[2] == 'r';
    assert LineMaterial(ByteBeatLine).0[2] == 't';
  }

  /** A line material is never an indexed colour material. */
  lemma LineNotIndexed(kind: LineKind, i: int, g: bool)
    ensures LineMaterial(kind).0 != MaterialName(i, g)
  {
    IntToStringFirst(i);
    assert MaterialName(i, g)[0] == IntToString(i)[0];
    assert LineMaterial(kind).0[0] in "pb";
  }

  /** A line material is never the preset material. */
  lemma LineNotPreset(kind: LineKind, h: bool)
    ensures LineMaterial(kind).0 != PresetMaterialName(h)
  {
    assert PresetMaterialName(h)[1] == 'r';
    match kind
    case PowerLine => assert "powerline_material"[1] == 'o';
    case PortalLine => assert "portalline_material"[1] == 'o';
    case ByteBeatLine => assert "bytebeat_material"[1] == 'y';
  }

  /** Line materials are distinct from each other, from the preset material
      and from every indexed material. */
  lemma LineMaterialsDistinct(kind: LineKind, other: LineKind, i: int, g: bool, h: bool)
    ensures kind != other ==> LineMaterial(kind).0 != LineMaterial(other).0
    ensures LineMaterial(kind).0 != MaterialName(i, g)
    ensures LineMaterial(kind).0 != PresetMaterialName(h)
  {
    if kind != other {
      LineMaterialsApart(kind, other);
    }
    LineNotIndexed(kind, i, g);
    LineNotPreset(kind, h);
  }

  // ---------------------------------------------------------- colour lookup

  const Alpha: real := 1.0
  const DefaultColour: Colour := [0.8, 0.8, 0.8, Alpha]

  datatype Lookup = Lookup(colour: Colour, table: ColourTable)

  /** The colour for an index: its table entry, or the default. An entry
      shorter than four components gets one alpha of 1.0 appended, and since
      the list is appended to in place the padded list is what the table holds
      from then on. */
  function LookupColour(table: ColourTable, index: int): (r: Lookup)
    ensures IntToString(index) !in table ==> r.colour == DefaultColour && r.table == table
    ensures IntToString(index) in table ==>
      && |table[IntToString(index)]| <= |r.colour|
      && r.colour[..|table[IntToString(index)]|] == table[IntToString(index)]
      && r.table == table[IntToString(index) := r.colour]
    ensures IntToString(index) in table && |table[IntToString(index)]| >= 3 ==> |r.colour| >= 4
  {
    var key := IntToString(index);
    if key !in table then Lookup(DefaultColour, table)
    else
      var c := table[key];
      if |c| < 4 then
        assert (c + [Alpha])[..|c|] == c;
        Lookup(c + [Alpha], table[key := c + [Alpha]])
      else Lookup(c, table)
  }

  /** An entry of at least three components settles after one lookup: asking
      again gives the same colour and leaves the table alone. */
  lemma LookupSettles(table: ColourTable, index: int)
    requires IntToString(index) in table ==> |table[IntToString(index)]| >= 3
    ensures LookupColour(LookupColour(table, index).table, index) == LookupColour(table, index)
  {
  }

  /** A shorter entry keeps growing: every lookup appends another alpha, so
      the colour depends on how often it was asked for. */
  lemma LookupDrifts(table: ColourTable, index: int)
    requires IntToString(index) in table && |table[IntToString(index)]| < 3
    ensures LookupColour(LookupColour(table, index).table, index).colour != LookupColour(table, index).colour
  {
    var first := LookupColour(table, index);
    assert |first.colour| == |table[IntToString(index)]| + 1;
    assert |LookupColour(first.table, index).colour| == |first.colour| + 1;
  }

  // ----------------------------------------------------- store and slots

  /** `validate_material`: the existing material of that name, or a new one in
      the given colour. */
  function ValidateMaterial(store: MaterialStore, name: string, colour: Colour): (r: MaterialStore)
    ensures r.Keys == store.Keys + {name}
    ensures forall n :: n in store ==> r[n] == store[n]
    ensures name !in store ==> r[name] == colour
  {
    if name in store then store else store[name := colour]
  }

  lemma ValidateMaterialIdempotent(store: MaterialStore, name: string, colour: Colour, other: Colour)
    ensures ValidateMaterial(ValidateMaterial(store, name, colour), name, other) == ValidateMaterial(store, name, colour)
  {
  }

  /** `set_material`: nothing without a slot list, the material appended to an
      empty one, otherwise the first slot replaced. */
  function SetMaterial(slots: Option<seq<string>>, name: string): (r: Option<seq<string>>)
    ensures r.None? <==> slots.None?
    ensures slots.Some? && |slots.value| == 0 ==> r == Some([name])
    ensures slots.Some? && |slots.value| > 0 ==>
      && |r.value| == |slots.value| && r.value[0] == name && r.value[1..] == slots.value[1..]
  {
    match slots
    case None => None
    case Some(s) => if |s| == 0 then Some([name]) else Some(s[0 := name])
  }

  lemma SetMaterialIdempotent(slots: Option<seq<string>>, name: string)
    ensures SetMaterial(SetMaterial(slots, name), name) == SetMaterial(slots, name)
  {
    match slots
    case None =>
    case Some(s) =>
      var t := if |s| == 0 then [name] else s[0 := name];
      assert t[0 := name] == t;
  }

  // ----------------------------------------------------------- assignment

  datatype Assignment = Assignment(item: Item, store: MaterialStore, table: ColourTable, material: string)

  predicate IsGhosted(item: Item, ghosted: seq<string>) {
    item.objectId.GetOr("") in ghosted
  }

  /** The add-on's `assign_material`: `None` where an unknown material key
      raises. */
  function AssignMaterial(item: Item, store: MaterialStore, table: ColourTable, ghosted: seq<string>,
                          colourIndex: int, material: seq<string>): (r: Option<Assignment>)
    ensures r.None? <==> |material| > 0 && material[0] !in MaterialOffsets
    ensures r.Some? ==> r.value.item.objectId == item.objectId
    ensures r.Some? ==> r.value.material in r.value.store
    ensures r.Some? ==> forall n :: n in store ==> n in r.value.store && r.value.store[n] == store[n]
    ensures r.Some? ==> r.value.item.slots == SetMaterial(item.slots, r.value.material)
    ensures r.Some? ==> r.value.item.userData.Some? && r.value.item.userData.value.PyStr?
  {
    match ColourIndex(colourIndex, material)
    case None => None
    case Some(index) =>
      var name := MaterialName(index, IsGhosted(item, ghosted));
      var looked := LookupColour(table, index);
      var store' := ValidateMaterial(store, name, looked.colour);
      var item' := item.(userData := Some(PyStr(IntToString(index))), slots := SetMaterial(item.slots, name));
      Some(Assignment(item', store', looked.table, name))
  }

  /** What the add-on writes reads back as the index it computed: the
      UserData parses to the shifted colour index and the material is named
      after it (`DecodeColourIndex` reads that index back as layer and
      colour). */
  lemma AssignedUserDataReadsBack(item: Item, store: MaterialStore, table: ColourTable, ghosted: seq<string>,
                                  colourIndex: int, key: string)
    requires key in MaterialOffsets
    ensures var index := MaterialOffsets[key] + colourIndex;
      var a := AssignMaterial(item, store, table, ghosted, colourIndex, [key]);
      && a.Some?
      && PreferInt(a.value.item.userData.value) == PyInt(index)
      && a.value.material == MaterialName(index, IsGhosted(item, ghosted))
  {
    var index := MaterialOffsets[key] + colourIndex;
    assert ColourIndex(colourIndex, [key]) == Some(index);
    AssignMaterialAt(item, store, table, ghosted, colourIndex, [key], index);
    PreferIntOfDecimal(index);
  }

  /** Whatever index the material list gives is what the assignment writes. */
  lemma AssignMaterialAt(item: Item, store: MaterialStore, table: ColourTable, ghosted: seq<string>,
                         colourIndex: int, material: seq<string>, index: int)
    requires ColourIndex(colourIndex, material) == Some(index)
    ensures var a := AssignMaterial(item, store, table, ghosted, colourIndex, material);
      && a.Some?
      && a.value.item.userData == Some(PyStr(IntToString(index)))
      && a.value.material == MaterialName(index, IsGhosted(item, ghosted))
  {
  }

  /** Assigning the same colour twice changes nothing the second time: the
      material exists by then and is reused, and the slot already holds it. */
  lemma AssignMaterialTwice(item: Item, store: MaterialStore, table: ColourTable, ghosted: seq<string>,
                            colourIndex: int, material: seq<string>)
    requires AssignMaterial(item, store, table, ghosted, colourIndex, material).Some?
    ensures AssignMaterial(AssignMaterial(item, store, table, ghosted, colourIndex, material).value.item,
                           AssignMaterial(item, store, table, ghosted, colourIndex, material).value.store,
                           AssignMaterial(item, store, table, ghosted, colourIndex, material).value.table,
                           ghosted, colourIndex, material).value.item
      == AssignMaterial(item, store, table, ghosted, colourIndex, material).value.item
    ensures AssignMaterial(AssignMaterial(item, store, table, ghosted, colourIndex, material).value.item,
                           AssignMaterial(item, store, table, ghosted, colourIndex, material).value.store,
                           AssignMaterial(item, store, table, ghosted, colourIndex, material).value.table,
                           ghosted, colourIndex, material).value.store
      == AssignMaterial(item, store, table, ghosted, colourIndex, material).value.store
  {
    var first := AssignMaterial(item, store, table, ghosted, colourIndex, material).value;
    SetMaterialIdempotent(item.slots, first.material);
  }

  /** The colour of the preset material in the add-on. */
  const PresetColour: Colour := [0.8, 0.300186, 0.178301, 1.0]

  /** `assign_preset_material`: the add-on's preset material, which leaves the
      UserData alone. */
  function AssignPresetMaterial(item: Item, store: MaterialStore, ghosted: seq<string>): (r: (Item, MaterialStore))
    ensures r.0.objectId == item.objectId && r.0.userData == item.userData
    ensures PresetMaterialName(IsGhosted(item, ghosted)) in r.1
    ensures PresetMaterialName(IsGhosted(item, ghosted)) !in store ==> r.1[PresetMaterialName(IsGhosted(item, ghosted))] == PresetColour
    ensures forall n :: n in store ==> n in r.1 && r.1[n] == store[n]
    ensures r.0.slots == SetMaterial(item.slots, PresetMaterialName(IsGhosted(item, ghosted)))
  {
    var name := PresetMaterialName(IsGhosted(item, ghosted));
    (item.(slots := SetMaterial(item.slots, name)), ValidateMaterial(store, name, PresetColour))
  }

  // ------------------------------------------------------- the older script

  /** The older script's preset colour; its blue component is a tenth of the
      add-on's. */
  const LegacyPresetColour: Colour := [0.8, 0.300186, 0.0178301, 1.0]

  datatype LegacyAssignment = LegacyAssignment(item: Item, store: MaterialStore, table: ColourTable, returned: Option<string>)

  /** The older `assign_material`. The UserData is the integer index, the
      material is the preset material when `preset` is set, an existing
      material is reused without recolouring, and a new one takes the first
      four components of the padded table colour (`None` where that colour has
      fewer than four and indexing it raises). Without a slot list the
      material is still created but nothing is assigned or returned. */
  function LegacyAssignMaterial(item: Item, store: MaterialStore, table: ColourTable,
                                colourIndex: int, material: set<string>, preset: bool): (r: Option<LegacyAssignment>)
    ensures r.Some? ==> r.value.item.userData == Some(PyInt(LegacyColourIndex(colourIndex, material)))
    ensures r.Some? ==> (r.value.returned.None? <==> item.slots.None?)
    ensures r.Some? && preset ==> r.value.item.slots == SetMaterial(item.slots, PresetMaterial)
    ensures r.Some? && !preset ==> r.value.item.slots == SetMaterial(item.slots, MaterialName(LegacyColourIndex(colourIndex, material), false))
    ensures r.Some? ==> forall n :: n in store ==> n in r.value.store && r.value.store[n] == store[n]
    ensures r.Some? ==> forall n :: n in r.value.store ==> |r.value.store[n]| == 4 || n in store
    ensures r.None? ==> !preset && MaterialName(LegacyColourIndex(colourIndex, material), false) !in store
  {
    var index := LegacyColourIndex(colourIndex, material);
    var name := if preset then PresetMaterial else MaterialName(index, false);
    var item' := item.(userData := Some(PyInt(index)), slots := SetMaterial(item.slots, name));
    var returned := if item.slots.None? then None else Some(name);
    if name in store then Some(LegacyAssignment(item', store, table, returned))
    else if preset then Some(LegacyAssignment(item', store[name := LegacyPresetColour], table, returned))
    else
      var looked := LookupColour(table, index);
      if |looked.colour| < 4 then None
      else Some(LegacyAssignment(item', store[name := looked.colour[..4]], looked.table, returned))
  }

  /** For a solid part with a known single material both versions store the
      same index (as text in the add-on, as an integer in the older script),
      choose the same material and slot, and, while the table entry has three
      or four components, leave the same material store behind. */
  lemma LegacyAssignAgrees(item: Item, store: MaterialStore, table: ColourTable, ghosted: seq<string>,
                           colourIndex: int, key: string)
    requires key in MaterialOffsets && !IsGhosted(item, ghosted)
    requires IntToString(LegacyColourIndex(colourIndex, {key})) in table ==>
      3 <= |table[IntToString(LegacyColourIndex(colourIndex, {key}))]| <= 4
    ensures AssignMaterial(item, store, table, ghosted, colourIndex, [key]).Some?
    ensures LegacyAssignMaterial(item, store, table, colourIndex, {key}, false).Some?
    ensures PreferInt(AssignMaterial(item, store, table, ghosted, colourIndex, [key]).value.item.userData.value)
      == LegacyAssignMaterial(item, store, table, colourIndex, {key}, false).value.item.userData.value
    ensures AssignMaterial(item, store, table, ghosted, colourIndex, [key]).value.item.slots
      == LegacyAssignMaterial(item, store, table, colourIndex, {key}, false).value.item.slots
    ensures AssignMaterial(item, store, table, ghosted, colourIndex, [key]).value.store
      == LegacyAssignMaterial(item, store, table, colourIndex, {key}, false).value.store
  {
    LegacyColourIndexAgrees(colourIndex, key);
    var index := LegacyColourIndex(colourIndex, {key});
    PreferIntOfDecimal(index);
    var name := MaterialName(index, false);
    var looked := LookupColour(table, index);
    var item' := item.(userData := Some(PyStr(IntToString(index))), slots := SetMaterial(item.slots, name));
    assert AssignMaterial(item, store, table, ghosted, colourIndex, [key])
      == Some(Assignment(item', ValidateMaterial(store, name, looked.colour), looked.table, name));
    var legacy := LegacyAssignMaterial(item, store, table, colourIndex, {key}, false);
    if name !in store {
      assert |looked.colour| == 4;
      assert looked.colour[..4] == looked.colour;
      assert legacy.value.store == store[name := looked.colour];
    }
  }
}

=== FILE: operators.dfy ===
/** Small decisions made by the add-on's operators: which line class the line
    switch builds, which power controls count as floating, and which two
    objects a snap acts on. */
module Operators {
  import opened Options

  // -------------------------------------------------------------- line type

  const LineTeleport: string := "TELEPORT"
  const LinePipe: string := "PIPE"
  const LineByteBeat: string := "BYTEBEAT"

  /** `get_line_type_from_enum`: the part id built for the first selected
      value of the line switch; power lines are the fallback. */
  function LineTypeFromEnum(lineValue: string): (r: string)
    ensures r in {"U_POWERLINE", "U_PORTALLINE", "U_PIPELINE", "U_BYTEBEATLINE"}
    ensures r == "U_POWERLINE" <==> lineValue !in {LineTeleport, LinePipe, LineByteBeat}
  {
    if lineValue == LineTeleport then "U_PORTALLINE"
    else if lineValue == LinePipe then "U_PIPELINE"
    else if lineValue == LineByteBeat then "U_BYTEBEATLINE"
    else "U_POWERLINE"
  }

  /** The three named switch values give three different line classes. */
  lemma LineTypeInjective(a: string, b: string)
    requires a in {LineTeleport, LinePipe, LineByteBeat} && b in {LineTeleport, LinePipe, LineByteBeat}
    requires LineTypeFromEnum(a) == LineTypeFromEnum(b)
    ensures a == b
  {
  }

  // ----------------------------------------------------------- floating

  /** A power control is floating when it touches no object other than lines
      and at most one line. `lines[i]` says whether the i-th part snapped to
      the control is a line (has a start control). */
  predicate Floating(lines: seq<bool>) {
    (forall i :: 0 <= i < |lines| ==> lines[i]) && |lines| < 2
  }

  /** The scan `SelectFloating` runs over a control's connections: it stops
      at the first connection that is not a line and counts the lines before
      it. */
  method IsFloating(lines: seq<bool>) returns (floating: bool)
    ensures floating <==> Floating(lines)
  {
    var connectedToObject := false;
    var lineConnections := 0;
    var i := 0;
    while i < |lines| && !connectedToObject
      invariant 0 <= i <= |lines|
      invariant connectedToObject ==> i < |lines| && !lines[i]
      invariant !connectedToObject ==> lineConnections == i && forall k :: 0 <= k < i ==> lines[k]
      decreases |lines| - i, if connectedToObject then 0 else 1
    {
      if !lines[i] {
        connectedToObject := true;
      } else {
        lineConnections := lineConnections + 1;
        i := i + 1;
      }
    }
    floating := !connectedToObject && lineConnections < 2;
  }

  /** A part as `SelectFloating` sees it. */
  datatype ScenePart = ScenePart(name: string, snapId: Option<string>, lines: seq<bool>)

  predicate SelectedAsFloating(p: ScenePart) {
    p.snapId == Some("POWER_CONTROL") && Floating(p.lines)
  }

  /** The names of the floating power controls among `parts`, in order. */
  function FloatingNames(parts: seq<ScenePart>): seq<string> {
    if |parts| == 0 then []
    else
      var last := parts[|parts| - 1];
      FloatingNames(parts[..|parts| - 1]) + (if SelectedAsFloating(last) then [last.name] else [])
  }

  /** `SelectFloating`: the names of the floating power controls, in scene
      order; parts without a SnapID and other parts are skipped. */
  method SelectFloating(parts: seq<ScenePart>) returns (selected: seq<string>)
    ensures selected == FloatingNames(parts)
    ensures forall n :: n in selected <==> exists p :: p in parts && p.name == n && SelectedAsFloating(p)
    ensures |selected| <= |parts|
  {
    selected := [];
    var i := 0;
    while i < |parts|
      invariant 0 <= i <= |parts|
      invariant |selected| <= i
      invariant selected == FloatingNames(parts[..i])
      invariant forall n :: n in selected <==> exists k :: 0 <= k < i && parts[k].name == n && SelectedAsFloating(parts[k])
    {
      assert parts[..i + 1][..i] == parts[..i];
      var p := parts[i];
      if p.snapId.Some? && p.snapId.value == "POWER_CONTROL" {
        var floating := IsFloating(p.lines);
        if floating {
          selected := selected + [p.name];
        }
      }
      i := i + 1;
    }
    assert parts[..|parts|] == parts;
    assert forall p :: p in parts <==> exists k :: 0 <= k < |parts| && parts[k] == p;
  }

  // --------------------------------------------------------- snap operands

  datatype Operands = Operands(source: string, target: string)

  /** The operands of the snap operator. With one object selected the active
      object is snapped again to what it was last snapped to (`None` when it
      never was); with two, the other object is snapped to the active one;
      any other selection does nothing. `snappedTo` is the "snapped_to"
      property of each object that has one. */
  function SnapOperands(selected: seq<string>, active: Option<string>, snappedTo: map<string, string>): (r: Option<Operands>)
    requires |selected| == 1 ==> active.Some?
    requires |selected| == 2 ==> selected[0] != selected[1]
    ensures |selected| != 1 && |selected| != 2 ==> r.None?
    ensures |selected| == 1 ==> (r.Some? <==> active.value in snappedTo)
    ensures |selected| == 1 && r.Some? ==> r.value == Operands(active.value, snappedTo[active.value])
    ensures |selected| == 2 ==> (r.Some? <==> active.Some?)
    ensures |selected| == 2 && r.Some? ==>
      && r.value.target == active.value && r.value.source in selected && r.value.source != r.value.target
  {
    if |selected| == 1 then
      if active.value in snappedTo then Some(Operands(active.value, snappedTo[active.value])) else None
    else if |selected| == 2 then
      match active
      case None => None
      case Some(target) =>
        var source := if selected[0] != target then selected[0] else selected[1];
        Some(Operands(source, target))
    else None
  }

  /** With two objects selected and one of them active, the snap acts on
      exactly the selected pair. */
  lemma SnapOperandsPair(selected: seq<string>, active: string, snappedTo: map<string, string>)
    requires |selected| == 2 && selected[0] != selected[1] && active in selected
    ensures SnapOperands(selected, Some(active), snappedTo).Some?
    ensures {SnapOperands(selected, Some(active), snappedTo).value.source,
             SnapOperands(selected, Some(active), snappedTo).value.target} == {selected[0], selected[1]}
  {
  }
}

=== FILE: options.dfy ===
/** The absent-or-present value used wherever the Python code returns None or
    looks a key up with a default. */
module Options {

  datatype Option<+T> = None | Some(value: T) {

    /** The wrapped value, or `default` when absent (Python's `x or default`
        for values that are never falsy). */
    function GetOr(default: T): T {
      match this
      case Some(v) => v
      case None => default
    }
  }
}

=== FILE: presets.dfy ===
/** Presets: saved groups of parts placed as one object with a control curve.
    Covers the add-on's `Preset` class and the earlier `PresetBuilder`: file
    naming, preset id normalisation, reading preset records, the control
    curve's outline, marking the members, and what a preset file stores. */
module Presets {
  import opened Options
  import opened Text
  import opened Catalogue

  // ------------------------------------------------------------ file names

  const JsonExtension: string := ".json"

  /** `if not path.endswith(".json"): path += ".json"`, used when saving a
      preset or a base. */
  function WithJsonSuffix(path: string): (r: string)
    ensures EndsWith(r, JsonExtension)
    ensures EndsWith(path, JsonExtension) ==> r == path
    ensures !EndsWith(path, JsonExtension) ==> r == path + JsonExtension
  {
    if EndsWith(path, JsonExtension) then path else path + JsonExtension
  }

  lemma WithJsonSuffixIdempotent(path: string)
    ensures WithJsonSuffix(WithJsonSuffix(path)) == WithJsonSuffix(path)
  {
  }

  lemma StartsWithSlashJoin(a: string, b: string)
    requires |a| > 0 && a[0] == '/'
    ensures |PathJoin(a, b)| > 0 && PathJoin(a, b)[0] == '/'
  {
    if !(|b| > 0 && b[0] == '/') {
      if |a| == 0 || a[|a| - 1] == '/' {
        assert PathJoin(a, b) == a + b;
      } else {
        assert PathJoin(a, b) == a + "/" + b;
      }
    }
  }

  /** The earlier `get_full_path`: the preset file under the preset folder. */
  function FullPath(presetDir: string, preset: string): (r: string)
    ensures EndsWith(r, WithJsonSuffix(preset))
  {
    PathJoin(presetDir, WithJsonSuffix(preset))
  }

  /** With an absolute preset folder, resolving a resolved path changes
      nothing. */
  lemma FullPathIdempotent(presetDir: string, preset: string)
    requires |presetDir| > 0 && presetDir[0] == '/'
    ensures FullPath(presetDir, FullPath(presetDir, preset)) == FullPath(presetDir, preset)
  {
    var p := FullPath(presetDir, preset);
    StartsWithSlashJoin(presetDir, WithJsonSuffix(preset));
    assert EndsWith(p, JsonExtension) by {
      var w := WithJsonSuffix(preset);
      assert p[|p| - |w|..] == w;
      assert p[|p| - 5..] == w[|w| - 5..];
    }
  }

  /** The add-on's `data_path`: the preset folder joined with the id plus
      ".json". */
  function DataPath(presetDir: string, presetId: string): (r: string)
    ensures EndsWith(r, presetId + JsonExtension)
  {
    PathJoin(presetDir, presetId + JsonExtension)
  }

  /** `os.path.splitext(name)[0]` for a name ending in ".json". Leading dots
      do not start an extension, so a name that is only dots before "json"
      is kept whole. */
  function JsonStem(name: string): (r: string)
    requires EndsWith(name, JsonExtension)
  {
    var stem := name[..|name| - 5];
    if forall i :: 0 <= i < |stem| ==> stem[i] == '.' then name else stem
  }

  /** `get_presets` (both versions) over a folder listing: the ".json"
      entries without their extension, in listing order. */
  function PresetNames(listing: seq<string>): (r: seq<string>)
    ensures |r| <= |listing|
    ensures forall n :: n in r ==> exists e :: e in listing && EndsWith(e, JsonExtension) && n == JsonStem(e)
    ensures forall e :: e in listing && EndsWith(e, JsonExtension) ==> JsonStem(e) in r
  {
    if |listing| == 0 then []
    else
      var rest := PresetNames(listing[1..]);
      assert forall e :: e in listing <==> e == listing[0] || e in listing[1..];
      if EndsWith(listing[0], JsonExtension) then [JsonStem(listing[0])] + rest else rest
  }

  /** The names come out in listing order, one per ".json" entry: the
      listing of a concatenation is the concatenation of the listings. */
  lemma {:induction false} PresetNamesInOrder(a: seq<string>, b: seq<string>)
    ensures PresetNames(a + b) == PresetNames(a) + PresetNames(b)
  {
    if |a| > 0 {
      assert (a + b)[1..] == a[1..] + b;
      PresetNamesInOrder(a[1..], b);
    } else {
      assert a + b == b;
    }
  }

  /** A single entry lists its stem when it is a ".json" file and nothing
      otherwise. */
  lemma PresetNamesOfOne(entry: string)
    ensures PresetNames([entry]) == if EndsWith(entry, JsonExtension) then [JsonStem(entry)] else []
  {
    assert [entry][1..] == [];
  }

  /** A preset saved under a name is listed under that name, less a ".json"
      the user typed. A name that is only dots (before any ".json") has no
      extension to drop and is listed with ".json" on. */
  lemma SavedPresetIsListed(name: string)
    ensures var typed := if EndsWith(name, JsonExtension) then name[..|name| - 5] else name;
      && ((exists i :: 0 <= i < |typed| && typed[i] != '.') ==> PresetNames([WithJsonSuffix(name)]) == [typed])
      && ((forall i :: 0 <= i < |typed| ==> typed[i] == '.') ==> PresetNames([WithJsonSuffix(name)]) == [typed + JsonExtension])
  {
    var typed := if EndsWith(name, JsonExtension) then name[..|name| - 5] else name;
    var file := WithJsonSuffix(name);
    assert file == typed + JsonExtension by {
      if EndsWith(name, JsonExtension) {
        assert name == name[..|name| - 5] + name[|name| - 5..];
      }
    }
    assert file[..|file| - 5] == typed;
    assert PresetNames([file]) == [JsonStem(file)];
  }

  // --------------------------------------------------------------- preset ids

  /** The `preset_id` setter keeps the value with every caret removed. */
  function NormalisePresetId(value: string): (id: string)
    ensures '^' !in id
    ensures '^' !in value ==> id == value
  {
    RemoveAll(value, '^')
  }

  /** `preset_id_format`: the id with one caret in front, as written to a
      file. */
  function PresetIdFormat(id: string): (s: string)
    ensures |s| == |id| + 1 && s[0] == '^' && s[1..] == id
  {
    "^" + id
  }

  /** Writing a normalised id and reading it back gives the same id. */
  lemma PresetIdRoundTrip(value: string)
    ensures NormalisePresetId(PresetIdFormat(NormalisePresetId(value))) == NormalisePresetId(value)
    ensures NormalisePresetId(NormalisePresetId(value)) == NormalisePresetId(value)
  {
    RemoveAllAppend("^", NormalisePresetId(value), '^');
  }

  /** The id a `Preset` holds and the PresetID property of its control. The
      accessors test `hasattr(self, "__control")`, which is never true
      because the attribute is stored under its mangled name, so only the
      held id is ever read or written. */
  datatype PresetState = PresetState(heldId: string, controlPresetId: Option<string>)

  function GetPresetId(p: PresetState): string {
    p.heldId
  }

  function SetPresetId(p: PresetState, value: string): (r: PresetState)
    ensures r.heldId == NormalisePresetId(value)
    ensures r.controlPresetId == p.controlPresetId
  {
    p.(heldId := NormalisePresetId(value))
  }

  /** The getter returns what the setter stored, without carets, and the
      control's property is never touched. */
  lemma SetThenGetPresetId(p: PresetState, value: string)
    ensures GetPresetId(SetPresetId(p, value)) == NormalisePresetId(value)
    ensures '^' !in GetPresetId(SetPresetId(p, value))
    ensures SetPresetId(p, value).controlPresetId == p.controlPresetId
  {
  }

  // ------------------------------------------------------------- records

  /** A preset record as read from a file: every field may be missing. */
  datatype PresetRecord<V> = PresetRecord(
    presetId: Option<string>,
    objectId: Option<string>,
    position: Option<V>,
    up: Option<V>,
    at: Option<V>)

  datatype Placement<V> = Placement(id: string, position: V, up: V, at: V)

  /** The add-on's `Preset.deserialise_from_data`: PresetID, falling back to
      ObjectID, without carets; a missing vector is `zero`. None where both
      ids are missing (the call on None raises). */
  function DeserialisePreset<V>(record: PresetRecord<V>, zero: V): (r: Option<Placement<V>>)
    ensures r.None? <==> record.presetId.None? && record.objectId.None?
    ensures r.Some? ==> '^' !in r.value.id
    ensures record.presetId.Some? ==> r == Some(Placement(NormalisePresetId(record.presetId.value),
      record.position.GetOr(zero), record.up.GetOr(zero), record.at.GetOr(zero)))
    ensures record.presetId.None? && record.objectId.Some? ==> r.Some? && r.value.id == NormalisePresetId(record.objectId.value)
  {
    var id := if record.presetId.Some? then record.presetId else record.objectId;
    match id
    case None => None
    case Some(raw) =>
      Some(Placement(NormalisePresetId(raw), record.position.GetOr(zero), record.up.GetOr(zero), record.at.GetOr(zero)))
  }

  /** The earlier `build_presets_from_dict` over the "Presets" records. The
      id variable survives from one record to the next: ObjectID wins over
      PresetID, and a record with neither reuses the previous record's id.
      None where the first such record has no id or a vector is missing. */
  function LegacyPresetPlacements<V>(records: seq<PresetRecord<V>>, previous: Option<string>): (r: Option<seq<Placement<V>>>)
    ensures r.Some? ==> |r.value| == |records|
    ensures r.Some? ==> forall i :: 0 <= i < |records| ==> '^' !in r.value[i].id
    ensures r.Some? ==> forall i :: 0 <= i < |records| && records[i].objectId.Some? ==>
      r.value[i].id == NormalisePresetId(records[i].objectId.value)
    ensures r.Some? ==> forall i :: 0 <= i < |records| && records[i].objectId.None? && records[i].presetId.Some? ==>
      r.value[i].id == NormalisePresetId(records[i].presetId.value)
    ensures r.Some? ==> forall i :: 0 < i < |records| && records[i].objectId.None? && records[i].presetId.None? ==>
      r.value[i].id == r.value[i - 1].id
    ensures r.Some? ==> forall i :: 0 <= i < |records| ==>
      records[i].position.Some? && records[i].up.Some? && records[i].at.Some?
    ensures |records| > 0 && records[0].objectId.None? && records[0].presetId.None? && previous.None? ==> r.None?
  {
    if |records| == 0 then Some([])
    else
      var rec := records[0];
      var id := if rec.objectId.Some? then rec.objectId else if rec.presetId.Some? then rec.presetId else previous;
      if id.None? || rec.position.None? || rec.up.None? || rec.at.None? then None
      else
        var stripped := NormalisePresetId(id.value);
        var here := Placement(stripped, rec.position.value, rec.up.value, rec.at.value);
        match LegacyPresetPlacements(records[1..], Some(stripped))
        case None => None
        case Some(rest) =>
          assert forall i :: 1 <= i < |records| ==> records[i] == records[1..][i - 1];
          assert |records| > 1 && records[1].objectId.None? && records[1].presetId.None? ==> rest[0].id == stripped by {
            if |records| > 1 && records[1].objectId.None? && records[1].presetId.None? {
              assert NormalisePresetId(stripped) == stripped;
            }
          }
          Some([here] + rest)
  }

  /** When a record has both ids, the add-on places the PresetID and the
      earlier script the ObjectID; with only one id they agree. */
  lemma PresetIdPrecedence<V>(record: PresetRecord<V>, zero: V)
    requires record.position.Some? && record.up.Some? && record.at.Some?
    requires record.presetId.Some? || record.objectId.Some?
    ensures var legacy := LegacyPresetPlacements([record], None);
      var addOn := DeserialisePreset(record, zero);
      && legacy.Some? && addOn.Some?
      && (record.presetId.Some? && record.objectId.Some? ==>
            addOn.value.id == NormalisePresetId(record.presetId.value) &&
            legacy.value[0].id == NormalisePresetId(record.objectId.value))
      && (record.presetId.None? || record.objectId.None? ==> legacy.value == [addOn.value])
  {
  }

  // --------------------------------------------------------- control shape

  datatype Point = Point(x: real, y: real, z: real)

  /** The margin `create_shape` adds around the members' extent. */
  const Buffer: real := 4.0

  /** `create_shape`: the eleven points of the control curve, running round
      the members' extent grown by the buffer, at height 0. The last three
      repeat the first three so the closed NURBS curve meets itself. */
  function CreateShape(lowX: real, highX: real, lowY: real, highY: real): (pts: seq<Point>)
    ensures |pts| == 11
    ensures forall i :: 0 <= i < |pts| ==> pts[i].z == 0.0
    ensures pts[8..] == pts[..3]
    ensures forall i :: 0 <= i < |pts| - 1 ==> pts[i].x == pts[i + 1].x || pts[i].y == pts[i + 1].y
    ensures forall i :: 0 <= i < |pts| ==>
      pts[i].x == lowX - Buffer || pts[i].x == highX + Buffer || pts[i].y == lowY - Buffer || pts[i].y == highY + Buffer
    ensures {pts[1], pts[3], pts[5], pts[7]} == {
      Point(highX + Buffer, lowY - Buffer, 0.0), Point(highX + Buffer, highY + Buffer, 0.0),
      Point(lowX - Buffer, highY + Buffer, 0.0), Point(lowX - Buffer, lowY - Buffer, 0.0)}
    ensures lowX <= highX && lowY <= highY ==> forall i :: 0 <= i < |pts| ==>
      lowX - Buffer <= pts[i].x <= highX + Buffer && lowY - Buffer <= pts[i].y <= highY + Buffer
  {
    var lx := lowX - Buffer;
    var hx := highX + Buffer;
    var ly := lowY - Buffer;
    var hy := highY + Buffer;
    var xMid := (hx + lx) * 0.5;
    var yMid := (hy + ly) * 0.5;
    [ Point(xMid, ly, 0.0), Point(hx, ly, 0.0), Point(hx, yMid, 0.0), Point(hx, hy, 0.0),
      Point(xMid, hy, 0.0), Point(lx, hy, 0.0), Point(lx, yMid, 0.0), Point(lx, ly, 0.0),
      Point(xMid, ly, 0.0), Point(hx, ly, 0.0), Point(hx, yMid, 0.0) ]
  }

  // ---------------------------------------------------------- preset members

  /** A member part of a preset as the control creation leaves it. */
  datatype Member = Member(item: SceneItem, hideSelect: bool, parent: Option<string>, material: Option<string>)

  /** `create_control` (both versions) for the control named `control`:
      every member is parented to it, made unselectable, flagged as
      belonging to a preset and given the preset material. */
  function MarkMembers(items: seq<SceneItem>, control: string, presetMaterial: string): (r: seq<Member>)
    ensures |r| == |items|
    ensures forall i :: 0 <= i < |items| ==>
      && r[i].item == items[i].(belongsToPreset := true)
      && r[i].hideSelect
      && r[i].parent == Some(control)
      && r[i].material == Some(presetMaterial)
  {
    seq(|items|, i requires 0 <= i < |items| => Member(items[i].(belongsToPreset := true), true, Some(control), Some(presetMaterial)))
  }

  /** Once marked, a preset's members drop out of the listing that excludes
      preset members, and only there. */
  lemma MarkedMembersExcluded(items: seq<SceneItem>, control: string, presetMaterial: string, skip: seq<string>)
    ensures var marked := seq(|items|, i requires 0 <= i < |items| => MarkMembers(items, control, presetMaterial)[i].item);
      && AllParts(marked, true, skip) == []
      && forall i :: 0 <= i < |items| && items[i].objectId.Some? && items[i].objectId.value !in skip ==>
           marked[i] in AllParts(marked, false, skip)
  {
    var marked := seq(|items|, i requires 0 <= i < |items| => MarkMembers(items, control, presetMaterial)[i].item);
    assert forall x :: x in marked ==> x.belongsToPreset;
    var kept := KeptParts(marked, true, skip);
    assert |kept| == 0;
    var all := AllParts(marked, true, skip);
    assert |all| == |multiset(all)| == |multiset(kept)| == 0;
  }

  /** The add-on's new `Preset` for an id: an existing preset found in the
      cache is duplicated, otherwise it is generated from its file; either
      way, when a control is made, the new control's name is cached under
      the id. */
  function NewPreset(cache: PartCache, scene: set<string>, id: string, createControl: bool, newControl: string): (r: (Retrieval, PartCache))
    ensures FindObjectById(cache, scene, id).Some? ==> r.0 == Duplicated(FindObjectById(cache, scene, id).value)
    ensures FindObjectById(cache, scene, id).None? ==> r.0 == Imported(newControl)
    ensures createControl ==> r.1 == AddToPresetCache(cache, id, newControl)
    ensures !createControl ==> r.1 == cache
  {
    var how := match FindObjectById(cache, scene, id)
      case Some(existing) => Duplicated(existing)
      case None => Imported(newControl);
    (how, if createControl then cache[id := newControl] else cache)
  }

  /** A second preset of the same id duplicates the control the first one
      made, as long as that control is in the scene. */
  lemma NewPresetAgain(cache: PartCache, scene: set<string>, id: string, first: string, second: string)
    requires first != ""
    ensures var made := NewPreset(cache, scene, id, true, first);
      NewPreset(made.1, scene + {first}, id, true, second).0 == Duplicated(first)
  {
  }

  /** The earlier `retrieve_preset` with `create_control`: a cached control
      still in the scene is duplicated and the cache is left alone; otherwise
      the preset is generated, and making its control (named `control`)
      caches that name under the preset name. */
  function LegacyRetrievePreset(cache: PartCache, scene: set<string>, name: string, control: string): (r: (Retrieval, PartCache))
    ensures r.0.Duplicated? <==> name in cache && cache[name] in scene
    ensures r.0.Duplicated? ==> r.0.original == cache[name] && r.1 == cache
    ensures r.0.Imported? ==> r.0.name == control && r.1 == AddToPresetCache(cache, name, control)
  {
    if name in cache && cache[name] in scene then (Duplicated(cache[name]), cache)
    else (Imported(control), cache[name := control])
  }

  /** The two versions choose between duplicating and generating alike (for a
      non-empty cached name), but cache differently: the earlier script caches
      exactly when it generates, whatever the caller wanted, while the add-on
      caches exactly when the caller asks for a control, duplicate or not. */
  lemma PresetCachingDiffers(cache: PartCache, scene: set<string>, id: string, createControl: bool, control: string)
    requires id in cache ==> cache[id] != ""
    ensures var legacy := LegacyRetrievePreset(cache, scene, id, control);
            var addOn := NewPreset(cache, scene, id, createControl, control);
            && legacy.0 == addOn.0
            && (legacy.1 == cache <==> legacy.0.Duplicated? || (id in cache && cache[id] == control))
            && (addOn.1 == cache <==> !createControl || (id in cache && cache[id] == control))
  {
    var legacy := LegacyRetrievePreset(cache, scene, id, control);
    if legacy.1 == cache && legacy.0.Imported? {
      assert legacy.1[id] == control;
    }
    var addOn := NewPreset(cache, scene, id, createControl, control);
    if addOn.1 == cache && createControl {
      assert addOn.1[id] == control;
    }
  }

  // -------------------------------------------------------- preset contents

  /** The ObjectIDs of the items that have one, in order. */
  function ObjectIds(items: seq<SceneItem>): seq<string> {
    if |items| == 0 then []
    else (if items[0].objectId.Some? then [items[0].objectId.value] else []) + ObjectIds(items[1..])
  }

  /** When every item has an ObjectID, the ids line up with the items. */
  lemma {:induction false} ObjectIdsPointwise(items: seq<SceneItem>)
    requires forall i :: 0 <= i < |items| ==> items[i].objectId.Some?
    ensures |ObjectIds(items)| == |items|
    ensures forall i :: 0 <= i < |items| ==> ObjectIds(items)[i] == items[i].objectId.value
  {
    if |items| > 0 {
      ObjectIdsPointwise(items[1..]);
      var ids := ObjectIds(items);
      assert ids == [items[0].objectId.value] + ObjectIds(items[1..]);
      forall i | 1 <= i < |items| ensures ids[i] == items[i].objectId.value {
        assert items[1..][i - 1] == items[i];
      }
    }
  }

  lemma {:induction false} ObjectIdsMembers(items: seq<SceneItem>)
    ensures forall id :: id in ObjectIds(items) <==> exists x :: x in items && x.objectId == Some(id)
  {
    if |items| > 0 {
      ObjectIdsMembers(items[1..]);
      assert forall x :: x in items <==> x == items[0] || x in items[1..];
    }
  }

  lemma {:induction false} ObjectIdsAppend(a: seq<SceneItem>, b: seq<SceneItem>)
    ensures ObjectIds(a + b) == ObjectIds(a) + ObjectIds(b)
  {
    if |a| > 0 {
      var head := if a[0].objectId.Some? then [a[0].objectId.value] else [];
      assert (a + b)[0] == a[0];
      assert (a + b)[1..] == a[1..] + b;
      ObjectIdsAppend(a[1..], b);
      assert ObjectIds(a + b) == head + ObjectIds(a[1..] + b);
    } else {
      assert a + b == b;
    }
  }

  /** Taking the first item of `a` out of `b` at a position where it occurs
      keeps the two permutations of each other. */
  lemma RemoveMatching(a: seq<SceneItem>, b: seq<SceneItem>, k: nat)
    requires multiset(a) == multiset(b) && |a| > 0 && k < |b| && b[k] == a[0]
    ensures multiset(a[1..]) == multiset(b[..k] + b[k + 1..])
  {
    var x := a[0];
    assert a == [x] + a[1..];
    assert b[..k + 1] == b[..k] + [x];
    assert b == b[..k + 1] + b[k + 1..];
    assert multiset(a) == multiset{x} + multiset(a[1..]);
    assert multiset(b) == multiset{x} + (multiset(b[..k]) + multiset(b[k + 1..]));
    assert multiset(b[..k] + b[k + 1..]) == multiset(b[..k]) + multiset(b[k + 1..]);
    assert multiset(a[1..]) == multiset(a) - multiset{x};
    assert multiset(b[..k] + b[k + 1..]) == multiset(b) - multiset{x};
  }

  lemma ObjectIdsAround(b: seq<SceneItem>, k: nat)
    requires k < |b|
    ensures ObjectIds(b) == ObjectIds(b[..k]) + ObjectIds([b[k]]) + ObjectIds(b[k + 1..])
    ensures ObjectIds(b[..k] + b[k + 1..]) == ObjectIds(b[..k]) + ObjectIds(b[k + 1..])
  {
    var left, right := b[..k], b[k + 1..];
    var mid := [b[k]];
    assert b[..k + 1] == left + mid;
    assert b == b[..k + 1] + right;
    ObjectIdsAppend(left + mid, right);
    ObjectIdsAppend(left, mid);
    ObjectIdsAppend(left, right);
  }

  /** Reordering the items reorders their ObjectIDs. */
  lemma {:induction false} ObjectIdsPermutation(a: seq<SceneItem>, b: seq<SceneItem>)
    requires multiset(a) == multiset(b)
    ensures multiset(ObjectIds(a)) == multiset(ObjectIds(b))
  {
    if |a| == 0 {
      assert |b| == |multiset(b)| == 0;
      return;
    }
    assert a[0] in multiset(b);
    var k :| 0 <= k < |b| && b[k] == a[0];
    RemoveMatching(a, b, k);
    ObjectIdsPermutation(a[1..], b[..k] + b[k + 1..]);
    assert a == [a[0]] + a[1..];
    ObjectIdsAppend([a[0]], a[1..]);
    ObjectIdsAround(b, k);
    var ix, il, ir := ObjectIds([a[0]]), ObjectIds(b[..k]), ObjectIds(b[k + 1..]);
    assert multiset(ObjectIds(a)) == multiset(ix) + multiset(ObjectIds(a[1..]));
    assert multiset(ObjectIds(b)) == multiset(il) + multiset(ix) + multiset(ir);
  }

  /** The earlier `generate_preset_internal_data`: the ObjectIDs of every
      part except the base flag, in build order. */
  function PresetContents(objects: seq<SceneItem>): (ids: seq<string>)
    ensures "BASE_FLAG" !in ids
    ensures forall id :: id in ids <==> exists x :: x in objects && x.objectId == Some(id) && id != "BASE_FLAG"
    ensures var listed := LegacyAllObjects(objects, false, ["BASE_FLAG"]);
      |ids| == |listed| && forall i :: 0 <= i < |ids| ==> listed[i].objectId == Some(ids[i])
  {
    var listed := LegacyAllObjects(objects, false, ["BASE_FLAG"]);
    ObjectIdsMembers(listed);
    AllHaveIds(listed, objects, ["BASE_FLAG"]);
    ObjectIdsPointwise(listed);
    ObjectIds(listed)
  }

  /** A preset file lists the ObjectID of every part but the base flag as
      often as such parts occur in the scene; with the ensures of
      `PresetContents` and `LegacyAllObjects`, in build order. */
  lemma PresetContentsCounts(objects: seq<SceneItem>)
    ensures multiset(PresetContents(objects)) == multiset(ObjectIds(KeptParts(objects, false, ["BASE_FLAG"])))
  {
    var listed := LegacyAllObjects(objects, false, ["BASE_FLAG"]);
    ObjectIdsPermutation(listed, KeptParts(objects, false, ["BASE_FLAG"]));
  }

  lemma AllHaveIds(listed: seq<SceneItem>, objects: seq<SceneItem>, skip: seq<string>)
    requires forall x :: x in listed <==> x in objects && IsPart(x, false, skip)
    ensures forall i :: 0 <= i < |listed| ==> listed[i].objectId.Some?
  {
    forall i | 0 <= i < |listed| ensures listed[i].objectId.Some? {
      assert listed[i] in listed;
    }
  }
}

=== FILE: proximity.dfy ===
/** Proximity queries on parts (`get_closest_snap_points`,
    `get_matrix_from_key`, `has_snap_point`, `get_connected_snapped_objects`).
    The distance between two world matrices is a parameter: the add-on
    measures the distance between their translations. */
module Proximity {
  import opened Options
  import opened Text
  import opened Assoc
  import opened Transforms
  import opened SnapTables
  import opened SnapEngine

  /** The starting "lowest distance" of the closest-pair search. */
  const FarAway: real := 9999999.0

  /** Two snap points closer than this are connected. */
  const Touching: real := 0.05

  /** A key passes a truthy-tested filter: no filter, an empty filter, or a
      filter that occurs in the key. */
  predicate Passes(filter: Option<string>, key: string) {
    !Truthy(filter) || Contains(key, filter.value)
  }

  /** A key passes a None-tested filter: no filter, or a filter (possibly
      empty) that occurs in the key. */
  predicate PassesIfGiven(filter: Option<string>, key: string) {
    filter.None? || Contains(key, filter.value)
  }

  /** The two ways of testing a filter accept the same keys, because the empty
      string occurs in every key. */
  lemma FilterTestsAgree(filter: Option<string>, key: string)
    ensures Passes(filter, key) <==> PassesIfGiven(filter, key)
  {
    if filter.Some? && filter.value == "" {
      assert OccursAt(key, "", 0);
    }
  }

  /** The world matrix of a part's snap point. */
  function WorldPoint<T>(g: Algebra<T>, part: Part<T>, p: SnapPoint<T>): T {
    Mul(g, part.matrix, p.matrix)
  }

  // --------------------------------------------------------- closest pair

  datatype Candidate = Candidate(sourceKey: string, targetKey: string, distance: real)

  /** The pairs the inner loop visits for one source point, in order. */
  function Row<T>(g: Algebra<T>, dist: (T, T) -> real, source: Part<T>, sourceKey: string, sourcePoint: SnapPoint<T>,
                  target: Part<T>, targetPoints: Points<T>, targetFilter: Option<string>): (r: seq<Candidate>)
    ensures forall c :: c in r ==> c.sourceKey == sourceKey && c.targetKey in Keys(targetPoints) && Passes(targetFilter, c.targetKey)
    ensures forall j :: 0 <= j < |targetPoints| && Passes(targetFilter, targetPoints[j].0) ==>
      Candidate(sourceKey, targetPoints[j].0, dist(WorldPoint(g, source, sourcePoint), WorldPoint(g, target, targetPoints[j].1))) in r
  {
    if |targetPoints| == 0 then []
    else
      var rest := Row(g, dist, source, sourceKey, sourcePoint, target, targetPoints[1..], targetFilter);
      assert forall k :: k in Keys(targetPoints[1..]) ==> k in Keys(targetPoints) by {
        assert Keys(targetPoints) == [targetPoints[0].0] + Keys(targetPoints[1..]);
      }
      assert forall j :: 1 <= j < |targetPoints| ==> targetPoints[j] == targetPoints[1..][j - 1];
      assert Keys(targetPoints)[0] == targetPoints[0].0;
      var (key, point) := targetPoints[0];
      var here := dist(WorldPoint(g, source, sourcePoint), WorldPoint(g, target, point));
      (if Passes(targetFilter, key) then [Candidate(sourceKey, key, here)] else []) + rest
  }

  /** Every (source key, target key) pair the nested loops of the closest-pair
      search visit, in visiting order, with its distance. */
  function Candidates<T>(g: Algebra<T>, dist: (T, T) -> real, source: Part<T>, sourcePoints: Points<T>,
                         target: Part<T>, targetPoints: Points<T>,
                         sourceFilter: Option<string>, targetFilter: Option<string>): (r: seq<Candidate>)
    ensures forall c :: c in r ==>
      && c.sourceKey in Keys(sourcePoints) && Passes(sourceFilter, c.sourceKey)
      && c.targetKey in Keys(targetPoints) && Passes(targetFilter, c.targetKey)
    ensures forall i, j ::
      (0 <= i < |sourcePoints| && 0 <= j < |targetPoints|
       && Passes(sourceFilter, sourcePoints[i].0) && Passes(targetFilter, targetPoints[j].0)) ==>
      Candidate(sourcePoints[i].0, targetPoints[j].0,
                dist(WorldPoint(g, source, sourcePoints[i].1), WorldPoint(g, target, targetPoints[j].1))) in r
  {
    if |sourcePoints| == 0 then []
    else
      var rest := Candidates(g, dist, source, sourcePoints[1..], target, targetPoints, sourceFilter, targetFilter);
      assert forall k :: k in Keys(sourcePoints[1..]) ==> k in Keys(sourcePoints) by {
        assert Keys(sourcePoints) == [sourcePoints[0].0] + Keys(sourcePoints[1..]);
      }
      assert forall i :: 1 <= i < |sourcePoints| ==> sourcePoints[i] == sourcePoints[1..][i - 1];
      assert Keys(sourcePoints)[0] == sourcePoints[0].0;
      var (key, point) := sourcePoints[0];
      (if Passes(sourceFilter, key) then Row(g, dist, source, key, point, target, targetPoints, targetFilter) else []) + rest
  }

  /** Position `i` holds the first pair of smallest distance, and that
      distance is below the starting bound. */
  predicate FirstLowest(cs: seq<Candidate>, i: int) {
    && 0 <= i < |cs|
    && cs[i].distance < FarAway
    && (forall j :: 0 <= j < i ==> cs[j].distance > cs[i].distance)
    && (forall j :: i < j < |cs| ==> cs[j].distance >= cs[i].distance)
  }

  /** `get_closest_snap_points`: the first visited pair of strictly smallest
      distance below the starting bound, or (None, None) when no visited pair
      comes that close. Both parts must carry a snap-point map. */
  method ClosestSnapPoints<T>(g: Algebra<T>, dist: (T, T) -> real, info: SnapInfo<T>, source: Part<T>, target: Part<T>,
                              sourceFilter: Option<string>, targetFilter: Option<string>)
      returns (sourceKey: Option<string>, targetKey: Option<string>)
    requires PointsOfPart(info, source.objectId).Some? && PointsOfPart(info, target.objectId).Some?
    ensures var cs := Candidates(g, dist, source, PointsOfPart(info, source.objectId).value,
                                 target, PointsOfPart(info, target.objectId).value, sourceFilter, targetFilter);
      && (sourceKey.None? <==> forall j :: 0 <= j < |cs| ==> cs[j].distance >= FarAway)
      && (sourceKey.None? <==> targetKey.None?)
      && (sourceKey.Some? ==> exists i :: FirstLowest(cs, i) && sourceKey.value == cs[i].sourceKey && targetKey.value == cs[i].targetKey)
    ensures sourceKey.Some? ==> sourceKey.value in Keys(PointsOfPart(info, source.objectId).value) && Passes(sourceFilter, sourceKey.value)
    ensures targetKey.Some? ==> targetKey.value in Keys(PointsOfPart(info, target.objectId).value) && Passes(targetFilter, targetKey.value)
  {
    var cs := Candidates(g, dist, source, PointsOfPart(info, source.objectId).value,
                         target, PointsOfPart(info, target.objectId).value, sourceFilter, targetFilter);
    sourceKey, targetKey := Lowest(cs);
    if sourceKey.Some? {
      var i :| FirstLowest(cs, i) && sourceKey.value == cs[i].sourceKey && targetKey.value == cs[i].targetKey;
      assert cs[i] in cs;
    }
  }

  /** The running-minimum scan over the visited pairs. */
  method Lowest(cs: seq<Candidate>) returns (sourceKey: Option<string>, targetKey: Option<string>)
    ensures sourceKey.None? <==> forall j :: 0 <= j < |cs| ==> cs[j].distance >= FarAway
    ensures sourceKey.None? <==> targetKey.None?
    ensures sourceKey.Some? ==> exists i :: FirstLowest(cs, i) && sourceKey.value == cs[i].sourceKey && targetKey.value == cs[i].targetKey
  {
    sourceKey, targetKey := None, None;
    var lowest := FarAway;
    ghost var best := -1;
    var n := 0;
    while n < |cs|
      invariant 0 <= n <= |cs|
      invariant best == -1 <==> sourceKey.None?
      invariant sourceKey.None? <==> targetKey.None?
      invariant best == -1 ==> lowest == FarAway && forall j :: 0 <= j < n ==> cs[j].distance >= FarAway
      invariant best != -1 ==>
        && 0 <= best < n && lowest == cs[best].distance && lowest < FarAway
        && sourceKey == Some(cs[best].sourceKey) && targetKey == Some(cs[best].targetKey)
        && (forall j :: 0 <= j < best ==> cs[j].distance > lowest)
        && (forall j :: best < j < n ==> cs[j].distance >= lowest)
    {
      if cs[n].distance < lowest {
        lowest := cs[n].distance;
        sourceKey, targetKey := Some(cs[n].sourceKey), Some(cs[n].targetKey);
        best := n;
      }
      n := n + 1;
    }
    if best != -1 {
      assert FirstLowest(cs, best);
    }
  }

  // ------------------------------------------------------- point queries

  /** `get_matrix_from_key`: the local matrix of the first point named `key`,
      or None when no point has that name (a None key included). */
  function MatrixFromKey<T>(info: SnapInfo<T>, part: Part<T>, key: Option<string>): (r: Option<T>)
    requires PointsOfPart(info, part.objectId).Some?
    ensures var points := PointsOfPart(info, part.objectId).value;
      && (r.Some? <==> key.Some? && key.value in Keys(points))
      && (r.Some? ==> r.value == points[KeyIndex(points, key.value)].1.matrix)
  {
    var points := PointsOfPart(info, part.objectId).value;
    if key.None? || key.value !in Keys(points) then None
    else Some(Get(points, key.value).value.matrix)
  }

  /** `has_snap_point`: whether any of the part's snap points passes the
      filter. */
  method HasSnapPoint<T>(info: SnapInfo<T>, part: Part<T>, filter: Option<string>) returns (found: bool)
    requires PointsOfPart(info, part.objectId).Some?
    ensures var points := PointsOfPart(info, part.objectId).value;
      found <==> exists i :: 0 <= i < |points| && Passes(filter, points[i].0)
  {
    found := AnyPasses(PointsOfPart(info, part.objectId).value, filter);
  }

  /** The scan of `has_snap_point`, stopping at the first passing key. */
  method AnyPasses<T>(points: Points<T>, filter: Option<string>) returns (found: bool)
    ensures found <==> exists i :: 0 <= i < |points| && Passes(filter, points[i].0)
  {
    var n := 0;
    while n < |points|
      invariant 0 <= n <= |points|
      invariant forall i :: 0 <= i < n ==> !Passes(filter, points[i].0)
    {
      if Passes(filter, points[n].0) {
        return true;
      }
      n := n + 1;
    }
    return false;
  }

  // --------------------------------------------------- connected objects

  /** The world matrices of the part's snap points whose key passes the
      None-tested filter, in table order. */
  function SourcePoints<T>(g: Algebra<T>, part: Part<T>, points: Points<T>, filter: Option<string>): (r: seq<T>)
    ensures |r| <= |points|
  {
    if |points| == 0 then []
    else
      (if PassesIfGiven(filter, points[0].0) then [WorldPoint(g, part, points[0].1)] else [])
        + SourcePoints(g, part, points[1..], filter)
  }

  lemma SourcePointsStep<T>(g: Algebra<T>, part: Part<T>, points: Points<T>, filter: Option<string>)
    requires |points| > 0
    ensures SourcePoints(g, part, points, filter)
      == (if PassesIfGiven(filter, points[0].0) then [WorldPoint(g, part, points[0].1)] else [])
         + SourcePoints(g, part, points[1..], filter)
  {
  }

  /** There are no source matrices exactly when no point passes. */
  lemma {:induction false} SourcePointsEmpty<T>(g: Algebra<T>, part: Part<T>, points: Points<T>, filter: Option<string>)
    ensures |SourcePoints(g, part, points, filter)| == 0 <==> forall k :: 0 <= k < |points| ==> !PassesIfGiven(filter, points[k].0)
  {
    if |points| > 0 {
      SourcePointsStep(g, part, points, filter);
      SourcePointsEmpty(g, part, points[1..], filter);
      assert forall k :: 1 <= k < |points| ==> points[k] == points[1..][k - 1];
    }
  }

  /** Every passing point's world matrix is among the source matrices. */
  lemma {:induction false} SourcePointsCover<T>(g: Algebra<T>, part: Part<T>, points: Points<T>, filter: Option<string>, k: int)
    requires 0 <= k < |points| && PassesIfGiven(filter, points[k].0)
    ensures WorldPoint(g, part, points[k].1) in SourcePoints(g, part, points, filter)
  {
    SourcePointsStep(g, part, points, filter);
    if k > 0 {
      assert points[k] == points[1..][k - 1];
      SourcePointsCover(g, part, points[1..], filter, k - 1);
    }
  }

  /** Every source matrix is the world matrix of a passing point. */
  lemma {:induction false} SourcePointsOnly<T>(g: Algebra<T>, part: Part<T>, points: Points<T>, filter: Option<string>, m: T)
    requires m in SourcePoints(g, part, points, filter)
    ensures exists k :: 0 <= k < |points| && PassesIfGiven(filter, points[k].0) && m == WorldPoint(g, part, points[k].1)
  {
    SourcePointsStep(g, part, points, filter);
    var rest := SourcePoints(g, part, points[1..], filter);
    if PassesIfGiven(filter, points[0].0) && m == WorldPoint(g, part, points[0].1) {
    } else {
      assert m in rest;
      SourcePointsOnly(g, part, points[1..], filter, m);
      var k :| 0 <= k < |points[1..]| && PassesIfGiven(filter, points[1..][k].0) && m == WorldPoint(g, part, points[1..][k].1);
      assert points[1..][k] == points[k + 1];
    }
  }

  /** Some passing point of `target` lies within touching distance of one of
      `sources`. */
  predicate Touches<T>(g: Algebra<T>, dist: (T, T) -> real, sources: seq<T>, target: Part<T>, points: Points<T>, filter: Option<string>) {
    exists j, i :: 0 <= j < |points| && 0 <= i < |sources| && Passes(filter, points[j].0)
      && dist(sources[i], WorldPoint(g, target, points[j].1)) < Touching
  }

  /** Whether `other` belongs to the connected set of `self`: it is not
      `self` (by name), it carries snap points, and they touch. */
  predicate Connected<T>(g: Algebra<T>, dist: (T, T) -> real, info: SnapInfo<T>, self: Part<T>, filter: Option<string>, other: Part<T>)
    requires PointsOfPart(info, self.objectId).Some?
  {
    var sources := SourcePoints(g, self, PointsOfPart(info, self.objectId).value, filter);
    && other.name != self.name
    && HasPoints(PointsOfPart(info, other.objectId))
    && Touches(g, dist, sources, other, PointsOfPart(info, other.objectId).value, filter)
  }

  /** The connected parts among `parts`, in order: the reference the search
      is measured against. */
  function ConnectedAmong<T>(g: Algebra<T>, dist: (T, T) -> real, info: SnapInfo<T>, self: Part<T>, filter: Option<string>, parts: seq<Part<T>>): seq<Part<T>>
    requires PointsOfPart(info, self.objectId).Some?
  {
    if |parts| == 0 then []
    else
      var last := parts[|parts| - 1];
      ConnectedAmong(g, dist, info, self, filter, parts[..|parts| - 1])
        + (if Connected(g, dist, info, self, filter, last) then [last] else [])
  }

  /** Whether any of `sources` lies within touching distance of `m`. */
  method AnyNear<T>(dist: (T, T) -> real, sources: seq<T>, m: T) returns (found: bool)
    ensures found <==> exists i :: 0 <= i < |sources| && dist(sources[i], m) < Touching
  {
    var n := 0;
    while n < |sources|
      invariant 0 <= n <= |sources|
      invariant forall i :: 0 <= i < n ==> dist(sources[i], m) >= Touching
    {
      if dist(sources[n], m) < 0.050 {
        return true;
      }
      n := n + 1;
    }
    return false;
  }

  /** The loop over one target's snap points, stopping at the first that
      touches. */
  method TargetTouches<T>(g: Algebra<T>, dist: (T, T) -> real, sources: seq<T>, target: Part<T>, points: Points<T>, filter: Option<string>)
      returns (found: bool)
    ensures found <==> Touches(g, dist, sources, target, points, filter)
  {
    var n := 0;
    while n < |points|
      invariant 0 <= n <= |points|
      invariant forall j, i :: 0 <= j < n && 0 <= i < |sources| && Passes(filter, points[j].0) ==>
        dist(sources[i], WorldPoint(g, target, points[j].1)) >= Touching
    {
      var (key, point) := points[n];
      if !Truthy(filter) || Contains(key, filter.value) {
        var hit := AnyNear(dist, sources, Mul(g, target.matrix, point.matrix));
        if hit {
          return true;
        }
      }
      n := n + 1;
    }
    return false;
  }

  /** `get_connected_snapped_objects` over the scene's parts `parts`, in the
      order the builder lists them. */
  method ConnectedSnappedObjects<T>(g: Algebra<T>, dist: (T, T) -> real, info: SnapInfo<T>, self: Part<T>, filter: Option<string>, parts: seq<Part<T>>)
      returns (result: seq<Part<T>>)
    requires PointsOfPart(info, self.objectId).Some?
    ensures result == ConnectedAmong(g, dist, info, self, filter, parts)
  {
    var sources := SourcePoints(g, self, PointsOfPart(info, self.objectId).value, filter);
    result := [];
    if |sources| == 0 {
      NothingConnectedWithoutSources(g, dist, info, self, filter, parts);
      return;
    }
    var n := 0;
    while n < |parts|
      invariant 0 <= n <= |parts|
      invariant result == ConnectedAmong(g, dist, info, self, filter, parts[..n])
    {
      var target := parts[n];
      var hit := IsConnected(g, dist, info, self, filter, sources, target);
      assert parts[..n + 1][..n] == parts[..n];
      assert ConnectedAmong(g, dist, info, self, filter, parts[..n + 1])
        == ConnectedAmong(g, dist, info, self, filter, parts[..n]) + (if hit then [target] else []);
      n := n + 1;
      if hit {
        result := result + [target];
      }
    }
    assert parts[..n] == parts;
  }

  /** The test the search applies to one part of the scene. */
  method IsConnected<T>(g: Algebra<T>, dist: (T, T) -> real, info: SnapInfo<T>, self: Part<T>, filter: Option<string>, sources: seq<T>, target: Part<T>)
      returns (hit: bool)
    requires PointsOfPart(info, self.objectId).Some?
    requires sources == SourcePoints(g, self, PointsOfPart(info, self.objectId).value, filter)
    ensures hit == Connected(g, dist, info, self, filter, target)
  {
    hit := false;
    if target.name != self.name {
      var points := PointsOfPart(info, target.objectId);
      if HasPoints(points) {
        hit := TargetTouches(g, dist, sources, target, points.value, filter);
      }
    }
  }

  lemma {:induction false} NothingConnectedWithoutSources<T>(g: Algebra<T>, dist: (T, T) -> real, info: SnapInfo<T>, self: Part<T>, filter: Option<string>, parts: seq<Part<T>>)
    requires PointsOfPart(info, self.objectId).Some?
    requires |SourcePoints(g, self, PointsOfPart(info, self.objectId).value, filter)| == 0
    ensures ConnectedAmong(g, dist, info, self, filter, parts) == []
  {
    if |parts| > 0 {
      NothingConnectedWithoutSources(g, dist, info, self, filter, parts[..|parts| - 1]);
    }
  }

  /** The connected set is exactly the parts, other than `self`, some of
      whose filter-matching points touch one of `self`'s. */
  lemma {:induction false} ConnectedAmongMembers<T>(g: Algebra<T>, dist: (T, T) -> real, info: SnapInfo<T>, self: Part<T>, filter: Option<string>, parts: seq<Part<T>>, p: Part<T>)
    requires PointsOfPart(info, self.objectId).Some?
    ensures p in ConnectedAmong(g, dist, info, self, filter, parts) <==> p in parts && Connected(g, dist, info, self, filter, p)
    ensures p in ConnectedAmong(g, dist, info, self, filter, parts) ==> p.name != self.name
  {
    if |parts| > 0 {
      var init := parts[..|parts| - 1];
      var last := parts[|parts| - 1];
      ConnectedAmongMembers(g, dist, info, self, filter, init, p);
      assert parts == init + [last];
      assert p in parts <==> p in init || p == last;
      var before := ConnectedAmong(g, dist, info, self, filter, init);
      if Connected(g, dist, info, self, filter, last) {
        assert ConnectedAmong(g, dist, info, self, filter, parts) == before + [last];
      } else {
        assert ConnectedAmong(g, dist, info, self, filter, parts) == before;
      }
    }
  }

  /** A part listed once is reported at most once. */
  lemma {:induction false} ConnectedAmongDistinct<T>(g: Algebra<T>, dist: (T, T) -> real, info: SnapInfo<T>, self: Part<T>, filter: Option<string>, parts: seq<Part<T>>)
    requires PointsOfPart(info, self.objectId).Some?
    requires forall i, j :: 0 <= i < j < |parts| ==> parts[i] != parts[j]
    ensures var r := ConnectedAmong(g, dist, info, self, filter, parts);
      forall i, j :: 0 <= i < j < |r| ==> r[i] != r[j]
  {
    if |parts| > 0 {
      var init := parts[..|parts| - 1];
      var last := parts[|parts| - 1];
      ConnectedAmongDistinct(g, dist, info, self, filter, init);
      ConnectedAmongMembers(g, dist, info, self, filter, init, last);
      assert last !in init;
    }
  }

  /** When none of `self`'s points passes the filter, nothing is connected. */
  lemma NothingConnectedWithoutMatchingPoints<T>(g: Algebra<T>, dist: (T, T) -> real, info: SnapInfo<T>, self: Part<T>, filter: Option<string>, parts: seq<Part<T>>)
    requires PointsOfPart(info, self.objectId).Some?
    requires var points := PointsOfPart(info, self.objectId).value;
      forall k :: 0 <= k < |points| ==> !PassesIfGiven(filter, points[k].0)
    ensures ConnectedAmong(g, dist, info, self, filter, parts) == []
  {
    SourcePointsEmpty(g, self, PointsOfPart(info, self.objectId).value, filter);
    NothingConnectedWithoutSources(g, dist, info, self, filter, parts);
  }
}

=== FILE: python_utils.dfy ===
/** The two general-purpose helpers of the utility module: stepping through an
    ordered list of keys with wrap-around, and preferring an integer reading of
    a value when one exists. */
module PyUtils {
  import opened Options
  import opened Text

  /** The direction of a cycling request. The source accepts the strings
      "next" and "prev"; any other string leaves the new index unbound, so the
      step is a two-valued type here. */
  datatype Step = Next | Prev

  predicate Distinct<X(==)>(s: seq<X>) {
    forall i, j :: 0 <= i < j < |s| ==> s[i] != s[j]
  }

  /** Python's `list.index`: the position of the first occurrence. */
  function IndexOf<X(==)>(s: seq<X>, x: X): (i: nat)
    requires x in s
    ensures i < |s| && s[i] == x && x !in s[..i]
  {
    if s[0] == x then 0 else 1 + IndexOf(s[1..], x)
  }

  /** The index the lookup starts from: that of `current`, or 0 when
      `current` is not a key. */
  function StartIndex<X(==)>(data: seq<X>, current: X): (i: nat)
    requires |data| > 0
    ensures i < |data|
    ensures current in data ==> data[i] == current
  {
    if current in data then IndexOf(data, current) else 0
  }

  /** The position one step from `i` on a ring of `n` positions. */
  function RingStep(i: nat, n: nat, step: Step): (j: nat)
    requires i < n
    ensures j < n
    ensures step.Next? ==> j == (i + 1) % n
    ensures step.Prev? ==> j == (i + n - 1) % n
  {
    if step.Next? then
      if i == n - 1 then ModSelf(n); 0
      else ModBelow(i + 1, n); i + 1
    else
      if i == 0 then ModBelow(n - 1, n); n - 1
      else ModAbove(i - 1, n); i - 1
  }

  lemma ModBelow(a: int, n: int)
    requires 0 <= a < n
    ensures a % n == a
  {
  }

  lemma ModSelf(n: int)
    requires n > 0
    ensures n % n == 0
  {
  }

  lemma ModAbove(a: int, n: int)
    requires 0 <= a < n
    ensures (a + n) % n == a
  {
  }

  /** The key one step away from `current`, wrapping past either end. */
  function AdjacentKey<X(==)>(data: seq<X>, current: X, step: Step): (r: X)
    requires |data| > 0
    ensures r in data
    ensures r == data[RingStep(StartIndex(data, current), |data|, step)]
  {
    var i: int := StartIndex(data, current);
    var next := if step.Next? then i + 1 else i - 1;
    var wrappedHigh := if next > |data| - 1 then 0 else next;
    var wrapped := if wrappedHigh < 0 then |data| - 1 else wrappedHigh;
    data[wrapped]
  }

  lemma IndexOfDistinct<X>(data: seq<X>, k: nat)
    requires Distinct(data) && k < |data|
    ensures IndexOf(data, data[k]) == k
  {
  }

  /** "next" from the last key gives the first, "prev" from the first key
      gives the last, and otherwise the neighbour is returned. */
  lemma AdjacentKeyWraps<X>(data: seq<X>, k: nat)
    requires Distinct(data) && k < |data|
    ensures AdjacentKey(data, data[k], Next) == if k == |data| - 1 then data[0] else data[k + 1]
    ensures AdjacentKey(data, data[k], Prev) == if k == 0 then data[|data| - 1] else data[k - 1]
  {
    IndexOfDistinct(data, k);
  }

  /** Stepping forward then back (or back then forward) returns to a key
      that is in the list. */
  lemma NextThenPrev<X>(data: seq<X>, current: X)
    requires Distinct(data) && current in data
    ensures AdjacentKey(data, AdjacentKey(data, current, Next), Prev) == current
    ensures AdjacentKey(data, AdjacentKey(data, current, Prev), Next) == current
  {
    var k := IndexOf(data, current);
    var n := |data|;
    IndexOfDistinct(data, k);
    AdjacentKeyWraps(data, k);
    if k == n - 1 { AdjacentKeyWraps(data, 0); } else { AdjacentKeyWraps(data, k + 1); }
    if k == 0 { AdjacentKeyWraps(data, n - 1); } else { AdjacentKeyWraps(data, k - 1); }
  }

  /** `count` successive "next" requests starting from `current`. */
  function RepeatNext<X(==)>(data: seq<X>, current: X, count: nat): (r: X)
    requires |data| > 0
    ensures count > 0 ==> r in data
  {
    if count == 0 then current else AdjacentKey(data, RepeatNext(data, current, count - 1), Next)
  }

  /** The position `count` steps after `k` on a ring of `n`, for at most one
      full turn. */
  function Ahead(k: nat, count: nat, n: nat): nat {
    if k + count < n then k + count else k + count - n
  }

  lemma {:induction false} RepeatNextPosition<X>(data: seq<X>, k: nat, count: nat)
    requires Distinct(data) && k < |data| && count <= |data|
    ensures Ahead(k, count, |data|) < |data|
    ensures RepeatNext(data, data[k], count) == data[Ahead(k, count, |data|)]
  {
    if count > 0 {
      RepeatNextPosition(data, k, count - 1);
      var n := |data|;
      var p := Ahead(k, count - 1, n);
      var q := if p == n - 1 then 0 else p + 1;
      assert q == Ahead(k, count, n);
      AdjacentKeyWraps(data, p);
      assert AdjacentKey(data, data[p], Next) == data[q];
    }
  }

  /** Going "next" as many times as there are keys comes back to the start. */
  lemma RepeatNextFullCircle<X>(data: seq<X>, current: X)
    requires Distinct(data) && current in data
    ensures RepeatNext(data, current, |data|) == current
  {
    RepeatNextPosition(data, IndexOf(data, current), |data|);
  }

  /** A current value that is not a key counts as the first key. */
  lemma AdjacentKeyUnknown<X>(data: seq<X>, current: X)
    requires |data| > 0 && current !in data
    ensures AdjacentKey(data, current, Next) == if |data| == 1 then data[0] else data[1]
    ensures AdjacentKey(data, current, Prev) == data[|data| - 1]
  {
  }

  // ------------------------------------------------------------ prefer_int

  /** A value that may be a Python `int` or a `str`. */
  datatype PyValue = PyInt(i: int) | PyStr(s: string)

  /** `prefer_int(value)`: `int(value)` when that succeeds, else the value. */
  function PreferInt(v: PyValue): (r: PyValue)
    ensures v.PyInt? ==> r == v
    ensures v.PyStr? && ParseInt(v.s).None? ==> r == v
    ensures v.PyStr? && ParseInt(v.s).Some? ==> r == PyInt(ParseInt(v.s).value)
  {
    match v
    case PyInt(_) => v
    case PyStr(s) =>
      match ParseInt(s)
      case Some(n) => PyInt(n)
      case None => v
  }

  /** The decimal text of an integer is read back as that integer. */
  lemma PreferIntOfDecimal(n: int)
    ensures PreferInt(PyStr(IntToString(n))) == PyInt(n)
  {
    ParseIntOfIntToString(n);
  }

  lemma PreferIntIdempotent(v: PyValue)
    ensures PreferInt(PreferInt(v)) == PreferInt(v)
  {
  }
}

=== FILE: room_visibility.dfy ===
/** The room-visibility toggle. Each press moves a three-state switch
    (0 normal, 1 ghosted, 2 invisible) one step on and restyles the
    see-through room parts accordingly. The add-on and the older add-on share
    one implementation; the original script has its own. */
module RoomVisibility {
  import opened Options
  import opened Text

  /** One press of the switch. */
  function NextState(state: int): (r: int)
    ensures 0 <= state <= 2 ==> 0 <= r <= 2
    ensures 0 <= state < 2 ==> r == state + 1
    ensures state == 2 ==> r == 0
  {
    if state < 2 then state + 1 else 0
  }

  /** Three presses bring the switch back to where it was. */
  lemma ThreePressesCycle(state: int)
    requires 0 <= state <= 2
    ensures NextState(NextState(NextState(state))) == state
    ensures NextState(state) != state
  {
  }

  /** `count` presses in a row. */
  function Presses(state: int, count: nat): int {
    if count == 0 then state else NextState(Presses(state, count - 1))
  }

  /** A negative switch climbs by one per press while it stays negative. */
  lemma {:induction false} ClimbsFromBelow(state: int, count: nat)
    requires state < 0 && count <= -state
    ensures Presses(state, count) == state + count
  {
    if count > 0 {
      ClimbsFromBelow(state, count - 1);
    }
  }

  /** A switch left outside its range by other code is back in it after one
      press when it is above the range, and after as many presses as it is
      below 0 when it is below the range. */
  lemma OutOfRangeRecovers(state: int)
    ensures state > 2 ==> NextState(state) == 0
    ensures state < 0 ==> Presses(state, -state) == 0
    ensures state < 0 ==> forall count: nat :: count < -state ==> Presses(state, count) < 0
  {
    if state < 0 {
      ClimbsFromBelow(state, -state);
      forall count: nat | count < -state ensures Presses(state, count) < 0 {
        ClimbsFromBelow(state, count);
      }
    }
  }

  /** The parts of a Blender object the toggle reads and writes. */
  datatype SceneObject = SceneObject(
    objectId: Option<string>,
    belongsToPreset: bool,
    hidden: bool,
    hideSelect: bool,
    showTransparent: bool,
    selected: bool)

  /** The alpha of every material, by name. */
  type Alphas = map<string, real>

  const GhostAlpha: real := 0.07

  datatype Toggled = Toggled(state: int, alphas: Alphas, objects: seq<SceneObject>)

  predicate Affected(o: SceneObject, ghosted: seq<string>) {
    o.objectId.Some? && o.objectId.value in ghosted
  }

  /** How the add-on restyles one object for the new state. */
  function Restyle(o: SceneObject, state: int, ghosted: seq<string>): (r: SceneObject)
    ensures !Affected(o, ghosted) ==> r == o
    ensures Affected(o, ghosted) ==>
      && (0 <= state <= 2 ==> r.hidden == (state == 2))
      && r.hideSelect == (if o.belongsToPreset then o.hideSelect else state == 1)
      && !r.selected
      && r.showTransparent == o.showTransparent
      && r.objectId == o.objectId && r.belongsToPreset == o.belongsToPreset
  {
    if !Affected(o, ghosted) then o
    else o.(hidden := !(state == 0 || state == 1),
            hideSelect := if o.belongsToPreset then o.hideSelect else state == 1,
            selected := false)
  }

  /** The add-on's `toggle_room_visibility`: the new state, the alpha of
      every material with "transparent" in its name, and the restyled
      objects. */
  function Toggle(state: int, alphas: Alphas, objects: seq<SceneObject>, ghosted: seq<string>): (r: Toggled)
    ensures r.state == NextState(state)
    ensures r.alphas.Keys == alphas.Keys
    ensures forall n :: n in alphas ==>
      r.alphas[n] == (if Contains(n, "transparent") then (if r.state == 1 then GhostAlpha else 1.0) else alphas[n])
    ensures |r.objects| == |objects|
    ensures forall i :: 0 <= i < |objects| ==> r.objects[i] == Restyle(objects[i], r.state, ghosted)
  {
    var s := NextState(state);
    var a := map n | n in alphas :: if Contains(n, "transparent") then (if s == 1 then GhostAlpha else 1.0) else alphas[n];
    Toggled(s, a, seq(|objects|, i requires 0 <= i < |objects| => Restyle(objects[i], s, ghosted)))
  }

  /** After a press, a ghosted room part is hidden exactly in state 2 and
      unselectable exactly in state 1, except that a preset member keeps its
      selectability; nothing else in the scene changes. */
  lemma ToggleFlags(state: int, alphas: Alphas, objects: seq<SceneObject>, ghosted: seq<string>, i: int)
    requires 0 <= i < |objects| && 0 <= state
    ensures Affected(objects[i], ghosted) ==>
      Toggle(state, alphas, objects, ghosted).objects[i].hidden == (NextState(state) == 2)
    ensures Affected(objects[i], ghosted) && !objects[i].belongsToPreset ==>
      Toggle(state, alphas, objects, ghosted).objects[i].hideSelect == (NextState(state) == 1)
    ensures objects[i].belongsToPreset ==>
      Toggle(state, alphas, objects, ghosted).objects[i].hideSelect == objects[i].hideSelect
    ensures !Affected(objects[i], ghosted) ==> Toggle(state, alphas, objects, ghosted).objects[i] == objects[i]
  {
  }

  /** A later restyle overrides an earlier one completely. */
  lemma RestyleOverrides(o: SceneObject, first: int, second: int, ghosted: seq<string>)
    ensures Restyle(Restyle(o, first, ghosted), second, ghosted) == Restyle(o, second, ghosted)
  {
  }

  function Press(t: Toggled, ghosted: seq<string>): Toggled {
    Toggle(t.state, t.alphas, t.objects, ghosted)
  }

  /** The toggle is periodic: once the scene has been through one press,
      three more give back exactly the same scene. */
  lemma PressPeriodic(t: Toggled, ghosted: seq<string>)
    requires 0 <= t.state <= 2
    ensures Press(Press(Press(Press(t, ghosted), ghosted), ghosted), ghosted) == Press(t, ghosted)
  {
    var t1 := Press(t, ghosted);
    var t4 := Press(Press(Press(t1, ghosted), ghosted), ghosted);
    ThreePressesCycle(t1.state);
    assert t4.state == t1.state;
    forall i | 0 <= i < |t.objects| ensures t4.objects[i] == t1.objects[i] {
      var o := t.objects[i];
      var s2 := NextState(t1.state);
      var s3 := NextState(s2);
      RestyleOverrides(o, t1.state, s2, ghosted);
      RestyleOverrides(o, s2, s3, ghosted);
      RestyleOverrides(o, s3, t1.state, ghosted);
    }
    assert t4.objects == t1.objects;
    assert t4.alphas == t1.alphas;
  }

  // ------------------------------------------------------ the original script

  /** How the original script restyles one object for the new state: states
      0 and 1 set visibility, transparency and (outside presets)
      selectability; state 2 only hides. */
  function LegacyRestyle(o: SceneObject, state: int, invisible: seq<string>): (r: SceneObject)
    ensures !Affected(o, invisible) ==> r == o
    ensures Affected(o, invisible) ==> !r.selected && r.objectId == o.objectId && r.belongsToPreset == o.belongsToPreset
  {
    if !Affected(o, invisible) then o
    else if state == 0 then
      o.(hidden := false, showTransparent := false,
         hideSelect := if o.belongsToPreset then o.hideSelect else false, selected := false)
    else if state == 1 then
      o.(hidden := false, showTransparent := true,
         hideSelect := if o.belongsToPreset then o.hideSelect else true, selected := false)
    else if state == 2 then o.(hidden := true, selected := false)
    else o.(selected := false)
  }

  function LegacyToggle(state: int, objects: seq<SceneObject>, invisible: seq<string>): (r: (int, seq<SceneObject>))
    ensures r.0 == NextState(state)
    ensures |r.1| == |objects|
    ensures forall i :: 0 <= i < |objects| ==> r.1[i] == LegacyRestyle(objects[i], r.0, invisible)
  {
    var s := NextState(state);
    (s, seq(|objects|, i requires 0 <= i < |objects| => LegacyRestyle(objects[i], s, invisible)))
  }

  /** The original script's states mean the same as the add-on's: shown and
      see-through in state 1, shown and opaque in state 0, hidden in state 2. */
  lemma LegacyToggleStates(o: SceneObject, state: int, invisible: seq<string>)
    requires Affected(o, invisible) && 0 <= state <= 2
    ensures LegacyRestyle(o, state, invisible).hidden == (state == 2)
    ensures state < 2 ==> LegacyRestyle(o, state, invisible).showTransparent == (state == 1)
    ensures state < 2 && !o.belongsToPreset ==> LegacyRestyle(o, state, invisible).hideSelect == (state == 1)
    ensures o.belongsToPreset ==> LegacyRestyle(o, state, invisible).hideSelect == o.hideSelect
  {
  }

  /** Both implementations agree on visibility in every state and on
      selectability in states 0 and 1; in state 2 the add-on also makes the
      part selectable again while the original script leaves it as it was. */
  lemma RestylesAgree(o: SceneObject, state: int, rooms: seq<string>)
    requires 0 <= state <= 2
    ensures LegacyRestyle(o, state, rooms).hidden == Restyle(o, state, rooms).hidden
    ensures state < 2 ==> LegacyRestyle(o, state, rooms).hideSelect == Restyle(o, state, rooms).hideSelect
    ensures state == 2 ==> LegacyRestyle(o, state, rooms).hideSelect == o.hideSelect
  {
  }
}

=== FILE: snap_engine.dfy ===
/** The add-on's snapping of one part onto another (`Part.snap_to`).

    A snap first moves the source onto the target and remembers the target's
    name. When the two parts' groups are paired, it then picks a target snap
    point and a source snap point from the pairing's option lists, using a
    per-object memory (the snap cache) and optional next/prev cycling, places
    the source so that its point faces the target's point, and writes the
    chosen points back to the memory. */
module SnapEngine {
  import opened Options
  import opened Assoc
  import opened PyUtils
  import opened Transforms
  import opened SnapTables

  /** A part as the snapping code sees it: its scene name, its ObjectID (which
      selects the snap group), its SnapID custom property when it has one
      (which decides whether two parts are of the same type), its world
      matrix, and the `snapped_to` property. */
  datatype Part<T> = Part(
    name: string,
    objectId: string,
    snapId: Option<string>,
    matrix: T,
    snappedTo: Option<string>)

  /** What is being snapped onto: a preset control (an object with a
      `control` attribute) or another part. */
  datatype Target<T> = PresetTarget(presetWorld: T) | PartTarget(part: Part<T>)

  /** The four cycling flags of a snap request. */
  datatype Cycling = Cycling(nextTarget: bool, prevTarget: bool, nextSource: bool, prevSource: bool)

  const NoCycling := Cycling(false, false, false, false)

  /** The memory kept per object name: the last source point used on it and
      the target point a later snap onto it should use. A field that is absent
      and a field stored as None are read the same way by the snap. */
  datatype CacheEntry = CacheEntry(source: Option<string>, target: Option<string>)

  type SnapCache = map<string, CacheEntry>

  function Entry(cache: SnapCache, name: string): CacheEntry {
    if name in cache then cache[name] else CacheEntry(None, None)
  }

  /** How the call ends: returning None (preset target), False or True, or
      raising, which is what a lookup of a missing snap point (a KeyError) or
      of a key that was never chosen (an unbound local) does. */
  datatype Ret = RetNone | RetFalse | RetTrue | Raised

  datatype SnapOutcome<T> = SnapOutcome(source: Part<T>, cache: SnapCache, ret: Ret)

  // ------------------------------------------------------------ key choice

  /** Next/prev cycling of a starting key: next first, then prev. */
  function Cycle(options: seq<string>, key: string, next: bool, prev: bool): (r: string)
    requires |options| >= 1
    ensures next || prev ==> r in options
    ensures !next && !prev ==> r == key
  {
    var stepped := if next then AdjacentKey(options, key, Next) else key;
    if prev then AdjacentKey(options, stepped, Prev) else stepped
  }

  /** Cycling next and then prev on a duplicate-free list returns the key it
      started from. */
  lemma CycleBothWays(options: seq<string>, key: string)
    requires |options| >= 1 && Distinct(options) && key in options
    ensures Cycle(options, key, true, true) == key
  {
    NextThenPrev(options, key);
  }

  /** Cycling in one direction only moves one position along the list,
      wrapping past either end. */
  lemma CycleOneStep(options: seq<string>, k: nat)
    requires Distinct(options) && k < |options|
    ensures Cycle(options, options[k], true, false) == if k == |options| - 1 then options[0] else options[k + 1]
    ensures Cycle(options, options[k], false, true) == if k == 0 then options[|options| - 1] else options[k - 1]
  {
    AdjacentKeyWraps(options, k);
  }

  /** The target snap point: the one remembered for the target when it is
      still an option, else the first option; then cycled. A remembered value
      stored as None is not an option either, so it also falls back. */
  function TargetKey(options: seq<string>, remembered: Option<string>, c: Cycling): (k: string)
    requires |options| >= 1
    ensures k in options
  {
    var defaultKey := options[0];
    var fromMemory := remembered.GetOr(defaultKey);
    var key := if fromMemory in options then fromMemory else defaultKey;
    Cycle(options, key, c.nextTarget, c.prevTarget)
  }

  /** Without cycling, the remembered target point is used whenever it is
      an option, and the first option otherwise. */
  lemma TargetKeyWithoutCycling(options: seq<string>, remembered: Option<string>, c: Cycling)
    requires |options| >= 1 && !c.nextTarget && !c.prevTarget
    ensures remembered.Some? && remembered.value in options ==> TargetKey(options, remembered, c) == remembered.value
    ensures !(remembered.Some? && remembered.value in options) ==> TargetKey(options, remembered, c) == options[0]
  {
  }

  /** Asking for next and prev at once cancels out. */
  lemma TargetKeyCyclingCancels(options: seq<string>, remembered: Option<string>, c: Cycling)
    requires |options| >= 1 && Distinct(options) && c.nextTarget && c.prevTarget
    ensures TargetKey(options, remembered, c) == TargetKey(options, remembered, NoCycling)
  {
    var key := TargetKey(options, remembered, NoCycling);
    CycleBothWays(options, key);
  }

  /** Cycling the target point in one direction moves one position from the
      point that would be used without cycling, wrapping past either end. */
  lemma TargetKeyOneStep(options: seq<string>, remembered: Option<string>, c: Cycling)
    requires |options| >= 1 && Distinct(options)
    ensures var start := TargetKey(options, remembered, NoCycling);
            var k := IndexOf(options, start);
            var n := |options|;
            && (c.nextTarget && !c.prevTarget
                ==> TargetKey(options, remembered, c) == AdjacentKey(options, start, Next)
                    && TargetKey(options, remembered, c) == if k == n - 1 then options[0] else options[k + 1])
            && (c.prevTarget && !c.nextTarget
                ==> TargetKey(options, remembered, c) == AdjacentKey(options, start, Prev)
                    && TargetKey(options, remembered, c) == if k == 0 then options[n - 1] else options[k - 1])
  {
    var start := TargetKey(options, remembered, NoCycling);
    TargetKeyCyclesStart(options, remembered, c);
    CycleFrom(options, start);
  }

  /** The target point is the point chosen without cycling, cycled. */
  lemma TargetKeyCyclesStart(options: seq<string>, remembered: Option<string>, c: Cycling)
    requires |options| >= 1
    ensures TargetKey(options, remembered, c) == Cycle(options, TargetKey(options, remembered, NoCycling), c.nextTarget, c.prevTarget)
  {
  }

  /** The source point used when nothing else applies: the first source
      option, or, between two parts of the same type, the opposite of the
      chosen target point when it has one. */
  function SourceDefault(options: seq<string>, sameType: bool, targetOpposite: Option<string>): string
    requires |options| >= 1
  {
    if sameType then targetOpposite.GetOr(options[0]) else options[0]
  }

  /** The source snap point. Between parts of the same type, cycling the
      target forces the default; otherwise the remembered source point is
      used. A key that is not an option reverts to the default, and the
      result is then cycled. */
  function SourceKey(options: seq<string>, sameType: bool, targetOpposite: Option<string>, remembered: Option<string>, c: Cycling): (k: string)
    requires |options| >= 1
    ensures k in options || k == SourceDefault(options, sameType, targetOpposite)
    ensures c.nextSource || c.prevSource ==> k in options
  {
    var defaultKey := SourceDefault(options, sameType, targetOpposite);
    var fromState :=
      if sameType && (c.prevTarget || c.nextTarget) then targetOpposite.GetOr(defaultKey)
      else remembered.GetOr(defaultKey);
    var key := if fromState in options then fromState else defaultKey;
    Cycle(options, key, c.nextSource, c.prevSource)
  }

  /** Between parts of the same type, cycling the target point (and not the
      source) makes the source point the target point's opposite, whatever
      was remembered, even when that opposite is not a source option. */
  lemma SourceKeyForcedByTargetCycling(options: seq<string>, targetOpposite: Option<string>, remembered: Option<string>, c: Cycling)
    requires |options| >= 1
    requires c.nextTarget || c.prevTarget
    requires !c.nextSource && !c.prevSource
    requires targetOpposite.Some?
    ensures SourceKey(options, true, targetOpposite, remembered, c) == targetOpposite.value
  {
  }

  /** Without any cycling, a remembered source point is kept while it is an
      option; otherwise the default is used. */
  lemma SourceKeyWithoutCycling(options: seq<string>, sameType: bool, targetOpposite: Option<string>, remembered: Option<string>)
    requires |options| >= 1
    ensures remembered.Some? && remembered.value in options
      ==> SourceKey(options, sameType, targetOpposite, remembered, NoCycling) == remembered.value
    ensures !(remembered.Some? && remembered.value in options)
      ==> SourceKey(options, sameType, targetOpposite, remembered, NoCycling) == SourceDefault(options, sameType, targetOpposite)
  {
  }

  /** Cycling the source point in one direction moves one position from the
      point that would be used without source cycling. A starting point that
      is not a source option (an opposite outside the list) counts as the
      first option, so "next" gives the second and "prev" the last. */
  lemma SourceKeyOneStep(options: seq<string>, sameType: bool, targetOpposite: Option<string>, remembered: Option<string>, c: Cycling)
    requires |options| >= 1 && Distinct(options)
    ensures var start := SourceKey(options, sameType, targetOpposite, remembered, c.(nextSource := false, prevSource := false));
            var r := SourceKey(options, sameType, targetOpposite, remembered, c);
            var n := |options|;
            && (c.nextSource && !c.prevSource ==> r == AdjacentKey(options, start, Next))
            && (c.prevSource && !c.nextSource ==> r == AdjacentKey(options, start, Prev))
            && (start in options && c.nextSource && !c.prevSource
                ==> var k := IndexOf(options, start); r == if k == n - 1 then options[0] else options[k + 1])
            && (start in options && c.prevSource && !c.nextSource
                ==> var k := IndexOf(options, start); r == if k == 0 then options[n - 1] else options[k - 1])
            && (start !in options && c.nextSource && !c.prevSource ==> r == if n == 1 then options[0] else options[1])
            && (start !in options && c.prevSource && !c.nextSource ==> r == options[n - 1])
  {
    var start := SourceKey(options, sameType, targetOpposite, remembered, c.(nextSource := false, prevSource := false));
    SourceKeyCyclesStart(options, sameType, targetOpposite, remembered, c);
    CycleFrom(options, start);
  }

  /** The source point is the point chosen without source cycling, cycled. */
  lemma SourceKeyCyclesStart(options: seq<string>, sameType: bool, targetOpposite: Option<string>, remembered: Option<string>, c: Cycling)
    requires |options| >= 1
    ensures SourceKey(options, sameType, targetOpposite, remembered, c)
         == Cycle(options, SourceKey(options, sameType, targetOpposite, remembered, c.(nextSource := false, prevSource := false)), c.nextSource, c.prevSource)
  {
  }

  /** One step of cycling from any key: from a listed key to its neighbour,
      and from an unlisted key as if from the first option. */
  lemma CycleFrom(options: seq<string>, key: string)
    requires |options| >= 1 && Distinct(options)
    ensures Cycle(options, key, true, false) == AdjacentKey(options, key, Next)
    ensures Cycle(options, key, false, true) == AdjacentKey(options, key, Prev)
    ensures key in options ==> var k := IndexOf(options, key);
      && Cycle(options, key, true, false) == (if k == |options| - 1 then options[0] else options[k + 1])
      && Cycle(options, key, false, true) == (if k == 0 then options[|options| - 1] else options[k - 1])
    ensures key !in options ==> Cycle(options, key, true, false) == (if |options| == 1 then options[0] else options[1])
    ensures key !in options ==> Cycle(options, key, false, true) == options[|options| - 1]
  {
    if key in options {
      CycleOneStep(options, IndexOf(options, key));
    } else {
      AdjacentKeyUnknown(options, key);
    }
  }

  // ------------------------------------------------------------ the tables

  /** What a snap of `source` onto the part `target` reads from the tables
      once a pairing exists: the two option lists and the two parts' snap
      points. A part without snap points has the empty map, which the source
      treats as it treats None. */
  datatype Lookup<T> = Lookup(targetOptions: seq<string>, sourceOptions: seq<string>, targetPoints: Points<T>, sourcePoints: Points<T>)

  /** A part's snap points, or the empty map when it has none. */
  function PointsOrEmpty<T>(p: Option<Points<T>>): (r: Points<T>)
    ensures |r| > 0 <==> HasPoints(p)
    ensures p.Some? ==> r == p.value
  {
    if p.Some? then p.value else []
  }

  /** The lookup for a paired snap, or None when the groups are not paired. */
  function LookUp<T>(info: SnapInfo<T>, pairs: PairTable, source: Part<T>, target: Part<T>): (r: Option<Lookup<T>>)
    ensures r.None? <==> PairOptions(info, pairs, target.objectId, source.objectId).None?
    ensures r.Some? ==> |r.value.targetOptions| >= 1 && |r.value.sourceOptions| >= 1
    ensures r.Some? ==> (|r.value.targetPoints| > 0 <==> HasPoints(PointsOfPart(info, target.objectId)))
    ensures r.Some? ==> (|r.value.sourcePoints| > 0 <==> HasPoints(PointsOfPart(info, source.objectId)))
  {
    match PairOptions(info, pairs, target.objectId, source.objectId)
    case None => None
    case Some(p) =>
      Some(Lookup(
        ParseOptions(p.targetOptions), ParseOptions(p.sourceOptions),
        PointsOrEmpty(PointsOfPart(info, target.objectId)), PointsOrEmpty(PointsOfPart(info, source.objectId))))
  }

  /** The tables are consistent for this pair of parts: when both carry
      SnapIDs and are paired, both carry snap points, every non-empty option
      names a point, and between parts of the same type every opposite of a
      target option names a source point. */
  predicate SnapTablesConsistent<T>(info: SnapInfo<T>, pairs: PairTable, source: Part<T>, target: Part<T>) {
    source.snapId.Some? && target.snapId.Some? ==>
      match LookUp(info, pairs, source, target)
      case None => true
      case Some(l) =>
        && |l.targetPoints| > 0 && |l.sourcePoints| > 0
        && OptionsResolve(l.targetOptions, l.targetPoints)
        && OptionsResolve(l.sourceOptions, l.sourcePoints)
        && (source.snapId == target.snapId ==> OppositesResolve(l.targetOptions, l.targetPoints, l.sourcePoints))
  }

  /** The opposite recorded for a point, None when the point has none or
      there is no such point. */
  function OppositeOf<T>(points: Points<T>, key: string): (r: Option<string>)
    ensures key !in Keys(points) ==> r.None?
  {
    match Get(points, key)
    case None => None
    case Some(point) => point.opposite
  }

  /** The (source point, target point) pair a paired snap uses. */
  function SnapKeys<T>(l: Lookup<T>, cache: SnapCache, source: Part<T>, target: Part<T>, c: Cycling): (keys: (string, string))
    requires |l.targetOptions| >= 1 && |l.sourceOptions| >= 1
    ensures keys.1 in l.targetOptions
  {
    var targetKey := TargetKey(l.targetOptions, Entry(cache, target.name).target, c);
    var sameType := source.snapId == target.snapId;
    var targetOpposite := if sameType then OppositeOf(l.targetPoints, targetKey) else None;
    var sourceKey := SourceKey(l.sourceOptions, sameType, targetOpposite, Entry(cache, source.name).source, c);
    (sourceKey, targetKey)
  }

  /** On consistent tables each chosen point is either an empty name or a
      point of its part. */
  lemma SnapKeysResolve<T>(l: Lookup<T>, cache: SnapCache, source: Part<T>, target: Part<T>, c: Cycling)
    requires |l.targetOptions| >= 1 && |l.sourceOptions| >= 1
    requires OptionsResolve(l.targetOptions, l.targetPoints)
    requires OptionsResolve(l.sourceOptions, l.sourcePoints)
    requires source.snapId == target.snapId ==> OppositesResolve(l.targetOptions, l.targetPoints, l.sourcePoints)
    ensures var keys := SnapKeys(l, cache, source, target, c);
            && (keys.1 == "" || keys.1 in Keys(l.targetPoints))
            && (keys.0 == "" || keys.0 in Keys(l.sourcePoints))
  {
  }

  /** Where a paired snap stops with an error: a part without snap points
      (its key is never chosen), between parts of the same type a target
      point that is missing when its opposite is read, and, unless both names
      are empty, either chosen point missing when its matrix is read. */
  predicate LookupFails<T>(l: Lookup<T>, sameType: bool, keys: (string, string)) {
    || |l.targetPoints| == 0 || |l.sourcePoints| == 0
    || (sameType && keys.1 !in Keys(l.targetPoints))
    || (!(keys.0 == "" && keys.1 == "") && (keys.0 !in Keys(l.sourcePoints) || keys.1 !in Keys(l.targetPoints)))
  }

  /** The memory after a snap: the source remembers its point and, as the
      target for a later snap onto it, that point's opposite; the target
      remembers its point. When a part is snapped onto itself and already has
      a memory entry, both writes go to that one entry. */
  function CacheAfterSnap(cache: SnapCache, sourceName: string, targetName: string, sourceKey: string, targetKey: string, sourceOpposite: Option<string>): (r: SnapCache)
    ensures r.Keys == cache.Keys + {sourceName, targetName}
    ensures r[targetName].target == Some(targetKey)
    ensures sourceName != targetName ==> r[sourceName] == CacheEntry(Some(sourceKey), sourceOpposite)
    ensures sourceName != targetName ==> r[targetName].source == Entry(cache, targetName).source
    ensures forall n :: n in cache && n != sourceName && n != targetName ==> r[n] == cache[n]
  {
    var sourceEntry := CacheEntry(Some(sourceKey), sourceOpposite);
    var targetEntry := if targetName == sourceName && sourceName in cache then sourceEntry else Entry(cache, targetName);
    cache[sourceName := sourceEntry][targetName := targetEntry.(target := Some(targetKey))]
  }

  // -------------------------------------------------------------- snap_to

  /** `Part.snap_to`. */
  function SnapTo<T>(g: Algebra<T>, info: SnapInfo<T>, pairs: PairTable, cache: SnapCache, source: Part<T>, target: Target<T>, c: Cycling): (out: SnapOutcome<T>)
    ensures target.PresetTarget? ==> out == SnapOutcome(source.(matrix := Mul(g, target.presetWorld, g.quarterX)), cache, RetNone)
    ensures target.PartTarget? && (source.snapId.None? || target.part.snapId.None?) ==> out == SnapOutcome(source, cache, RetFalse)
    ensures target.PartTarget? && source.snapId.Some? && target.part.snapId.Some?
      ==> out.source == source.(matrix := out.source.matrix, snappedTo := Some(target.part.name))
    ensures target.PartTarget? && source.snapId.Some? && target.part.snapId.Some? && out.ret != RetTrue
      ==> out.source.matrix == target.part.matrix
    ensures out.ret == RetTrue || out.ret == Raised
      ==> target.PartTarget? && PairOptions(info, pairs, target.part.objectId, source.objectId).Some?
    ensures out.ret != RetTrue ==> out.cache == cache
  {
    match target
    case PresetTarget(world) =>
      SnapOutcome(source.(matrix := Mul(g, world, g.quarterX)), cache, RetNone)
    case PartTarget(t) =>
      if source.snapId.None? || t.snapId.None? then SnapOutcome(source, cache, RetFalse)
      else
        // The source is first moved onto the target and remembers it.
        var moved := source.(matrix := t.matrix, snappedTo := Some(t.name));
        match LookUp(info, pairs, source, t)
        case None => SnapOutcome(moved, cache, RetFalse)
        case Some(l) =>
          var (sourceKey, targetKey) := SnapKeys(l, cache, source, t, c);
          if |l.targetPoints| == 0 || |l.sourcePoints| == 0 then
            // A part without snap points never binds its key.
            SnapOutcome(moved, cache, Raised)
          else if source.snapId == t.snapId && targetKey !in Keys(l.targetPoints) then
            // The target point is read for its opposite.
            SnapOutcome(moved, cache, Raised)
          else if sourceKey == "" && targetKey == "" then SnapOutcome(moved, cache, RetFalse)
          else if sourceKey !in Keys(l.sourcePoints) || targetKey !in Keys(l.targetPoints) then
            SnapOutcome(moved, cache, Raised)
          else
            var sourcePoint := Get(l.sourcePoints, sourceKey).value;
            var targetPoint := Get(l.targetPoints, targetKey).value;
            var placed := OrientedPlacement(g, moved.matrix, sourcePoint.matrix, t.matrix, targetPoint.matrix);
            var newCache := CacheAfterSnap(cache, source.name, t.name, sourceKey, targetKey, sourcePoint.opposite);
            SnapOutcome(moved.(matrix := placed), newCache, RetTrue)
  }

  /** With no pairing between the two groups the source ends up exactly on
      the target, remembers it, and the snap reports False. */
  lemma SnapToUnpaired<T>(g: Algebra<T>, info: SnapInfo<T>, pairs: PairTable, cache: SnapCache, source: Part<T>, target: Part<T>, c: Cycling)
    requires source.snapId.Some? && target.snapId.Some?
    requires PairOptions(info, pairs, target.objectId, source.objectId).None?
    ensures SnapTo(g, info, pairs, cache, source, PartTarget(target), c)
         == SnapOutcome(source.(matrix := target.matrix, snappedTo := Some(target.name)), cache, RetFalse)
  {
  }

  /** The keys a paired snap chooses, for stating what it does with them. */
  function ChosenKeys<T>(info: SnapInfo<T>, pairs: PairTable, cache: SnapCache, source: Part<T>, target: Part<T>, c: Cycling): (keys: (string, string))
    requires PairOptions(info, pairs, target.objectId, source.objectId).Some?
    ensures keys.1 in LookUp(info, pairs, source, target).value.targetOptions
  {
    SnapKeys(LookUp(info, pairs, source, target).value, cache, source, target, c)
  }

  /** A paired snap of a part onto a part, spelled out case by case. */
  lemma PairedSnapUnfolds<T>(g: Algebra<T>, info: SnapInfo<T>, pairs: PairTable, cache: SnapCache, source: Part<T>, target: Part<T>, c: Cycling)
    requires source.snapId.Some? && target.snapId.Some?
    requires PairOptions(info, pairs, target.objectId, source.objectId).Some?
    ensures var l := LookUp(info, pairs, source, target).value;
            var keys := SnapKeys(l, cache, source, target, c);
            var moved := source.(matrix := target.matrix, snappedTo := Some(target.name));
            LookupFails(l, source.snapId == target.snapId, keys) ==>
              SnapTo(g, info, pairs, cache, source, PartTarget(target), c) == SnapOutcome(moved, cache, Raised)
    ensures var l := LookUp(info, pairs, source, target).value;
            var keys := SnapKeys(l, cache, source, target, c);
            var moved := source.(matrix := target.matrix, snappedTo := Some(target.name));
            !LookupFails(l, source.snapId == target.snapId, keys) && keys.0 == "" && keys.1 == "" ==>
              SnapTo(g, info, pairs, cache, source, PartTarget(target), c) == SnapOutcome(moved, cache, RetFalse)
    ensures var l := LookUp(info, pairs, source, target).value;
            var keys := SnapKeys(l, cache, source, target, c);
            var moved := source.(matrix := target.matrix, snappedTo := Some(target.name));
            !LookupFails(l, source.snapId == target.snapId, keys) && !(keys.0 == "" && keys.1 == "") ==>
              && keys.0 in Keys(l.sourcePoints) && keys.1 in Keys(l.targetPoints)
              && var so := Get(l.sourcePoints, keys.0).value;
                 var to := Get(l.targetPoints, keys.1).value;
                 SnapTo(g, info, pairs, cache, source, PartTarget(target), c)
                   == SnapOutcome(moved.(matrix := OrientedPlacement(g, target.matrix, so.matrix, target.matrix, to.matrix)),
                                  CacheAfterSnap(cache, source.name, target.name, keys.0, keys.1, so.opposite), RetTrue)
  {
    var l := LookUp(info, pairs, source, target).value;
    assert LookUp(info, pairs, source, target) == Some(l);
  }

  /** A paired snap ends in one of three ways. It raises exactly when a
      lookup it makes fails; otherwise it reports True exactly when one of the
      two chosen point names is non-empty. When it does not report True the
      source has still been moved onto the target and remembers it, and the
      memory is left as it was. */
  lemma SnapToPaired<T>(g: Algebra<T>, info: SnapInfo<T>, pairs: PairTable, cache: SnapCache, source: Part<T>, target: Part<T>, c: Cycling)
    requires source.snapId.Some? && target.snapId.Some?
    requires PairOptions(info, pairs, target.objectId, source.objectId).Some?
    ensures var l := LookUp(info, pairs, source, target).value;
            var keys := ChosenKeys(info, pairs, cache, source, target, c);
            var fails := LookupFails(l, source.snapId == target.snapId, keys);
            var out := SnapTo(g, info, pairs, cache, source, PartTarget(target), c);
            && (out.ret == Raised <==> fails)
            && (out.ret == RetFalse <==> !fails && keys.0 == "" && keys.1 == "")
            && (out.ret == RetTrue <==> !fails && !(keys.0 == "" && keys.1 == ""))
            && (out.ret != RetTrue
                ==> out == SnapOutcome(source.(matrix := target.matrix, snappedTo := Some(target.name)), cache, out.ret))
            && out.source.snappedTo == Some(target.name)
  {
    PairedSnapUnfolds(g, info, pairs, cache, source, target, c);
  }

  /** The option list "" is the single empty name. Between parts of
      different types that both carry snap points, a pairing whose two lists
      are empty looks neither name up: the snap reports False with the source
      on the target and the memory unchanged. Between parts of the same type
      the empty target name is read for its opposite, which raises unless a
      target point is named "". */
  lemma SnapToEmptyOptions<T>(g: Algebra<T>, info: SnapInfo<T>, pairs: PairTable, cache: SnapCache, source: Part<T>, target: Part<T>, c: Cycling)
    requires source.snapId.Some? && target.snapId.Some?
    requires PairOptions(info, pairs, target.objectId, source.objectId) == Some(PairEntry("", ""))
    requires HasPoints(PointsOfPart(info, target.objectId)) && HasPoints(PointsOfPart(info, source.objectId))
    ensures var out := SnapTo(g, info, pairs, cache, source, PartTarget(target), c);
            var moved := source.(matrix := target.matrix, snappedTo := Some(target.name));
            && (source.snapId != target.snapId ==> out == SnapOutcome(moved, cache, RetFalse))
            && (source.snapId == target.snapId && "" !in Keys(PointsOfPart(info, target.objectId).value)
                ==> out == SnapOutcome(moved, cache, Raised))
  {
    ParseOptionsOfEmpty();
    var l := LookUp(info, pairs, source, target).value;
    assert l.targetOptions == [""] && l.sourceOptions == [""];
    PairedSnapUnfolds(g, info, pairs, cache, source, target, c);
  }

  /** On consistent tables a snap can only raise over an empty point name:
      when both chosen names are non-empty it never raises. */
  lemma ConsistentSnapRaisesOnlyOnEmptyName<T>(g: Algebra<T>, info: SnapInfo<T>, pairs: PairTable, cache: SnapCache, source: Part<T>, target: Part<T>, c: Cycling)
    requires SnapTablesConsistent(info, pairs, source, target)
    requires source.snapId.Some? && target.snapId.Some?
    requires PairOptions(info, pairs, target.objectId, source.objectId).Some?
    ensures var keys := ChosenKeys(info, pairs, cache, source, target, c);
            SnapTo(g, info, pairs, cache, source, PartTarget(target), c).ret == Raised ==> keys.0 == "" || keys.1 == ""
  {
    var l := LookUp(info, pairs, source, target).value;
    SnapKeysResolve(l, cache, source, target, c);
    PairedSnapUnfolds(g, info, pairs, cache, source, target, c);
  }

  /** A successful snap places the source at target world times target point
      times the inverse flip times the inverse source point, and stores the
      chosen points in the memory. */
  lemma SnapToPlacement<T(!new)>(g: Algebra<T>, info: SnapInfo<T>, pairs: PairTable, cache: SnapCache, source: Part<T>, target: Part<T>, c: Cycling)
    requires GroupLaws(g)
    requires SnapTo(g, info, pairs, cache, source, PartTarget(target), c).ret == RetTrue
    ensures source.snapId.Some? && target.snapId.Some?
    ensures PairOptions(info, pairs, target.objectId, source.objectId).Some?
    ensures var l := LookUp(info, pairs, source, target).value;
            var keys := ChosenKeys(info, pairs, cache, source, target, c);
            keys.0 in Keys(l.sourcePoints) && keys.1 in Keys(l.targetPoints)
    ensures var out := SnapTo(g, info, pairs, cache, source, PartTarget(target), c);
            var l := LookUp(info, pairs, source, target).value;
            var (sk, tk) := ChosenKeys(info, pairs, cache, source, target, c);
            var so := Get(l.sourcePoints, sk).value;
            var to := Get(l.targetPoints, tk).value;
            && out.source.matrix == Mul(g, Mul(g, Mul(g, target.matrix, to.matrix), Inv(g, g.flipY)), Inv(g, so.matrix))
            && Mul(g, out.source.matrix, so.matrix) == Mul(g, Mul(g, target.matrix, to.matrix), Inv(g, g.flipY))
            && out.cache == CacheAfterSnap(cache, source.name, target.name, sk, tk, so.opposite)
  {
    PairedSnapUnfolds(g, info, pairs, cache, source, target, c);
    var l := LookUp(info, pairs, source, target).value;
    var (sk, tk) := ChosenKeys(info, pairs, cache, source, target, c);
    var so := Get(l.sourcePoints, sk).value;
    var to := Get(l.targetPoints, tk).value;
    OrientedPlacementClosedForm(g, target.matrix, so.matrix, target.matrix, to.matrix);
    OrientedPlacementMeetsTarget(g, target.matrix, so.matrix, target.matrix, to.matrix);
  }

  /** Writing the same points again leaves the memory as it is. */
  lemma CacheAfterSnapAgain(cache: SnapCache, sourceName: string, targetName: string, sourceKey: string, targetKey: string, sourceOpposite: Option<string>)
    requires sourceName != targetName
    ensures var once := CacheAfterSnap(cache, sourceName, targetName, sourceKey, targetKey, sourceOpposite);
            CacheAfterSnap(once, sourceName, targetName, sourceKey, targetKey, sourceOpposite) == once
  {
    var once := CacheAfterSnap(cache, sourceName, targetName, sourceKey, targetKey, sourceOpposite);
    var twice := CacheAfterSnap(once, sourceName, targetName, sourceKey, targetKey, sourceOpposite);
    assert twice.Keys == once.Keys;
    forall n | n in once ensures twice[n] == once[n] {
    }
  }

  /** Without cycling, the points chosen from the memory a snap left behind
      are the points that snap chose, whatever opposite it recorded. */
  lemma SnapKeysAgain<T>(l: Lookup<T>, cache: SnapCache, source: Part<T>, target: Part<T>, moved: Part<T>, opposite: Option<string>)
    requires |l.targetOptions| >= 1 && |l.sourceOptions| >= 1
    requires source.name != target.name
    requires moved.name == source.name && moved.snapId == source.snapId
    ensures var (sk, tk) := SnapKeys(l, cache, source, target, NoCycling);
            SnapKeys(l, CacheAfterSnap(cache, source.name, target.name, sk, tk, opposite), moved, target, NoCycling) == (sk, tk)
  {
    var (sk, tk) := SnapKeys(l, cache, source, target, NoCycling);
    var after := CacheAfterSnap(cache, source.name, target.name, sk, tk, opposite);
    assert Entry(after, target.name).target == Some(tk);
    assert Entry(after, source.name).source == Some(sk);
    TargetKeyWithoutCycling(l.targetOptions, Entry(after, target.name).target, NoCycling);
    var sameType := source.snapId == target.snapId;
    var targetOpposite := if sameType then OppositeOf(l.targetPoints, tk) else None;
    SourceKeyWithoutCycling(l.sourceOptions, sameType, targetOpposite, Entry(cache, source.name).source);
    SourceKeyWithoutCycling(l.sourceOptions, sameType, targetOpposite, Some(sk));
  }

  /** Repeating a snap without cycling reproduces the same placement and
      memory, wherever the source was in between. */
  lemma SnapToRepeatable<T>(g: Algebra<T>, info: SnapInfo<T>, pairs: PairTable, cache: SnapCache, source: Part<T>, target: Part<T>, elsewhere: T)
    requires source.name != target.name
    requires SnapTo(g, info, pairs, cache, source, PartTarget(target), NoCycling).ret == RetTrue
    ensures var first := SnapTo(g, info, pairs, cache, source, PartTarget(target), NoCycling);
            SnapTo(g, info, pairs, first.cache, first.source.(matrix := elsewhere), PartTarget(target), NoCycling) == first
  {
    var first := SnapTo(g, info, pairs, cache, source, PartTarget(target), NoCycling);
    PairedSnapUnfolds(g, info, pairs, cache, source, target, NoCycling);
    var again := first.source.(matrix := elsewhere);
    var l := LookUp(info, pairs, source, target).value;
    assert LookUp(info, pairs, again, target) == Some(l);
    var (sk, tk) := SnapKeys(l, cache, source, target, NoCycling);
    var so := Get(l.sourcePoints, sk).value;
    SnapKeysAgain(l, cache, source, target, again, so.opposite);
    CacheAfterSnapAgain(cache, source.name, target.name, sk, tk, so.opposite);
    PairedSnapUnfolds(g, info, pairs, first.cache, again, target, NoCycling);
  }

  /** After a snap, the memory makes a later snap onto the old source (without
      target cycling) start from the opposite of the source point used, when
      that opposite is one of the later pairing's target options. */
  lemma SnapToChainsOpposite<T>(g: Algebra<T>, info: SnapInfo<T>, pairs: PairTable, cache: SnapCache, source: Part<T>, target: Part<T>, c: Cycling, laterOptions: seq<string>, laterCycling: Cycling)
    requires source.name != target.name
    requires SnapTo(g, info, pairs, cache, source, PartTarget(target), c).ret == RetTrue
    requires |laterOptions| >= 1 && !laterCycling.nextTarget && !laterCycling.prevTarget
    ensures source.snapId.Some? && target.snapId.Some?
    ensures PairOptions(info, pairs, target.objectId, source.objectId).Some?
    ensures ChosenKeys(info, pairs, cache, source, target, c).0 in Keys(LookUp(info, pairs, source, target).value.sourcePoints)
    ensures var out := SnapTo(g, info, pairs, cache, source, PartTarget(target), c);
            var l := LookUp(info, pairs, source, target).value;
            var opposite := Get(l.sourcePoints, ChosenKeys(info, pairs, cache, source, target, c).0).value.opposite;
            (opposite.Some? && opposite.value in laterOptions
             ==> TargetKey(laterOptions, Entry(out.cache, source.name).target, laterCycling) == opposite.value)
  {
    PairedSnapUnfolds(g, info, pairs, cache, source, target, c);
  }
}

=== FILE: snap_layout.dfy ===
/** The Maya scripts that write the snapping table and rebuild a Maya scene
    from it. Maya stores a world matrix as a flat list of sixteen numbers,
    column after column; the table stores it as four rows. The generator
    reads a scene of top-level groups into the table, and the regenerator
    creates whatever the table names and the scene lacks. Matrix elements are
    an arbitrary type: nothing here computes with them. */
module SnapLayout {
  import opened Options
  import opened Text
  import opened Assoc

  // --------------------------------------------------------- matrix layout

  predicate IsMatrix<R>(rows: seq<seq<R>>) {
    |rows| == 4 && forall i :: 0 <= i < 4 ==> |rows[i]| == 4
  }

  /** The generators' `blender_matrix_format`: Maya's flat list as rows. */
  function ToRows<R>(flat: seq<R>): (rows: seq<seq<R>>)
    requires |flat| == 16
    ensures IsMatrix(rows)
    ensures forall i, j :: 0 <= i < 4 && 0 <= j < 4 ==> rows[i][j] == flat[4 * j + i]
  {
    [[flat[0], flat[4], flat[8], flat[12]],
     [flat[1], flat[5], flat[9], flat[13]],
     [flat[2], flat[6], flat[10], flat[14]],
     [flat[3], flat[7], flat[11], flat[15]]]
  }

  /** The regenerator's `maya_matrix_format`: rows back to Maya's flat list.
      Only the first four entries of the first four rows are read. */
  function FromRows<R>(rows: seq<seq<R>>): (flat: seq<R>)
    requires |rows| >= 4 && forall i :: 0 <= i < 4 ==> |rows[i]| >= 4
    ensures |flat| == 16
    ensures forall i, j :: 0 <= i < 4 && 0 <= j < 4 ==> flat[4 * j + i] == rows[i][j]
  {
    [rows[0][0], rows[1][0], rows[2][0], rows[3][0],
     rows[0][1], rows[1][1], rows[2][1], rows[3][1],
     rows[0][2], rows[1][2], rows[2][2], rows[3][2],
     rows[0][3], rows[1][3], rows[2][3], rows[3][3]]
  }

  /** The two layouts are inverse to each other. */
  lemma LayoutRoundTrip<R>(flat: seq<R>, rows: seq<seq<R>>)
    requires |flat| == 16 && IsMatrix(rows)
    ensures FromRows(ToRows(flat)) == flat
    ensures ToRows(FromRows(rows)) == rows
  {
    var f := FromRows(ToRows(flat));
    forall k | 0 <= k < 16 ensures f[k] == flat[k] {
      assert k == 4 * (k / 4) + k % 4;
    }
    var r := ToRows(FromRows(rows));
    forall i | 0 <= i < 4 ensures r[i] == rows[i] {
      assert forall j :: 0 <= j < 4 ==> r[i][j] == rows[i][j];
    }
  }

  // ------------------------------------------------------------- the scene

  datatype ShapeKind = Mesh | Locator | OtherShape

  /** A transform under a top-level group: its full path, the kinds of its
      shape children, its world matrix as Maya returns it, and its "opposite"
      attribute when it has one. */
  datatype MayaTransform<R> = MayaTransform(
    path: string,
    shapes: seq<ShapeKind>,
    worldMatrix: seq<R>,
    opposite: Option<string>)

  datatype TopGroup<R> = TopGroup(name: string, children: seq<MayaTransform<R>>)

  /** Maya's default cameras, which are top-level transforms too. */
  const Cameras: seq<string> := ["front", "persp", "side", "top"]

  /** The last component of a Maya path. */
  function ShortName(path: string): (r: string)
    ensures '|' !in r
    ensures '|' !in path ==> r == path
  {
    LastPiece(path, '|')
  }

  function Occurrences(shapes: seq<ShapeKind>, k: ShapeKind): (n: nat)
    ensures n > 0 <==> k in shapes
  {
    if |shapes| == 0 then 0
    else (if shapes[0] == k then 1 else 0) + Occurrences(shapes[1..], k)
  }

  function Repeat<T>(x: T, n: nat): (r: seq<T>)
    ensures |r| == n && forall i :: 0 <= i < n ==> r[i] == x
  {
    if n == 0 then [] else [x] + Repeat(x, n - 1)
  }

  /** The transforms the generator collects for shape kind `k`: each one once
      for every shape child of that kind, in child order. */
  function WithShape<R(!new)>(ts: seq<MayaTransform<R>>, k: ShapeKind): (r: seq<MayaTransform<R>>)
    ensures forall t :: t in r <==> t in ts && k in t.shapes
  {
    if |ts| == 0 then []
    else
      assert forall t :: t in ts <==> t == ts[0] || t in ts[1..];
      Repeat(ts[0], Occurrences(ts[0].shapes, k)) + WithShape(ts[1..], k)
  }

  /** A transform with two mesh shapes is listed twice among the parts. */
  lemma TwoMeshesListedTwice<R(!new)>(t: MayaTransform<R>)
    requires t.shapes == [Mesh, Mesh]
    ensures WithShape([t], Mesh) == [t, t]
  {
    assert Occurrences(t.shapes, Mesh) == 2 by {
      assert t.shapes[1..] == [Mesh];
      assert t.shapes[1..][1..] == [];
    }
    assert [t][1..] == [];
  }

  function ShortNames<R>(ts: seq<MayaTransform<R>>): (r: seq<string>)
    ensures |r| == |ts| && forall i :: 0 <= i < |ts| ==> r[i] == ShortName(ts[i].path)
  {
    if |ts| == 0 then [] else [ShortName(ts[0].path)] + ShortNames(ts[1..])
  }

  // -------------------------------------------------------------- the table

  /** One "snap_points" entry: the matrix as rows, and "opposite" exactly
      when the locator has that attribute. */
  datatype SnapPoint<R> = SnapPoint(matrix: seq<seq<R>>, opposite: Option<string>)

  /** A group of the table: its snap points by short name, and its parts. */
  datatype SnapGroup<R> = SnapGroup(snapPoints: Assoc<string, SnapPoint<R>>, parts: seq<string>)

  function Entry<R>(t: MayaTransform<R>): (p: SnapPoint<R>)
    requires |t.worldMatrix| == 16
    ensures IsMatrix(p.matrix) && FromRows(p.matrix) == t.worldMatrix
    ensures p.opposite.Some? <==> t.opposite.Some?
  {
    LayoutRoundTrip(t.worldMatrix, ToRows(t.worldMatrix));
    SnapPoint(ToRows(t.worldMatrix), t.opposite)
  }

  predicate Matrices<R>(ts: seq<MayaTransform<R>>) {
    forall i :: 0 <= i < |ts| ==> |ts[i].worldMatrix| == 16
  }

  /** The short names of the given transforms. */
  function NameSet<R>(ts: seq<MayaTransform<R>>): set<string> {
    set i | 0 <= i < |ts| :: ShortName(ts[i].path)
  }

  lemma NameSetTail<R>(ts: seq<MayaTransform<R>>)
    requires |ts| > 0
    ensures NameSet(ts) == {ShortName(ts[0].path)} + NameSet(ts[1..])
  {
    forall n | n in NameSet(ts) ensures n in {ShortName(ts[0].path)} + NameSet(ts[1..]) {
      var i :| 0 <= i < |ts| && ShortName(ts[i].path) == n;
      if i > 0 {
        assert ts[1..][i - 1] == ts[i];
      }
    }
    forall n | n in NameSet(ts[1..]) ensures n in NameSet(ts) {
      var i :| 0 <= i < |ts[1..]| && ShortName(ts[1..][i].path) == n;
      assert ts[1..][i] == ts[i + 1];
    }
  }

  /** The snap-point loop: each locator written under its short name, a later
      locator with the same short name replacing an earlier one in place. */
  function AddSnapPoints<R>(acc: Assoc<string, SnapPoint<R>>, snaps: seq<MayaTransform<R>>): (r: Assoc<string, SnapPoint<R>>)
    requires Matrices(snaps)
    ensures UniqueKeys(acc) ==> UniqueKeys(r)
    ensures forall k :: k in Keys(r) <==> k in Keys(acc) || k in NameSet(snaps)
    decreases |snaps|
  {
    if |snaps| == 0 then acc
    else
      var next := Put(acc, ShortName(snaps[0].path), Entry(snaps[0]));
      PutKeysLemma(acc, ShortName(snaps[0].path), Entry(snaps[0]));
      PutKeepsUniqueWhen(acc, ShortName(snaps[0].path), Entry(snaps[0]));
      NameSetTail(snaps);
      AddSnapPoints(next, snaps[1..])
  }

  lemma PutKeepsUniqueWhen<K, V>(a: Assoc<K, V>, k: K, v: V)
    ensures UniqueKeys(a) ==> UniqueKeys(Put(a, k, v))
  {
    if UniqueKeys(a) {
      PutKeepsUnique(a, k, v);
    }
  }

  /** The keys after a write are the keys before it plus the written one. */
  lemma PutKeysLemma<K, V>(a: Assoc<K, V>, k: K, v: V)
    ensures forall x :: x in Keys(Put(a, k, v)) <==> x in Keys(a) || x == k
  {
    var r := Put(a, k, v);
    assert k in Keys(r) by {
      assert Get(r, k).Some?;
    }
    forall x | x in Keys(r) && x != k ensures x in Keys(a) {
      PutOther(a, k, v, x);
      assert Get(r, x).Some?;
    }
    forall x | x in Keys(a) ensures x in Keys(r) {
      if x != k {
        PutOther(a, k, v, x);
      }
    }
  }

  /** A short name no locator has keeps its earlier entry. */
  lemma {:induction false} AddSnapPointsUntouched<R>(acc: Assoc<string, SnapPoint<R>>, snaps: seq<MayaTransform<R>>, k: string)
    requires Matrices(snaps) && k !in NameSet(snaps)
    ensures Get(AddSnapPoints(acc, snaps), k) == Get(acc, k)
    decreases |snaps|
  {
    if |snaps| > 0 {
      var key := ShortName(snaps[0].path);
      NameSetTail(snaps);
      PutOther(acc, key, Entry(snaps[0]), k);
      AddSnapPointsUntouched(Put(acc, key, Entry(snaps[0])), snaps[1..], k);
    }
  }

  /** Each short name ends up holding the entry of the last locator with
      that name. */
  lemma {:induction false} AddSnapPointsLastWins<R>(acc: Assoc<string, SnapPoint<R>>, snaps: seq<MayaTransform<R>>, i: nat)
    requires Matrices(snaps) && i < |snaps|
    requires forall j :: i < j < |snaps| ==> ShortName(snaps[j].path) != ShortName(snaps[i].path)
    ensures Get(AddSnapPoints(acc, snaps), ShortName(snaps[i].path)) == Some(Entry(snaps[i]))
    decreases |snaps|
  {
    var key := ShortName(snaps[0].path);
    var next := Put(acc, key, Entry(snaps[0]));
    var tail := snaps[1..];
    assert forall j :: 0 <= j < |tail| ==> tail[j] == snaps[j + 1];
    assert Matrices(tail);
    if i == 0 {
      assert key !in NameSet(tail) by {
        forall j | 0 <= j < |tail| ensures ShortName(tail[j].path) != key {
          assert tail[j] == snaps[j + 1];
        }
      }
      PutGet(acc, key, Entry(snaps[0]));
      AddSnapPointsUntouched(next, tail, key);
    } else {
      AddSnapPointsLastWins(next, tail, i - 1);
      assert snaps[1..][i - 1] == snaps[i];
    }
  }

  /** A group the generator can read: it has children and each child has
      shapes (Maya answers "no children" with None, which the loops cannot
      iterate). */
  predicate Readable<R>(g: TopGroup<R>) {
    |g.children| > 0 && forall i :: 0 <= i < |g.children| ==> |g.children[i].shapes| > 0
  }

  /** The short names of the transforms with a shape of kind `k`. */
  lemma WithShapeNames<R(!new)>(ts: seq<MayaTransform<R>>, k: ShapeKind)
    ensures forall n :: n in NameSet(WithShape(ts, k)) <==> exists t :: t in ts && k in t.shapes && ShortName(t.path) == n
  {
    var w := WithShape(ts, k);
    forall n | n in NameSet(w) ensures exists t :: t in ts && k in t.shapes && ShortName(t.path) == n {
      var i :| 0 <= i < |w| && ShortName(w[i].path) == n;
      assert w[i] in w;
    }
    forall n | (exists t :: t in ts && k in t.shapes && ShortName(t.path) == n) ensures n in NameSet(w) {
      var t :| t in ts && k in t.shapes && ShortName(t.path) == n;
      assert t in w;
      var i :| 0 <= i < |w| && w[i] == t;
    }
  }

  lemma WithShapeMatrices<R(!new)>(ts: seq<MayaTransform<R>>, k: ShapeKind)
    requires Matrices(ts)
    ensures Matrices(WithShape(ts, k))
  {
    var w := WithShape(ts, k);
    forall i | 0 <= i < |w| ensures |w[i].worldMatrix| == 16 {
      assert w[i] in w;
      var j :| 0 <= j < |ts| && ts[j] == w[i];
    }
  }

  lemma ShortNamesSet<R>(ts: seq<MayaTransform<R>>)
    ensures forall n :: n in ShortNames(ts) <==> n in NameSet(ts)
  {
    var s := ShortNames(ts);
    forall n | n in s ensures n in NameSet(ts) {
      var i :| 0 <= i < |s| && s[i] == n;
    }
  }

  /** One group of the table: its locators' snap points and the short names
      of its mesh transforms; `None` when the group cannot be read. */
  function BuildGroup<R(!new)>(g: TopGroup<R>): (r: Option<SnapGroup<R>>)
    requires Matrices(g.children)
    ensures r.Some? <==> Readable(g)
    ensures r.Some? ==> UniqueKeys(r.value.snapPoints)
    ensures r.Some? ==> forall k :: k in Keys(r.value.snapPoints) <==>
      exists t :: t in g.children && Locator in t.shapes && ShortName(t.path) == k
    ensures r.Some? ==> forall n :: n in r.value.parts <==>
      exists t :: t in g.children && Mesh in t.shapes && ShortName(t.path) == n
  {
    if !Readable(g) then None
    else
      WithShapeMatrices(g.children, Locator);
      WithShapeNames(g.children, Locator);
      WithShapeNames(g.children, Mesh);
      ShortNamesSet(WithShape(g.children, Mesh));
      Some(SnapGroup(AddSnapPoints([], WithShape(g.children, Locator)), ShortNames(WithShape(g.children, Mesh))))
  }

  predicate IsCamera(name: string) {
    name in Cameras
  }

  predicate DistinctNames<R>(scene: seq<TopGroup<R>>) {
    forall i, j :: 0 <= i < j < |scene| ==> scene[i].name != scene[j].name
  }

  predicate SceneMatrices<R>(scene: seq<TopGroup<R>>) {
    forall i :: 0 <= i < |scene| ==> Matrices(scene[i].children)
  }

  lemma SceneTail<R>(scene: seq<TopGroup<R>>)
    requires |scene| > 0 && SceneMatrices(scene) && DistinctNames(scene)
    ensures SceneMatrices(scene[1..]) && DistinctNames(scene[1..])
    ensures forall i :: 1 <= i < |scene| ==> scene[1..][i - 1] == scene[i]
  {
    assert forall i :: 0 <= i < |scene| - 1 ==> scene[1..][i] == scene[i + 1];
  }

  /** The snapping table for a scene of top-level groups, in scene order and
      without the default cameras; `None` when a group cannot be read.
      Top-level names are unique in a Maya scene. */
  function Generate<R(!new)>(scene: seq<TopGroup<R>>): (r: Option<Assoc<string, SnapGroup<R>>>)
    requires SceneMatrices(scene) && DistinctNames(scene)
    ensures r.Some? <==> forall i :: 0 <= i < |scene| && !IsCamera(scene[i].name) ==> Readable(scene[i])
    decreases |scene|
  {
    if |scene| == 0 then Some([])
    else
      SceneTail(scene);
      var rest := Generate(scene[1..]);
      if IsCamera(scene[0].name) then rest
      else
        var g := BuildGroup(scene[0]);
        if g.None? || rest.None? then None
        else Some([(scene[0].name, g.value)] + rest.value)
  }

  /** A table of at least one group starts with the first group that is not
      a camera. */
  lemma GenerateStep<R(!new)>(scene: seq<TopGroup<R>>)
    requires SceneMatrices(scene) && DistinctNames(scene) && Generate(scene).Some? && |scene| > 0
    ensures SceneMatrices(scene[1..]) && DistinctNames(scene[1..]) && Generate(scene[1..]).Some?
    ensures IsCamera(scene[0].name) ==> Generate(scene).value == Generate(scene[1..]).value
    ensures !IsCamera(scene[0].name) ==>
      && BuildGroup(scene[0]).Some?
      && Generate(scene).value == [(scene[0].name, BuildGroup(scene[0]).value)] + Generate(scene[1..]).value
  {
    SceneTail(scene);
  }

  /** The table has an entry for each group that is not a camera, under the
      group's name, and for nothing else. */
  lemma {:induction false} GenerateKeySet<R(!new)>(scene: seq<TopGroup<R>>)
    requires SceneMatrices(scene) && DistinctNames(scene) && Generate(scene).Some?
    ensures forall k :: k in Keys(Generate(scene).value) <==>
      exists i :: 0 <= i < |scene| && scene[i].name == k && !IsCamera(k)
    decreases |scene|
  {
    if |scene| > 0 {
      GenerateStep(scene);
      SceneTail(scene);
      GenerateKeySet(scene[1..]);
      var rest := Generate(scene[1..]).value;
      var r := Generate(scene).value;
      var head := if IsCamera(scene[0].name) then [] else [scene[0].name];
      assert Keys(r) == head + Keys(rest);
      forall k ensures k in Keys(r) <==> exists i :: 0 <= i < |scene| && scene[i].name == k && !IsCamera(k) {
        if k in Keys(rest) {
          var i :| 0 <= i < |scene[1..]| && scene[1..][i].name == k && !IsCamera(k);
          assert scene[i + 1].name == k;
        }
        if exists i :: 0 <= i < |scene| && scene[i].name == k && !IsCamera(k) {
          var i :| 0 <= i < |scene| && scene[i].name == k && !IsCamera(k);
          if i > 0 {
            assert scene[1..][i - 1].name == k;
          }
        }
      }
    }
  }

  /** The table holds each name once. */
  lemma {:induction false} GenerateKeys<R(!new)>(scene: seq<TopGroup<R>>)
    requires SceneMatrices(scene) && DistinctNames(scene) && Generate(scene).Some?
    ensures UniqueKeys(Generate(scene).value)
    decreases |scene|
  {
    if |scene| > 0 {
      GenerateStep(scene);
      SceneTail(scene);
      GenerateKeys(scene[1..]);
      GenerateKeySet(scene[1..]);
      var rest := Generate(scene[1..]).value;
      var r := Generate(scene).value;
      if !IsCamera(scene[0].name) {
        assert Keys(r) == [scene[0].name] + Keys(rest);
        assert scene[0].name !in Keys(rest);
        forall i, j | 0 <= i < j < |r| ensures r[i].0 != r[j].0 {
          if i == 0 {
            assert r[j].0 == Keys(rest)[j - 1];
          } else {
            assert r[i] == rest[i - 1] && r[j] == rest[j - 1];
          }
        }
      }
    }
  }

  /** Each group that is not a camera is stored as `BuildGroup` reads it. */
  lemma {:induction false} GenerateGet<R(!new)>(scene: seq<TopGroup<R>>, i: nat)
    requires SceneMatrices(scene) && DistinctNames(scene) && Generate(scene).Some?
    requires i < |scene| && !IsCamera(scene[i].name)
    ensures Get(Generate(scene).value, scene[i].name) == BuildGroup(scene[i])
    decreases |scene|
  {
    SceneTail(scene);
    if i > 0 {
      GenerateGet(scene[1..], i - 1);
      assert scene[i].name != scene[0].name;
    }
  }

  // ------------------------------------------------------------ regeneration

  /** The Maya scene as the regenerator sees it: `names` are what `objExists`
      answers yes for (short names and paths); `locators` holds the world
      matrix and "opposite" attribute of each locator it can address by
      path. */
  datatype LocatorNode<R> = LocatorNode(worldMatrix: seq<R>, opposite: Option<string>)
  datatype MayaScene<R> = MayaScene(names: set<string>, locators: map<string, LocatorNode<R>>)

  predicate Consistent<R>(s: MayaScene<R>) {
    s.locators.Keys <= s.names
  }

  /** The path of `name` under the top-level group `top`. */
  function Path(top: string, name: string): (p: string)
    ensures '|' in p
  {
    assert (top + "|" + name)[|top|] == '|';
    top + "|" + name
  }

  /** Paths of names without separators determine the group and the name. */
  lemma PathInjective(top: string, name: string, top2: string, name2: string)
    requires '|' !in top && '|' !in top2 && '|' !in name && '|' !in name2
    requires Path(top, name) == Path(top2, name2)
    ensures top == top2 && name == name2
  {
    var p := Path(top, name);
    assert |top| == |top2|;
    assert top == p[..|top|] == top2;
    assert name == p[|top| + 1..] == name2;
  }

  /** The group node, created empty when missing. */
  function CreateGroup<R>(s: MayaScene<R>, top: string): (r: MayaScene<R>)
    ensures r.names == s.names + {top} && r.locators == s.locators
  {
    if top in s.names then s else s.(names := s.names + {top})
  }

  /** The part nodes, each created under the group when no node has its name. */
  function CreateParts<R>(s: MayaScene<R>, top: string, parts: seq<string>): (r: MayaScene<R>)
    ensures r.locators == s.locators
    ensures s.names <= r.names
    ensures forall p :: p in parts ==> p in r.names
    ensures forall x :: x in r.names ==> x in s.names || exists p :: p in parts && (x == p || x == Path(top, p))
    decreases |parts|
  {
    if |parts| == 0 then s
    else
      var p := parts[0];
      var next := if p in s.names then s else s.(names := s.names + {p, Path(top, p)});
      assert forall q :: q in parts <==> q == p || q in parts[1..];
      CreateParts(next, top, parts[1..])
  }

  predicate RowsReadable<R>(rows: seq<seq<R>>) {
    |rows| >= 4 && forall i :: 0 <= i < 4 ==> |rows[i]| >= 4
  }

  predicate PointsReadable<R>(points: Assoc<string, SnapPoint<R>>) {
    forall i :: 0 <= i < |points| ==> RowsReadable(points[i].1.matrix)
  }

  function Rebuilt<R>(p: SnapPoint<R>): (n: LocatorNode<R>)
    requires RowsReadable(p.matrix)
    ensures n.opposite == p.opposite
  {
    LocatorNode(FromRows(p.matrix), p.opposite)
  }

  /** A locator rebuilt from a generated entry has the world matrix and the
      "opposite" attribute of the locator the entry was read from. */
  lemma RebuiltEntry<R>(t: MayaTransform<R>)
    requires |t.worldMatrix| == 16
    ensures RowsReadable(Entry(t).matrix)
    ensures Rebuilt(Entry(t)) == LocatorNode(t.worldMatrix, t.opposite)
  {
  }

  lemma PointsTail<R>(points: Assoc<string, SnapPoint<R>>)
    requires |points| > 0 && PointsReadable(points)
    ensures PointsReadable(points[1..])
    ensures forall i :: 1 <= i < |points| ==> points[1..][i - 1] == points[i]
  {
    assert forall i :: 0 <= i < |points| - 1 ==> points[1..][i] == points[i + 1];
  }

  /** The snap points, each a new locator under the group unless a node
      already has its path; "opposite" is added exactly when the entry has
      one. */
  function CreateLocators<R>(s: MayaScene<R>, top: string, points: Assoc<string, SnapPoint<R>>): (r: MayaScene<R>)
    requires PointsReadable(points)
    ensures Consistent(s) ==> Consistent(r)
    ensures s.names <= r.names
    ensures forall p :: p in s.locators && p in s.names ==> p in r.locators && r.locators[p] == s.locators[p]
    ensures forall i :: 0 <= i < |points| ==> Path(top, points[i].0) in r.names
    decreases |points|
  {
    if |points| == 0 then s
    else
      var path := Path(top, points[0].0);
      var next :=
        if path in s.names then s
        else MayaScene(s.names + {points[0].0, path}, s.locators[path := Rebuilt(points[0].1)]);
      PointsTail(points);
      CreateLocators(next, top, points[1..])
  }

  predicate BareKeys<R>(points: Assoc<string, SnapPoint<R>>) {
    forall i :: 0 <= i < |points| ==> '|' !in points[i].0
  }

  /** A snap point whose path is free gets a new locator holding its matrix
      in Maya's layout and its "opposite". */
  lemma {:induction false} CreateLocatorsRebuilds<R>(s: MayaScene<R>, top: string, points: Assoc<string, SnapPoint<R>>, i: nat)
    requires PointsReadable(points) && '|' !in top && UniqueKeys(points) && BareKeys(points)
    requires i < |points| && Path(top, points[i].0) !in s.names
    ensures Path(top, points[i].0) in CreateLocators(s, top, points).locators
    ensures CreateLocators(s, top, points).locators[Path(top, points[i].0)] == Rebuilt(points[i].1)
    decreases |points|
  {
    var path := Path(top, points[0].0);
    var next := MayaScene(s.names + {points[0].0, path}, s.locators[path := Rebuilt(points[0].1)]);
    PointsTail(points);
    if i > 0 {
      var mine := Path(top, points[i].0);
      assert mine != path by {
        if mine == path {
          PathInjective(top, points[i].0, top, points[0].0);
        }
      }
      assert mine != points[0].0 by {
        assert '|' in mine;
      }
      var n := if path in s.names then s else next;
      assert mine !in n.names;
      assert UniqueKeys(points[1..]) && BareKeys(points[1..]);
      CreateLocatorsRebuilds(n, top, points[1..], i - 1);
    }
  }

  predicate DataReadable<R>(data: Assoc<string, SnapGroup<R>>) {
    forall i :: 0 <= i < |data| ==> PointsReadable(data[i].1.snapPoints)
  }

  /** One group of the table brought into the scene. */
  function RegenerateGroup<R>(s: MayaScene<R>, top: string, g: SnapGroup<R>): (r: MayaScene<R>)
    requires PointsReadable(g.snapPoints)
    ensures Consistent(s) ==> Consistent(r)
    ensures s.names <= r.names && top in r.names
    ensures forall p :: p in g.parts ==> p in r.names
    ensures forall i :: 0 <= i < |g.snapPoints| ==> Path(top, g.snapPoints[i].0) in r.names
    ensures Consistent(s) ==> forall p :: p in s.locators ==> p in r.locators && r.locators[p] == s.locators[p]
  {
    CreateLocators(CreateParts(CreateGroup(s, top), top, g.parts), top, g.snapPoints)
  }

  /** A snap point whose path is free gets its locator when its group is
      rebuilt, unless a part of the group has the same name (the part is
      created first and takes the path). */
  lemma RegenerateGroupRebuilds<R>(s: MayaScene<R>, top: string, g: SnapGroup<R>, i: nat)
    requires PointsReadable(g.snapPoints) && '|' !in top && UniqueKeys(g.snapPoints) && BareKeys(g.snapPoints)
    requires forall p :: p in g.parts ==> '|' !in p
    requires i < |g.snapPoints| && g.snapPoints[i].0 !in g.parts
    requires Path(top, g.snapPoints[i].0) !in s.names
    ensures Path(top, g.snapPoints[i].0) in RegenerateGroup(s, top, g).locators
    ensures RegenerateGroup(s, top, g).locators[Path(top, g.snapPoints[i].0)] == Rebuilt(g.snapPoints[i].1)
  {
    var name := g.snapPoints[i].0;
    var path := Path(top, name);
    var s1 := CreateGroup(s, top);
    assert path !in s1.names by {
      assert '|' in path;
    }
    var s2 := CreateParts(s1, top, g.parts);
    assert path !in s2.names by {
      forall p | p in g.parts ensures path != p && path != Path(top, p) {
        assert '|' in path;
        if path == Path(top, p) {
          PathInjective(top, name, top, p);
        }
      }
    }
    CreateLocatorsRebuilds(s2, top, g.snapPoints, i);
  }

  /** The regenerator: every group of the table, in table order. */
  function Regenerate<R>(s: MayaScene<R>, data: Assoc<string, SnapGroup<R>>): (r: MayaScene<R>)
    requires DataReadable(data)
    ensures Consistent(s) ==> Consistent(r)
    ensures s.names <= r.names
    ensures forall i :: 0 <= i < |data| ==> data[i].0 in r.names
    ensures forall i, p :: 0 <= i < |data| && p in data[i].1.parts ==> p in r.names
    ensures forall i, j :: 0 <= i < |data| && 0 <= j < |data[i].1.snapPoints| ==>
      Path(data[i].0, data[i].1.snapPoints[j].0) in r.names
    ensures Consistent(s) ==> forall p :: p in s.locators ==> p in r.locators && r.locators[p] == s.locators[p]
    decreases |data|
  {
    if |data| == 0 then s
    else
      assert DataReadable(data[1..]) by {
        assert forall i :: 0 <= i < |data| - 1 ==> data[1..][i] == data[i + 1];
      }
      var next := RegenerateGroup(s, data[0].0, data[0].1);
      var r := Regenerate(next, data[1..]);
      assert forall i :: 1 <= i < |data| ==> data[1..][i - 1] == data[i];
      r
  }

  /** Running the regenerator on its own result changes nothing: everything
      it would create already exists. */
  lemma {:induction false} RegenerateIdempotent<R>(s: MayaScene<R>, data: Assoc<string, SnapGroup<R>>)
    requires DataReadable(data)
    ensures Regenerate(Regenerate(s, data), data) == Regenerate(s, data)
  {
    var r := Regenerate(s, data);
    RegenerateSettled(r, data);
  }

  /** A scene that already holds every name the table creates is left as it
      is. */
  lemma {:induction false} RegenerateSettled<R>(s: MayaScene<R>, data: Assoc<string, SnapGroup<R>>)
    requires DataReadable(data)
    requires forall i :: 0 <= i < |data| ==> data[i].0 in s.names
    requires forall i, p :: 0 <= i < |data| && p in data[i].1.parts ==> p in s.names
    requires forall i, j :: 0 <= i < |data| && 0 <= j < |data[i].1.snapPoints| ==>
      Path(data[i].0, data[i].1.snapPoints[j].0) in s.names
    ensures Regenerate(s, data) == s
    decreases |data|
  {
    if |data| > 0 {
      var (top, g) := data[0];
      assert CreateGroup(s, top) == s;
      PartsSettled(s, top, g.parts);
      LocatorsSettled(s, top, g.snapPoints);
      assert RegenerateGroup(s, top, g) == s;
      assert forall i :: 0 <= i < |data| - 1 ==> data[1..][i] == data[i + 1];
      RegenerateSettled(s, data[1..]);
    }
  }

  lemma {:induction false} PartsSettled<R>(s: MayaScene<R>, top: string, parts: seq<string>)
    requires forall p :: p in parts ==> p in s.names
    ensures CreateParts(s, top, parts) == s
    decreases |parts|
  {
    if |parts| > 0 {
      assert parts[0] in parts;
      assert forall p :: p in parts[1..] ==> p in parts;
      PartsSettled(s, top, parts[1..]);
    }
  }

  lemma {:induction false} LocatorsSettled<R>(s: MayaScene<R>, top: string, points: Assoc<string, SnapPoint<R>>)
    requires PointsReadable(points)
    requires forall j :: 0 <= j < |points| ==> Path(top, points[j].0) in s.names
    ensures CreateLocators(s, top, points) == s
    decreases |points|
  {
    if |points| > 0 {
      assert forall j :: 0 <= j < |points| - 1 ==> points[1..][j] == points[j + 1];
      LocatorsSettled(s, top, points[1..]);
    }
  }

  // ------------------------------------------------------------ round trip

  /** Children of one Maya node have distinct short names. */
  predicate SiblingsDistinct<R>(g: TopGroup<R>) {
    forall i, j :: 0 <= i < j < |g.children| ==> ShortName(g.children[i].path) != ShortName(g.children[j].path)
  }

  ghost function LastIndexOf<T>(s: seq<T>, x: T): (i: nat)
    requires x in s
    ensures i < |s| && s[i] == x
    ensures forall j :: i < j < |s| ==> s[j] != x
  {
    if s[|s| - 1] == x then |s| - 1 else LastIndexOf(s[..|s| - 1], x)
  }

  lemma PutReadable<R>(a: Assoc<string, SnapPoint<R>>, k: string, v: SnapPoint<R>)
    requires PointsReadable(a) && RowsReadable(v.matrix)
    ensures PointsReadable(Put(a, k, v))
  {
    PutValues(a, k, v);
  }

  lemma {:induction false} AddSnapPointsReadable<R>(acc: Assoc<string, SnapPoint<R>>, snaps: seq<MayaTransform<R>>)
    requires Matrices(snaps) && PointsReadable(acc)
    ensures PointsReadable(AddSnapPoints(acc, snaps))
    decreases |snaps|
  {
    if |snaps| > 0 {
      PutReadable(acc, ShortName(snaps[0].path), Entry(snaps[0]));
      AddSnapPointsReadable(Put(acc, ShortName(snaps[0].path), Entry(snaps[0])), snaps[1..]);
    }
  }

  /** In a group whose children have distinct names, a locator's entry is
      stored under its short name. */
  lemma BuildGroupEntry<R(!new)>(g: TopGroup<R>, t: MayaTransform<R>)
    requires Matrices(g.children) && Readable(g) && SiblingsDistinct(g)
    requires t in g.children && Locator in t.shapes
    ensures PointsReadable(BuildGroup(g).value.snapPoints)
    ensures Get(BuildGroup(g).value.snapPoints, ShortName(t.path)) == Some(Entry(t))
  {
    var snaps := WithShape(g.children, Locator);
    WithShapeMatrices(g.children, Locator);
    AddSnapPointsReadable([], snaps);
    var i := LastIndexOf(snaps, t);
    forall j | i < j < |snaps| ensures ShortName(snaps[j].path) != ShortName(t.path) {
      assert snaps[j] in snaps;
      var a :| 0 <= a < |g.children| && g.children[a] == t;
      var b :| 0 <= b < |g.children| && g.children[b] == snaps[j];
      assert a != b;
    }
    AddSnapPointsLastWins([], snaps, i);
  }

  /** Keys and parts of a generated group are short names. */
  lemma BuildGroupBareNames<R(!new)>(g: TopGroup<R>)
    requires Matrices(g.children) && Readable(g)
    ensures BareKeys(BuildGroup(g).value.snapPoints)
    ensures forall p :: p in BuildGroup(g).value.parts ==> '|' !in p
  {
    var points := BuildGroup(g).value.snapPoints;
    forall j | 0 <= j < |points| ensures '|' !in points[j].0 {
      assert points[j].0 in Keys(points) by {
        assert points[j].0 == Keys(points)[j];
      }
      var t :| t in g.children && Locator in t.shapes && ShortName(t.path) == points[j].0;
    }
  }

  /** A locator without a mesh shape is not among the parts of its group. */
  lemma LocatorNotPart<R(!new)>(g: TopGroup<R>, t: MayaTransform<R>)
    requires Matrices(g.children) && Readable(g) && SiblingsDistinct(g)
    requires t in g.children && Mesh !in t.shapes
    ensures ShortName(t.path) !in BuildGroup(g).value.parts
  {
    forall n | n in BuildGroup(g).value.parts ensures n != ShortName(t.path) {
      var u :| u in g.children && Mesh in u.shapes && ShortName(u.path) == n;
      if n == ShortName(t.path) {
        SameNameSameChild(g, t, u);
      }
    }
  }

  lemma SameNameSameChild<R>(g: TopGroup<R>, t: MayaTransform<R>, u: MayaTransform<R>)
    requires SiblingsDistinct(g) && t in g.children && u in g.children
    requires ShortName(t.path) == ShortName(u.path)
    ensures t == u
  {
    var a :| 0 <= a < |g.children| && g.children[a] == t;
    var b :| 0 <= b < |g.children| && g.children[b] == u;
    assert !(a < b) && !(b < a);
  }

  /** Generating the table from a group and rebuilding that group into a
      scene that lacks the locator's path recreates the locator with the same
      world matrix and "opposite" attribute. A locator that also carries a
      mesh shape is listed among the parts and is not recreated. */
  lemma RoundTripThroughMaya<R(!new)>(s: MayaScene<R>, g: TopGroup<R>, t: MayaTransform<R>)
    requires Matrices(g.children) && Readable(g) && SiblingsDistinct(g) && '|' !in g.name
    requires t in g.children && Locator in t.shapes && Mesh !in t.shapes
    requires Path(g.name, ShortName(t.path)) !in s.names
    ensures PointsReadable(BuildGroup(g).value.snapPoints)
    ensures Path(g.name, ShortName(t.path)) in RegenerateGroup(s, g.name, BuildGroup(g).value).locators
    ensures RegenerateGroup(s, g.name, BuildGroup(g).value).locators[Path(g.name, ShortName(t.path))]
      == LocatorNode(t.worldMatrix, t.opposite)
  {
    var table := BuildGroup(g).value;
    var name := ShortName(t.path);
    BuildGroupEntry(g, t);
    var i := KeyIndex(table.snapPoints, name);
    BuildGroupBareNames(g);
    LocatorNotPart(g, t);
    RegenerateGroupRebuilds(s, g.name, table, i);
    RebuiltEntry(t);
  }
}

=== FILE: snap_tables.dfy ===
/** The two static tables that drive snapping, and the lookups into them.

    The snap-matrix table maps a snap group to the part ids it covers and,
    optionally, to its snap points: point name to local matrix and, optionally,
    the name of the point that faces it ("opposite"). The snap-pair table maps
    a target group and a source group to two comma-separated option lists, the
    target points and the source points that may be joined. */
module SnapTables {
  import opened Options
  import opened Text
  import opened Assoc

  datatype SnapPoint<T> = SnapPoint(matrix: T, opposite: Option<string>)

  /** A group's snap points, in the table's order. */
  type Points<T> = Assoc<string, SnapPoint<T>>

  datatype SnapGroup<T> = SnapGroup(parts: seq<string>, snapPoints: Option<Points<T>>)

  /** The snap-matrix table, in the table's order. */
  type SnapInfo<T> = Assoc<string, SnapGroup<T>>

  /** One pairing: the target option list and the source option list, each
      a comma-separated string of snap point names. */
  datatype PairEntry = PairEntry(targetOptions: string, sourceOptions: string)

  type PairTable = map<string, map<string, PairEntry>>

  /** Python truthiness of an optional string. */
  predicate Truthy(s: Option<string>) {
    s.Some? && s.value != ""
  }

  /** Python truthiness of an optional point map. */
  predicate HasPoints<T>(p: Option<Points<T>>) {
    p.Some? && |p.value| > 0
  }

  /** The position of the first group whose part list names `id`. */
  function GroupIndex<T>(info: SnapInfo<T>, id: string): (r: Option<nat>)
    ensures r.Some? ==> r.value < |info| && id in info[r.value].1.parts
    ensures r.Some? ==> forall j :: 0 <= j < r.value ==> id !in info[j].1.parts
    ensures r.None? ==> forall j :: 0 <= j < |info| ==> id !in info[j].1.parts
  {
    if |info| == 0 then None
    else if id in info[0].1.parts then Some(0)
    else
      match GroupIndex(info[1..], id)
      case None => None
      case Some(i) => Some(i + 1)
  }

  /** The snap group of a part id: the first group, in table order, listing
      it. */
  function GroupOf<T>(info: SnapInfo<T>, id: string): (r: Option<string>)
    ensures r.Some? <==> exists j :: 0 <= j < |info| && id in info[j].1.parts
    ensures r.Some? ==> r.value in Keys(info)
  {
    match GroupIndex(info, id)
    case None => None
    case Some(i) =>
      assert Keys(info)[i] == info[i].0;
      Some(info[i].0)
  }

  /** The part's snap points: none when the part has no (truthy) group or the
      group carries no snap points. */
  function PointsOfPart<T>(info: SnapInfo<T>, id: string): (r: Option<Points<T>>)
    ensures r.Some? ==> Truthy(GroupOf(info, id))
    ensures r.Some? ==> Get(info, GroupOf(info, id).value).value.snapPoints == r
    ensures Truthy(GroupOf(info, id)) && Get(info, GroupOf(info, id).value).value.snapPoints.Some? ==> r.Some?
  {
    var group := GroupOf(info, id);
    if !Truthy(group) then None
    else Get(info, group.value).value.snapPoints
  }

  /** The earlier lookup by group name: a group that is present and carries
      snap points yields them, whatever its name. */
  function PointsOfGroup<T>(info: SnapInfo<T>, group: Option<string>): (r: Option<Points<T>>)
    ensures r.Some? <==> group.Some? && group.value in Keys(info) && Get(info, group.value).value.snapPoints.Some?
  {
    if group.Some? && group.value in Keys(info) then Get(info, group.value).value.snapPoints
    else None
  }

  /** With a truthy group name the two lookups agree. */
  lemma PointsLookupsAgree<T>(info: SnapInfo<T>, id: string)
    requires Truthy(GroupOf(info, id))
    ensures PointsOfPart(info, id) == PointsOfGroup(info, GroupOf(info, id))
  {
  }

  /** The pairing for a target part and a source part: none when neither has
      a group, or when the table has no entry at either level. */
  function PairOptions<T>(info: SnapInfo<T>, pairs: PairTable, targetId: string, sourceId: string): (r: Option<PairEntry>)
    ensures r.Some? ==>
      && GroupOf(info, targetId).Some? && GroupOf(info, sourceId).Some?
      && GroupOf(info, targetId).value in pairs
      && GroupOf(info, sourceId).value in pairs[GroupOf(info, targetId).value]
      && r.value == pairs[GroupOf(info, targetId).value][GroupOf(info, sourceId).value]
    ensures !Truthy(GroupOf(info, targetId)) && !Truthy(GroupOf(info, sourceId)) ==> r.None?
    ensures (Truthy(GroupOf(info, targetId)) || Truthy(GroupOf(info, sourceId)))
         && GroupOf(info, targetId).Some? && GroupOf(info, sourceId).Some?
         && GroupOf(info, targetId).value in pairs
         && GroupOf(info, sourceId).value in pairs[GroupOf(info, targetId).value]
         ==> r.Some?
  {
    var targetGroup := GroupOf(info, targetId);
    var sourceGroup := GroupOf(info, sourceId);
    if !Truthy(targetGroup) && !Truthy(sourceGroup) then None
    else if targetGroup.Some? && targetGroup.value in pairs then
      var byTarget := pairs[targetGroup.value];
      if sourceGroup.Some? && sourceGroup.value in byTarget then Some(byTarget[sourceGroup.value])
      else None
    else None
  }

  /** An option list: the comma-separated pieces, each stripped of
      surrounding whitespace. */
  function ParseOptions(s: string): (r: seq<string>)
    ensures |r| == |Split(s, ',')| >= 1
    ensures forall i :: 0 <= i < |r| ==> r[i] == Strip(Split(s, ',')[i])
    ensures forall i :: 0 <= i < |r| ==> ',' !in r[i]
  {
    var pieces := Split(s, ',');
    seq(|pieces|, i requires 0 <= i < |pieces| => StripKeepsOut(pieces[i], ','); Strip(pieces[i]))
  }

  lemma StripKeepsOut(s: string, c: char)
    requires c !in s
    ensures c !in Strip(s)
  {
    var t := TrimStart(s);
    assert forall x :: x in TrimEnd(t) ==> x in t;
  }

  /** An empty option list is the single empty name. */
  lemma ParseOptionsOfEmpty()
    ensures ParseOptions("") == [""]
  {
    assert Split("", ',') == [""];
    assert Strip("") == "";
  }

  /** Names without commas and without surrounding whitespace, written as an
      option list, are read back unchanged. */
  lemma ParseOptionsOfJoin(names: seq<string>)
    requires |names| >= 1
    requires forall i :: 0 <= i < |names| ==> ',' !in names[i] && Strip(names[i]) == names[i]
    ensures ParseOptions(Join(names, ',')) == names
  {
    SplitJoin(names, ',');
  }

  /** Every non-empty key listed in `options` names a point of `points`. */
  predicate OptionsResolve<T>(options: seq<string>, points: Points<T>) {
    forall i :: 0 <= i < |options| ==> options[i] == "" || options[i] in Keys(points)
  }

  /** Every point named in `options` that has an opposite has one that names
      a point of `points`. */
  predicate OppositesResolve<T>(options: seq<string>, from: Points<T>, points: Points<T>) {
    forall i :: 0 <= i < |options| && options[i] in Keys(from) && Get(from, options[i]).value.opposite.Some?
      ==> Get(from, options[i]).value.opposite.value in Keys(points)
  }
}

=== FILE: sorting.dfy ===
/** Python's `sorted`: a stable sort, here an insertion sort over a
    comparison `le` that is a total preorder. Two instances are used: plain
    string order (`sorted(ids)`) and order by an integer key
    (`sorted(objects, key=by_order)`). */
module Sorting {
  import opened PyUtils

  ghost predicate TotalPreorder<T(!new)>(le: (T, T) -> bool) {
    && (forall a, b :: le(a, b) || le(b, a))
    && (forall a, b, c :: le(a, b) && le(b, c) ==> le(a, c))
  }

  predicate Sorted<T(!new)>(s: seq<T>, le: (T, T) -> bool) {
    forall i, j :: 0 <= i < j < |s| ==> le(s[i], s[j])
  }

  /** Inserts `x` before the first element that is not strictly below it, so
      that `x` stays ahead of every element it ties with. */
  function Insert<T(!new)>(x: T, s: seq<T>, le: (T, T) -> bool): (r: seq<T>)
    requires TotalPreorder(le)
    ensures multiset(r) == multiset(s) + multiset{x}
    ensures |r| == |s| + 1
  {
    if |s| == 0 then [x]
    else if le(s[0], x) && !le(x, s[0]) then
      assert s == [s[0]] + s[1..];
      [s[0]] + Insert(x, s[1..], le)
    else
      [x] + s
  }

  /** The tail of a sorted sequence is sorted. */
  lemma SortedTail<T(!new)>(s: seq<T>, le: (T, T) -> bool)
    requires |s| > 0 && Sorted(s, le)
    ensures Sorted(s[1..], le)
  {
    forall p, q | 0 <= p < q < |s[1..]| ensures le(s[1..][p], s[1..][q]) {
      assert s[1..][p] == s[p + 1] && s[1..][q] == s[q + 1];
    }
  }

  /** Inserting into a sorted sequence keeps it sorted. */
  lemma {:induction false} InsertSorted<T(!new)>(x: T, s: seq<T>, le: (T, T) -> bool)
    requires TotalPreorder(le) && Sorted(s, le)
    ensures Sorted(Insert(x, s, le), le)
  {
    if |s| > 0 {
      InsertStep(x, s, le);
      var tail := s[1..];
      if le(s[0], x) && !le(x, s[0]) {
        SortedTail(s, le);
        InsertSorted(x, tail, le);
        var rest := Insert(x, tail, le);
        var r := [s[0]] + rest;
        forall k | 0 <= k < |rest| ensures le(s[0], rest[k]) {
          assert rest[k] in multiset(rest);
          if rest[k] != x {
            assert rest[k] in multiset(tail);
            var m :| 0 <= m < |tail| && tail[m] == rest[k];
            assert s[m + 1] == rest[k];
          }
        }
        forall i, j | 0 <= i < j < |r| ensures le(r[i], r[j]) {
          assert r[j] == rest[j - 1];
          if i > 0 {
            assert r[i] == rest[i - 1];
          }
        }
      } else {
        var r := [x] + s;
        assert le(x, s[0]);
        forall i, j | 0 <= i < j < |r| ensures le(r[i], r[j]) {
          assert r[j] == s[j - 1];
          if i > 0 {
            assert r[i] == s[i - 1];
          } else if j > 1 {
            assert le(s[0], s[j - 1]);
          }
        }
      }
    }
  }

  /** `sorted(s)` under `le`. */
  function Sort<T(!new)>(s: seq<T>, le: (T, T) -> bool): (r: seq<T>)
    requires TotalPreorder(le)
    ensures multiset(r) == multiset(s)
    ensures |r| == |s|
    ensures Sorted(r, le)
  {
    if |s| == 0 then []
    else
      assert s == [s[0]] + s[1..];
      InsertSorted(s[0], Sort(s[1..], le), le);
      Insert(s[0], Sort(s[1..], le), le)
  }

  // -------------------------------------------------------------- uniqueness

  ghost predicate Antisymmetric<T(!new)>(le: (T, T) -> bool) {
    forall a, b :: le(a, b) && le(b, a) ==> a == b
  }

  /** Under a total order two sorted sequences with the same elements are
      equal, so `sorted` does not depend on the order it is given its input
      in. */
  lemma {:induction false} SortedUnique<T(!new)>(a: seq<T>, b: seq<T>, le: (T, T) -> bool)
    requires TotalPreorder(le) && Antisymmetric(le)
    requires Sorted(a, le) && Sorted(b, le)
    requires multiset(a) == multiset(b)
    ensures a == b
  {
    assert |a| == |multiset(a)| == |multiset(b)| == |b|;
    if |a| > 0 {
      assert a[0] == b[0] by {
        assert a[0] in multiset(b) && b[0] in multiset(a);
        var i :| 0 <= i < |b| && b[i] == a[0];
        var j :| 0 <= j < |a| && a[j] == b[0];
        assert le(b[0], a[0]) by {
          if i > 0 { assert le(b[0], b[i]); }
        }
        assert le(a[0], b[0]) by {
          if j > 0 { assert le(a[0], a[j]); }
        }
      }
      assert multiset(a[1..]) == multiset(b[1..]) by {
        assert a == [a[0]] + a[1..];
        assert b == [b[0]] + b[1..];
        assert multiset(a) == multiset{a[0]} + multiset(a[1..]);
        assert multiset(b) == multiset{b[0]} + multiset(b[1..]);
        assert multiset(a[1..]) == multiset(a) - multiset{a[0]};
      }
      SortedTail(a, le);
      SortedTail(b, le);
      SortedUnique(a[1..], b[1..], le);
      assert a == [a[0]] + a[1..];
      assert b == [b[0]] + b[1..];
    }
  }

  /** A duplicate-free sequence holds each of its elements once. */
  lemma {:induction false} DistinctCount<T>(a: seq<T>, x: T)
    requires Distinct(a)
    ensures multiset(a)[x] == if x in a then 1 else 0
  {
    if |a| > 0 {
      var rest := a[1..];
      assert a == [a[0]] + rest;
      assert Distinct(rest) by {
        forall i, j | 0 <= i < j < |rest| ensures rest[i] != rest[j] {
          assert rest[i] == a[i + 1] && rest[j] == a[j + 1];
        }
      }
      assert a[0] !in rest by {
        forall i | 0 <= i < |rest| ensures rest[i] != a[0] {
          assert rest[i] == a[i + 1];
        }
      }
      DistinctCount(rest, x);
    }
  }

  /** Duplicate-free sequences with the same members are permutations of each
      other. */
  lemma DistinctSameElements<T>(a: seq<T>, b: seq<T>)
    requires Distinct(a) && Distinct(b)
    requires forall x :: x in a <==> x in b
    ensures multiset(a) == multiset(b)
  {
    forall x ensures multiset(a)[x] == multiset(b)[x] {
      DistinctCount(a, x);
      DistinctCount(b, x);
    }
  }

  // ------------------------------------------------------- string ordering

  /** Python's `<` on strings: code point by code point, a proper prefix
      first. */
  predicate StrLess(a: string, b: string)
    decreases |a|
  {
    if |a| == 0 then |b| > 0
    else if |b| == 0 then false
    else if a[0] != b[0] then a[0] < b[0]
    else StrLess(a[1..], b[1..])
  }

  predicate StrLe(a: string, b: string) {
    a == b || StrLess(a, b)
  }

  lemma {:induction false} StrLessTrichotomy(a: string, b: string)
    ensures a == b || StrLess(a, b) || StrLess(b, a)
    ensures !(StrLess(a, b) && StrLess(b, a))
    decreases |a|
  {
    if |a| > 0 && |b| > 0 && a[0] == b[0] {
      StrLessTrichotomy(a[1..], b[1..]);
      if a[1..] == b[1..] {
        assert a == [a[0]] + a[1..] && b == [b[0]] + b[1..];
      }
    }
  }

  lemma {:induction false} StrLessTransitive(a: string, b: string, c: string)
    requires StrLess(a, b) && StrLess(b, c)
    ensures StrLess(a, c)
    decreases |a|
  {
    if |a| > 0 && a[0] == b[0] && b[0] == c[0] {
      StrLessTransitive(a[1..], b[1..], c[1..]);
    }
  }

  /** The comparison `sorted` uses on strings. */
  function StringOrder(): (le: (string, string) -> bool)
    ensures TotalPreorder(le) && Antisymmetric(le)
    ensures forall a, b :: le(a, b) == StrLe(a, b)
  {
    var le := (a: string, b: string) => StrLe(a, b);
    assert forall a, b :: le(a, b) || le(b, a) by {
      forall a: string, b: string ensures le(a, b) || le(b, a) {
        StrLessTrichotomy(a, b);
      }
    }
    assert forall a, b, c :: le(a, b) && le(b, c) ==> le(a, c) by {
      forall a: string, b: string, c: string | le(a, b) && le(b, c) ensures le(a, c) {
        if a != b && b != c { StrLessTransitive(a, b, c); }
      }
    }
    assert forall a, b :: le(a, b) && le(b, a) ==> a == b by {
      forall a: string, b: string | le(a, b) && le(b, a) ensures a == b {
        StrLessTrichotomy(a, b);
      }
    }
    le
  }

  /** `sorted(ids)` for a list of strings. */
  function SortStrings(s: seq<string>): (r: seq<string>)
    ensures multiset(r) == multiset(s)
    ensures forall i, j :: 0 <= i < j < |r| ==> StrLe(r[i], r[j])
  {
    Sort(s, StringOrder())
  }

  /** Sorting strings is determined by the elements alone. */
  lemma SortStringsOrderFree(a: seq<string>, b: seq<string>)
    requires multiset(a) == multiset(b)
    ensures SortStrings(a) == SortStrings(b)
  {
    SortedUnique(SortStrings(a), SortStrings(b), StringOrder());
  }

  // ----------------------------------------------------------- by integer key

  function KeyOrder<T(!new)>(key: T -> int): (le: (T, T) -> bool)
    ensures TotalPreorder(le)
    ensures forall a, b :: le(a, b) == (key(a) <= key(b))
  {
    (a: T, b: T) => key(a) <= key(b)
  }

  /** `sorted(s, key=key)`. */
  function SortBy<T(!new)>(s: seq<T>, key: T -> int): (r: seq<T>)
    ensures multiset(r) == multiset(s)
    ensures forall i, j :: 0 <= i < j < |r| ==> key(r[i]) <= key(r[j])
  {
    Sort(s, KeyOrder(key))
  }

  /** The elements of `s` whose key is `k`, in order. */
  function WithOrder<T(!new)>(s: seq<T>, key: T -> int, k: int): (r: seq<T>)
    ensures forall x :: x in r <==> x in s && key(x) == k
  {
    if |s| == 0 then []
    else
      assert forall x :: x in s <==> x == s[0] || x in s[1..];
      (if key(s[0]) == k then [s[0]] else []) + WithOrder(s[1..], key, k)
  }

  lemma WithOrderCons<T(!new)>(y: T, t: seq<T>, key: T -> int, k: int)
    ensures WithOrder([y] + t, key, k) == (if key(y) == k then [y] else []) + WithOrder(t, key, k)
  {
    assert ([y] + t)[1..] == t;
  }

  /** How `Insert` places `x` in front of a non-empty sequence. */
  lemma InsertStep<T(!new)>(x: T, s: seq<T>, le: (T, T) -> bool)
    requires TotalPreorder(le) && |s| > 0
    ensures le(s[0], x) && !le(x, s[0]) ==> Insert(x, s, le) == [s[0]] + Insert(x, s[1..], le)
    ensures !(le(s[0], x) && !le(x, s[0])) ==> Insert(x, s, le) == [x] + s
  {
  }

  lemma SwapPastEmpty<T>(a: seq<T>, b: seq<T>, w: seq<T>)
    requires a == [] || b == []
    ensures a + (b + w) == b + (a + w)
  {
    if a == [] {
      assert a + (b + w) == b + w;
      assert a + w == w;
    } else {
      assert b + (a + w) == a + w;
      assert b + w == w;
    }
  }

  /** The step of `WithOrderInsert` where `x` moves past a strictly smaller
      head: the head and `x` cannot both have key `k`. */
  lemma WithOrderPastHead<T(!new)>(x: T, s: seq<T>, rest: seq<T>, key: T -> int, k: int)
    requires |s| > 0 && key(s[0]) < key(x)
    requires WithOrder(rest, key, k) == (if key(x) == k then [x] else []) + WithOrder(s[1..], key, k)
    ensures WithOrder([s[0]] + rest, key, k) == (if key(x) == k then [x] else []) + WithOrder(s, key, k)
  {
    var a: seq<T> := if key(s[0]) == k then [s[0]] else [];
    var b: seq<T> := if key(x) == k then [x] else [];
    WithOrderCons(s[0], rest, key, k);
    assert s == [s[0]] + s[1..];
    WithOrderCons(s[0], s[1..], key, k);
    SwapPastEmpty(a, b, WithOrder(s[1..], key, k));
  }

  lemma {:induction false} WithOrderInsert<T(!new)>(x: T, s: seq<T>, key: T -> int, k: int)
    ensures WithOrder(Insert(x, s, KeyOrder(key)), key, k) ==
      (if key(x) == k then [x] else []) + WithOrder(s, key, k)
  {
    var le := KeyOrder(key);
    if |s| == 0 {
      assert Insert(x, s, le) == [x] + s;
      WithOrderCons(x, s, key, k);
    } else {
      InsertStep(x, s, le);
      if key(s[0]) < key(x) {
        WithOrderInsert(x, s[1..], key, k);
        WithOrderPastHead(x, s, Insert(x, s[1..], le), key, k);
      } else {
        WithOrderCons(x, s, key, k);
      }
    }
  }

  /** `sorted` is stable: elements with equal keys keep their relative
      order. */
  lemma {:induction false} SortByStable<T(!new)>(s: seq<T>, key: T -> int, k: int)
    ensures WithOrder(SortBy(s, key), key, k) == WithOrder(s, key, k)
  {
    if |s| > 0 {
      SortByStable(s[1..], key, k);
      WithOrderInsert(s[0], Sort(s[1..], KeyOrder(key)), key, k);
    }
  }

  /** Keys strictly increase along `s`. */
  predicate KeysIncrease<T>(s: seq<T>, key: T -> int) {
    forall i, j :: 0 <= i < j < |s| ==> key(s[i]) < key(s[j])
  }

  /** A sequence already in key order is returned unchanged. */
  lemma {:induction false} SortBySorted<T(!new)>(s: seq<T>, key: T -> int)
    requires KeysIncrease(s, key)
    ensures SortBy(s, key) == s
  {
    if |s| > 0 {
      var rest := s[1..];
      assert KeysIncrease(rest, key) by {
        forall i, j | 0 <= i < j < |rest| ensures key(rest[i]) < key(rest[j]) {
          assert rest[i] == s[i + 1] && rest[j] == s[j + 1];
        }
      }
      SortBySorted(rest, key);
      var le := KeyOrder(key);
      assert s == [s[0]] + rest;
      assert Sort(s, le) == Insert(s[0], Sort(rest, le), le);
      if |rest| > 0 {
        assert key(s[0]) < key(rest[0]);
        InsertStep(s[0], rest, le);
      }
    }
  }

  // ---------------------------------------------------------- by string key

  function NameOrder<T(!new)>(key: T -> string): (le: (T, T) -> bool)
    ensures TotalPreorder(le)
    ensures forall a, b :: le(a, b) == StrLe(key(a), key(b))
  {
    var order := StringOrder();
    var le := (a: T, b: T) => StrLe(key(a), key(b));
    assert forall a, b :: le(a, b) == order(key(a), key(b));
    le
  }

  /** `sorted(s, key=key)` for a string-valued key. */
  function SortByName<T(!new)>(s: seq<T>, key: T -> string): (r: seq<T>)
    ensures multiset(r) == multiset(s)
    ensures forall i, j :: 0 <= i < j < |r| ==> StrLe(key(r[i]), key(r[j]))
  {
    Sort(s, NameOrder(key))
  }
}

=== FILE: text.dfy ===
/** String helpers with the meaning Python's `str` methods give them: split,
    join, strip, `in`, endswith, replace, title and decimal conversion. Every
    module that manipulates names, ids or option lists uses these, so that each
    behaviour is defined once. */
module Text {
  import opened Options

  // ---------------------------------------------------------------- whitespace

  /** ASCII whitespace as `str.strip()` and `str.split()` see it. */
  predicate IsSpace(c: char) {
    c == ' ' || c == '\t' || c == '\n' || c == '\r' || c == '\U{000B}' || c == '\U{000C}'
    || ('\U{001C}' <= c <= '\U{001F}')
  }

  predicate NoSpace(s: string) {
    forall i :: 0 <= i < |s| ==> !IsSpace(s[i])
  }

  /** `s.lstrip()`: drops the leading whitespace and nothing else. */
  function TrimStart(s: string): (r: string)
    ensures |r| <= |s| && r == s[|s| - |r|..]
    ensures |r| > 0 ==> !IsSpace(r[0])
    ensures forall i :: 0 <= i < |s| - |r| ==> IsSpace(s[i])
  {
    if |s| > 0 && IsSpace(s[0]) then TrimStart(s[1..]) else s
  }

  /** `s.rstrip()`: drops the trailing whitespace and nothing else. */
  function TrimEnd(s: string): (r: string)
    ensures |r| <= |s| && r == s[..|r|]
    ensures |r| > 0 ==> !IsSpace(r[|r| - 1])
    ensures forall i :: |r| <= i < |s| ==> IsSpace(s[i])
  {
    if |s| > 0 && IsSpace(s[|s| - 1]) then TrimEnd(s[..|s| - 1]) else s
  }

  /** `s.strip()`. */
  function Strip(s: string): (r: string)
    ensures |r| <= |s|
    ensures |r| > 0 ==> !IsSpace(r[0]) && !IsSpace(r[|r| - 1])
    ensures NoSpace(s) ==> r == s
  {
    TrimEnd(TrimStart(s))
  }

  lemma StripIdempotent(s: string)
    ensures Strip(Strip(s)) == Strip(s)
  {
    var t := Strip(s);
    assert TrimStart(t) == t;
  }

  // ------------------------------------------------------------ split and join

  /** Index of the first occurrence of `c` in `s`. */
  function FirstIndex(s: string, c: char): (i: nat)
    requires c in s
    ensures i < |s| && s[i] == c && c !in s[..i]
  {
    if s[0] == c then 0 else 1 + FirstIndex(s[1..], c)
  }

  /** `sep.join(parts)` for a one-character separator. */
  function Join(parts: seq<string>, sep: char): string {
    if |parts| == 0 then ""
    else if |parts| == 1 then parts[0]
    else parts[0] + [sep] + Join(parts[1..], sep)
  }

  /** `s.split(sep)` for a one-character separator: never empty, no piece
      contains the separator, and joining the pieces gives `s` back. */
  function Split(s: string, sep: char): (r: seq<string>)
    ensures |r| >= 1
    ensures forall i :: 0 <= i < |r| ==> sep !in r[i]
    ensures Join(r, sep) == s
    decreases |s|
  {
    if sep !in s then [s]
    else
      var i := FirstIndex(s, sep);
      assert s == s[..i] + [sep] + s[i + 1..];
      [s[..i]] + Split(s[i + 1..], sep)
  }

  lemma FirstIndexAfterPiece(a: string, sep: char, b: string)
    requires sep !in a
    ensures sep in a + [sep] + b
    ensures FirstIndex(a + [sep] + b, sep) == |a|
  {
    var s := a + [sep] + b;
    assert s[|a|] == sep;
    if |a| > 0 {
      assert s[1..] == a[1..] + [sep] + b;
      FirstIndexAfterPiece(a[1..], sep, b);
    }
  }

  /** Splitting what `Join` produced gives the pieces back, provided no piece
      contains the separator. */
  lemma {:induction false} SplitJoin(parts: seq<string>, sep: char)
    requires |parts| >= 1
    requires forall i :: 0 <= i < |parts| ==> sep !in parts[i]
    ensures Split(Join(parts, sep), sep) == parts
  {
    if |parts| > 1 {
      var rest := Join(parts[1..], sep);
      var s := parts[0] + [sep] + rest;
      FirstIndexAfterPiece(parts[0], sep, rest);
      assert s[..|parts[0]|] == parts[0];
      assert s[|parts[0]| + 1..] == rest;
      SplitJoin(parts[1..], sep);
    }
  }

  /** The last piece of `s.split(sep)`, i.e. `s.split(sep)[-1]`. */
  function LastPiece(s: string, sep: char): (r: string)
    ensures sep !in r
    ensures |r| <= |s| && s[|s| - |r|..] == r
    ensures |r| < |s| ==> s[|s| - |r| - 1] == sep
    ensures sep !in s ==> r == s
    decreases |s|
  {
    if sep !in s then s
    else
      var i := FirstIndex(s, sep);
      var rest := s[i + 1..];
      var r := LastPiece(rest, sep);
      assert s[|s| - |r|..] == rest[|rest| - |r|..];
      assert |r| < |rest| ==> s[|s| - |r| - 1] == rest[|rest| - |r| - 1];
      r
  }

  /** `os.path.basename` on a POSIX path. */
  function Basename(path: string): string {
    LastPiece(path, '/')
  }

  /** `os.path.join(a, b)` on POSIX paths. */
  function PathJoin(a: string, b: string): (r: string)
    ensures |b| > 0 && b[0] == '/' ==> r == b
    ensures EndsWith(r, b)
  {
    if |b| > 0 && b[0] == '/' then b
    else if |a| == 0 || a[|a| - 1] == '/' then a + b
    else a + "/" + b
  }

  // ----------------------------------------------------- containment and affixes

  predicate OccursAt(s: string, sub: string, i: int) {
    0 <= i <= |s| - |sub| && s[i..i + |sub|] == sub
  }

  /** Python's `sub in s` on strings. */
  predicate Contains(s: string, sub: string) {
    exists i :: 0 <= i <= |s| && OccursAt(s, sub, i)
  }

  predicate StartsWith(s: string, prefix: string) {
    |prefix| <= |s| && s[..|prefix|] == prefix
  }

  predicate EndsWith(s: string, suffix: string) {
    |suffix| <= |s| && s[|s| - |suffix|..] == suffix
  }

  // -------------------------------------------------------------- replacements

  /** `s.replace(c, "")` for a single character `c`. */
  function RemoveAll(s: string, c: char): (r: string)
    ensures c !in r
    ensures |r| <= |s|
    ensures c !in s ==> r == s
    ensures forall x :: x != c && x in s ==> x in r
  {
    if |s| == 0 then ""
    else if s[0] == c then RemoveAll(s[1..], c)
    else [s[0]] + RemoveAll(s[1..], c)
  }

  lemma {:induction false} RemoveAllAppend(a: string, b: string, c: char)
    ensures RemoveAll(a + b, c) == RemoveAll(a, c) + RemoveAll(b, c)
  {
    if |a| > 0 {
      assert (a + b)[1..] == a[1..] + b;
      RemoveAllAppend(a[1..], b, c);
    } else {
      assert a + b == b;
    }
  }

  /** `s.replace(a, b)` for single characters. */
  function ReplaceChar(s: string, a: char, b: char): (r: string)
    ensures |r| == |s|
    ensures forall i :: 0 <= i < |s| ==> r[i] == (if s[i] == a then b else s[i])
  {
    if |s| == 0 then "" else [if s[0] == a then b else s[0]] + ReplaceChar(s[1..], a, b)
  }

  // -------------------------------------------------------------------- case

  predicate IsUpper(c: char) { 'A' <= c <= 'Z' }
  predicate IsLower(c: char) { 'a' <= c <= 'z' }
  predicate IsCased(c: char) { IsUpper(c) || IsLower(c) }

  function ToUpper(c: char): char {
    if IsLower(c) then (c as int - 32) as char else c
  }

  function ToLower(c: char): char {
    if IsUpper(c) then (c as int + 32) as char else c
  }

  /** How `str.title()` writes one character, given whether the character
      before it is a letter. */
  function Titled(c: char, afterCased: bool): char {
    if !IsCased(c) then c else if afterCased then ToLower(c) else ToUpper(c)
  }

  function TitleFrom(s: string, afterCased: bool): (r: string)
    ensures |r| == |s|
    ensures forall i :: 0 <= i < |s| ==>
      r[i] == Titled(s[i], if i == 0 then afterCased else IsCased(s[i - 1]))
  {
    if |s| == 0 then ""
    else
      var rest := TitleFrom(s[1..], IsCased(s[0]));
      var r := [Titled(s[0], afterCased)] + rest;
      assert forall i :: 1 <= i < |s| ==> r[i] == rest[i - 1] && s[1..][i - 1] == s[i];
      r
  }

  /** `s.title()`: a letter that follows a letter is lower-cased, any other
      letter is upper-cased, and every other character is kept. */
  function Title(s: string): (r: string)
    ensures |r| == |s|
    ensures forall i :: 0 <= i < |s| ==> r[i] == Titled(s[i], i > 0 && IsCased(s[i - 1]))
  {
    var r := TitleFrom(s, false);
    assert forall i :: 0 <= i < |s| ==> r[i] == Titled(s[i], if i == 0 then false else IsCased(s[i - 1]));
    r
  }

  lemma TitledChar(c: char, afterCased: bool)
    ensures IsCased(Titled(c, afterCased)) == IsCased(c)
    ensures Titled(Titled(c, afterCased), afterCased) == Titled(c, afterCased)
  {
    if IsLower(c) {
      assert IsUpper((c as int - 32) as char);
    } else if IsUpper(c) {
      assert IsLower((c as int + 32) as char);
    }
  }

  /** Title-casing twice changes nothing more. */
  lemma TitleIdempotent(s: string)
    ensures Title(Title(s)) == Title(s)
  {
    var t := Title(s);
    forall i | 0 <= i < |s| ensures Title(t)[i] == t[i] {
      var after := i > 0 && IsCased(s[i - 1]);
      TitledChar(s[i], after);
      if i > 0 {
        TitledChar(s[i - 1], i > 1 && IsCased(s[i - 2]));
      }
    }
  }

  /** The label shown for an identifier: `label.title().replace("_", " ")`. */
  function TitleLabel(s: string): (r: string)
    ensures |r| == |s|
    ensures '_' !in r
    ensures forall i :: 0 <= i < |s| ==>
      r[i] == if s[i] == '_' then ' ' else Titled(s[i], i > 0 && IsCased(s[i - 1]))
  {
    ReplaceChar(Title(s), '_', ' ')
  }

  /** A non-empty run of ASCII letters. */
  predicate IsWord(w: string) {
    |w| > 0 && forall i :: 0 <= i < |w| ==> IsCased(w[i])
  }

  /** A word with its first letter upper-case and the rest lower-case. */
  function Capitalised(w: string): (r: string)
    ensures |r| == |w|
  {
    seq(|w|, i requires 0 <= i < |w| => if i == 0 then ToUpper(w[i]) else ToLower(w[i]))
  }

  /** Two words joined by an underscore are labelled as the two words
      capitalised, joined by a space. */
  lemma TitleLabelOfTwoWords(a: string, b: string)
    requires IsWord(a) && IsWord(b)
    ensures TitleLabel(a + "_" + b) == Capitalised(a) + " " + Capitalised(b)
  {
    var s := a + "_" + b;
    var r := TitleLabel(s);
    var e := Capitalised(a) + " " + Capitalised(b);
    assert |e| == |s| == |r|;
    forall i | 0 <= i < |s| ensures r[i] == e[i] {
      var after := i > 0 && IsCased(s[i - 1]);
      assert r[i] == if s[i] == '_' then ' ' else Titled(s[i], after);
      if i < |a| {
        assert s[i] == a[i] && IsCased(a[i]) && e[i] == Capitalised(a)[i];
        if i > 0 { assert s[i - 1] == a[i - 1] && IsCased(a[i - 1]); }
        assert after == (i > 0);
      } else if i == |a| {
        assert s[i] == '_' && e[i] == ' ';
      } else {
        var k := i - |a| - 1;
        assert s[i] == b[k] && IsCased(b[k]) && e[i] == Capitalised(b)[k];
        if k > 0 { assert s[i - 1] == b[k - 1] && IsCased(b[k - 1]); } else { assert s[i - 1] == '_'; }
        assert after == (k > 0);
      }
    }
  }

  // --------------------------------------------------------- decimal integers

  predicate IsDigit(c: char) { '0' <= c <= '9' }

  predicate AllDigits(s: string) {
    forall i :: 0 <= i < |s| ==> IsDigit(s[i])
  }

  function DigitChar(d: nat): (c: char)
    requires d < 10
    ensures IsDigit(c) && c as int - '0' as int == d
  {
    ('0' as int + d) as char
  }

  /** `str(n)` for a natural number. */
  function NatToString(n: nat): (r: string)
    ensures |r| >= 1 && AllDigits(r)
  {
    if n < 10 then [DigitChar(n)] else NatToString(n / 10) + [DigitChar(n % 10)]
  }

  /** `str(i)` for an integer. */
  function IntToString(i: int): (r: string)
    ensures |r| >= 1 && NoSpace(r)
  {
    if i < 0 then "-" + NatToString(-i) else NatToString(i)
  }

  /** The value of a string of decimal digits. */
  function DigitsValue(s: string): nat
    requires AllDigits(s)
  {
    if |s| == 0 then 0 else DigitsValue(s[..|s| - 1]) * 10 + (s[|s| - 1] as int - '0' as int)
  }

  /** Digits with single underscores allowed between them, as `int()` accepts. */
  predicate DigitGroups(s: string) {
    && |s| > 0
    && IsDigit(s[0])
    && IsDigit(s[|s| - 1])
    && (forall i :: 0 <= i < |s| ==> IsDigit(s[i]) || s[i] == '_')
    && (forall i :: 0 <= i < |s| - 1 && s[i] == '_' ==> IsDigit(s[i + 1]))
  }

  lemma {:induction false} RemoveUnderscoresLeavesDigits(s: string)
    requires forall i :: 0 <= i < |s| ==> IsDigit(s[i]) || s[i] == '_'
    ensures AllDigits(RemoveAll(s, '_'))
  {
    if |s| > 0 {
      assert forall i :: 0 <= i < |s| - 1 ==> s[1..][i] == s[i + 1];
      RemoveUnderscoresLeavesDigits(s[1..]);
    }
  }

  /** Python's `int(s)` on a string: surrounding whitespace, an optional sign,
      then decimal digit groups; `None` where `int()` raises. */
  function ParseInt(s: string): (r: Option<int>)
    ensures r.Some? ==> |Strip(s)| > 0
  {
    var t := Strip(s);
    if |t| == 0 then None
    else
      var negative := t[0] == '-';
      var body := if t[0] == '-' || t[0] == '+' then t[1..] else t;
      if !DigitGroups(body) then None
      else
        RemoveUnderscoresLeavesDigits(body);
        var magnitude: int := DigitsValue(RemoveAll(body, '_'));
        Some(if negative then -magnitude else magnitude)
  }

  lemma {:induction false} DigitsValueOfNatToString(n: nat)
    ensures DigitsValue(NatToString(n)) == n
  {
    var s := NatToString(n);
    if n >= 10 {
      assert s[..|s| - 1] == NatToString(n / 10);
      DigitsValueOfNatToString(n / 10);
    }
  }

  /** Parsing what `str()` printed gives the integer back. */
  lemma ParseIntOfIntToString(i: int)
    ensures ParseInt(IntToString(i)) == Some(i)
  {
    var s := IntToString(i);
    var body := NatToString(if i < 0 then -i else i);
    assert Strip(s) == s;
    if i < 0 {
      assert s[1..] == body;
    }
    assert DigitGroups(body);
    assert RemoveAll(body, '_') == body by {
      assert forall k :: 0 <= k < |body| ==> body[k] != '_';
    }
    DigitsValueOfNatToString(if i < 0 then -i else i);
  }
}

=== FILE: transform.dfy ===
/** World and local transforms as an abstract group. The add-on multiplies
    4x4 matrices; the snapping logic only ever composes, inverts and applies
    two fixed rotations, so any type with those operations and the group laws
    stands in for the matrices. */
module Transforms {

  /** The operations the snapping code uses: matrix product, the identity,
      inversion, the 180 degree rotation about Y that turns a snap point to
      face its partner, and the 90 degree rotation about X that stands a preset
      upright. */
  datatype Algebra<!T> = Algebra(
    compose: (T, T) -> T,
    identity: T,
    inverse: T -> T,
    flipY: T,
    quarterX: T)

  function Mul<T>(g: Algebra<T>, a: T, b: T): T {
    g.compose(a, b)
  }

  function Inv<T>(g: Algebra<T>, a: T): T {
    g.inverse(a)
  }

  /** A marker naming the elements a group law is applied to; the laws below
      are triggered only by it, so a proof applies each law exactly where it
      names one. */
  ghost predicate Instance<T>(g: Algebra<T>, a: T, b: T, c: T) {
    true
  }

  /** Associativity, identity and inverses, as rigid transforms satisfy them. */
  ghost predicate GroupLaws<T(!new)>(g: Algebra<T>) {
    && (forall a, b, c {:trigger Instance(g, a, b, c)} :: Mul(g, Mul(g, a, b), c) == Mul(g, a, Mul(g, b, c)))
    && (forall a {:trigger Instance(g, a, a, a)} ::
          && Mul(g, g.identity, a) == a
          && Mul(g, a, g.identity) == a
          && Mul(g, Inv(g, a), a) == g.identity
          && Mul(g, a, Inv(g, a)) == g.identity)
  }

  lemma Assoc<T(!new)>(g: Algebra<T>, a: T, b: T, c: T)
    requires GroupLaws(g)
    ensures Mul(g, Mul(g, a, b), c) == Mul(g, a, Mul(g, b, c))
  {
    assert Instance(g, a, b, c);
  }

  /** The identity and inverse laws for one element. */
  lemma Unit<T(!new)>(g: Algebra<T>, a: T)
    requires GroupLaws(g)
    ensures Mul(g, g.identity, a) == a && Mul(g, a, g.identity) == a
    ensures Mul(g, Inv(g, a), a) == g.identity && Mul(g, a, Inv(g, a)) == g.identity
  {
    assert Instance(g, a, a, a);
  }

  /** Inverses are unique: anything that cancels `a` on the left is its
      inverse. */
  lemma LeftInverseUnique<T(!new)>(g: Algebra<T>, a: T, x: T)
    requires GroupLaws(g)
    requires Mul(g, x, a) == g.identity
    ensures x == Inv(g, a)
  {
    calc {
      x;
      { Unit(g, x); }
      Mul(g, x, g.identity);
      { Unit(g, a); }
      Mul(g, x, Mul(g, a, Inv(g, a)));
      { Assoc(g, x, a, Inv(g, a)); }
      Mul(g, Mul(g, x, a), Inv(g, a));
      Mul(g, g.identity, Inv(g, a));
      { Unit(g, Inv(g, a)); }
      Inv(g, a);
    }
  }

  /** The inverse of a product is the product of the inverses, reversed. */
  lemma InverseOfProduct<T(!new)>(g: Algebra<T>, a: T, b: T)
    requires GroupLaws(g)
    ensures Inv(g, Mul(g, a, b)) == Mul(g, Inv(g, b), Inv(g, a))
  {
    var x := Mul(g, Inv(g, b), Inv(g, a));
    calc {
      Mul(g, x, Mul(g, a, b));
      { Assoc(g, Inv(g, b), Inv(g, a), Mul(g, a, b)); }
      Mul(g, Inv(g, b), Mul(g, Inv(g, a), Mul(g, a, b)));
      { Assoc(g, Inv(g, a), a, b); }
      Mul(g, Inv(g, b), Mul(g, Mul(g, Inv(g, a), a), b));
      { Unit(g, a); }
      Mul(g, Inv(g, b), Mul(g, g.identity, b));
      { Unit(g, b); }
      Mul(g, Inv(g, b), b);
      { Unit(g, b); }
      g.identity;
    }
    LeftInverseUnique(g, Mul(g, a, b), x);
  }

  /** The matrix sequence of the oriented snap, step for step: `start` is the
      source's world matrix when the sequence begins, `sourceOffset` the
      source snap point's local matrix, `targetWorld` and `targetOffset` the
      target's world matrix and snap point. */
  function OrientedPlacement<T>(g: Algebra<T>, start: T, sourceOffset: T, targetWorld: T, targetOffset: T): T {
    var startInv := Inv(g, start);
    var targetSnap := Mul(g, targetWorld, targetOffset);
    var snap := Mul(g, start, sourceOffset);
    var snapInv := Inv(g, snap);
    var origin := Mul(g, snapInv, snap);
    var originFlipped := Mul(g, g.flipY, origin);
    var flippedSnap := Mul(g, snap, originFlipped);
    var flippedLocalOffset := Mul(g, startInv, flippedSnap);
    Mul(g, targetSnap, Inv(g, flippedLocalOffset))
  }

  /** The closed form of the oriented snap: target world, target snap point,
      the inverse flip, the inverse source snap point. The starting matrix of
      the source cancels out. */
  lemma OrientedPlacementClosedForm<T(!new)>(g: Algebra<T>, start: T, so: T, tw: T, to: T)
    requires GroupLaws(g)
    ensures OrientedPlacement(g, start, so, tw, to)
         == Mul(g, Mul(g, Mul(g, tw, to), Inv(g, g.flipY)), Inv(g, so))
  {
    var snap := Mul(g, start, so);
    var origin := Mul(g, Inv(g, snap), snap);
    Unit(g, snap);
    assert origin == g.identity;
    var flippedSnap := Mul(g, snap, Mul(g, g.flipY, origin));
    Unit(g, g.flipY);
    assert flippedSnap == Mul(g, snap, g.flipY);
    var local := Mul(g, Inv(g, start), flippedSnap);
    calc {
      local;
      Mul(g, Inv(g, start), Mul(g, Mul(g, start, so), g.flipY));
      { Assoc(g, start, so, g.flipY); }
      Mul(g, Inv(g, start), Mul(g, start, Mul(g, so, g.flipY)));
      { Assoc(g, Inv(g, start), start, Mul(g, so, g.flipY)); }
      Mul(g, Mul(g, Inv(g, start), start), Mul(g, so, g.flipY));
      { Unit(g, start); }
      Mul(g, g.identity, Mul(g, so, g.flipY));
      { Unit(g, Mul(g, so, g.flipY)); }
      Mul(g, so, g.flipY);
    }
    InverseOfProduct(g, so, g.flipY);
    calc {
      Mul(g, Mul(g, tw, to), Inv(g, local));
      Mul(g, Mul(g, tw, to), Mul(g, Inv(g, g.flipY), Inv(g, so)));
      { Assoc(g, Mul(g, tw, to), Inv(g, g.flipY), Inv(g, so)); }
      Mul(g, Mul(g, Mul(g, tw, to), Inv(g, g.flipY)), Inv(g, so));
    }
  }

  /** Where the snapped source ends up, composed with its own snap point, is
      the target's snap point turned by the inverse flip. */
  lemma OrientedPlacementMeetsTarget<T(!new)>(g: Algebra<T>, start: T, so: T, tw: T, to: T)
    requires GroupLaws(g)
    ensures Mul(g, OrientedPlacement(g, start, so, tw, to), so)
         == Mul(g, Mul(g, tw, to), Inv(g, g.flipY))
  {
    OrientedPlacementClosedForm(g, start, so, tw, to);
    var a := Mul(g, Mul(g, tw, to), Inv(g, g.flipY));
    calc {
      Mul(g, Mul(g, a, Inv(g, so)), so);
      { Assoc(g, a, Inv(g, so), so); }
      Mul(g, a, Mul(g, Inv(g, so), so));
      { Unit(g, so); }
      Mul(g, a, g.identity);
      { Unit(g, a); }
      a;
    }
  }

  /** The oriented snap does not depend on where the source started. */
  lemma OrientedPlacementIgnoresStart<T(!new)>(g: Algebra<T>, s1: T, s2: T, so: T, tw: T, to: T)
    requires GroupLaws(g)
    ensures OrientedPlacement(g, s1, so, tw, to) == OrientedPlacement(g, s2, so, tw, to)
  {
    OrientedPlacementClosedForm(g, s1, so, tw, to);
    OrientedPlacementClosedForm(g, s2, so, tw, to);
  }
}

=== FILE: ui_lists.dfy ===
/** The part and preset lists of the add-on's side panel. Parts are shown
    three to a row: the ids of a category are cut into rows of three, padded
    with empty strings, and each row is stored as one comma-joined entry that
    the list widget splits again. Every entry is a (label, description) pair,
    turned into a list item with a title and a numbered name. */
module UiLists {
  import opened Options
  import opened Text
  import opened Sorting
  import opened Catalogue

  // ------------------------------------------------------------ row cutting

  function Blanks(k: nat): (r: seq<string>)
    ensures |r| == k && forall i :: 0 <= i < k ==> r[i] == ""
  {
    seq(k, _ => "")
  }

  function Flatten(rows: seq<seq<string>>): seq<string> {
    if |rows| == 0 then [] else rows[0] + Flatten(rows[1..])
  }

  /** The add-on's `create_sublists(s, n)`: consecutive rows of `n`, the last
      one padded with "" to full width; nothing for an empty list. */
  function CreateSublists(s: seq<string>, n: nat): (rows: seq<seq<string>>)
    requires n >= 1
    ensures |rows| == 0 <==> |s| == 0
    ensures forall i :: 0 <= i < |rows| ==> |rows[i]| == n
    decreases |s|
  {
    if |s| == 0 then []
    else if |s| <= n then [s + Blanks(n - |s|)]
    else [s[..n]] + CreateSublists(s[n..], n)
  }

  /** Read row after row, the rows are the input followed by fewer than `n`
      blanks. */
  lemma {:induction false} CreateSublistsFlatten(s: seq<string>, n: nat)
    requires n >= 1
    ensures |s| <= |CreateSublists(s, n)| * n < |s| + n
    ensures Flatten(CreateSublists(s, n)) == s + Blanks(|CreateSublists(s, n)| * n - |s|)
    decreases |s|
  {
    var rows := CreateSublists(s, n);
    if |s| == 0 {
      assert Blanks(0) == [];
    } else if |s| <= n {
      var row := s + Blanks(n - |s|);
      assert rows == [row];
      assert |rows| * n == n;
      assert Flatten(rows) == row + Flatten(rows[1..]);
      assert rows[1..] == [];
    } else {
      var rest := CreateSublists(s[n..], n);
      CreateSublistsFlatten(s[n..], n);
      assert rows == [s[..n]] + rest;
      RowCount(|rest|, n);
      assert |rows| * n == |rest| * n + n;
      var blanks := Blanks(|rest| * n - |s[n..]|);
      assert |rows| * n - |s| == |rest| * n - |s[n..]|;
      assert rows[1..] == rest;
      assert Flatten(rows) == s[..n] + Flatten(rest);
      assert Flatten(rest) == s[n..] + blanks;
      assert s[..n] + (s[n..] + blanks) == s + blanks by {
        assert s[..n] + s[n..] == s;
      }
    }
  }

  lemma RowCount(k: nat, n: nat)
    ensures (k + 1) * n == k * n + n
  {
  }

  /** The older add-on's `create_sublists` reads the last row of the result
      without checking that there is one, so an empty list raises. */
  function LegacyCreateSublists(s: seq<string>, n: nat): (rows: Option<seq<seq<string>>>)
    requires n >= 1
    ensures rows.None? <==> |s| == 0
    ensures rows.Some? ==> rows.value == CreateSublists(s, n)
  {
    if |s| == 0 then None else Some(CreateSublists(s, n))
  }

  /** The older version fails exactly where the add-on returns no rows. */
  lemma LegacyCreateSublistsEmpty(n: nat)
    requires n >= 1
    ensures LegacyCreateSublists([], n).None?
    ensures CreateSublists([], n) == []
  {
  }

  // ----------------------------------------------------- joining and reading

  /** `[x for x in parts if x]`. */
  function NonEmpty(parts: seq<string>): (r: seq<string>)
    ensures forall x :: x in r <==> x in parts && x != ""
    ensures (forall i :: 0 <= i < |parts| ==> parts[i] != "") ==> r == parts
  {
    if |parts| == 0 then []
    else
      assert forall x :: x in parts <==> x == parts[0] || x in parts[1..];
      (if parts[0] == "" then [] else [parts[0]]) + NonEmpty(parts[1..])
  }

  lemma {:induction false} NonEmptyAppend(a: seq<string>, b: seq<string>)
    ensures NonEmpty(a + b) == NonEmpty(a) + NonEmpty(b)
  {
    if |a| > 0 {
      var head := if a[0] == "" then [] else [a[0]];
      assert (a + b)[0] == a[0];
      assert (a + b)[1..] == a[1..] + b;
      assert NonEmpty(a + b) == head + NonEmpty(a[1..] + b);
      NonEmptyAppend(a[1..], b);
      assert NonEmpty(a) == head + NonEmpty(a[1..]);
    } else {
      assert a + b == b;
    }
  }

  lemma {:induction false} NonEmptyBlanks(k: nat)
    ensures NonEmpty(Blanks(k)) == []
  {
    if k > 0 {
      assert Blanks(k)[1..] == Blanks(k - 1);
      NonEmptyBlanks(k - 1);
    }
  }

  /** The ids one stored row shows: its description split at commas, empty
      pieces dropped. */
  function RowParts(description: string): seq<string> {
    NonEmpty(Split(description, ','))
  }

  /** The ids shown by a run of joined rows, in order. */
  function Displayed(rows: seq<seq<string>>): seq<string> {
    if |rows| == 0 then [] else RowParts(Join(rows[0], ',')) + Displayed(rows[1..])
  }

  predicate PlainIds(s: seq<string>) {
    forall i :: 0 <= i < |s| ==> s[i] != "" && ',' !in s[i]
  }

  lemma OneRow(row: seq<string>)
    requires |row| >= 1 && forall i :: 0 <= i < |row| ==> ',' !in row[i]
    ensures RowParts(Join(row, ',')) == NonEmpty(row)
  {
    SplitJoin(row, ',');
  }

  /** Every id put in the rows is shown once, in the order given, and nothing
      else is shown: the padding disappears when a row is read back. */
  lemma {:induction false} DisplayedRows(s: seq<string>, n: nat)
    requires n >= 1 && PlainIds(s)
    ensures Displayed(CreateSublists(s, n)) == s
    decreases |s|
  {
    var rows := CreateSublists(s, n);
    if |s| == 0 {
    } else if |s| <= n {
      var row := s + Blanks(n - |s|);
      assert rows == [row];
      OneRow(row);
      NonEmptyAppend(s, Blanks(n - |s|));
      NonEmptyBlanks(n - |s|);
      assert Displayed(rows) == RowParts(Join(row, ',')) + Displayed([]);
    } else {
      var rest := CreateSublists(s[n..], n);
      assert rows == [s[..n]] + rest;
      assert rows[1..] == rest;
      assert PlainIds(s[n..]) by {
        forall i | 0 <= i < |s[n..]| ensures s[n..][i] != "" && ',' !in s[n..][i] {
          assert s[n..][i] == s[n + i];
        }
      }
      assert PlainIds(s[..n]) by {
        forall i | 0 <= i < n ensures s[..n][i] != "" && ',' !in s[..n][i] {
          assert s[..n][i] == s[i];
        }
      }
      OneRow(s[..n]);
      DisplayedRows(s[n..], n);
      assert s[..n] + s[n..] == s;
    }
  }

  // ------------------------------------------------------------- list data

  /** One entry of the list: a category or preset header has a label and no
      description, a content row the reverse. */
  datatype Entry = Entry(heading: string, description: string)

  function JoinRows(rows: seq<seq<string>>): (r: seq<Entry>)
    ensures |r| == |rows|
    ensures forall i :: 0 <= i < |r| ==> r[i] == Entry("", Join(rows[i], ','))
  {
    if |rows| == 0 then [] else [Entry("", Join(rows[0], ','))] + JoinRows(rows[1..])
  }

  /** The ids a run of entries shows. */
  function Shown(entries: seq<Entry>): seq<string> {
    if |entries| == 0 then [] else RowParts(entries[0].description) + Shown(entries[1..])
  }

  lemma {:induction false} ShownJoinRows(rows: seq<seq<string>>)
    ensures Shown(JoinRows(rows)) == Displayed(rows)
  {
    if |rows| > 0 {
      assert JoinRows(rows)[1..] == JoinRows(rows[1..]);
      ShownJoinRows(rows[1..]);
    }
  }

  /** A category's parts, ordered by their nice names. */
  function CategoryParts(reference: PartReference, names: map<string, string>, category: string, pack: Option<string>): (r: seq<string>)
    ensures multiset(r) == multiset(PartsFromCategory(reference, category, pack))
    ensures forall i, j :: 0 <= i < j < |r| ==> StrLe(NiceName(names, r[i]), NiceName(names, r[j]))
  {
    SortByName(PartsFromCategory(reference, category, pack), (id: string) => NiceName(names, id))
  }

  /** The entries for one category in the add-on: its header, then its parts
      in comma-joined rows of three. */
  function CategoryEntries(reference: PartReference, names: map<string, string>, category: string, pack: Option<string>): (r: seq<Entry>)
    ensures |r| >= 1 && r[0] == Entry(category, "")
    ensures forall i :: 1 <= i < |r| ==> r[i].heading == ""
  {
    [Entry(category, "")] + JoinRows(CreateSublists(CategoryParts(reference, names, category, pack), 3))
  }

  /** Under each header the add-on shows exactly the category's parts, in
      nice-name order. */
  lemma CategoryEntriesShowParts(reference: PartReference, names: map<string, string>, category: string, pack: Option<string>)
    requires forall i :: 0 <= i < |reference| ==> reference[i].0 != "" && ',' !in reference[i].0
    ensures Shown(CategoryEntries(reference, names, category, pack)[1..]) == CategoryParts(reference, names, category, pack)
  {
    var parts := CategoryParts(reference, names, category, pack);
    assert PlainIds(parts) by {
      forall i | 0 <= i < |parts| ensures parts[i] != "" && ',' !in parts[i] {
        assert parts[i] in multiset(PartsFromCategory(reference, category, pack));
        assert parts[i] in PartsFromCategory(reference, category, pack);
        var k :| 0 <= k < |reference| && reference[k].0 == parts[i]
          && InCategory(reference[k].1, category, PackOrDefault(pack));
      }
    }
    var rows := CreateSublists(parts, 3);
    assert CategoryEntries(reference, names, category, pack)[1..] == JoinRows(rows);
    ShownJoinRows(rows);
    DisplayedRows(parts, 3);
  }

  /** The add-on's part list: every category's entries, in listing order. */
  function PartEntries(reference: PartReference, names: map<string, string>, categories: seq<string>, pack: Option<string>): (r: seq<Entry>)
    ensures |categories| == 0 ==> r == []
    ensures |categories| > 0 ==>
      r == CategoryEntries(reference, names, categories[0], pack) + PartEntries(reference, names, categories[1..], pack)
  {
    if |categories| == 0 then []
    else CategoryEntries(reference, names, categories[0], pack) + PartEntries(reference, names, categories[1..], pack)
  }

  /** The older add-on's part list: the same, except that a category with no
      parts makes row cutting raise. */
  function LegacyPartEntries(reference: PartReference, names: map<string, string>, categories: seq<string>, pack: Option<string>): (r: Option<seq<Entry>>)
    ensures |categories| == 0 ==> r == Some([])
  {
    if |categories| == 0 then Some([])
    else
      var parts := CategoryParts(reference, names, categories[0], pack);
      match LegacyCreateSublists(parts, 3)
      case None => None
      case Some(rows) =>
        match LegacyPartEntries(reference, names, categories[1..], pack)
        case None => None
        case Some(more) => Some([Entry(categories[0], "")] + JoinRows(rows) + more)
  }

  /** The older list fails exactly when some listed category has no parts in
      the pack. */
  lemma {:induction false} LegacyPartEntriesFails(reference: PartReference, names: map<string, string>, categories: seq<string>, pack: Option<string>)
    ensures LegacyPartEntries(reference, names, categories, pack).None?
        <==> exists c :: c in categories && |PartsFromCategory(reference, c, pack)| == 0
  {
    if |categories| > 0 {
      var c := categories[0];
      var r := LegacyPartEntries(reference, names, categories, pack);
      CategoryPartsEmpty(reference, names, c, pack);
      CategoriesSplit(categories);
      LegacyPartEntriesFails(reference, names, categories[1..], pack);
      if |PartsFromCategory(reference, c, pack)| == 0 {
        assert r.None?;
        assert c in categories;
      } else if LegacyPartEntries(reference, names, categories[1..], pack).None? {
        var d :| d in categories[1..] && |PartsFromCategory(reference, d, pack)| == 0;
        assert d in categories;
      } else {
        assert r.Some?;
      }
    }
  }

  /** Where the older list does not fail it is the add-on's list. */
  lemma {:induction false} LegacyPartEntriesAgree(reference: PartReference, names: map<string, string>, categories: seq<string>, pack: Option<string>)
    ensures LegacyPartEntries(reference, names, categories, pack).Some?
        ==> LegacyPartEntries(reference, names, categories, pack).value == PartEntries(reference, names, categories, pack)
  {
    if |categories| > 0 {
      var c := categories[0];
      var parts := CategoryParts(reference, names, c, pack);
      CategoryPartsEmpty(reference, names, c, pack);
      LegacyPartEntriesAgree(reference, names, categories[1..], pack);
      var r := LegacyPartEntries(reference, names, categories, pack);
      var rest := LegacyPartEntries(reference, names, categories[1..], pack);
      if |parts| == 0 {
        assert r.None?;
      } else if rest.None? {
        assert r.None?;
      } else {
        var rows := CreateSublists(parts, 3);
        assert LegacyCreateSublists(parts, 3) == Some(rows);
        assert r == Some([Entry(c, "")] + JoinRows(rows) + rest.value);
        assert CategoryEntries(reference, names, c, pack) == [Entry(c, "")] + JoinRows(rows);
        assert PartEntries(reference, names, categories, pack)
            == CategoryEntries(reference, names, c, pack) + PartEntries(reference, names, categories[1..], pack);
      }
    }
  }

  lemma CategoryPartsEmpty(reference: PartReference, names: map<string, string>, category: string, pack: Option<string>)
    ensures |CategoryParts(reference, names, category, pack)| == 0 <==> |PartsFromCategory(reference, category, pack)| == 0
  {
    var parts := CategoryParts(reference, names, category, pack);
    assert |parts| == |multiset(parts)|;
  }

  lemma CategoriesSplit(categories: seq<string>)
    requires |categories| > 0
    ensures forall c :: c in categories <==> c == categories[0] || c in categories[1..]
  {
    assert categories == [categories[0]] + categories[1..];
  }

  /** A category directory with no registered part in the pack is enough to
      break the older list, while the add-on lists its header alone. */
  lemma EmptyCategoryBreaksLegacyList(reference: PartReference, names: map<string, string>, category: string, pack: Option<string>)
    requires |PartsFromCategory(reference, category, pack)| == 0
    ensures LegacyPartEntries(reference, names, [category], pack).None?
    ensures PartEntries(reference, names, [category], pack) == [Entry(category, "")]
  {
    assert category in [category];
    var parts := CategoryParts(reference, names, category, pack);
    assert |parts| == |multiset(parts)| == 0;
    assert JoinRows(CreateSublists(parts, 3)) == [];
  }

  /** The older add-on's preset list: one "Presets" header, then a row per
      preset in listing order. */
  function LegacyPresetEntries(presets: seq<string>): (r: seq<Entry>)
    ensures |r| == |presets| + 1 && r[0] == Entry("Presets", "")
    ensures forall i :: 0 <= i < |presets| ==> r[i + 1] == Entry("", presets[i])
  {
    [Entry("Presets", "")] + seq(|presets|, i requires 0 <= i < |presets| => Entry("", presets[i]))
  }

  function Descriptions(entries: seq<Entry>): (r: seq<string>)
    ensures |r| == |entries| && forall i :: 0 <= i < |r| ==> r[i] == entries[i].description
  {
    seq(|entries|, i requires 0 <= i < |entries| => entries[i].description)
  }

  lemma DescriptionsAppend(a: seq<Entry>, b: seq<Entry>)
    ensures Descriptions(a + b) == Descriptions(a) + Descriptions(b)
  {
  }

  /** A header followed by one entry per preset, in string order. */
  function PresetGroup(header: string, presets: seq<string>): (r: seq<Entry>)
    ensures |r| == |presets| + 1 && r[0] == Entry(header, "")
    ensures multiset(Descriptions(r)[1..]) == multiset(presets)
    ensures forall i :: 0 < i < |r| ==> r[i].heading == ""
    ensures forall i, j :: 0 < i < j < |r| ==> StrLe(r[i].description, r[j].description)
  {
    var sorted := SortStrings(presets);
    var rows := seq(|sorted|, i requires 0 <= i < |sorted| => Entry("", sorted[i]));
    assert Descriptions([Entry(header, "")] + rows)[1..] == sorted;
    [Entry(header, "")] + rows
  }

  /** The add-on's preset list: each category that has presets, then the
      uncategorised presets under their own header when there are any. */
  function PresetEntries(categories: seq<(string, seq<string>)>, uncategorised: seq<string>): (r: seq<Entry>)
    ensures |categories| == 0 && |uncategorised| == 0 ==> r == []
    ensures |categories| == 0 && |uncategorised| > 0 ==> r == PresetGroup("Uncategorized Presets", uncategorised)
    ensures |categories| > 0 && |categories[0].1| == 0 ==> r == PresetEntries(categories[1..], uncategorised)
    ensures |categories| > 0 && |categories[0].1| > 0 ==>
      r == PresetGroup(categories[0].0, categories[0].1) + PresetEntries(categories[1..], uncategorised)
  {
    if |categories| == 0 then
      if |uncategorised| == 0 then [] else PresetGroup("Uncategorized Presets", uncategorised)
    else
      (if |categories[0].1| == 0 then [] else PresetGroup(categories[0].0, categories[0].1))
        + PresetEntries(categories[1..], uncategorised)
  }

  /** Every member of every group, in order, then the tail. */
  function Members(categories: seq<(string, seq<string>)>, uncategorised: seq<string>): seq<string> {
    if |categories| == 0 then uncategorised else categories[0].1 + Members(categories[1..], uncategorised)
  }

  lemma PresetGroupLists(header: string, presets: seq<string>)
    requires forall i :: 0 <= i < |presets| ==> presets[i] != ""
    ensures multiset(NonEmpty(Descriptions(PresetGroup(header, presets)))) == multiset(presets)
  {
    var d := Descriptions(PresetGroup(header, presets));
    assert d == [d[0]] + d[1..];
    NonEmptyAppend([d[0]], d[1..]);
    forall i | 0 <= i < |d[1..]| ensures d[1..][i] != "" {
      assert d[1..][i] in multiset(presets);
    }
  }

  /** Each preset is listed exactly as often as it occurs in its category (or
      among the uncategorised ones), and no header is mistaken for a preset. */
  lemma {:induction false} PresetEntriesListAll(categories: seq<(string, seq<string>)>, uncategorised: seq<string>)
    requires forall i :: 0 <= i < |Members(categories, uncategorised)| ==> Members(categories, uncategorised)[i] != ""
    ensures multiset(NonEmpty(Descriptions(PresetEntries(categories, uncategorised)))) == multiset(Members(categories, uncategorised))
  {
    if |categories| == 0 {
      assert Members(categories, uncategorised) == uncategorised;
      if |uncategorised| > 0 {
        PresetGroupLists("Uncategorized Presets", uncategorised);
      }
    } else {
      var all := Members(categories, uncategorised);
      var mine := categories[0].1;
      var more := Members(categories[1..], uncategorised);
      assert all == mine + more;
      assert forall i :: 0 <= i < |more| ==> more[i] != "" by {
        forall i | 0 <= i < |more| ensures more[i] != "" {
          assert more[i] == all[|mine| + i];
        }
      }
      PresetEntriesListAll(categories[1..], uncategorised);
      var rest := PresetEntries(categories[1..], uncategorised);
      if |mine| > 0 {
        var g := PresetGroup(categories[0].0, mine);
        assert forall i :: 0 <= i < |mine| ==> mine[i] != "" by {
          forall i | 0 <= i < |mine| ensures mine[i] != "" {
            assert mine[i] == all[i];
          }
        }
        PresetGroupLists(categories[0].0, mine);
        DescriptionsAppend(g, rest);
        NonEmptyAppend(Descriptions(g), Descriptions(rest));
      }
    }
  }

  /** The original script's list: a "Presets" header and its presets, then
      every category header followed by one entry per part. */
  function LegacyPartData(presets: seq<string>, categories: seq<(string, seq<string>)>): (r: seq<Entry>)
    ensures |r| >= 1 && r[0] == Entry("Presets", "")
  {
    LegacyPresetEntries(presets) + LegacyCategories(categories)
  }

  /** A category header followed by one entry per part. */
  function LegacyCategory(category: string, parts: seq<string>): (r: seq<Entry>)
    ensures |r| == |parts| + 1 && r[0] == Entry(category, "")
    ensures forall i :: 0 <= i < |parts| ==> r[i + 1] == Entry("", parts[i])
  {
    [Entry(category, "")] + seq(|parts|, i requires 0 <= i < |parts| => Entry("", parts[i]))
  }

  function LegacyCategories(categories: seq<(string, seq<string>)>): (r: seq<Entry>)
    ensures |categories| > 0 ==> r == LegacyCategory(categories[0].0, categories[0].1) + LegacyCategories(categories[1..])
  {
    if |categories| == 0 then []
    else LegacyCategory(categories[0].0, categories[0].1) + LegacyCategories(categories[1..])
  }

  lemma LegacyCategoryList(category: string, parts: seq<string>)
    requires forall i :: 0 <= i < |parts| ==> parts[i] != ""
    ensures NonEmpty(Descriptions(LegacyCategory(category, parts))) == parts
  {
    assert Descriptions(LegacyCategory(category, parts)) == [""] + parts;
    NonEmptyAppend([""], parts);
    assert NonEmpty([""]) == [];
  }

  /** Read without headers, the categories show every part, in order. */
  lemma {:induction false} LegacyCategoriesList(categories: seq<(string, seq<string>)>)
    requires forall i :: 0 <= i < |Members(categories, [])| ==> Members(categories, [])[i] != ""
    ensures NonEmpty(Descriptions(LegacyCategories(categories))) == Members(categories, [])
  {
    if |categories| > 0 {
      var parts := categories[0].1;
      var more := Members(categories[1..], []);
      assert Members(categories, []) == parts + more;
      assert forall i :: 0 <= i < |more| ==> more[i] != "" by {
        forall i | 0 <= i < |more| ensures more[i] != "" {
          assert more[i] == Members(categories, [])[|parts| + i];
        }
      }
      assert forall i :: 0 <= i < |parts| ==> parts[i] != "" by {
        forall i | 0 <= i < |parts| ensures parts[i] != "" {
          assert parts[i] == Members(categories, [])[i];
        }
      }
      LegacyCategoriesList(categories[1..]);
      LegacyCategoryList(categories[0].0, parts);
      var head := LegacyCategory(categories[0].0, parts);
      var rest := LegacyCategories(categories[1..]);
      DescriptionsAppend(head, rest);
      NonEmptyAppend(Descriptions(head), Descriptions(rest));
    } else {
      assert Members(categories, []) == [];
    }
  }

  /** Read without headers, the original script's list is the presets
      followed by every category's parts, in order. */
  lemma LegacyPartDataList(presets: seq<string>, categories: seq<(string, seq<string>)>)
    requires forall i :: 0 <= i < |presets| ==> presets[i] != ""
    requires forall i :: 0 <= i < |Members(categories, [])| ==> Members(categories, [])[i] != ""
    ensures NonEmpty(Descriptions(LegacyPartData(presets, categories))) == presets + Members(categories, [])
  {
    LegacyCategoriesList(categories);
    LegacyCategoryList("Presets", presets);
    var head := LegacyPresetEntries(presets);
    assert head == LegacyCategory("Presets", presets);
    DescriptionsAppend(head, LegacyCategories(categories));
    NonEmptyAppend(Descriptions(head), Descriptions(LegacyCategories(categories)));
  }

  // ---------------------------------------------------------------- refresh

  /** One item of the panel's collection. */
  datatype ListItem = ListItem(title: string, description: string, itemType: string, name: string)

  /** The name of the item at position `i` (counting from 1):
      `" ".join((str(i), label, description))`. */
  function ItemName(i: int, entry: Entry): (r: string) {
    IntToString(i) + " " + entry.heading + " " + entry.description
  }

  /** `refresh_ui_part_list`: one item per entry, its title the heading
      title-cased with underscores shown as spaces. The original script's
      `refresh_part_list` is the same without the item type. */
  function Refresh(entries: seq<Entry>, itemType: string): (items: seq<ListItem>)
    ensures |items| == |entries|
    ensures forall i :: 0 <= i < |items| ==>
      && items[i].title == TitleLabel(entries[i].heading) && '_' !in items[i].title
      && items[i].description == entries[i].description
      && items[i].itemType == itemType
      && items[i].name == ItemName(i + 1, entries[i])
  {
    seq(|entries|, i requires 0 <= i < |entries| =>
      ListItem(TitleLabel(entries[i].heading), entries[i].description, itemType, ItemName(i + 1, entries[i])))
  }

  /** The number in front of an item's name reads back as its position. */
  lemma ItemNameReadsBack(i: int, entry: Entry)
    ensures ' ' in ItemName(i, entry)
    ensures ParseInt(ItemName(i, entry)[..FirstIndex(ItemName(i, entry), ' ')]) == Some(i)
  {
    var a := IntToString(i);
    var b := entry.heading + " " + entry.description;
    assert ItemName(i, entry) == a + [' '] + b;
    assert ' ' !in a by {
      forall k | 0 <= k < |a| ensures a[k] != ' ' {
        assert !IsSpace(a[k]);
      }
    }
    FirstIndexAfterPiece(a, ' ', b);
    assert (a + [' '] + b)[..|a|] == a;
    ParseIntOfIntToString(i);
  }

  /** Items are named apart, whatever their headings and descriptions. */
  lemma RefreshNamesDistinct(entries: seq<Entry>, itemType: string, i: int, j: int)
    requires 0 <= i < j < |entries|
    ensures Refresh(entries, itemType)[i].name != Refresh(entries, itemType)[j].name
  {
    var items := Refresh(entries, itemType);
    assert items[i].name == ItemName(i + 1, entries[i]);
    assert items[j].name == ItemName(j + 1, entries[j]);
    ItemNamesDiffer(i + 1, entries[i], j + 1, entries[j]);
  }

  lemma ItemNamesDiffer(i: int, e: Entry, j: int, f: Entry)
    requires i != j
    ensures ItemName(i, e) != ItemName(j, f)
  {
    ItemNameReadsBack(i, e);
    ItemNameReadsBack(j, f);
  }
}

=== FILE: wiring.dfy ===
/** Wires (power lines and the other line parts) and their end-point
    controls. A line records the names of its start and end controls in its
    `start_control` and `end_control` properties, and each control records the
    line it drives in its `power_line` property. Locations, drivers and
    constraints are left out: the rig is the graph of these name links. */
module Wiring {
  import opened Options
  import opened Text
  import opened Transforms
  import opened SnapTables
  import opened SnapEngine
  import opened Proximity

  /** A line part: its ObjectID and its two control links. */
  datatype Wire = Wire(objectId: string, start: Option<string>, end: Option<string>)

  /** An end-point control: the `power_line` back-link, the `snapped_to`
      property, and whether it has been hidden. */
  datatype Control = Control(powerLine: Option<string>, snappedTo: Option<string>, hidden: bool)

  /** The lines and the controls of the scene, by object name. */
  datatype Rig = Rig(lines: map<string, Wire>, controls: map<string, Control>)

  /** A name no object of the rig carries. */
  predicate Fresh(rig: Rig, name: string) {
    name !in rig.lines && name !in rig.controls
  }

  /** Lines and controls are different objects, and every control a line
      names exists. */
  predicate WellFormed(rig: Rig) {
    && rig.lines.Keys !! rig.controls.Keys
    && (forall l :: l in rig.lines && rig.lines[l].start.Some? ==> rig.lines[l].start.value in rig.controls)
    && (forall l :: l in rig.lines && rig.lines[l].end.Some? ==> rig.lines[l].end.value in rig.controls)
  }

  const DefaultPointName := "ARBITRARY_POINT"
  const PowerControlId := "POWER_CONTROL"

  /** `create_point`'s naming: a missing or empty name, or the default name
      itself, becomes the default name followed by the text after the last
      "." of the name Blender gave the new object. */
  function PointName(requested: string, blenderName: string): (r: string)
    ensures requested != "" && requested != DefaultPointName ==> r == requested
    ensures requested == "" || requested == DefaultPointName ==>
      && StartsWith(r, DefaultPointName + ".")
      && r[|DefaultPointName| + 1..] == LastPiece(blenderName, '.')
      && '.' !in r[|DefaultPointName| + 1..]
  {
    var name := if requested == "" then DefaultPointName else requested;
    if name == DefaultPointName then
      var r := name + "." + LastPiece(blenderName, '.');
      assert r[..|DefaultPointName| + 1] == DefaultPointName + ".";
      assert r[|DefaultPointName| + 1..] == LastPiece(blenderName, '.');
      r
    else name
  }

  /** A default-named point keeps the numeric suffix Blender gave it. */
  lemma PointNameKeepsSuffix(suffix: string)
    requires '.' !in suffix
    ensures PointName("", "power_control." + suffix) == DefaultPointName + "." + suffix
  {
    var s := "power_control." + suffix;
    assert s[13] == '.';
    assert s[..13] == "power_control";
    assert FirstIndex(s, '.') == 13;
    assert s[14..] == suffix;
  }

  /** A new control. The add-on duplicates the POWER_CONTROL its part cache
      still finds in the scene, the `template`, custom properties and
      visibility included; when there is none, and always in the original
      script, a fresh control is loaded that links to nothing. */
  function NewControl(template: Option<Control>): Control {
    template.GetOr(Control(None, None, false))
  }

  /** A new control named `name`; nothing else changes. */
  function CreatePoint(rig: Rig, name: string, template: Option<Control>): (r: Rig)
    requires Fresh(rig, name)
    ensures r.lines == rig.lines
    ensures r.controls == rig.controls[name := NewControl(template)]
    ensures template.Some? ==> r.controls[name] == template.value
    ensures template.None? ==> r.controls[name] == Control(None, None, false)
  {
    rig.(controls := rig.controls[name := NewControl(template)])
  }

  /** The control `build_rig` / `create_power_controls` uses at one end: the
      one supplied, or a new one named after the line. */
  function EndControl(line: string, supplied: Option<string>, suffix: string): string {
    if supplied.Some? then supplied.value else line + suffix
  }

  /** Link one control to `line` by its `power_line` property. */
  function Attach(controls: map<string, Control>, c: string, line: string): map<string, Control>
    requires c in controls
  {
    controls[c := controls[c].(powerLine := Some(line))]
  }

  /** Linking both end controls to `line` touches nothing but their
      `power_line` properties. */
  lemma AttachBoth(controls: map<string, Control>, s: string, e: string, line: string)
    requires s in controls && e in controls
    ensures var m := Attach(Attach(controls, s, line), e, line);
      && m.Keys == controls.Keys
      && m[s].powerLine == Some(line) && m[e].powerLine == Some(line)
      && (forall c :: c in controls && c != s && c != e ==> m[c] == controls[c])
      && (forall c :: c in controls ==> m[c].hidden == controls[c].hidden && m[c].snappedTo == controls[c].snappedTo)
  {
  }

  /** The first half of `build_rig`: the missing end controls are created
      from the template; nothing else changes. The end control copies the
      start control just created, which is still a plain copy of the
      template. */
  function AddEnds(rig: Rig, line: string, start: Option<string>, end: Option<string>, template: Option<Control>): (r: Rig)
    requires start.Some? ==> start.value in rig.controls
    requires end.Some? ==> end.value in rig.controls
    requires start.None? ==> Fresh(rig, line + "_START")
    requires end.None? ==> Fresh(rig, line + "_END")
    ensures r.lines == rig.lines
    ensures r.controls.Keys == rig.controls.Keys + {EndControl(line, start, "_START"), EndControl(line, end, "_END")}
    ensures forall c :: c in rig.controls ==> r.controls[c] == rig.controls[c]
    ensures forall c :: c in r.controls && c !in rig.controls ==> r.controls[c] == NewControl(template)
  {
    var withStart := if start.None? then CreatePoint(rig, line + "_START", template) else rig;
    assert end.None? ==> line + "_END" !in withStart.controls;
    if end.None? then CreatePoint(withStart, line + "_END", template) else withStart
  }

  /** `build_rig` (and the earlier `create_power_controls`): reuse the
      controls supplied and create the missing ones as "<line>_START" and
      "<line>_END" from the template, then link the line to both and both to
      the line. */
  function BuildRig(rig: Rig, line: string, start: Option<string>, end: Option<string>, template: Option<Control>): (r: Rig)
    requires line in rig.lines
    requires start.Some? ==> start.value in rig.controls
    requires end.Some? ==> end.value in rig.controls
    requires start.None? ==> Fresh(rig, line + "_START")
    requires end.None? ==> Fresh(rig, line + "_END")
    ensures var s := EndControl(line, start, "_START");
            var e := EndControl(line, end, "_END");
      && r.lines == rig.lines[line := rig.lines[line].(start := Some(s), end := Some(e))]
      && r.controls.Keys == rig.controls.Keys + {s, e}
      && r.controls[s].powerLine == Some(line)
      && r.controls[e].powerLine == Some(line)
      && (forall c :: c in rig.controls && c != s && c != e ==> r.controls[c] == rig.controls[c])
      && (forall c :: c in rig.controls ==> r.controls[c].hidden == rig.controls[c].hidden && r.controls[c].snappedTo == rig.controls[c].snappedTo)
      && (forall c :: c in r.controls && c !in rig.controls ==> r.controls[c] == NewControl(template).(powerLine := Some(line)))
    ensures start.Some? && end.Some? ==> r.controls == Attach(Attach(rig.controls, start.value, line), end.value, line)
  {
    var withEnd := AddEnds(rig, line, start, end, template);
    var s := EndControl(line, start, "_START");
    var e := EndControl(line, end, "_END");
    AttachBoth(withEnd.controls, s, e, line);
    var controls := Attach(Attach(withEnd.controls, s, line), e, line);
    Rig(rig.lines[line := rig.lines[line].(start := Some(s), end := Some(e))], controls)
  }

  /** Rigging a line keeps the rig well formed. */
  lemma BuildRigWellFormed(rig: Rig, line: string, start: Option<string>, end: Option<string>, template: Option<Control>)
    requires WellFormed(rig)
    requires line in rig.lines
    requires start.Some? ==> start.value in rig.controls
    requires end.Some? ==> end.value in rig.controls
    requires start.None? ==> Fresh(rig, line + "_START")
    requires end.None? ==> Fresh(rig, line + "_END")
    ensures WellFormed(BuildRig(rig, line, start, end, template))
  {
  }

  /** Re-rigging a line with the controls it already names, when both link
      back to it, changes nothing; `BuildRig` leaves every line it rigs in
      that state. */
  lemma BuildRigRigged(rig: Rig, line: string, template: Option<Control>)
    requires line in rig.lines
    requires rig.lines[line].start.Some? && rig.lines[line].start.value in rig.controls
    requires rig.lines[line].end.Some? && rig.lines[line].end.value in rig.controls
    requires rig.controls[rig.lines[line].start.value].powerLine == Some(line)
    requires rig.controls[rig.lines[line].end.value].powerLine == Some(line)
    ensures BuildRig(rig, line, rig.lines[line].start, rig.lines[line].end, template) == rig
  {
    var again := BuildRig(rig, line, rig.lines[line].start, rig.lines[line].end, template);
    assert again.lines == rig.lines;
    assert again.controls == rig.controls by {
      assert again.controls.Keys == rig.controls.Keys;
      forall c | c in rig.controls
        ensures again.controls[c] == rig.controls[c]
      {
      }
    }
  }

  /** What `divide` asks of the scene: the line names two existing controls,
      and the new names are free. */
  predicate CanDivide(rig: Rig, line: string, newLine: string, middles: set<string>) {
    && line in rig.lines
    && rig.lines[line].start.Some? && rig.lines[line].start.value in rig.controls
    && rig.lines[line].end.Some? && rig.lines[line].end.value in rig.controls
    && Fresh(rig, newLine)
    && newLine !in middles
    && forall m :: m in middles ==> Fresh(rig, m)
  }

  /** An existing control after a line is divided at it: the old end now
      drives the new line and the old start the original line; nothing
      else about it changes. */
  function Relinked(x: Control, name: string, w: Wire, line: string, newLine: string): Control {
    if Some(name) == w.end then x.(powerLine := Some(newLine))
    else if Some(name) == w.start then x.(powerLine := Some(line))
    else x
  }

  /** The two re-riggings `divide` and `split` end with: the original line
      from its old start to `midA`, then `newLine` from `midB` to the old
      end. Both ends are supplied each time, so no control is created. */
  function Rewire(base: Rig, line: string, newLine: string, midA: string, midB: string): (r: Rig)
    requires line in base.lines && newLine in base.lines && newLine != line
    requires base.lines[line].start.Some? && base.lines[line].start.value in base.controls
    requires base.lines[line].end.Some? && base.lines[line].end.value in base.controls
    requires midA in base.controls && midB in base.controls
    ensures var w := base.lines[line];
      && r.lines == base.lines[line := w.(end := Some(midA))][newLine := base.lines[newLine].(start := Some(midB), end := w.end)]
      && r.controls == Attach(Attach(Attach(Attach(base.controls, w.start.value, line), midA, line), midB, newLine), w.end.value, newLine)
  {
    var w := base.lines[line];
    var first := BuildRig(base, line, w.start, Some(midA), None);
    BuildRig(first, newLine, Some(midB), w.end, None)
  }

  /** The two re-riggings `divide` and `split` end with, on the controls:
      a control that was there before is relinked, and each middle control
      keeps what it was made with apart from its `power_line`. */
  lemma RewiredControls(before: map<string, Control>, grown: map<string, Control>, w: Wire, line: string, newLine: string, midA: string, midB: string)
    requires w.start.Some? && w.start.value in before && w.end.Some? && w.end.value in before
    requires midA !in before && midB !in before
    requires grown.Keys == before.Keys + {midA, midB}
    requires forall c :: c in before ==> grown[c] == before[c]
    ensures var first := Attach(Attach(grown, w.start.value, line), midA, line);
            var r := Attach(Attach(first, midB, newLine), w.end.value, newLine);
      && r.Keys == grown.Keys
      && r[midA] == (if midA == midB then grown[midA].(powerLine := Some(newLine)) else grown[midA].(powerLine := Some(line)))
      && r[midB] == grown[midB].(powerLine := Some(newLine))
      && forall c :: c in before ==> r[c] == Relinked(before[c], c, w, line, newLine)
  {
  }

  /** `Line.divide`: a control "<line>_MID" is created, a new line of the same
      ObjectID is added as `newLine` (the name Blender gives it), the original
      line is re-rigged from its old start to MID and the new line from MID
      to the old end. MID is made from the template and keeps what it copied
      apart from its `power_line`. */
  function Divide(rig: Rig, line: string, newLine: string, template: Option<Control>): (r: Rig)
    requires CanDivide(rig, line, newLine, {line + "_MID"})
    ensures var w := rig.lines[line];
            var mid := line + "_MID";
      && r.lines == rig.lines[line := Wire(w.objectId, w.start, Some(mid))][newLine := Wire(w.objectId, Some(mid), w.end)]
      && r.controls.Keys == rig.controls.Keys + {mid}
      && r.controls[mid] == NewControl(template).(powerLine := Some(newLine))
      && (forall c :: c in rig.controls ==> r.controls[c] == Relinked(rig.controls[c], c, w, line, newLine))
  {
    var w := rig.lines[line];
    var mid := line + "_MID";
    var withMid := CreatePoint(rig, mid, template);
    var withNew := withMid.(lines := withMid.lines[newLine := Wire(w.objectId, None, None)]);
    RewiredControls(rig.controls, withNew.controls, w, line, newLine, mid, mid);
    assert withNew.lines[line := w.(end := Some(mid))][newLine := Wire(w.objectId, Some(mid), w.end)]
        == rig.lines[line := Wire(w.objectId, w.start, Some(mid))][newLine := Wire(w.objectId, Some(mid), w.end)];
    Rewire(withNew, line, newLine, mid, mid)
  }

  /** The earlier `divide`: the new line is a duplicate of the original,
      links included, before both are re-rigged; its MID is a freshly loaded
      control. */
  function LegacyDivide(rig: Rig, line: string, newLine: string): (r: Rig)
    requires CanDivide(rig, line, newLine, {line + "_MID"})
    ensures line in r.lines && newLine in r.lines
    ensures r.lines[newLine].start == Some(line + "_MID")
    ensures r.lines[line].end == Some(line + "_MID")
  {
    var mid := line + "_MID";
    var withMid := CreatePoint(rig, mid, None);
    var withCopy := withMid.(lines := withMid.lines[newLine := rig.lines[line]]);
    var w := withCopy.lines[line];
    var first := BuildRig(withCopy, line, w.start, Some(mid), None);
    BuildRig(first, newLine, Some(mid), w.end, None)
  }

  /** The duplicate's copied links are overwritten, so both versions of
      `divide` leave the same rig, except for what the add-on's MID copies
      from the cached control: its `snapped_to` and whether it is hidden.
      Without a cached control in the scene the two rigs are equal. */
  lemma LegacyDivideAgrees(rig: Rig, line: string, newLine: string, template: Option<Control>)
    requires CanDivide(rig, line, newLine, {line + "_MID"})
    ensures var d := Divide(rig, line, newLine, template);
            var mid := line + "_MID";
      LegacyDivide(rig, line, newLine) == d.(controls := d.controls[mid := d.controls[mid].(snappedTo := None, hidden := false)])
    ensures template.None? ==> LegacyDivide(rig, line, newLine) == Divide(rig, line, newLine, template)
  {
    var mid := line + "_MID";
    DuplicateOverwritten(CreatePoint(rig, mid, None), line, newLine, mid, mid);
    assert LegacyDivide(rig, line, newLine) == Divide(rig, line, newLine, None);
    DivideResetsToLoaded(rig, line, newLine, template);
  }

  /** Dividing from a template and then resetting what MID copied gives
      what dividing with a freshly loaded MID gives. */
  lemma DivideResetsToLoaded(rig: Rig, line: string, newLine: string, template: Option<Control>)
    requires CanDivide(rig, line, newLine, {line + "_MID"})
    ensures var d := Divide(rig, line, newLine, template);
            var mid := line + "_MID";
      Divide(rig, line, newLine, None) == d.(controls := d.controls[mid := d.controls[mid].(snappedTo := None, hidden := false)])
  {
    var mid := line + "_MID";
    var loaded := Divide(rig, line, newLine, None);
    var d := Divide(rig, line, newLine, template);
    ResetCopies(rig.controls, loaded.controls, d.controls, mid, mid);
  }

  /** Rigging a line does not look at the other lines. */
  lemma BuildRigOtherLine(rig: Rig, line: string, start: string, end: string, other: string, x: Wire)
    requires line in rig.lines && start in rig.controls && end in rig.controls && other != line
    ensures var b := BuildRig(rig, line, Some(start), Some(end), None);
      BuildRig(rig.(lines := rig.lines[other := x]), line, Some(start), Some(end), None) == b.(lines := b.lines[other := x])
  {
    var w := rig.lines[line].(start := Some(start), end := Some(end));
    assert rig.lines[other := x][line := w] == rig.lines[line := w][other := x];
  }

  /** Rigging a line overwrites both of its links, so only its ObjectID
      matters. */
  lemma BuildRigSameLine(rig: Rig, line: string, start: string, end: string, x: Wire)
    requires line in rig.lines && start in rig.controls && end in rig.controls
    requires x.objectId == rig.lines[line].objectId
    ensures BuildRig(rig.(lines := rig.lines[line := x]), line, Some(start), Some(end), None) == BuildRig(rig, line, Some(start), Some(end), None)
  {
    assert rig.lines[line := x][line := x.(start := Some(start), end := Some(end))]
        == rig.lines[line := rig.lines[line].(start := Some(start), end := Some(end))];
  }

  /** Re-rigging the original line and then the new one gives the same rig
      whether the new line starts out as a blank wire or as a duplicate of the
      original: the duplicate's links are overwritten. */
  lemma DuplicateOverwritten(base: Rig, line: string, newLine: string, midA: string, midB: string)
    requires line in base.lines && newLine != line
    requires base.lines[line].start.Some? && base.lines[line].start.value in base.controls
    requires base.lines[line].end.Some? && base.lines[line].end.value in base.controls
    requires midA in base.controls && midB in base.controls
    ensures var w := base.lines[line];
      var copied := base.(lines := base.lines[newLine := w]);
      var blank := base.(lines := base.lines[newLine := Wire(w.objectId, None, None)]);
      BuildRig(BuildRig(copied, line, w.start, Some(midA), None), newLine, Some(midB), w.end, None)
        == BuildRig(BuildRig(blank, line, w.start, Some(midA), None), newLine, Some(midB), w.end, None)
  {
    var w := base.lines[line];
    var blankWire := Wire(w.objectId, None, None);
    var copied := base.(lines := base.lines[newLine := w]);
    var blank := base.(lines := base.lines[newLine := blankWire]);
    assert copied == blank.(lines := blank.lines[newLine := w]);
    var blankFirst := BuildRig(blank, line, w.start, Some(midA), None);
    BuildRigOtherLine(blank, line, w.start.value, midA, newLine, w);
    assert BuildRig(copied, line, w.start, Some(midA), None) == blankFirst.(lines := blankFirst.lines[newLine := w]);
    BuildRigSameLine(blankFirst, newLine, midB, w.end.value, w);
  }

  /** Dividing keeps the rig well formed. */
  lemma DivideWellFormed(rig: Rig, line: string, newLine: string, template: Option<Control>)
    requires WellFormed(rig)
    requires CanDivide(rig, line, newLine, {line + "_MID"})
    ensures WellFormed(Divide(rig, line, newLine, template))
  {
    var r := Divide(rig, line, newLine, template);
    assert r.lines.Keys == rig.lines.Keys + {newLine};
    assert r.controls.Keys == rig.controls.Keys + {line + "_MID"};
    forall l | l in r.lines
      ensures r.lines[l].start.Some? ==> r.lines[l].start.value in r.controls
      ensures r.lines[l].end.Some? ==> r.lines[l].end.value in r.controls
    {
      if l != line && l != newLine {
        assert r.lines[l] == rig.lines[l];
      }
    }
  }

  /** `Line.split`: like `divide` but with two middle controls, leaving a gap:
      the original line runs from its old start to MID_A and the new line from
      MID_B to the old end. MID_A is made from the template and MID_B from
      MID_A, which is still a plain copy; each keeps what it copied apart
      from its `power_line`. */
  function Split(rig: Rig, line: string, newLine: string, template: Option<Control>): (r: Rig)
    requires CanDivide(rig, line, newLine, {line + "_MID_A", line + "_MID_B"})
    ensures var w := rig.lines[line];
            var midA := line + "_MID_A";
            var midB := line + "_MID_B";
      && midA != midB
      && r.lines == rig.lines[line := Wire(w.objectId, w.start, Some(midA))][newLine := Wire(w.objectId, Some(midB), w.end)]
      && r.controls.Keys == rig.controls.Keys + {midA, midB}
      && r.controls[midA] == NewControl(template).(powerLine := Some(line))
      && r.controls[midB] == NewControl(template).(powerLine := Some(newLine))
      && (forall c :: c in rig.controls ==> r.controls[c] == Relinked(rig.controls[c], c, w, line, newLine))
  {
    var w := rig.lines[line];
    var midA := line + "_MID_A";
    var midB := line + "_MID_B";
    assert midA[|line| + 5] == 'A' && midB[|line| + 5] == 'B';
    assert Fresh(rig, midA) && Fresh(rig, midB);
    var withA := CreatePoint(rig, midA, template);
    var withB := CreatePoint(withA, midB, Some(withA.controls[midA]));
    var withNew := withB.(lines := withB.lines[newLine := Wire(w.objectId, None, None)]);
    assert withNew.controls == rig.controls[midA := NewControl(template)][midB := NewControl(template)];
    RewiredControls(rig.controls, withNew.controls, w, line, newLine, midA, midB);
    assert withNew.lines[line := w.(end := Some(midA))][newLine := Wire(w.objectId, Some(midB), w.end)]
        == rig.lines[line := Wire(w.objectId, w.start, Some(midA))][newLine := Wire(w.objectId, Some(midB), w.end)];
    Rewire(withNew, line, newLine, midA, midB)
  }

  /** The earlier `split`, on a duplicate of the line, with freshly loaded
      middle controls. */
  function LegacySplit(rig: Rig, line: string, newLine: string): (r: Rig)
    requires CanDivide(rig, line, newLine, {line + "_MID_A", line + "_MID_B"})
    ensures line in r.lines && newLine in r.lines
    ensures r.lines[line].end == Some(line + "_MID_A")
    ensures r.lines[newLine].start == Some(line + "_MID_B")
  {
    var midA := line + "_MID_A";
    var midB := line + "_MID_B";
    assert midA[|line| + 5] == 'A' && midB[|line| + 5] == 'B';
    var withA := CreatePoint(rig, midA, None);
    var withB := CreatePoint(withA, midB, None);
    var withCopy := withB.(lines := withB.lines[newLine := rig.lines[line]]);
    var w := withCopy.lines[line];
    var first := BuildRig(withCopy, line, w.start, Some(midA), None);
    BuildRig(first, newLine, Some(midB), w.end, None)
  }

  /** As for `divide`: the two versions of `split` agree except for what the
      add-on's middle controls copy from the cached control, and agree
      exactly when there is none. */
  lemma LegacySplitAgrees(rig: Rig, line: string, newLine: string, template: Option<Control>)
    requires CanDivide(rig, line, newLine, {line + "_MID_A", line + "_MID_B"})
    ensures var s := Split(rig, line, newLine, template);
            var midA := line + "_MID_A";
            var midB := line + "_MID_B";
      LegacySplit(rig, line, newLine) == s.(controls := s.controls[midA := s.controls[midA].(snappedTo := None, hidden := false)]
                                                                  [midB := s.controls[midB].(snappedTo := None, hidden := false)])
    ensures template.None? ==> LegacySplit(rig, line, newLine) == Split(rig, line, newLine, template)
  {
    var midA := line + "_MID_A";
    var midB := line + "_MID_B";
    assert midA[|line| + 5] == 'A' && midB[|line| + 5] == 'B';
    DuplicateOverwritten(CreatePoint(CreatePoint(rig, midA, None), midB, None), line, newLine, midA, midB);
    assert LegacySplit(rig, line, newLine) == Split(rig, line, newLine, None);
    SplitResetsToLoaded(rig, line, newLine, template);
  }

  /** Splitting from a template and then resetting what the middle controls
      copied gives what splitting with freshly loaded ones gives. */
  lemma SplitResetsToLoaded(rig: Rig, line: string, newLine: string, template: Option<Control>)
    requires CanDivide(rig, line, newLine, {line + "_MID_A", line + "_MID_B"})
    ensures var s := Split(rig, line, newLine, template);
            var midA := line + "_MID_A";
            var midB := line + "_MID_B";
      Split(rig, line, newLine, None) == s.(controls := s.controls[midA := s.controls[midA].(snappedTo := None, hidden := false)]
                                                                 [midB := s.controls[midB].(snappedTo := None, hidden := false)])
  {
    var midA := line + "_MID_A";
    var midB := line + "_MID_B";
    var loaded := Split(rig, line, newLine, None);
    var s := Split(rig, line, newLine, template);
    ResetCopies(rig.controls, loaded.controls, s.controls, midA, midB);
  }

  /** Two ways of growing `before` that agree on the controls it had and
      differ on the new controls `m1` and `m2` only in what those copied
      are equal once that is reset. */
  lemma ResetCopies(before: map<string, Control>, loaded: map<string, Control>, made: map<string, Control>, m1: string, m2: string)
    requires loaded.Keys == before.Keys + {m1, m2} && made.Keys == loaded.Keys
    requires forall c :: c in before ==> loaded[c] == made[c]
    requires loaded[m1] == made[m1].(snappedTo := None, hidden := false)
    requires loaded[m2] == made[m2].(snappedTo := None, hidden := false)
    ensures loaded == made[m1 := made[m1].(snappedTo := None, hidden := false)][m2 := made[m2].(snappedTo := None, hidden := false)]
    ensures m1 == m2 ==> loaded == made[m1 := made[m1].(snappedTo := None, hidden := false)]
  {
  }

  /** Splitting keeps the rig well formed. */
  lemma SplitWellFormed(rig: Rig, line: string, newLine: string, template: Option<Control>)
    requires WellFormed(rig)
    requires CanDivide(rig, line, newLine, {line + "_MID_A", line + "_MID_B"})
    ensures WellFormed(Split(rig, line, newLine, template))
  {
    var r := Split(rig, line, newLine, template);
    assert r.lines.Keys == rig.lines.Keys + {newLine};
    assert r.controls.Keys == rig.controls.Keys + {line + "_MID_A", line + "_MID_B"};
    forall l | l in r.lines
      ensures r.lines[l].start.Some? ==> r.lines[l].start.value in r.controls
      ensures r.lines[l].end.Some? ==> r.lines[l].end.value in r.controls
    {
      if l != line && l != newLine {
        assert r.lines[l] == rig.lines[l];
      }
    }
  }

  // --------------------------------------------------- control positions

  datatype Vec3 = Vec3(x: real, y: real, z: real)

  function Add(a: Vec3, b: Vec3): Vec3 {
    Vec3(a.x + b.x, a.y + b.y, a.z + b.z)
  }

  /** The game's Y-up vector in Blender's Z-up frame. */
  function ToBlender(v: Vec3): (r: Vec3)
    ensures r.x == v.x && r.y == -v.z && r.z == v.y
  {
    Vec3(v.x, -v.z, v.y)
  }

  /** A Blender vector back in the game's frame. */
  function ToGame(v: Vec3): Vec3 {
    Vec3(v.x, v.z, -v.y)
  }

  lemma ToGameOfToBlender(v: Vec3)
    ensures ToGame(ToBlender(v)) == v
  {
  }

  /** `position_controls`: the start control goes to the converted position
      and the end control to the converted position plus the converted aim
      vector. */
  function PositionControls(pos: Vec3, at: Vec3): (r: (Vec3, Vec3))
    ensures ToGame(r.0) == pos
    ensures ToGame(Add(r.1, Vec3(-r.0.x, -r.0.y, -r.0.z))) == at
  {
    var start := ToBlender(pos);
    (start, Add(start, ToBlender(at)))
  }

  // -------------------------------------------- controls from two parts

  /** The control for one end of a new wire: a POWER_CONTROL part is used as
      it is; another part gets a new control named "<part><suffix>", made
      from the template and tagged `snapped_to` the part when `tag` holds,
      only when its snap point was `found`; otherwise there is none. */
  function EndpointControl<T>(rig: Rig, part: Part<T>, found: bool, suffix: string, tag: bool, template: Option<Control>): (r: (Rig, Option<string>))
    requires part.snapId != Some(PowerControlId) && found ==> Fresh(rig, part.name + suffix)
    ensures r.0.lines == rig.lines
    ensures forall c :: c in rig.controls ==> c in r.0.controls && r.0.controls[c] == rig.controls[c]
    ensures forall n :: Fresh(rig, n) && n != part.name + suffix ==> Fresh(r.0, n)
    ensures forall c :: c in r.0.controls && c !in rig.controls ==>
      && Some(c) == r.1
      && r.0.controls[c].powerLine == NewControl(template).powerLine
      && r.0.controls[c].hidden == NewControl(template).hidden
    ensures part.snapId == Some(PowerControlId) ==> r == (rig, Some(part.name))
    ensures part.snapId != Some(PowerControlId) && !found ==> r == (rig, None)
    ensures part.snapId != Some(PowerControlId) && found ==>
      && r.1 == Some(part.name + suffix)
      && r.0.controls == rig.controls[part.name + suffix := if tag then NewControl(template).(snappedTo := Some(part.name)) else NewControl(template)]
  {
    if part.snapId == Some(PowerControlId) then (rig, Some(part.name))
    else if !found then (rig, None)
    else
      var created := CreatePoint(rig, part.name + suffix, template);
      if tag then
        var c := created.controls[part.name + suffix];
        (created.(controls := created.controls[part.name + suffix := c.(snappedTo := Some(part.name))]), Some(part.name + suffix))
      else (created, Some(part.name + suffix))
  }

  /** Both ends in turn, the source's first: "<source>_START" and
      "<target>_END" are created as `EndpointControl` says. */
  function EndpointControls<T>(rig: Rig, source: Part<T>, target: Part<T>, sourceFound: bool, targetFound: bool, tag: bool, template: Option<Control>): (r: (Rig, Option<string>, Option<string>))
    requires Fresh(rig, source.name + "_START") && Fresh(rig, target.name + "_END")
    requires source.name + "_START" != target.name + "_END"
    ensures source.snapId == Some(PowerControlId) ==> r.1 == Some(source.name)
    ensures source.snapId != Some(PowerControlId) ==> r.1 == if sourceFound then Some(source.name + "_START") else None
    ensures target.snapId == Some(PowerControlId) ==> r.2 == Some(target.name)
    ensures target.snapId != Some(PowerControlId) ==> r.2 == if targetFound then Some(target.name + "_END") else None
    ensures r.0.lines == rig.lines
    ensures forall c :: c in rig.controls ==> c in r.0.controls && r.0.controls[c] == rig.controls[c]
    ensures forall c :: c in r.0.controls && c !in rig.controls ==>
      && (Some(c) == r.1 || Some(c) == r.2)
      && r.0.controls[c] == NewControl(template).(snappedTo := r.0.controls[c].snappedTo)
    ensures source.snapId != Some(PowerControlId) && sourceFound ==>
      && source.name + "_START" in r.0.controls
      && r.0.controls[source.name + "_START"].snappedTo == if tag then Some(source.name) else NewControl(template).snappedTo
    ensures target.snapId != Some(PowerControlId) && targetFound ==>
      && target.name + "_END" in r.0.controls
      && r.0.controls[target.name + "_END"].snappedTo == if tag then Some(target.name) else NewControl(template).snappedTo
  {
    var (afterSource, sourceControl) := EndpointControl(rig, source, sourceFound, "_START", tag, template);
    var (afterTarget, targetControl) := EndpointControl(afterSource, target, targetFound, "_END", tag, template);
    (afterTarget, sourceControl, targetControl)
  }

  /** What `generate_control_points` asks of the scene: both parts carry a
      snap-point map and the two control names it may create are free and
      different. */
  predicate CanGenerate<T>(info: SnapInfo<T>, rig: Rig, source: Part<T>, target: Part<T>) {
    && PointsOfPart(info, source.objectId).Some? && PointsOfPart(info, target.objectId).Some?
    && Fresh(rig, source.name + "_START") && Fresh(rig, target.name + "_END")
    && source.name + "_START" != target.name + "_END"
  }

  /** `Line.generate_control_points`: the closest pair of POWER points of
      the two parts decides where new controls go. The ends are reused when
      they are POWER_CONTROL parts; otherwise a control is created exactly
      when some pair of POWER points comes within the search bound. */
  method GenerateControlPoints<T>(g: Algebra<T>, dist: (T, T) -> real, info: SnapInfo<T>, rig: Rig, source: Part<T>, target: Part<T>, template: Option<Control>)
      returns (r: Rig, sourceControl: Option<string>, targetControl: Option<string>)
    requires CanGenerate(info, rig, source, target)
    ensures var cs := Candidates(g, dist, source, PointsOfPart(info, source.objectId).value,
                                 target, PointsOfPart(info, target.objectId).value, Some("POWER"), Some("POWER"));
            var found := exists j :: 0 <= j < |cs| && cs[j].distance < FarAway;
      (r, sourceControl, targetControl) == EndpointControls(rig, source, target, found, found, true, template)
    ensures r.lines == rig.lines
    ensures forall c :: c in rig.controls ==> c in r.controls && r.controls[c] == rig.controls[c]
    ensures forall c :: c in r.controls && c !in rig.controls ==>
      && (Some(c) == sourceControl || Some(c) == targetControl)
      && r.controls[c] == NewControl(template).(snappedTo := r.controls[c].snappedTo)
    ensures source.snapId != Some(PowerControlId) && sourceControl.Some? ==>
      sourceControl.value in r.controls && r.controls[sourceControl.value].snappedTo == Some(source.name)
    ensures target.snapId != Some(PowerControlId) && targetControl.Some? ==>
      targetControl.value in r.controls && r.controls[targetControl.value].snappedTo == Some(target.name)
  {
    var sourceKey, targetKey := ClosestSnapPoints(g, dist, info, source, target, Some("POWER"), Some("POWER"));
    var sourceLocal := MatrixFromKey(info, source, sourceKey);
    var targetLocal := MatrixFromKey(info, target, targetKey);
    assert sourceLocal.Some? <==> sourceKey.Some?;
    assert targetLocal.Some? <==> sourceKey.Some?;
    var both := EndpointControls(rig, source, target, sourceLocal.Some?, targetLocal.Some?, true, template);
    r, sourceControl, targetControl := both.0, both.1, both.2;
  }

  /** What the earlier `generate_control_points` leaves: the two controls,
      or the scene at the point where reading a part's missing "SnapID"
      property raised. */
  datatype LegacyControls = Generated(rig: Rig, sourceControl: Option<string>, targetControl: Option<string>) | MissingSnapId(rig: Rig)

  /** The earlier `generate_control_points`, given what its snapper's
      matrix lookup returned for each side. It reads each part's "SnapID"
      property directly, the source's before anything is created and the
      target's after the source's control is, and raises when it is missing;
      otherwise it makes the same choice as the add-on, without the
      `snapped_to` tag. */
  function LegacyGenerateControlPoints<T>(rig: Rig, source: Part<T>, target: Part<T>, sourceLocal: Option<T>, targetLocal: Option<T>): (r: LegacyControls)
    requires Fresh(rig, source.name + "_START") && Fresh(rig, target.name + "_END")
    requires source.name + "_START" != target.name + "_END"
    ensures r.MissingSnapId? <==> source.snapId.None? || target.snapId.None?
    ensures source.snapId.None? ==> r == MissingSnapId(rig)
    ensures source.snapId.Some? && target.snapId.None? ==>
      r.rig.controls.Keys == rig.controls.Keys + (if source.snapId != Some(PowerControlId) && sourceLocal.Some? then {source.name + "_START"} else {})
    ensures r.Generated? && source.snapId == Some(PowerControlId) ==> r.sourceControl == Some(source.name)
    ensures r.Generated? && source.snapId != Some(PowerControlId) ==> r.sourceControl == if sourceLocal.Some? then Some(source.name + "_START") else None
    ensures r.Generated? && target.snapId == Some(PowerControlId) ==> r.targetControl == Some(target.name)
    ensures r.Generated? && target.snapId != Some(PowerControlId) ==> r.targetControl == if targetLocal.Some? then Some(target.name + "_END") else None
    ensures r.rig.lines == rig.lines
    ensures forall c :: c in rig.controls ==> c in r.rig.controls && r.rig.controls[c] == rig.controls[c]
    ensures forall c :: c in r.rig.controls && c !in rig.controls ==> r.rig.controls[c] == Control(None, None, false)
  {
    if source.snapId.None? then MissingSnapId(rig)
    else
      var (afterSource, sourceControl) := EndpointControl(rig, source, sourceLocal.Some?, "_START", false, None);
      if target.snapId.None? then MissingSnapId(afterSource)
      else
        var (afterTarget, targetControl) := EndpointControl(afterSource, target, targetLocal.Some?, "_END", false, None);
        Generated(afterTarget, sourceControl, targetControl)
  }

  /** On parts that carry a SnapID, the earlier `generate_control_points`
      does what the add-on does with no control cached, except that its new
      controls are not tagged `snapped_to` their parts. */
  lemma LegacyGenerateAgrees<T>(rig: Rig, source: Part<T>, target: Part<T>, sourceLocal: Option<T>, targetLocal: Option<T>)
    requires Fresh(rig, source.name + "_START") && Fresh(rig, target.name + "_END")
    requires source.name + "_START" != target.name + "_END"
    requires source.snapId.Some? && target.snapId.Some?
    ensures var a := EndpointControls(rig, source, target, sourceLocal.Some?, targetLocal.Some?, true, None);
            var l := LegacyGenerateControlPoints(rig, source, target, sourceLocal, targetLocal);
      && l.Generated?
      && l.sourceControl == a.1 && l.targetControl == a.2
      && l.rig.lines == a.0.lines
      && l.rig.controls.Keys == a.0.controls.Keys
      && forall c :: c in a.0.controls ==>
           l.rig.controls[c] == if c in rig.controls then a.0.controls[c] else a.0.controls[c].(snappedTo := None)
  {
  }
}
